=== FILE: README.md ===
# A verified model of the server-driven UI renderer and its node builders

The repository renders Jetpack Compose screens from JSON documents a
server sends. This project models in Dafny the parts of it that decide
*what* is drawn: the trees, the maps and the state machines behind the
drawing.

- **The full library (`ssr-library`).**
  - The component tree (`ComponentNode`) and `ComponentType.fromString`.
  - Component validation, and preparation with its cache.
  - The complexity analysis.
  - Data binding of list items (`{{key.path}}` placeholders).
  - The static and paginated lazy lists.
  - The modifier chains and the colour parsers of the charts.
  - The renderer's build, cache and retry cycle.
- **The simple renderer (`ssr-simple`).** The Compose client's dispatcher
  and builders, and the React client's style conversion, table and
  dispatcher.
- **The node builders that produce documents for the simple renderer.**
  - The Go package `ssr_simple.go`.
  - The Java `NodeBuilder` and the `SSR` factory methods.

The modules follow the source:

| module | file | what it holds |
|---|---|---|
| `Wrappers` | wrappers.dfy | `Option` |
| `Strings` | strings.dfy | the Kotlin string functions the code relies on: `removePrefix`, `trim`, `lowercase`, `split`, `replace` |
| `ComposableTree` | tree.dfy | `ComponentNode`, property maps, `ComponentType`, `CompiledModifier.toModifier`, `DefaultActionHandler` |
| `Validator` | validator.dfy | `validateComponent` |
| `ComponentFactory` | factory.dfy | `createComponent`, `prepareComponent` and its cache, `analyzeComponentComplexity`, `createModifier`, the mock page loader |
| `DataBinder` | binder.dfy | `bindDataToTemplate`, `bindDataToAction`, `bindStringTemplate`, `getNestedValue` |
| `LazyLists` | lists.dfy | the static, simple, async and "api" lazy columns and rows |
| `ChartColors` | chartcolors.dfy | `parseColor`, `parseColorV2`, `parseHexColor`, palette choice |
| `Renderer` | renderer.dfy | `ServerSideRendererImpl`: parsing, analysis, precompilation, the screen's effect, cache and retry |
| `SimpleCompose` | simple_ui.dfy | `RenderNode`, `buildModifier`, `buildTextStyle`, the per-type renderers, `ShowScreen`'s action handler |
| `SimpleReact` | react.dfy | `modifierToSx`, `textStyleToCss`/`textStyleToSx`, `RenderTable`, `RenderNode` |
| `GoBuilders` | go_builders.dfy | the Go constructors, table helpers, modifier and text-style setters and presets, and the JSON keys a node writes |
| `JavaBuilders` | java_builders.dfy | `NodeBuilder` over a heap of mutable models, and the `SSR` factories |

How the model represents the source:

- Kotlin `Map<String, Any>` values are association lists: `Lookup`
  returns the first binding for a key.
- A JSON value is `Value`. A number carries the text its `toString` prints.
- Composables are views: datatypes naming what is drawn.
- Coroutines and Compose state are explicit state records, with one
  function per callback.
- `Float` and `float64` are `real`.
- Go pointers and Kotlin/Java nullables are `Option`.
- Java object identity is an explicit heap of references.

Where the code's behaviour differs from what its names and comments
suggest, the model follows the code. These are the differences, each
stated as a lemma:

- **Retry does not rebuild.** The error screen's retry only resets the
  state to Loading. The build effect is keyed on the JSON, so it does not
  run again, and the screen stays in Loading.
  See `Renderer.RetryDoesNotRebuild`.
- **A retried "api" list stays in the loading state.** After a failed
  first load and a retry, the list shows loading and nothing starts a new
  load.
  See `LazyLists.RetryStaysLoading`.
- **One page can be requested up to three times.** The paginated list asks
  for the next page from each of the last three items. Every answer is
  appended and counted, so the same page can appear twice.
  See `LazyLists.ThreeRequestsForOnePage` and
  `LazyLists.DuplicatePageAppendedTwice`.
- **Binding runs on the whole string.** The binder replaces every
  occurrence of each placeholder's text in the whole string, one
  placeholder after another.
  See `DataBinder.BindString`, `DataBinder.BindOneMatch` and
  `DataBinder.BindEveryPlaceholder`.
- **Static columns wrap each record, static rows do not.** Static lazy
  columns wrap each record as `item`. Static lazy rows bind the raw
  record, so `{{item.x}}` resolves to nothing there.
  See `LazyLists.WrappedKeyReachesRecord` and
  `LazyLists.RawRecordMissesItemKey`.
- **The validator has no chart rules.** It checks only the types listed in
  `validateComponent`.
  See `Validator.NoRuleForColumn` and `Validator.OwnErrors`.
- **`parseColorV2` drops some colour names.** It branches on the length
  before parsing, so a name whose length is not 3, 6 or 8 is black.
  See `ChartColors.V2LosesFiveLetterNames`.
- **The colour parsers mishandle signs.** A three-character string with a
  sign parses, but its expansion does not, so it is black.
  See `ChartColors.SignedShortFormIsBlack`.
- **Legend colours ignore the chart's colour list.** Chart legends pick
  their swatch without `config.colors`, so they can differ from the drawn
  colour.
  See `ChartColors.LegendMatchesUnlessConfigured`.
- **React resolves only `center` of the nine content alignments.** The
  React client looks up `contentAlignment` lower-cased in a camel-case
  table, so of its nine names only `center` resolves. Compose resolves all
  nine. The lookup also reaches members every object inherits: a value
  lowering to `constructor` or `__proto__` finds one and clears both axes.
  See `SimpleReact.ContentAlignmentOnlyCenter` and
  `SimpleReact.BottomEndDiffersAcrossPlatforms`.
- **The React dispatcher is smaller than the Compose one.** It lacks
  `LazyColumn`, `VideoItem` and `HorizontalPager`.
  See `SimpleReact.ReactDispatchIsComposeSubset`.
- **An empty Go child card shows the default body.** Go omits an empty
  `children` slice, so such a card shows its default title and
  description on Compose.
  See `GoBuilders.EmptyChildCardShowsDefaultBody`.
- **Go's two table constructors disagree on an empty row action.**
  `TableWithRowAction` writes an empty `rowAction`, while `TableAdvanced`
  omits it.
  See `GoBuilders.EmptyRowActionOnlyWrittenByTableWithRowAction`.
- **Java's varargs lists cannot grow.** Java's varargs `children(...)` and
  `columns(...)` store fixed-size lists, so a later `addChild` or
  `addColumn` throws.
  See `JavaBuilders.AddChildAfterVarargsThrows`.
- **Java and Go disagree on image descriptions.** `SSR.image` leaves the
  content description null, while Go's `Image` always writes it.
  See `JavaBuilders.ImageDescriptionDiffers`.

## Model

| member | source | states |
|---|---|---|
| Strings.RemovePrefix | ssr-library/src/main/java/com/cincinnatiai/ssr_library/component/charts/ChartComponents.kt:783 | `removePrefix`: when the string starts with the prefix, prefix + result is the string; otherwise the string is unchanged |
| Strings.Lower | ssr-library/src/main/java/com/cincinnatiai/ssr_library/component/charts/ChartComponents.kt:800 | `lowercase()` (ASCII): same length, each letter mapped to lower case, everything else kept |
| Strings.Trim | ssr-library/src/main/java/com/cincinnatiai/ssr_library/componentfactory/DefaultComponentFactory.kt:645 | `trim()`: the result is the slice of the input between a blank prefix and a blank suffix, and a non-empty result neither starts nor ends with whitespace |
| Strings.IsWhitespace | ssr-library/src/main/java/com/cincinnatiai/ssr_library/componentfactory/DefaultComponentFactory.kt:645 | `Char.isWhitespace`: the no-break spaces U+00A0, U+2007 and U+202F count as whitespace; U+0085, U+200B and U+FEFF do not |
| Strings.BlankTrimsToEmpty | ssr-library/src/main/java/com/cincinnatiai/ssr_library/componentfactory/DefaultComponentFactory.kt:645 | a blank string trims to the empty string |
| Strings.TrimNoop | ssr-library/src/main/java/com/cincinnatiai/ssr_library/componentfactory/DefaultComponentFactory.kt:645 | trimming a string that has no whitespace at either end changes nothing |
| Strings.Split | ssr-library/src/main/java/com/cincinnatiai/ssr_library/componentfactory/DefaultComponentFactory.kt:673 | `split(".")`: at least one part, and no part contains the delimiter |
| Strings.SplitJoin | ssr-library/src/main/java/com/cincinnatiai/ssr_library/componentfactory/DefaultComponentFactory.kt:673 | joining the parts of `split(d)` with d gives back the original string, for every string |
| Strings.SplitNoDelimiter | ssr-library/src/main/java/com/cincinnatiai/ssr_library/componentfactory/DefaultComponentFactory.kt:673 | a key without a dot splits into the key alone |
| Strings.SplitOnce | ssr-library/src/main/java/com/cincinnatiai/ssr_library/componentfactory/DefaultComponentFactory.kt:673 | a dot after a dot-free prefix splits off exactly that prefix |
| Strings.ReplaceAbsent | ssr-library/src/main/java/com/cincinnatiai/ssr_library/componentfactory/DefaultComponentFactory.kt:662 | `replace` of a pattern that does not occur leaves the string unchanged |
| Strings.ReplaceAll | ssr-library/src/main/java/com/cincinnatiai/ssr_library/componentfactory/DefaultComponentFactory.kt:662 | `replace` with a replacement as long as the pattern keeps the length, and with a shorter one never lengthens the string |
| Strings.ReplaceAfterPrefix | ssr-library/src/main/java/com/cincinnatiai/ssr_library/componentfactory/DefaultComponentFactory.kt:662 | `replace` passes over a prefix that cannot start the pattern |
| Strings.ReplaceAtFront | ssr-library/src/main/java/com/cincinnatiai/ssr_library/componentfactory/DefaultComponentFactory.kt:662 | an occurrence at the front is replaced and the rest is processed on |
| Strings.ReplaceWhole | ssr-library/src/main/java/com/cincinnatiai/ssr_library/componentfactory/DefaultComponentFactory.kt:662 | replacing a whole string by r gives r |
| Strings.NatToString | ssr-library/src/main/java/com/cincinnatiai/ssr_library/componentfactory/DefaultComponentFactory.kt:401-407 | the decimal text of an index is non-empty, all digits, has no leading zero, and reads back as the index |
| Strings.NatToStringInjective | ssr-library/src/main/java/com/cincinnatiai/ssr_library/componentfactory/DefaultComponentFactory.kt:401-407 | different indices give different texts |
| ComposableTree.Lookup | ssr-library/src/main/java/com/cincinnatiai/ssr_library/model/ComposableTree.kt:140-154 | map lookup: None exactly when no binding has the key, otherwise a binding of that key |
| ComposableTree.Prop | ssr-library/src/main/java/com/cincinnatiai/ssr_library/componentfactory/DefaultComponentFactory.kt:168 | `properties?.get(key)`: a present, non-null value comes from a binding of the key; absence means no map, no binding or a JSON null |
| ComposableTree.StrProp | ssr-library/src/main/java/com/cincinnatiai/ssr_library/componentfactory/DefaultComponentFactory.kt:1150 | `props[key] as? String`: present exactly when the property is a string, and then that string |
| ComposableTree.NewPagination | ssr-library/src/main/java/com/cincinnatiai/ssr_library/model/ComposableTree.kt:113-120 | a pagination config has page size 20 and no parameter names unless given |
| ComposableTree.NewNode | ssr-library/src/main/java/com/cincinnatiai/ssr_library/model/ComposableTree.kt:140-154 | a node built from its type alone has every optional field null and no children or templates |
| ComposableTree.Kids | ssr-library/src/main/java/com/cincinnatiai/ssr_library/model/ComposableTree.kt:145 | `children ?: emptyList()`: the listed children, each smaller than the node |
| ComposableTree.Subtrees | ssr-library/src/main/java/com/cincinnatiai/ssr_library/model/ComposableTree.kt:145-153 | the nested nodes of a node are its children followed by its empty template, and contain its error template and item layout when present |
| ComposableTree.TagOf | ssr-library/src/main/java/com/cincinnatiai/ssr_library/model/ComposableTree.kt:193-214 | every component type but UNKNOWN has a tag that `fromString` accepts |
| ComposableTree.FromString | ssr-library/src/main/java/com/cincinnatiai/ssr_library/model/ComposableTree.kt:193-214 | `fromString` never returns a type whose tag differs from its input |
| ComposableTree.KnownTagRecognised | ssr-library/src/main/java/com/cincinnatiai/ssr_library/model/ComposableTree.kt:193-214 | every one of the nineteen tags is recognised, as the type with that tag |
| ComposableTree.TagRoundTrip | ssr-library/src/main/java/com/cincinnatiai/ssr_library/model/ComposableTree.kt:186-214 | `fromString(tag(t)) == t` for every type |
| ComposableTree.CapitalisedTagUnknown | ssr-library/src/main/java/com/cincinnatiai/ssr_library/model/ComposableTree.kt:193-214 | matching is case-sensitive: "Column" and "TEXT" are UNKNOWN |
| ComposableTree.ToModifier | ssr-library/src/main/java/com/cincinnatiai/ssr_library/model/ComposableTree.kt:175-183 | `toModifier` as written: it returns (the bare `Modifier`, no calls) exactly when no field asks for a call, and otherwise fails, because each call's result is cast `as Modifier.Companion` and the first chained modifier is not the companion object |
| ComposableTree.CastStep | ssr-library/src/main/java/com/cincinnatiai/ssr_library/model/ComposableTree.kt:176-180 | one `modifier = modifier.x() as Modifier.Companion` line: a line that makes no call keeps the companion, a line that makes a call throws, and a throw is never undone |
| ComposableTree.IntendedModifier | ssr-library/src/main/java/com/cincinnatiai/ssr_library/model/ComposableTree.kt:175-183 | the chain `toModifier` evidently means: exactly the calls its fields ask for (padding, fillMaxSize, fillMaxWidth, width, height), each once, in that order |
| ComposableTree.NoCallsNoSteps | ssr-library/src/main/java/com/cincinnatiai/ssr_library/model/ComposableTree.kt:175-183 | no field asks for a call exactly when all five lines make no call, and then the intended chain is empty |
| ComposableTree.PaddingCastThrows | ssr-library/src/main/java/com/cincinnatiai/ssr_library/model/ComposableTree.kt:175-177 | a padding of 8 alone makes `toModifier` throw, where the intended chain is `[padding(8)]` |
| ComposableTree.ChainUnique | ssr-library/src/main/java/com/cincinnatiai/ssr_library/model/ComposableTree.kt:175-183 | two ordered chains with the same calls are equal |
| ComposableTree.WeightIgnored | ssr-library/src/main/java/com/cincinnatiai/ssr_library/model/ComposableTree.kt:167-183 | the weight field has no effect on the intended chain |
| ComposableTree.HandleAction | ssr-library/src/main/java/com/cincinnatiai/ssr_library/model/ComposableTree.kt:29-45 | the default handler navigates with destination and params exactly for "navigation", makes an API call exactly for "api_call", and ignores other types |
| Validator.OwnErrors | ssr-library/src/main/java/com/cincinnatiai/ssr_library/componentfactory/DefaultComponentFactory.kt:160-198 | the node's own errors: blank type, button without text, image without url, lazy list without data source or template, each present exactly when its condition holds |
| Validator.OwnWarnings | ssr-library/src/main/java/com/cincinnatiai/ssr_library/componentfactory/DefaultComponentFactory.kt:165-197 | the node's own warnings: text without text, top app bar without title, each exactly when its condition holds |
| Validator.Verdict | ssr-library/src/main/java/com/cincinnatiai/ssr_library/componentfactory/DefaultComponentFactory.kt:210-214 | Invalid with the errors exactly when there are errors; Warning with the warnings exactly when there are warnings but no errors; otherwise Valid |
| Validator.Validate | ssr-library/src/main/java/com/cincinnatiai/ssr_library/componentfactory/DefaultComponentFactory.kt:156-215 | an Invalid verdict carries errors, a Warning verdict carries warnings |
| Validator.ValidateIsReference | ssr-library/src/main/java/com/cincinnatiai/ssr_library/componentfactory/DefaultComponentFactory.kt:156-215 | the recursive validator gives the verdict of a reference collection over the whole tree: own errors, then each child's errors; warnings of children that are not invalid |
| Validator.InvalidChildInvalidatesParent | ssr-library/src/main/java/com/cincinnatiai/ssr_library/componentfactory/DefaultComponentFactory.kt:200-208 | a node with an invalid child is invalid and reports every error of that child |
| Validator.ButtonWithoutText | ssr-library/src/main/java/com/cincinnatiai/ssr_library/componentfactory/DefaultComponentFactory.kt:173-177 | a childless button without text is Invalid with exactly the button error |
| Validator.LazyListWithoutSourceOrTemplate | ssr-library/src/main/java/com/cincinnatiai/ssr_library/componentfactory/DefaultComponentFactory.kt:185-192 | a lazy list missing both source and template reports both errors, in that order |
| Validator.TextWithoutTextOnlyWarns | ssr-library/src/main/java/com/cincinnatiai/ssr_library/componentfactory/DefaultComponentFactory.kt:167-171 | a childless text without text is only a Warning |
| Validator.ImageWithoutUrl | ssr-library/src/main/java/com/cincinnatiai/ssr_library/componentfactory/DefaultComponentFactory.kt:179-183 | a childless image without url is Invalid with exactly the image error |
| Validator.NoRuleForColumn | ssr-library/src/main/java/com/cincinnatiai/ssr_library/componentfactory/DefaultComponentFactory.kt:166-198 | a column (like a chart) has no rule of its own |
| Validator.SiblingErrorHidesWarning | ssr-library/src/main/java/com/cincinnatiai/ssr_library/componentfactory/DefaultComponentFactory.kt:200-214 | a column holding a text without text and an image without url is Invalid with only the image error: the text's warning is dropped |
| Validator.CollectTextThenImage | ssr-library/src/main/java/com/cincinnatiai/ssr_library/componentfactory/DefaultComponentFactory.kt:201-208 | the collection over those two children yields the image error and the text warning |
| Validator.Collect | ssr-library/src/main/java/com/cincinnatiai/ssr_library/componentfactory/DefaultComponentFactory.kt:201-208 | folding the children's verdicts never drops a finding already collected: both lists only grow |
| ComponentFactory.CreatorTag | ssr-library/src/main/java/com/cincinnatiai/ssr_library/componentfactory/DefaultComponentFactory.kt:135-154 | every creator answers one of the eleven dispatched tags |
| ComponentFactory.CreatorFor | ssr-library/src/main/java/com/cincinnatiai/ssr_library/componentfactory/DefaultComponentFactory.kt:135-154 | the creator chosen for a dispatched tag answers that tag |
| ComponentFactory.CreateComponent | ssr-library/src/main/java/com/cincinnatiai/ssr_library/componentfactory/DefaultComponentFactory.kt:135-154 | `createComponent` creates exactly for the eleven dispatched tags, with the creator of the node's tag; any other type shows "Unknown component type" |
| ComponentFactory.DispatchWithinKnownTypes | ssr-library/src/main/java/com/cincinnatiai/ssr_library/componentfactory/DefaultComponentFactory.kt:135-154 | every dispatched tag is a known component type, and the known types not dispatched are exactly the charts, the scrollable, enhanced and grid lists |
| ComponentFactory.CreatorTagInjective | ssr-library/src/main/java/com/cincinnatiai/ssr_library/componentfactory/DefaultComponentFactory.kt:135-154 | different creators answer different tags |
| ComponentFactory.PrepKeyInjective | ssr-library/src/main/java/com/cincinnatiai/ssr_library/componentfactory/DefaultComponentFactory.kt:1187-1189 | two nodes share a preparation cache key exactly when they are equal |
| ComponentFactory.PrepKeyOf | ssr-library/src/main/java/com/cincinnatiai/ssr_library/componentfactory/DefaultComponentFactory.kt:1187-1189 | the preparation cache key starts from the node's type |
| ComponentFactory.AnalyzeComplexity | ssr-library/src/main/java/com/cincinnatiai/ssr_library/componentfactory/DefaultComponentFactory.kt:282-308 | async data exactly for "api" lazy lists and images whose url starts with "http"; HIGH exactly for lazy lists; MEDIUM for more than ten children or a remote image; the three dependencies each exactly when due, in order |
| ComponentFactory.Dependencies | ssr-library/src/main/java/com/cincinnatiai/ssr_library/componentfactory/DefaultComponentFactory.kt:296-300 | each dependency appears exactly when its flag is set, nothing else appears, and they come in the fixed order |
| ComponentFactory.Prepare | ssr-library/src/main/java/com/cincinnatiai/ssr_library/componentfactory/DefaultComponentFactory.kt:89-133 | a blank type fails with "Component type is null"; a cached key answers from the cache; an invalid node fails with its validation errors and is not cached; a valid node succeeds with its complexity analysis and the view `prepareComponentByType` builds, and is cached under its key; the cache only grows, and only with successes of the node or its descendants |
| ComponentFactory.PrepareView | ssr-library/src/main/java/com/cincinnatiai/ssr_library/componentfactory/DefaultComponentFactory.kt:217-280 | LOW and MEDIUM nodes, and HIGH nodes that are not lazy lists, are `createComponent`; a HIGH lazy list without a data source or template shows "Invalid lazy component configuration"; otherwise its template layout is prepared through the cache and the list is an `AsyncLazyColumn` or `AsyncLazyRow` over the compiled template; the cache only grows, with successes of descendants |
| ComponentFactory.LazyListPreparesTemplate | ssr-library/src/main/java/com/cincinnatiai/ssr_library/componentfactory/DefaultComponentFactory.kt:237-280 | an uncached, valid lazy list with a source and a template prepares its template layout first, and is cached as the async list over that compiled template, on a cache that extends the template's |
| ComponentFactory.LazyListUnfolds | ssr-library/src/main/java/com/cincinnatiai/ssr_library/componentfactory/DefaultComponentFactory.kt:89-133 | one step of `prepareComponent` on such a list: its key is not among the template's new keys, and the result is the template's cache plus the list's own entry |
| ComponentFactory.LazyConfigurationCheckedFirst | ssr-library/src/main/java/com/cincinnatiai/ssr_library/componentfactory/DefaultComponentFactory.kt:185-192 | a lazy list missing its source or template is already invalid, so `prepareComponent` fails with the validation errors before the "Invalid lazy component configuration" branch can be reached |
| ComponentFactory.PrepareKeepsOnlySuccess | ssr-library/src/main/java/com/cincinnatiai/ssr_library/componentfactory/DefaultComponentFactory.kt:119-124 | starting from a cache of successes, preparation leaves a cache of successes |
| ComponentFactory.PrepareTwice | ssr-library/src/main/java/com/cincinnatiai/ssr_library/componentfactory/DefaultComponentFactory.kt:98-99 | preparing the same node twice gives the same result and leaves the cache as the first call left it |
| ComponentFactory.ErrorsNotCached | ssr-library/src/main/java/com/cincinnatiai/ssr_library/componentfactory/DefaultComponentFactory.kt:103-109 | a node that fails validation leaves the cache unchanged and uncached |
| ComponentFactory.InvalidChildFailsPreparation | ssr-library/src/main/java/com/cincinnatiai/ssr_library/componentfactory/DefaultComponentFactory.kt:102-109 | a node with an invalid child fails preparation with a "Validation failed: " message and no cache change |
| ComponentFactory.CreateModifier | ssr-library/src/main/java/com/cincinnatiai/ssr_library/componentfactory/DefaultComponentFactory.kt:1165-1185 | `createModifier` makes exactly the calls the config asks for, each once, in the fixed order |
| ComponentFactory.RequestedPageSize | ssr-library/src/main/java/com/cincinnatiai/ssr_library/componentfactory/DefaultComponentFactory.kt:391 | the page size asked of the mock loader: the pagination's, else 20 |
| ComponentFactory.MockRecord | ssr-library/src/main/java/com/cincinnatiai/ssr_library/componentfactory/DefaultComponentFactory.kt:401-408 | a mock record has id "<index>", title "Item <index>", the numbered description and the picsum image URL for that index |
| ComponentFactory.MockPage | ssr-library/src/main/java/com/cincinnatiai/ssr_library/componentfactory/DefaultComponentFactory.kt:399-411 | page p of size n holds records p*n to p*n+n-1, in order (empty for n <= 0) |
| ComponentFactory.MockRange | ssr-library/src/main/java/com/cincinnatiai/ssr_library/componentfactory/DefaultComponentFactory.kt:401 | the records of an index range, in order |
| ComponentFactory.MockPagesContiguous | ssr-library/src/main/java/com/cincinnatiai/ssr_library/componentfactory/DefaultComponentFactory.kt:399-411 | page p followed by page p+1 is the range of 2n records from p*n: no gap, no overlap |
| DataBinder.FirstClose | ssr-library/src/main/java/com/cincinnatiai/ssr_library/componentfactory/DefaultComponentFactory.kt:638 | the first `}` at or after a position, or the end |
| DataBinder.MatchAt | ssr-library/src/main/java/com/cincinnatiai/ssr_library/componentfactory/DefaultComponentFactory.kt:638 | a placeholder `{{k}}` starts at i exactly when the regex matches there, ending at the first `}` |
| DataBinder.MatchEndsAtFirstClose | ssr-library/src/main/java/com/cincinnatiai/ssr_library/componentfactory/DefaultComponentFactory.kt:638 | a match at i always ends just after the first `}` past the opening braces |
| DataBinder.Matches | ssr-library/src/main/java/com/cincinnatiai/ssr_library/componentfactory/DefaultComponentFactory.kt:644 | `findAll`: the matches after a position, each a real match, left to right without overlap; none means no match anywhere |
| DataBinder.NoOpenNoMatch | ssr-library/src/main/java/com/cincinnatiai/ssr_library/componentfactory/DefaultComponentFactory.kt:609 | a string without `{{` has no placeholder |
| DataBinder.Walk | ssr-library/src/main/java/com/cincinnatiai/ssr_library/componentfactory/DefaultComponentFactory.kt:670-700 | the value a dotted path reaches through nested maps is never a JSON null: null reads as missing |
| DataBinder.Resolve | ssr-library/src/main/java/com/cincinnatiai/ssr_library/componentfactory/DefaultComponentFactory.kt:670-700 | the walk stops at the first null, so a resolved value is never null |
| DataBinder.WalkConcat | ssr-library/src/main/java/com/cincinnatiai/ssr_library/componentfactory/DefaultComponentFactory.kt:676-696 | walking p then q is walking p + q |
| DataBinder.ResolveFlatKey | ssr-library/src/main/java/com/cincinnatiai/ssr_library/componentfactory/DefaultComponentFactory.kt:670-700 | a key without dots is a plain top-level lookup, with JSON null as absent |
| DataBinder.GetNestedValue | ssr-library/src/main/java/com/cincinnatiai/ssr_library/componentfactory/DefaultComponentFactory.kt:670-700 | the loop of `getNestedValue` computes the recursive walk over the dot-split key |
| DataBinder.Stringify | ssr-library/src/main/java/com/cincinnatiai/ssr_library/componentfactory/DefaultComponentFactory.kt:651-660 | a missing value prints as "", a string as itself |
| DataBinder.BindString | ssr-library/src/main/java/com/cincinnatiai/ssr_library/componentfactory/DefaultComponentFactory.kt:636-668 | `bindStringTemplate` leaves a template without `{{` unchanged |
| DataBinder.WholePlaceholder | ssr-library/src/main/java/com/cincinnatiai/ssr_library/componentfactory/DefaultComponentFactory.kt:636-668 | a template that is one placeholder binds to the printed value of its trimmed key |
| DataBinder.PrefixedPlaceholder | ssr-library/src/main/java/com/cincinnatiai/ssr_library/componentfactory/DefaultComponentFactory.kt:636-668 | text without `{` followed by one placeholder binds to that text plus the value |
| DataBinder.BindOneMatch | ssr-library/src/main/java/com/cincinnatiai/ssr_library/componentfactory/DefaultComponentFactory.kt:644-664 | a template with a single match becomes the template with every copy of the match text replaced by the value |
| DataBinder.BindEveryPlaceholder | ssr-library/src/main/java/com/cincinnatiai/ssr_library/componentfactory/DefaultComponentFactory.kt:636-668 | a template laid out as text without `{` and brace-free placeholders, whose values hold no `{`, binds to the left-to-right reading with every placeholder, repeated or not, replaced by its key's value |
| DataBinder.PlaceholdersMatch | ssr-library/src/main/java/com/cincinnatiai/ssr_library/componentfactory/DefaultComponentFactory.kt:638-644 | the regex scan over such a template finds exactly its placeholders, in order |
| DataBinder.SubstituteFills | ssr-library/src/main/java/com/cincinnatiai/ssr_library/componentfactory/DefaultComponentFactory.kt:644-663 | replaying the scan's matches one after another fills in every placeholder whose key they carry, wherever it stands |
| DataBinder.FillStep | ssr-library/src/main/java/com/cincinnatiai/ssr_library/componentfactory/DefaultComponentFactory.kt:662 | one `replace` of a placeholder's text fills in exactly the placeholders with that key and keeps every other character |
| DataBinder.SkipOtherPlaceholder | ssr-library/src/main/java/com/cincinnatiai/ssr_library/componentfactory/DefaultComponentFactory.kt:662 | replacing one key's placeholder passes another key's placeholder over whole |
| DataBinder.KeyOfPlaceholder | ssr-library/src/main/java/com/cincinnatiai/ssr_library/componentfactory/DefaultComponentFactory.kt:645 | the key of a matched placeholder is its trimmed inner text |
| DataBinder.PrefixedKey | ssr-library/src/main/java/com/cincinnatiai/ssr_library/componentfactory/DefaultComponentFactory.kt:645 | the key read from a placeholder after a prefix is the trimmed inner text |
| DataBinder.PrefixedTrimmed | ssr-library/src/main/java/com/cincinnatiai/ssr_library/componentfactory/DefaultComponentFactory.kt:636-668 | with an untrimmed-free key, prefix + placeholder binds to prefix + value of the key |
| DataBinder.TrimmedPlaceholder | ssr-library/src/main/java/com/cincinnatiai/ssr_library/componentfactory/DefaultComponentFactory.kt:636-668 | a one-placeholder template with a trimmed key binds to that key's value |
| DataBinder.HelloExample | ssr-library/src/main/java/com/cincinnatiai/ssr_library/componentfactory/DefaultComponentFactory.kt:636-668 | "Hello {{item.name}}" with item.name = "Sam" binds to "Hello Sam" |
| DataBinder.MissingExample | ssr-library/src/main/java/com/cincinnatiai/ssr_library/componentfactory/DefaultComponentFactory.kt:651-658 | a placeholder whose key is missing binds to the empty string |
| DataBinder.NestedExample | ssr-library/src/main/java/com/cincinnatiai/ssr_library/componentfactory/DefaultComponentFactory.kt:670-700 | "{{a.b.c}}" reaches a value three maps deep |
| DataBinder.BindValue | ssr-library/src/main/java/com/cincinnatiai/ssr_library/componentfactory/DefaultComponentFactory.kt:608-616 | only strings containing `{{` are rebound, and a string stays a string |
| DataBinder.BindProps | ssr-library/src/main/java/com/cincinnatiai/ssr_library/componentfactory/DefaultComponentFactory.kt:608-616 | every property keeps its key and order, with its value bound |
| DataBinder.BindNode | ssr-library/src/main/java/com/cincinnatiai/ssr_library/componentfactory/DefaultComponentFactory.kt:605-626 | `bindDataToTemplate` changes only properties and children: same type, id, modifier, actions, templates; same number of children |
| DataBinder.BindAll | ssr-library/src/main/java/com/cincinnatiai/ssr_library/componentfactory/DefaultComponentFactory.kt:618-620 | children are bound one by one, keeping count and types |
| DataBinder.BindPlaceholderFree | ssr-library/src/main/java/com/cincinnatiai/ssr_library/componentfactory/DefaultComponentFactory.kt:605-626 | a tree without placeholders is bound to itself |
| DataBinder.BindKeepsShape | ssr-library/src/main/java/com/cincinnatiai/ssr_library/componentfactory/DefaultComponentFactory.kt:605-626 | binding keeps the tree's shape: types and child structure at every level |
| DataBinder.BindParams | ssr-library/src/main/java/com/cincinnatiai/ssr_library/componentfactory/DefaultComponentFactory.kt:629-631 | every action parameter keeps its name and order and is bound |
| DataBinder.BindAction | ssr-library/src/main/java/com/cincinnatiai/ssr_library/componentfactory/DefaultComponentFactory.kt:628-634 | `bindDataToAction` keeps type and destination and binds the parameters |
| LazyLists.Wrap | ssr-library/src/main/java/com/cincinnatiai/ssr_library/componentfactory/DefaultComponentFactory.kt:527 | the wrapped record is found under "item" |
| LazyLists.StaticItem | ssr-library/src/main/java/com/cincinnatiai/ssr_library/componentfactory/DefaultComponentFactory.kt:524-538 | a static record becomes an item bound against the record wrapped under "item", clickable exactly when the template has an "onClick" action |
| LazyLists.ItemClick | ssr-library/src/main/java/com/cincinnatiai/ssr_library/componentfactory/DefaultComponentFactory.kt:532-538 | an item is clickable exactly when the template has an "onClick" action, which is then bound to the item's data |
| LazyLists.CompiledItem | ssr-library/src/main/java/com/cincinnatiai/ssr_library/componentfactory/DefaultComponentFactory.kt:573-603 | `RenderCompiledItem`: a prepared template binds the record (unwrapped); a failed one shows its fallback or "Error rendering item" |
| LazyLists.StaticItems | ssr-library/src/main/java/com/cincinnatiai/ssr_library/componentfactory/DefaultComponentFactory.kt:524-549 | one wrapped, bound item per record, in order |
| LazyLists.CompiledItems | ssr-library/src/main/java/com/cincinnatiai/ssr_library/componentfactory/DefaultComponentFactory.kt:752-753 | one compiled item per record, in order |
| LazyLists.WrappedKeyReachesRecord | ssr-library/src/main/java/com/cincinnatiai/ssr_library/componentfactory/DefaultComponentFactory.kt:527-529 | `{{item.k}}` on a wrapped record resolves to the record's k |
| LazyLists.RawRecordMissesItemKey | ssr-library/src/main/java/com/cincinnatiai/ssr_library/componentfactory/DefaultComponentFactory.kt:573-580 | `{{item.k}}` on a raw record without an "item" key resolves to nothing |
| LazyLists.StaticColumn | ssr-library/src/main/java/com/cincinnatiai/ssr_library/componentfactory/DefaultComponentFactory.kt:501-552 | no records shows the empty template or "No items to display"; otherwise one item per record, in order |
| LazyLists.StaticRow | ssr-library/src/main/java/com/cincinnatiai/ssr_library/componentfactory/DefaultComponentFactory.kt:555-570 | one compiled item per record, with no empty state |
| LazyLists.SimpleLazyColumn | ssr-library/src/main/java/com/cincinnatiai/ssr_library/componentfactory/DefaultComponentFactory.kt:1054-1118 | missing source or template gives the requirement message; "api" is not implemented; an empty static list shows "No items to display"; a non-empty one draws one wrapped item per record, in order; any other kind shows "Unsupported data source type: <kind>" |
| LazyLists.SimpleStaticColumn | ssr-library/src/main/java/com/cincinnatiai/ssr_library/componentfactory/DefaultComponentFactory.kt:1060-1106 | no records shows "No items to display"; otherwise one wrapped, bound item per record, in order, with no footer spinner |
| LazyLists.SimpleLazyRow | ssr-library/src/main/java/com/cincinnatiai/ssr_library/componentfactory/DefaultComponentFactory.kt:1121-1144 | missing source or template draws nothing; static rows bind each raw record without a click action; any other kind shows "Unsupported data source type for LazyRow: <kind>" |
| LazyLists.RawItems | ssr-library/src/main/java/com/cincinnatiai/ssr_library/componentfactory/DefaultComponentFactory.kt:1132-1136 | one item per raw record, bound, in order |
| LazyLists.OnInitialResult | ssr-library/src/main/java/com/cincinnatiai/ssr_library/componentfactory/DefaultComponentFactory.kt:719-733 | the first load stops loading; success replaces the items and clears the error; failure keeps them and sets the error |
| LazyLists.OnRetry | ssr-library/src/main/java/com/cincinnatiai/ssr_library/componentfactory/DefaultComponentFactory.kt:740-743 | retry sets loading and clears the error, nothing else |
| LazyLists.OnPageResult | ssr-library/src/main/java/com/cincinnatiai/ssr_library/componentfactory/DefaultComponentFactory.kt:758-771 | a non-empty page is appended and counted; an empty page ends the list; an error changes nothing |
| LazyLists.LoadingView | ssr-library/src/main/java/com/cincinnatiai/ssr_library/componentfactory/DefaultComponentFactory.kt:808-820 | a "shimmer" loading template shows that many cards (5 by default); anything else a spinner |
| LazyLists.ApiColumnView | ssr-library/src/main/java/com/cincinnatiai/ssr_library/componentfactory/DefaultComponentFactory.kt:735-791 | with items: the items plus a footer spinner while loading; without: loading, error (template or retry panel) or empty view, in that priority |
| LazyLists.RetryStaysLoading | ssr-library/src/main/java/com/cincinnatiai/ssr_library/componentfactory/DefaultComponentFactory.kt:719-744 | after a failed first load and a retry, the list shows the loading view and no item can request a page |
| LazyLists.ThreeRequestsForOnePage | ssr-library/src/main/java/com/cincinnatiai/ssr_library/componentfactory/DefaultComponentFactory.kt:756-758 | in a list that can load more, exactly the last three items request the next page |
| LazyLists.DuplicatePageAppendedTwice | ssr-library/src/main/java/com/cincinnatiai/ssr_library/componentfactory/DefaultComponentFactory.kt:758-766 | two answers with the same page append it twice and count two pages |
| LazyLists.PageResultsExtend | ssr-library/src/main/java/com/cincinnatiai/ssr_library/componentfactory/DefaultComponentFactory.kt:758-771 | page results only extend the items, and once ended the list stays ended |
| LazyLists.MockLoaderNeverEnds | ssr-library/src/main/java/com/cincinnatiai/ssr_library/componentfactory/DefaultComponentFactory.kt:380-411 | the mock loader's pages are never empty, so the list never ends |
| LazyLists.OnRowResult | ssr-library/src/main/java/com/cincinnatiai/ssr_library/componentfactory/DefaultComponentFactory.kt:347-359 | the row's load stops loading; success sets the items, failure keeps them |
| LazyLists.ApiRowView | ssr-library/src/main/java/com/cincinnatiai/ssr_library/componentfactory/DefaultComponentFactory.kt:361-377 | loading shows a spinner; otherwise one compiled item per record, in order |
| LazyLists.AsyncColumn | ssr-library/src/main/java/com/cincinnatiai/ssr_library/componentfactory/DefaultComponentFactory.kt:311-322 | no source draws nothing; "static" and "api" go to their columns; other kinds show "Unsupported data source" |
| LazyLists.AsyncRow | ssr-library/src/main/java/com/cincinnatiai/ssr_library/componentfactory/DefaultComponentFactory.kt:325-336 | the same dispatch for rows |
| ChartColors.FromLong | ssr-library/src/main/java/com/cincinnatiai/ssr_library/component/charts/ChartComponents.kt:788 | `Color(Long)` keeps the low 32 bits as ARGB |
| ChartColors.ParseLong16 | ssr-library/src/main/java/com/cincinnatiai/ssr_library/component/charts/ChartComponents.kt:784 | `toLong(16)`: a result lies in the Long range and needs a non-empty string; every unsigned hex string below 2^63 parses to its value |
| ChartColors.ByName | ssr-library/src/main/java/com/cincinnatiai/ssr_library/component/charts/ChartComponents.kt:799-813 | the name fallback always gives one of the ten named colours, and an unknown name gives black |
| ChartColors.ByNameTable | ssr-library/src/main/java/com/cincinnatiai/ssr_library/component/charts/ChartComponents.kt:799-813 | which colour each of the eleven known names gives after lower-casing and trimming, "gray" and "grey" both giving gray |
| ChartColors.Expand | ssr-library/src/main/java/com/cincinnatiai/ssr_library/component/charts/ChartComponents.kt:789-795 | `#RGB` expands to RRGGBB, each digit doubled, still hex |
| ChartColors.ParseColor | ssr-library/src/main/java/com/cincinnatiai/ssr_library/component/charts/ChartComponents.kt:781-814 | a string that does not parse as hex is looked up by name; a string that parses but has a length other than 3, 6 or 8 is black |
| ChartColors.ParseColorV2 | ssr-library/src/main/java/com/cincinnatiai/ssr_library/component/charts/ChartComponents.kt:816-855 | a cleaned length other than 3, 6 or 8 is black, whatever the string |
| ChartColors.ParseHexColor | ssr-library/src/main/java/com/cincinnatiai/ssr_library/component/charts/ChartComponents.kt:767-779 | only six or eight parsed digits give a colour; everything else is blue |
| ChartColors.V2AgreesOnParsedLengths | ssr-library/src/main/java/com/cincinnatiai/ssr_library/component/charts/ChartComponents.kt:781-855 | on lengths 3, 6 and 8 both parsers agree |
| ChartColors.V2LosesFiveLetterNames | ssr-library/src/main/java/com/cincinnatiai/ssr_library/component/charts/ChartComponents.kt:800-801 | "white" is white for `parseColor` but black for `parseColorV2` |
| ChartColors.HexColorAgrees | ssr-library/src/main/java/com/cincinnatiai/ssr_library/component/charts/ChartComponents.kt:767-814 | where `parseHexColor` parses, it agrees with `parseColor` |
| ChartColors.Hex | ssr-library/src/main/java/com/cincinnatiai/ssr_library/component/charts/ChartComponents.kt:59-60 | a value printed as n hex digits has exactly that value |
| ChartColors.RgbRoundTrip | ssr-library/src/main/java/com/cincinnatiai/ssr_library/component/charts/ChartComponents.kt:781-788 | "#RRGGBB" for every 24-bit value parses to that colour with full alpha |
| ChartColors.ArgbRoundTrip | ssr-library/src/main/java/com/cincinnatiai/ssr_library/component/charts/ChartComponents.kt:781-788 | "#AARRGGBB" for every 32-bit value parses to that ARGB word |
| ChartColors.FormattedParses | ssr-library/src/main/java/com/cincinnatiai/ssr_library/component/charts/ChartComponents.kt:784 | up to eight unsigned hex digits always parse |
| ChartColors.ShortFormExpands | ssr-library/src/main/java/com/cincinnatiai/ssr_library/component/charts/ChartComponents.kt:789-796 | a three-digit colour reads as its six-digit expansion with full alpha |
| ChartColors.SignedShortFormIsBlack | ssr-library/src/main/java/com/cincinnatiai/ssr_library/component/charts/ChartComponents.kt:781-812 | "-ab" parses as a number, its expansion "--aabb" does not, so the colour is black |
| ChartColors.ItemColorString | ssr-library/src/main/java/com/cincinnatiai/ssr_library/component/charts/ChartComponents.kt:377 | a bar or slice uses its own colour, else the chart's i-th colour, else the palette's (i mod 8) |
| ChartColors.LegendColorString | ssr-library/src/main/java/com/cincinnatiai/ssr_library/component/charts/ChartComponents.kt:712 | a legend swatch uses its own colour, else the palette's (i mod 8) |
| ChartColors.LegendMatchesUnlessConfigured | ssr-library/src/main/java/com/cincinnatiai/ssr_library/component/charts/ChartComponents.kt:705-745 | swatch and drawn colour agree exactly when the item has its own colour, the chart has no i-th colour, or that colour equals the palette's |
| ChartColors.PaletteCycles | ssr-library/src/main/java/com/cincinnatiai/ssr_library/component/charts/ChartComponents.kt:377 | the fallback palette repeats every eight items |
| Renderer.PrecompileModifier | ssr-library/src/main/java/com/cincinnatiai/ssr_library/ServerSideRenderer.kt:406-418 | the compiled modifier copies the config's sizes and reads absent flags as false |
| Renderer.PrecompiledModifierAgrees | ssr-library/src/main/java/com/cincinnatiai/ssr_library/ServerSideRenderer.kt:406-418 | the precompiled modifier's intended chain is exactly the chain `createModifier` builds from the same config, and `toModifier` as written returns only when that chain is empty |
| Renderer.CallsAgree | ssr-library/src/main/java/com/cincinnatiai/ssr_library/ServerSideRenderer.kt:406-418 | per call, the compiled modifier and the config ask for the same modifier calls |
| Renderer.AnalyzeTreeIsReference | ssr-library/src/main/java/com/cincinnatiai/ssr_library/ServerSideRenderer.kt:356-397 | the analysis counts every node, measures the height, finds "api" lists anywhere, and estimates 2 per component |
| Renderer.AnalyzeTree | ssr-library/src/main/java/com/cincinnatiai/ssr_library/ServerSideRenderer.kt:356-397 | the analysis counts at least the root, estimates 2 ms per counted component, and reports async components whenever the root itself is an "api" lazy list |
| Renderer.Visit | ssr-library/src/main/java/com/cincinnatiai/ssr_library/ServerSideRenderer.kt:365-388 | visiting a node counts at least that node, never lowers the depth seen so far, reaches at least the node's own depth, and never clears the async flag |
| Renderer.VisitIsReference | ssr-library/src/main/java/com/cincinnatiai/ssr_library/ServerSideRenderer.kt:365-388 | one visit adds the subtree's count, raises the depth to depth + height, and ors in the subtree's async flag |
| Renderer.VisitAllIsReference | ssr-library/src/main/java/com/cincinnatiai/ssr_library/ServerSideRenderer.kt:382-387 | visiting the children one level deeper adds their counts, depths and flags |
| Renderer.LeafAnalysis | ssr-library/src/main/java/com/cincinnatiai/ssr_library/ServerSideRenderer.kt:365-396 | a childless node counts 1 at depth 0 and is async exactly when it is an "api" list |
| Renderer.Precompile | ssr-library/src/main/java/com/cincinnatiai/ssr_library/ServerSideRenderer.kt:228-300 | every precompiled node copies type, properties, modifier, source, template and actions; an exception shows "Error: <type>" without children; a failure shows its fallback (or `createComponent`) without children; a success shows the component and precompiles every child, in order |
| Renderer.PrecompileAll | ssr-library/src/main/java/com/cincinnatiai/ssr_library/ServerSideRenderer.kt:261-266 | children are precompiled one by one, in order |
| Renderer.PrecompileNeverGrows | ssr-library/src/main/java/com/cincinnatiai/ssr_library/ServerSideRenderer.kt:240-283 | the precompiled tree never has more nodes than the source tree |
| Renderer.InvalidSubtreeCollapses | ssr-library/src/main/java/com/cincinnatiai/ssr_library/ServerSideRenderer.kt:241-253 | with the default factory, a node with an invalid child keeps no children and shows "Invalid component: <type>" |
| Renderer.DefaultFactory | ssr-library/src/main/java/com/cincinnatiai/ssr_library/componentfactory/DefaultComponentFactory.kt:92-133 | the renderer's default factory keeps the preparation cache `prepareComponent` leaves, succeeds exactly when the preparation succeeds, reports failures as errors rather than exceptions, and shows plain text as a Text view |
| Renderer.BlankTypeShowsUnknown | ssr-library/src/main/java/com/cincinnatiai/ssr_library/ServerSideRenderer.kt:241-253 | with the default factory, a blank type shows the unknown-type text without children |
| Renderer.ParseComponentJson | ssr-library/src/main/java/com/cincinnatiai/ssr_library/ServerSideRenderer.kt:325-354 | a decoding failure propagates its message; a decoded document succeeds exactly when it has `screen.layout`, which it returns; otherwise "Missing required field: screen.layout" |
| Renderer.JavaHash | ssr-library/src/main/java/com/cincinnatiai/ssr_library/ServerSideRenderer.kt:77 | `json.hashCode()` is a signed 32-bit value, folded over the string's UTF-16 code units |
| Renderer.CharUnits | ssr-library/src/main/java/com/cincinnatiai/ssr_library/ServerSideRenderer.kt:77 | a character's UTF-16 units: itself in the Basic Multilingual Plane, otherwise a surrogate pair that gives back its code point |
| Renderer.Utf16 | ssr-library/src/main/java/com/cincinnatiai/ssr_library/ServerSideRenderer.kt:77 | a string has at least as many UTF-16 units as characters, each below 0x10000, and exactly as many when all lie in the Basic Multilingual Plane |
| Renderer.SurrogatePairHash | ssr-library/src/main/java/com/cincinnatiai/ssr_library/ServerSideRenderer.kt:77 | U+1F600 hashes through its surrogates 0xD83D 0xDE00 to 1772899 |
| Renderer.TwoCharHash | ssr-library/src/main/java/com/cincinnatiai/ssr_library/ServerSideRenderer.kt:77 | two ASCII characters hash to 31 * first + second |
| Renderer.HashFrom | ssr-library/src/main/java/com/cincinnatiai/ssr_library/ServerSideRenderer.kt:76-82 | the unsigned hash accumulation stays below 2^32 |
| Renderer.HashCollision | ssr-library/src/main/java/com/cincinnatiai/ssr_library/ServerSideRenderer.kt:76-82 | "Aa" and "BB" share the cache key 2112 |
| Renderer.NewHost | ssr-library/src/main/java/com/cincinnatiai/ssr_library/ServerSideRenderer.kt:55-75 | a new screen has an empty cache, shows Loading and has not run its effect |
| Renderer.BuildTree | ssr-library/src/main/java/com/cincinnatiai/ssr_library/ServerSideRenderer.kt:161-226 | a parse failure propagates unchanged; a parsed layout gives a tree whose metadata is the layout's analysis |
| Renderer.RunEffect | ssr-library/src/main/java/com/cincinnatiai/ssr_library/ServerSideRenderer.kt:84-130 | a cached key shows the cached tree; otherwise a successful build is cached under the key and shown; a failure shows the prefixed message and caches nothing |
| Renderer.Compose | ssr-library/src/main/java/com/cincinnatiai/ssr_library/ServerSideRenderer.kt:84-130 | the effect runs only when the document differs from the one it last ran for |
| Renderer.Retry | ssr-library/src/main/java/com/cincinnatiai/ssr_library/ServerSideRenderer.kt:136-141 | retry sets Loading and keeps cache, factory state and document |
| Renderer.ClearCache | ssr-library/src/main/java/com/cincinnatiai/ssr_library/ServerSideRenderer.kt:302-307 | clearing empties the cache and keeps the screen state |
| Renderer.CacheSize | ssr-library/src/main/java/com/cincinnatiai/ssr_library/ServerSideRenderer.kt:309-315 | the size is zero exactly when the cache is empty |
| Renderer.RetryDoesNotRebuild | ssr-library/src/main/java/com/cincinnatiai/ssr_library/ServerSideRenderer.kt:84-141 | after an error, retry plus recomposition with the same document stays in Loading with the cache untouched |
| Renderer.CacheHitIgnoresDocument | ssr-library/src/main/java/com/cincinnatiai/ssr_library/ServerSideRenderer.kt:76-96 | two documents with the same hash show the same cached tree |
| Renderer.MissingLayoutFails | ssr-library/src/main/java/com/cincinnatiai/ssr_library/ServerSideRenderer.kt:90-129 | a document without layout shows the prefixed "Missing required field" error and leaves the cache unchanged |
| Renderer.BuildGrowsCacheByOne | ssr-library/src/main/java/com/cincinnatiai/ssr_library/ServerSideRenderer.kt:112 | a successful build adds exactly one cache entry |
| SimpleCompose.ChildNodes | ssr-simple/src/main/java/com/cincinnatiai/ssr_simple/model/NodeModel.kt:20 | `children ?: emptyList()`, each child smaller than the node |
| SimpleCompose.BuildModifier | ssr-simple/src/main/java/com/cincinnatiai/ssr_simple/ui/ModifierBuilder.kt:13-42 | fillMaxSize, fillMaxWidth, background, padding, each exactly when asked for, in that order; padding sides fall back to the uniform padding, then 0 |
| SimpleCompose.BuildModifierIgnoresLayoutFields | ssr-simple/src/main/java/com/cincinnatiai/ssr_simple/ui/ModifierBuilder.kt:13-42 | size, weight, alignment and scrolling fields do not change the built modifier |
| SimpleCompose.SidePaddingOverrides | ssr-simple/src/main/java/com/cincinnatiai/ssr_simple/ui/ModifierBuilder.kt:33-38 | a side padding overrides the uniform one for that side only |
| SimpleCompose.WeightOf | ssr-simple/src/main/java/com/cincinnatiai/ssr_simple/ui/TextBuilder.kt:16-21 | bold, medium, light, case-insensitively, each exactly when named; otherwise normal |
| SimpleCompose.AlignOf | ssr-simple/src/main/java/com/cincinnatiai/ssr_simple/ui/TextBuilder.kt:22-26 | center and end, case-insensitively, each exactly when named; otherwise start |
| SimpleCompose.BuildTextStyle | ssr-simple/src/main/java/com/cincinnatiai/ssr_simple/ui/TextBuilder.kt:14-36 | the size falls back to bodyMedium; a given colour is used by name, and the theme colour exactly when none is given; weight and alignment as named |
| SimpleCompose.TextStyleCaseInsensitive | ssr-simple/src/main/java/com/cincinnatiai/ssr_simple/ui/TextBuilder.kt:16-26 | lower-casing the weight and alignment names does not change the style |
| SimpleCompose.ColumnAlignment | ssr-simple/src/main/java/com/cincinnatiai/ssr_simple/ui/RenderScaffold.kt:58-63 | center and end, case-insensitively, each exactly when named; otherwise start |
| SimpleCompose.RowAlignment | ssr-simple/src/main/java/com/cincinnatiai/ssr_simple/ui/RenderScaffold.kt:75-80 | center and bottom, case-insensitively, each exactly when named; otherwise top |
| SimpleCompose.BoxContentAlignment | ssr-simple/src/main/java/com/cincinnatiai/ssr_simple/ui/RenderScaffold.kt:92-103 | a name that lower-cases to one of the nine accepted names gives the alignment spelled that way; no name or any other name gives TopStart |
| SimpleCompose.SpellRoundTrip | ssr-simple/src/main/java/com/cincinnatiai/ssr_simple/ui/RenderScaffold.kt:92-103 | each of the nine alignments has an accepted name that resolves back to it |
| SimpleCompose.SpellInjective | ssr-simple/src/main/java/com/cincinnatiai/ssr_simple/ui/RenderScaffold.kt:92-103 | different alignments have different names |
| SimpleCompose.BoxNameSpells | ssr-simple/src/main/java/com/cincinnatiai/ssr_simple/ui/RenderScaffold.kt:92-103 | exactly the nine names resolve, each to the alignment spelled that way |
| SimpleCompose.CamelCaseBoxNameResolves | ssr-simple/src/main/java/com/cincinnatiai/ssr_simple/ui/RenderScaffold.kt:92-103 | "bottomEnd" resolves to BottomEnd |
| SimpleCompose.BoxNameCaseInsensitive | ssr-simple/src/main/java/com/cincinnatiai/ssr_simple/ui/RenderScaffold.kt:92-103 | a name and its lower-cased form resolve alike |
| SimpleCompose.Dispatch | ssr-simple/src/main/java/com/cincinnatiai/ssr_simple/ui/RenderNode.kt:9-25 | a renderer exists exactly for the fourteen capitalised tags, and it is the one registered under that tag |
| SimpleCompose.DispatchTagOf | ssr-simple/src/main/java/com/cincinnatiai/ssr_simple/ui/RenderNode.kt:10-23 | every renderer is selected by its own tag |
| SimpleCompose.LowercaseTagsUnknown | ssr-simple/src/main/java/com/cincinnatiai/ssr_simple/ui/RenderNode.kt:9-25 | the full library's lower-case tags are unknown to the simple renderer |
| SimpleCompose.ImageSizing | ssr-simple/src/main/java/com/cincinnatiai/ssr_simple/ui/RenderScaffold.kt:179-185 | width and height give a size, one alone gives that dimension, none gives nothing |
| SimpleCompose.TextContent | ssr-simple/src/main/java/com/cincinnatiai/ssr_simple/ui/RenderScaffold.kt:152 | text shows title, else description, else label, else "" |
| SimpleCompose.Render | ssr-simple/src/main/java/com/cincinnatiai/ssr_simple/ui/RenderNode.kt:9-25 | an unknown type shows "Unknown type: <type>" |
| SimpleCompose.RenderAll | ssr-simple/src/main/java/com/cincinnatiai/ssr_simple/ui/RenderScaffold.kt:69 | children render one by one, keeping count |
| SimpleCompose.ActionsAreDeclared | ssr-simple/src/main/java/com/cincinnatiai/ssr_simple/ui/RenderScaffold.kt:35-192 | every action a rendered tree can fire is an action declared in the document at or below the node |
| SimpleCompose.ButtonInColumnReachesHandler | ssr-simple/src/main/java/com/cincinnatiai/ssr_simple/ui/RenderScaffold.kt:57-172 | a button inside a column fires exactly its action |
| SimpleCompose.EmptyChildrenHideCardTitle | ssr-simple/src/main/java/com/cincinnatiai/ssr_simple/ui/RenderScaffold.kt:133-135 | a card with an empty children list draws an empty custom body, not its title |
| SimpleCompose.RenderText | ssr-simple/src/main/java/com/cincinnatiai/ssr_simple/ui/RenderScaffold.kt:149-157 | a Text node is drawn with its text content, built modifier and built style |
| SimpleCompose.RenderRow | ssr-simple/src/main/java/com/cincinnatiai/ssr_simple/ui/RenderScaffold.kt:74-88 | a Row node is drawn with its built modifier, its vertical alignment and its children in order |
| SimpleCompose.RenderBox | ssr-simple/src/main/java/com/cincinnatiai/ssr_simple/ui/RenderScaffold.kt:91-111 | a Box node is drawn with its built modifier, its content alignment and its children in order |
| SimpleCompose.RenderLazyColumn | ssr-simple/src/main/java/com/cincinnatiai/ssr_simple/ui/RenderScaffold.kt:114-118 | a LazyColumn node is drawn with its built modifier and its children in order |
| SimpleCompose.RenderScaffold | ssr-simple/src/main/java/com/cincinnatiai/ssr_simple/ui/RenderScaffold.kt:35-49 | a Scaffold draws each present slot (top bar, floating button, content) rendered, and leaves absent slots empty |
| SimpleCompose.RenderTopAppBar | ssr-simple/src/main/java/com/cincinnatiai/ssr_simple/ui/RenderScaffold.kt:52-54 | a TopAppBar shows its title, else an empty title |
| SimpleCompose.RenderImage | ssr-simple/src/main/java/com/cincinnatiai/ssr_simple/ui/RenderScaffold.kt:175-193 | an Image uses its URL, the content description else the title else "Image", and the modifier followed by its sizing |
| SimpleCompose.HandleAction | ssr-simple/src/main/java/com/cincinnatiai/ssr_simple/SSRSimpleLibrary.kt:18-23 | an action navigates exactly when it starts with "navigate:", to the rest of it; anything else is left unhandled |
| SimpleCompose.NavigateRoundTrip | ssr-simple/src/main/java/com/cincinnatiai/ssr_simple/SSRSimpleLibrary.kt:20 | "navigate:" + d navigates to d |
| SimpleCompose.CapitalisedPrefixUnhandled | ssr-simple/src/main/java/com/cincinnatiai/ssr_simple/SSRSimpleLibrary.kt:19-21 | "Navigate:home" is not handled |
| SimpleReact.ContentMap | ssr-simple/ssr-simple-react/src/utils/StyleUtils.ts:44-55 | `alignmentMap[key]` holds the nine camel-case entries as its own, answers the `Object.prototype` keys with the inherited member, and nothing else |
| SimpleReact.ContentEntry | ssr-simple/ssr-simple-react/src/utils/StyleUtils.ts:44-54 | the nine entries: top/center/bottom give justifyContent flex-start/center/flex-end, Start/Center/End give alignItems flex-start/center/flex-end |
| SimpleReact.LoweredContentKey | ssr-simple/ssr-simple-react/src/utils/StyleUtils.ts:55 | a lower-cased key finds an own entry exactly when it is "center" and an inherited member exactly when it is "constructor" or "__proto__" |
| SimpleReact.FromPrototype | ssr-simple/ssr-simple-react/src/utils/StyleUtils.ts:37 | a key an object literal does not hold reads the inherited `Object.prototype` member of that name, or `undefined` |
| SimpleReact.AxisOf | ssr-simple/ssr-simple-react/src/utils/StyleUtils.ts:56-59 | a found own entry sets both axes from its pair; an inherited member has no `alignItems` or `justifyContent`, so both become undefined |
| SimpleReact.Scaled | ssr-simple/ssr-simple-react/src/utils/StyleUtils.ts:25-29 | padding is divided by 8 (theme spacing) and kept absent when absent |
| SimpleReact.ModifierToSx | ssr-simple/ssr-simple-react/src/utils/StyleUtils.ts:9-68 | `modifierToSx`: an absent modifier gives empty sx; paddings are divided by 8, weight becomes flex, a non-empty background passes through, scrolling sets overflowY |
| SimpleReact.AlignmentMapping | ssr-simple/ssr-simple-react/src/utils/StyleUtils.ts:35-60 | a content alignment lowering to "center" centres both axes, one lowering to "constructor" or "__proto__" clears both, and any other leaves the row and column alignments |
| SimpleReact.HorizontalOf | ssr-simple/ssr-simple-react/src/utils/StyleUtils.ts:35-38 | `alignItems` from the row alignment: start/center/end give flex-start/center/flex-end, an inherited key the member it names, anything else nothing |
| SimpleReact.VerticalOf | ssr-simple/ssr-simple-react/src/utils/StyleUtils.ts:39-42 | `justifyContent` from the column alignment: top/center/bottom give flex-start/center/flex-end, an inherited key the member it names, anything else nothing |
| SimpleReact.HorizontalMap | ssr-simple/ssr-simple-react/src/utils/StyleUtils.ts:35-38 | start, center and end map to flex-start, center and flex-end; an `Object.prototype` key maps to the inherited member; other keys to nothing |
| SimpleReact.VerticalMap | ssr-simple/ssr-simple-react/src/utils/StyleUtils.ts:39-42 | top, center and bottom map to flex-start, center and flex-end; an `Object.prototype` key maps to the inherited member; other keys to nothing |
| SimpleReact.FillOverridesSize | ssr-simple/ssr-simple-react/src/utils/StyleUtils.ts:15-21 | fillMaxSize overrides width and height with 100%, fillMaxWidth overrides width; otherwise the explicit sizes, or none, pass through |
| SimpleReact.ContentAlignmentOnlyCenter | ssr-simple/ssr-simple-react/src/utils/StyleUtils.ts:43-60 | a content alignment overrides the row and column alignments exactly when it lowers to "center" (both centred) or to "constructor"/"__proto__" (both cleared); "topStart", "bottomEnd" and every other value leave them in place |
| SimpleReact.BottomEndDiffersAcrossPlatforms | ssr-simple/ssr-simple-react/src/utils/StyleUtils.ts:43-60 | "bottomEnd" is BottomEnd on Compose but leaves React's alignment unset |
| SimpleReact.WeightNumber | ssr-simple/ssr-simple-react/src/utils/StyleUtils.ts:79-87 | light, normal, medium and bold are 300, 400, 500 and 700; an `Object.prototype` key gives the inherited member; any other name has no weight |
| SimpleReact.CssAlign | ssr-simple/ssr-simple-react/src/utils/StyleUtils.ts:88-98 | start and left give left, end and right give right, center gives center; an `Object.prototype` key gives the inherited member; any other name gives nothing |
| SimpleReact.TextStyleToCss | ssr-simple/ssr-simple-react/src/utils/StyleUtils.ts:73-102 | `textStyleToCss`: absent gives empty; the size in px; weight and alignment through their tables when the name is non-empty; a non-empty colour passes through |
| SimpleReact.TextStyleToSx | ssr-simple/ssr-simple-react/src/utils/StyleUtils.ts:107-128 | `textStyleToSx`: absent gives empty; the size in theme units; weight through its table; a non-empty alignment and colour pass through unchanged |
| SimpleReact.CssAndSxAgreeOnWeightAndColor | ssr-simple/ssr-simple-react/src/utils/StyleUtils.ts:73-128 | the two conversions agree on weight and colour, and differ on "start" |
| SimpleReact.GetAlignment | ssr-simple/ssr-simple-react/src/components/RenderTable.tsx:22-27 | start/left is left, end/right is right, center is center, exactly; else inherit |
| SimpleReact.GetColumnWidth | ssr-simple/ssr-simple-react/src/components/RenderTable.tsx:29-36 | width in pixels first; weight as a share of the total (an unweighted column counts 1); else auto |
| SimpleReact.WeightedSharesFillTable | ssr-simple/ssr-simple-react/src/components/RenderTable.tsx:29-36 | when every column is weighted, the shares add up to 100% over the reals |
| SimpleReact.CellTextStyle | ssr-simple/ssr-simple-react/src/components/RenderTable.tsx:77-78 | a cell's style, else its column's, else none |
| SimpleReact.ClickCell | ssr-simple/ssr-simple-react/src/components/RenderTable.tsx:67-94 | a click fires the cell's action when it has one (stopping propagation), else the row action, else nothing |
| SimpleReact.CellActionShadowsRow | ssr-simple/ssr-simple-react/src/components/RenderTable.tsx:84-89 | the row action fires exactly when the cell has no action |
| SimpleReact.DrawHeaders | ssr-simple/ssr-simple-react/src/components/RenderTable.tsx:50-63 | one header per column, in order, with that column's header text, alignment, width from `getColumnWidth`, header style and a right border exactly when borders are on and it is not the last column |
| SimpleReact.DrawRow | ssr-simple/ssr-simple-react/src/components/RenderTable.tsx:76-103 | one cell per entry, in order, with its text, its column's alignment (inherit past the last column), its merged style and a right border exactly when borders are on, the cell does not turn it off and it is not the last cell |
| SimpleReact.DrawRows | ssr-simple/ssr-simple-react/src/components/RenderTable.tsx:67-105 | one drawn row per data row |
| SimpleReact.DrawTable | ssr-simple/ssr-simple-react/src/components/RenderTable.tsx:19-110 | as many headers as columns, rows as data rows, cells as entries |
| SimpleReact.LastCellsHaveNoBorder | ssr-simple/ssr-simple-react/src/components/RenderTable.tsx:50-94 | with borders on and no cell turning its border off, every cell but the last of a row has a right border, and every header but the last has one |
| SimpleReact.CellsAlignWithHeaders | ssr-simple/ssr-simple-react/src/components/RenderTable.tsx:50-94 | a body cell under a column has the same alignment as that column's header; a cell past the last column inherits |
| SimpleReact.Dispatch | ssr-simple/ssr-simple-react/src/components/RenderNode.tsx:21-48 | a renderer exists exactly for the eleven tags of the React switch |
| SimpleReact.ReactDispatchIsComposeSubset | ssr-simple/ssr-simple-react/src/components/RenderNode.tsx:21-48 | every React tag uses the Compose renderer for it; LazyColumn, VideoItem and HorizontalPager are missing |
| GoBuilders.NodeKeys | ssr-simple/golang/ssr_simple.go:48-76 | the JSON keys a node writes: "type" first, then every set field (omitempty drops nil and empty slices) |
| GoBuilders.ZeroValuesAreEmitted | ssr-simple/golang/ssr_simple.go:48-76 | a zero elevation, false showBorders and empty title are still written (pointers, not values) |
| GoBuilders.Scaffold | ssr-simple/golang/ssr_simple.go:103-112 | a Scaffold with a TopAppBar of the title and the given content |
| GoBuilders.TopAppBar | ssr-simple/golang/ssr_simple.go:115-120 | a TopAppBar with the title |
| GoBuilders.Container | ssr-simple/golang/ssr_simple.go:123-156 | Column, Row, Box, LazyColumn with the given children and modifier |
| GoBuilders.ScaffoldKeys | ssr-simple/golang/ssr_simple.go:103-112 | a Scaffold writes type and topBar, and content exactly when given |
| GoBuilders.PlainTextKeys | ssr-simple/golang/ssr_simple.go:180-188 | a plain Text writes only type and title |
| GoBuilders.ContainerKeys | ssr-simple/golang/ssr_simple.go:123-156 | a container writes children exactly when it has some, modifier exactly when given |
| GoBuilders.Card | ssr-simple/golang/ssr_simple.go:159-168 | a Card with title, description, elevation and modifier, without children |
| GoBuilders.CardWithChildren | ssr-simple/golang/ssr_simple.go:170-178 | a Card with children, elevation and modifier, without title or description |
| GoBuilders.Text | ssr-simple/golang/ssr_simple.go:180-188 | a Text whose text is the title |
| GoBuilders.ButtonOf | ssr-simple/golang/ssr_simple.go:222-231 | a Button with label, action, variant and modifier |
| GoBuilders.Button | ssr-simple/golang/ssr_simple.go:190-198 | a Button with the label, action and modifier given, no variant, and every other field blank |
| GoBuilders.OutlinedButton | ssr-simple/golang/ssr_simple.go:200-209 | the same Button with variant "outlined" |
| GoBuilders.TextButton | ssr-simple/golang/ssr_simple.go:211-220 | the same Button with variant "text" |
| GoBuilders.ButtonsAreVariants | ssr-simple/golang/ssr_simple.go:190-231 | the three constructors are `ButtonWithVariant` with no variant, "outlined" and "text"; an empty variant is not the same as none |
| GoBuilders.Spacer | ssr-simple/golang/ssr_simple.go:233-239 | a Spacer with the modifier |
| GoBuilders.Image | ssr-simple/golang/ssr_simple.go:241-255 | an Image with url and description; width and height only when positive |
| GoBuilders.Table | ssr-simple/golang/ssr_simple.go:258-274 | a Table with columns, rows, borders, header colour and modifier, without row action |
| GoBuilders.TableWithRowAction | ssr-simple/golang/ssr_simple.go:276-288 | the table plus the row action, even an empty one |
| GoBuilders.TableAdvanced | ssr-simple/golang/ssr_simple.go:290-314 | the row action only when non-empty; rounded corners and lazy flag always |
| GoBuilders.TableAdvancedExtendsTable | ssr-simple/golang/ssr_simple.go:258-314 | `TableAdvanced` is `TableWithRowAction` (or `Table` for an empty action) plus the two layout options |
| GoBuilders.EmptyRowActionOnlyWrittenByTableWithRowAction | ssr-simple/golang/ssr_simple.go:276-314 | with an empty row action, one constructor writes the key and the other omits it |
| GoBuilders.TableKeys | ssr-simple/golang/ssr_simple.go:258-274 | a table always writes showBorders and headerBackgroundColor, columns and tableData only when non-empty |
| GoBuilders.NewTableColumn | ssr-simple/golang/ssr_simple.go:317-324 | header, weight and alignment, nothing else |
| GoBuilders.NewTableColumnWithStyle | ssr-simple/golang/ssr_simple.go:326-341 | the plain column plus its header and text styles |
| GoBuilders.NewTableCell | ssr-simple/golang/ssr_simple.go:343-348 | a cell with only its text |
| GoBuilders.NonEmpty | ssr-simple/golang/ssr_simple.go:350-360 | a string is stored exactly when non-empty |
| GoBuilders.NewTableCellWithStyle | ssr-simple/golang/ssr_simple.go:350-360 | text and style; background only when non-empty |
| GoBuilders.NewTableCellWithAction | ssr-simple/golang/ssr_simple.go:362-367 | the styled cell plus the action, even an empty one |
| GoBuilders.NewTableCellWithBorder | ssr-simple/golang/ssr_simple.go:369-382 | border flag always; background and action only when non-empty |
| GoBuilders.BorderCellExtendsActionCell | ssr-simple/golang/ssr_simple.go:362-382 | the bordered cell is the action cell plus the border for a non-empty action, the styled cell plus the border otherwise |
| GoBuilders.Apply | ssr-simple/golang/ssr_simple.go:390-463 | a setter writes its own field and leaves every other field as it was |
| GoBuilders.ChainAccumulates | ssr-simple/golang/ssr_simple.go:390-463 | after a chain of setters each field holds its last write, or its old value if none |
| GoBuilders.SettersCommute | ssr-simple/golang/ssr_simple.go:390-463 | setters of different fields commute |
| GoBuilders.LaterCallWins | ssr-simple/golang/ssr_simple.go:390-463 | of two setters of the same field the later one wins |
| GoBuilders.ModifierChainingExample | ssr-simple/golang/ssr_simple_test.go:125-147 | the four setters of the test (padding 16, fillMaxWidth, background "#E3F2FD", horizontal alignment "center") read back their values, and height and paddingTop stay unset |
| GoBuilders.ApplyStyle | ssr-simple/golang/ssr_simple.go:471-489 | a style setter writes its own field only |
| GoBuilders.PresetsAreChains | ssr-simple/golang/ssr_simple.go:493-521 | each preset style is its chain of setters |
| GoBuilders.PresetsOnCompose | ssr-simple/golang/ssr_simple_test.go:173-193 | the heading preset renders on Compose as 24sp bold in its colour |
| GoBuilders.ToCompose | ssr-simple/golang/ssr_simple.go:48-76 | what the Compose client decodes: same type, title, label and action, and `children` absent exactly when the slice is empty |
| GoBuilders.ToComposeAll | ssr-simple/golang/ssr_simple.go:65 | children decode one by one |
| GoBuilders.TextShowsItsText | ssr-simple/golang/ssr_simple.go:180-188 | a Go Text is drawn on Compose with its text, modifier and style |
| GoBuilders.ButtonNavigates | ssr-simple/golang/ssr_simple.go:190-231 | a Go button whose action is "navigate:" + d navigates to d on Compose, whatever its variant |
| GoBuilders.EmptyChildCardShowsDefaultBody | ssr-simple/golang/ssr_simple.go:170-178 | a Go card with no children shows the default body on Compose |
| GoBuilders.ChildCardDrawsChildren | ssr-simple/golang/ssr_simple.go:170-178 | a Go card with children draws exactly those children |
| JavaBuilders.NewBuilder | ssr-java/src/main/java/com/cincinnatiai/ssr_java/builder/NodeBuilder.java:14-18 | a new builder owns a fresh model of its type; existing models are untouched |
| JavaBuilders.Append | ssr-java/src/main/java/com/cincinnatiai/ssr_java/builder/NodeBuilder.java:130-136 | `add` on no list creates a growable one; on a fixed-size list it throws; otherwise it appends |
| JavaBuilders.Step | ssr-java/src/main/java/com/cincinnatiai/ssr_java/builder/NodeBuilder.java:20-209 | a call fails exactly when it adds to a fixed-size list; it never changes the type |
| JavaBuilders.CallTouchesOneField | ssr-java/src/main/java/com/cincinnatiai/ssr_java/builder/NodeBuilder.java:20-209 | a call changes only its own field |
| JavaBuilders.Invoke | ssr-java/src/main/java/com/cincinnatiai/ssr_java/builder/NodeBuilder.java:20-209 | a call on one builder changes only that builder's model and allocates nothing |
| JavaBuilders.Steps | ssr-java/src/main/java/com/cincinnatiai/ssr_java/builder/NodeBuilder.java:20-209 | a chain of calls keeps the type |
| JavaBuilders.Run | ssr-java/src/main/java/com/cincinnatiai/ssr_java/builder/NodeBuilder.java:20-209 | running a chain on a builder fails exactly when a step fails; otherwise only the builder's own model changes, to the result of the steps, and no object is allocated |
| JavaBuilders.RunIsInvokes | ssr-java/src/main/java/com/cincinnatiai/ssr_java/builder/NodeBuilder.java:20-209 | running a chain is the same as invoking its setters one at a time on the heap |
| JavaBuilders.Grown | ssr-java/src/main/java/com/cincinnatiai/ssr_java/builder/NodeBuilder.java:130-136 | the children list after adds: absent when none, otherwise growable with those children |
| JavaBuilders.AddChildCalls | ssr-java/src/main/java/com/cincinnatiai/ssr_java/builder/NodeBuilder.java:130-136 | one addChild call per child, in order |
| JavaBuilders.AddChildrenInOrder | ssr-java/src/main/java/com/cincinnatiai/ssr_java/builder/NodeBuilder.java:130-136 | adding children one by one to a growable list appends them in order |
| JavaBuilders.AddChildAfterVarargsThrows | ssr-java/src/main/java/com/cincinnatiai/ssr_java/builder/NodeBuilder.java:125-136 | `addChild` after varargs `children(...)` throws |
| JavaBuilders.AddChildAfterListAppends | ssr-java/src/main/java/com/cincinnatiai/ssr_java/builder/NodeBuilder.java:120-136 | `addChild` after `children(list)` with a growable list appends |
| JavaBuilders.AddColumnAfterVarargsThrows | ssr-java/src/main/java/com/cincinnatiai/ssr_java/builder/NodeBuilder.java:152-163 | `addColumn` after varargs `columns(...)` throws |
| JavaBuilders.ChildrenReplaced | ssr-java/src/main/java/com/cincinnatiai/ssr_java/builder/NodeBuilder.java:120-123 | `children(list)` replaces the whole list |
| JavaBuilders.ColumnsReplaced | ssr-java/src/main/java/com/cincinnatiai/ssr_java/builder/NodeBuilder.java:147-150 | `columns(list)` replaces the whole list |
| JavaBuilders.TableDataReplaced | ssr-java/src/main/java/com/cincinnatiai/ssr_java/builder/NodeBuilder.java:169-172 | `tableData(rows)` replaces the whole table |
| JavaBuilders.AddRowAppends | ssr-java/src/main/java/com/cincinnatiai/ssr_java/builder/NodeBuilder.java:174-184 | `addRow` appends the cells as one row |
| JavaBuilders.BuiltModelSeesLaterCalls | ssr-java/src/main/java/com/cincinnatiai/ssr_java/builder/NodeBuilder.java:211-213 | a built model shows later calls on its builder |
| JavaBuilders.Build | ssr-java/src/main/java/com/cincinnatiai/ssr_java/builder/NodeBuilder.java:211-213 | `build()` hands out the builder's own model reference, not a copy (its consequence is `BuiltModelSeesLaterCalls`) |
| JavaBuilders.BuildTwiceSameModel | ssr-java/src/main/java/com/cincinnatiai/ssr_java/builder/NodeBuilder.java:211-213 | building twice gives the same model, so a title set in between changes the first result too |
| JavaBuilders.SubBuilderShared | ssr-java/src/main/java/com/cincinnatiai/ssr_java/builder/NodeBuilder.java:95-98 | `topBar(builder)` shares that builder's model, so later calls on it show through the parent |
| JavaBuilders.Make | ssr-java/src/main/java/com/cincinnatiai/ssr_java/SSR.java:14-60 | a factory call allocates one new builder and leaves the others untouched |
| JavaBuilders.FactoryModels | ssr-java/src/main/java/com/cincinnatiai/ssr_java/SSR.java:14-60 | each factory sets its type and the one field its argument names (a spacer's modifier height), nothing else |
| JavaBuilders.FactoryIsPresetRun | ssr-java/src/main/java/com/cincinnatiai/ssr_java/SSR.java:14-60 | each factory is a new builder followed by its preset calls |
| JavaBuilders.ColumnOf | ssr-java/src/main/java/com/cincinnatiai/ssr_java/SSR.java:63-65 | `SSR.column(header)` sets only the header |
| JavaBuilders.CellOf | ssr-java/src/main/java/com/cincinnatiai/ssr_java/SSR.java:67-69 | `SSR.cell(text)` is Go's `NewTableCell(text)` |
| JavaBuilders.AsGo | ssr-java/src/main/java/com/cincinnatiai/ssr_java/builder/NodeBuilder.java:13-213 | a Java model read as the Go node keeps every scalar field and the contents of its column and row lists (unset reads as empty), and drops its node references: top bar, floating action button, content and children |
| JavaBuilders.TextMatchesGo | ssr-java/src/main/java/com/cincinnatiai/ssr_java/SSR.java:34-36 | `SSR.text(t)` builds Go's `Text(t, nil, nil)` |
| JavaBuilders.TopAppBarMatchesGo | ssr-java/src/main/java/com/cincinnatiai/ssr_java/SSR.java:18-20 | `SSR.topAppBar(t)` builds Go's `TopAppBar(t)` |
| JavaBuilders.SpacerMatchesGo | ssr-java/src/main/java/com/cincinnatiai/ssr_java/SSR.java:54-56 | `SSR.spacer(h)` builds Go's `Spacer` with a height-h modifier |
| JavaBuilders.ButtonMatchesGo | ssr-java/src/main/java/com/cincinnatiai/ssr_java/SSR.java:38-40 | `SSR.button(l).action(a)` builds Go's `Button(l, a, nil)` |
| JavaBuilders.ImageDescriptionDiffers | ssr-java/src/main/java/com/cincinnatiai/ssr_java/SSR.java:46-48 | `SSR.image` leaves the description null where Go writes "" |

## Left out

- Drawing: Compose and React layout, colours as pixels, shapes,
  elevation shadows, shimmer animation, and the chart drawing routines.
  What is drawn is modelled as views and operation lists.
- Gson and JSON decoding: a decoded document, or the decoder's failure
  message, is a parameter (`Renderer.Decoded`).
  - Gson's number formatting (`1.0` for an integer) is abstracted: a
    number carries its printed text.
  - The Go and Java JSON serialisers (`ToJSON`, `JsonSerializer`) are not
    modelled; `GoBuilders.NodeKeys` states which keys a node writes.
- Coroutines, dispatchers, `withContext`, the one-second mock delay and
  the concurrent maps. Each callback is a function on an explicit state,
  and the cache maps are Dafny maps.
- ComponentFactory.PrepKeyOf: the preparation cache key
  `"${type}_${hashCode()}"` is modelled as the node itself, so distinct
  nodes never share an entry. Hash collisions there are not modelled.
  The renderer's own `json.hashCode()` key is modelled over UTF-16 code
  units, as Java computes it (`Renderer.JavaHash`).
- Android's `toColorInt` / `Color.parseColor` in the simple renderer:
  colours are kept as strings.
- SimpleCompose.BuildModifier: a background colour is kept as the string
  given. `toColorInt` throws on a name or hex form it does not know (for
  instance "blu"), and nothing in the simple renderer catches it; the
  model draws `Named("blu")` instead of failing.
- SimpleCompose.BuildTextStyle: the same for the text colour. The Card
  and Button backgrounds of `SimpleCompose.Render` keep their string in
  the same way.
- Strings.Lower: only A-Z are lower-cased. Kotlin's `lowercase()` also
  folds non-ASCII letters (for instance `É`), which the model leaves as
  they are.
- ChartColors.ParseColor: the colour name is lower-cased with
  `Strings.Lower`, so it has the same ASCII-only gap. Trimming is exact.
- ChartColors.ParseLong16: only 0-9, a-f and A-F are hex digits. Kotlin's
  `toLong(16)` reads digits through `Character.digit`, which also accepts
  every Unicode decimal digit (for instance Arabic-Indic `٣`) and the
  fullwidth letters `Ａ`-`Ｆ` and `ａ`-`ｆ`. The model rejects such a string
  where the source parses it: "#٣٣٣" is 0xFF333333 in the source and
  black here. `ChartColors.ParseColor` inherits the gap.
- ChartColors.ParseColorV2: inherits the `ChartColors.ParseLong16` digit
  gap.
- ChartColors.ParseHexColor: inherits the `ChartColors.ParseLong16` digit
  gap.
- Strings.Trim: no gap is known. `Strings.IsWhitespace` lists the
  characters Kotlin's `Char.isWhitespace()` accepts.
- Floating point: `Float`, `float64` and JavaScript numbers are exact
  reals. Rounding is not modelled. For example, JavaScript can sum the
  column shares to 99.99999999999999 rather than 100.
  - Reals have no NaN or infinity. A zero total weight is the separate
    `SimpleReact.NotFinite` width.
  - Go's `json.Marshal` fails on a NaN or infinite `float64`. That
    failure cannot arise in the model.
- SimpleReact.WeightedSharesFillTable: the shares sum to exactly 100 over
  the reals only. With JavaScript doubles three equal weights sum to
  99.99999999999999.
- GoBuilders: a `*ModifierModel` or `*TextStyleModel` pointer shared by
  two nodes is not modelled. In Go a `With*` call through one node also
  changes the other; here each node holds its own value.
- ComponentFactory.MockPage: `page * pageSize` and the record numbers are
  unbounded integers. Kotlin's `Int` wraps around past 2^31 - 1, so a
  very large page gives negative ids in the source.
- ComponentFactory.Prepare: the `catch` branch of `prepareComponent` is
  not modelled. That branch returns "Failed to prepare component:
  ${e.message}" with an "Error: <type>" fallback. In the source it is
  reachable: JSON decoding can leave a `type` null even though Kotlin
  declares it non-null, which is why `prepareComponent` tests
  `isNullOrBlank` first (DefaultComponentFactory.kt:94). A node whose
  own type is null stops there, but a child with a null type reaches
  `node.type.isBlank()` in `validateComponent` (:161), throws a
  `NullPointerException`, and the `catch` turns that into the "Failed to
  prepare component" error. The model's `ComponentNode.kind` is a
  `string` and cannot be null, so every modelled preparation either
  succeeds or fails blank-type or validation checks.
- The React client's `null` versus `undefined`: both are an absent
  `Option`.
- Kotlin `RenderTable.kt`, `RenderSpacer`, `RenderVideoItem` and
  `RenderHorizontalPager` of the simple renderer. The dispatcher names them (`SimpleCompose.Dispatch`),
  but their bodies are not part of this model.
- `AnalyticsEnabledComponentFactory`, the analytics events, Timber and
  `Log` logging, `SSRLogging`.
- The random price and category of mock records: the id, title,
  description and image URL are modelled (`ComponentFactory.MockRecord`).
- JavaBuilders.Step: `children(List)`, `columns(List)` and `tableData(List)`
  store the caller's list object itself (NodeBuilder.java:120-123,
  147-150 and 169-172). The model stores the list's contents as a value
  (`JList`), so a later `addChild` does not reach the caller's list, and
  the caller's own later changes to that list do not reach the node.
- JavaBuilders.AddChildAfterListAppends: states the append on the node's
  list only. In Java the same element also appears in the caller's list,
  which the model does not hold.
- JavaBuilders.AsGo: defined for leaves. The Java top bar, floating action
  button, content and children are heap references; they are dropped, not
  translated into Go nodes.
- The Java `ModifierBuilder`, `TextStyleBuilder`, `TableCellBuilder` and
  `TableColumnBuilder` setters beyond what `SSR.column`, `SSR.cell` and
  `SSR.spacer` use. Only node models have identity (aliasing); modifier
  and style objects are values.
- The sample app, the examples and the Go HTTP server.


## Findings

| source | as written | input that shows it | evidently intended | confidence | as-written member | corrected member |
|---|---|---|---|---|---|---|
| ssr-library/src/main/java/com/cincinnatiai/ssr_library/model/ComposableTree.kt:175-183 | `toModifier` starts from the `Modifier` companion and casts each call's result `as Modifier.Companion`; a chained call returns a different modifier, so the first set field throws `ClassCastException` | `CompiledModifier(padding = 8, fillMaxSize = false, fillMaxWidth = false, width = null, height = null, weight = null)` | the chain of calls the fields ask for, here `Modifier.padding(8.dp)` | not executed | ComposableTree.ToModifier, ComposableTree.PaddingCastThrows | ComposableTree.IntendedModifier, Renderer.PrecompiledModifierAgrees |

=== FILE: binder.dfy ===
/** The data binder of `DefaultComponentFactory`: `{{path}}` placeholders in
    a template node are replaced by values looked up in a record, following
    dotted paths through nested maps. */
module DataBinder {
  import opened Wrappers
  import opened Strings
  import opened ComposableTree

  /* ---------- The placeholder pattern `\{\{([^}]+)\}\}` ---------- */

  /** `s[i..e]` is one match of the pattern: "{{", one or more characters
      other than '}', then "}}". */
  predicate IsMatch(s: string, i: nat, e: nat) {
    i + 5 <= e <= |s|
    && s[i] == '{' && s[i + 1] == '{'
    && s[e - 2] == '}' && s[e - 1] == '}'
    && forall k :: i + 2 <= k < e - 2 ==> s[k] != '}'
  }

  /** The first index at or after `k` holding '}', or `|s|` if none. */
  function FirstClose(s: string, k: nat): (j: nat)
    requires k <= |s|
    ensures k <= j <= |s|
    ensures j < |s| ==> s[j] == '}'
    ensures forall m :: k <= m < j ==> s[m] != '}'
    decreases |s| - k
  {
    if k == |s| || s[k] == '}' then k else FirstClose(s, k + 1)
  }

  /** The end of the match that starts at `i`, if one does. The character
      class excludes '}', so the group can only stop at the first '}'. */
  function MatchAt(s: string, i: nat): (r: Option<nat>)
    ensures r.Some? ==> IsMatch(s, i, r.value)
    ensures r.None? ==> forall e :: !IsMatch(s, i, e)
  {
    if i + 2 <= |s| && s[i] == '{' && s[i + 1] == '{' then
      var k := FirstClose(s, i + 2);
      if k > i + 2 && k + 1 < |s| && s[k + 1] == '}' then Some(k + 2)
      else
        MatchEndsAtFirstClose(s, i);
        None
    else None
  }

  /** A match from `i` can only end just after the first '}' past "{{". */
  lemma MatchEndsAtFirstClose(s: string, i: nat)
    requires i + 2 <= |s|
    ensures forall e: nat :: IsMatch(s, i, e) ==> e == FirstClose(s, i + 2) + 2
  {
    forall e: nat | IsMatch(s, i, e) ensures e == FirstClose(s, i + 2) + 2 {
      FirstCloseIs(s, i + 2, e - 2);
    }
  }

  /** Successive matches never overlap and appear in order. */
  predicate Ordered(ms: seq<(nat, nat)>) {
    forall j :: 0 <= j < |ms| - 1 ==> ms[j].1 <= ms[j + 1].0
  }

  /** `regex.findAll(s)` from position `from`: after a match the scan resumes
      at its end, otherwise one character further on. */
  function Matches(s: string, from: nat): (ms: seq<(nat, nat)>)
    ensures forall j :: 0 <= j < |ms| ==> from <= ms[j].0 && IsMatch(s, ms[j].0, ms[j].1)
    ensures Ordered(ms)
    ensures ms == [] ==> forall i :: from <= i < |s| ==> MatchAt(s, i).None?
    decreases |s| - from
  {
    if from >= |s| then []
    else
      match MatchAt(s, from)
      case Some(e) => [(from, e)] + Matches(s, e)
      case None => Matches(s, from + 1)
  }

  /** A string without "{{" has no match. */
  lemma NoOpenNoMatch(s: string, from: nat)
    requires !Contains(s, "{{")
    ensures Matches(s, from) == []
    decreases |s| - from
  {
    if from < |s| {
      if MatchAt(s, from).Some? {
        assert s[from..from + 2] == "{{";
        ContainsAt(s, "{{", from);
      }
      NoOpenNoMatch(s, from + 1);
    }
  }

  /* ---------- `getNestedValue` ---------- */

  /** Follows `path` from `v`: every step needs a map holding the next key;
      a missing key, a JSON null or a non-map value ends in `None` (null). */
  function Walk(v: Value, path: seq<string>): (r: Option<Value>)
    ensures r.Some? ==> r.value != Null
    decreases |path|
  {
    if v == Null then None
    else if |path| == 0 then Some(v)
    else if !v.Map? then None
    else
      match Lookup(v.entries, path[0])
      case None => None
      case Some(next) => Walk(next, path[1..])
  }

  /** Walking a path in two legs is walking it at once. */
  lemma {:induction false} WalkConcat(v: Value, p: seq<string>, q: seq<string>)
    ensures Walk(v, p + q) == (if Walk(v, p).Some? then Walk(Walk(v, p).value, q) else None)
    decreases |p|
  {
    if |p| == 0 {
      assert p + q == q;
    } else if v != Null && v.Map? {
      assert (p + q)[0] == p[0] && (p + q)[1..] == p[1..] + q;
      match Lookup(v.entries, p[0])
      case None =>
      case Some(next) => WalkConcat(next, p[1..], q);
    }
  }

  /** The value a placeholder key names in `data`: the key is split on '.'
      and walked from the record itself. */
  function Resolve(data: Assoc<Value>, key: string): (r: Option<Value>)
    ensures r != Some(Null)
  {
    Walk(Map(data), Split(key, '.'))
  }

  /** A key without a dot is looked up directly in the record. */
  lemma ResolveFlatKey(data: Assoc<Value>, key: string)
    requires forall i :: 0 <= i < |key| ==> key[i] != '.'
    ensures Resolve(data, key) == (if Lookup(data, key) == Some(Null) then None else Lookup(data, key))
  {
    SplitNoDelimiter(key, '.');
    var p := Split(key, '.');
    assert p == [key] && p[1..] == [];
    match Lookup(data, key)
    case None =>
    case Some(next) => assert Walk(next, []) == (if next == Null then None else Some(next));
  }

  /** `getNestedValue`, with its loop over the path parts and its early
      `break` on null, computes `Resolve`. */
  method GetNestedValue(data: Assoc<Value>, key: string) returns (r: Option<Value>)
    ensures r == Resolve(data, key)
  {
    var parts := Split(key, '.');
    var current: Option<Value> := Some(Map(data));
    var i := 0;
    while i < |parts|
      invariant 0 <= i <= |parts|
      invariant current.Some? && current.value != Null
      invariant Walk(current.value, parts[i..]) == Resolve(data, key)
    {
      var next: Option<Value> := None;
      if current.value.Map? {
        next := Lookup(current.value.entries, parts[i]);
      }
      if next.None? || next.value == Null {
        return None;
      }
      current := next;
      i := i + 1;
    }
    return current;
  }

  /** `when (value)`: numbers and booleans print with `toString`, strings
      as themselves, null as the empty string, anything else with its
      `toString`. */
  function Stringify(v: Option<Value>): (r: string)
    ensures v.None? ==> r == ""
    ensures v.Some? && v.value.Str? ==> r == v.value.s
  {
    match v
    case None => ""
    case Some(x) => Show(x)
  }

  /* ---------- `bindStringTemplate` ---------- */

  /** The text between the braces of a match, trimmed: the lookup key. */
  function KeyOf(s: string, i: nat, e: nat): string
    requires IsMatch(s, i, e)
  {
    Trim(s[i + 2..e - 2])
  }

  /** Applies the matches found in the original template one after another
      to the running result, each replacing every occurrence of its literal
      text, as `result = result.replace(match.value, value)` does. */
  function Substitute(result: string, template: string, ms: seq<(nat, nat)>, data: Assoc<Value>): string
    requires forall j :: 0 <= j < |ms| ==> IsMatch(template, ms[j].0, ms[j].1)
    decreases |ms|
  {
    if |ms| == 0 then result
    else
      var (i, e) := ms[0];
      var value := Stringify(Resolve(data, KeyOf(template, i, e)));
      Substitute(ReplaceAll(result, template[i..e], value), template, ms[1..], data)
  }

  function BindString(template: string, data: Assoc<Value>): (r: string)
    ensures !Contains(template, "{{") ==> r == template
  {
    if !Contains(template, "{{") then NoOpenNoMatch(template, 0); BindCore(template, data)
    else BindCore(template, data)
  }

  function BindCore(template: string, data: Assoc<Value>): string {
    Substitute(template, template, Matches(template, 0), data)
  }

  /** A template that is one placeholder becomes the resolved value, or ""
      when the key resolves to nothing. */
  lemma WholePlaceholder(k: string, data: Assoc<Value>)
    requires |k| > 0 && forall i :: 0 <= i < |k| ==> k[i] != '}'
    ensures BindString("{{" + k + "}}", data) == Stringify(Resolve(data, Trim(k)))
  {
    var s := "{{" + k + "}}";
    var n := |s|;
    assert FirstClose(s, 2) == n - 2 by {
      assert forall m :: 2 <= m < n - 2 ==> s[m] == k[m - 2];
      FirstCloseIs(s, 2, n - 2);
    }
    assert MatchAt(s, 0) == Some(n);
    assert Matches(s, 0) == [(0, n)];
    assert s[2..n - 2] == k;
    assert s[0..n] == s;
    var value := Stringify(Resolve(data, Trim(k)));
    assert KeyOf(s, 0, n) == Trim(k);
    ReplaceWhole(s, value);
    assert Contains(s, "{{") by { ContainsAt(s, "{{", 0); }
    assert BindString(s, data) == Substitute(s, s, [(0, n)], data);
    assert Substitute(s, s, [(0, n)], data) == Substitute(value, s, [], data);
  }

  lemma FirstCloseIs(s: string, k: nat, j: nat)
    requires k <= j < |s| && s[j] == '}'
    requires forall m :: k <= m < j ==> s[m] != '}'
    ensures FirstClose(s, k) == j
    decreases j - k
  {
    if k < j { FirstCloseIs(s, k + 1, j); }
  }

  /* ---------- `bindDataToTemplate` and `bindDataToAction` ---------- */

  /** A property value after binding: only strings containing "{{" change. */
  function BindValue(v: Value, data: Assoc<Value>): (r: Value)
    ensures !(v.Str? && Contains(v.s, "{{")) ==> r == v
    ensures v.Str? ==> r.Str?
  {
    if v.Str? && Contains(v.s, "{{") then Str(BindString(v.s, data)) else v
  }

  /** `mapValues` over an ordered map: same keys in the same order. */
  function BindProps(props: Assoc<Value>, data: Assoc<Value>): (r: Assoc<Value>)
    ensures |r| == |props|
    ensures forall i :: 0 <= i < |r| ==> r[i].0 == props[i].0 && r[i].1 == BindValue(props[i].1, data)
  {
    if |props| == 0 then [] else [(props[0].0, BindValue(props[0].1, data))] + BindProps(props[1..], data)
  }

  /** `bindDataToTemplate`: a copy of the node with its own properties and,
      recursively, its children bound; every other field is kept. */
  function BindNode(n: ComponentNode, data: Assoc<Value>): (r: ComponentNode)
    ensures r.kind == n.kind && r.id == n.id && r.modifier == n.modifier
    ensures r.actions == n.actions && r.arrangement == n.arrangement && r.columns == n.columns
    ensures r.dataSource == n.dataSource && r.itemTemplate == n.itemTemplate
    ensures r.loadingTemplate == n.loadingTemplate
    ensures r.emptyTemplate == n.emptyTemplate && r.errorTemplate == n.errorTemplate
    ensures r.properties.Some? <==> n.properties.Some?
    ensures n.properties.Some? ==> r.properties.value == BindProps(n.properties.value, data)
    ensures r.children.ChildList? <==> n.children.ChildList?
    ensures |Kids(r)| == |Kids(n)|
    decreases n, 1
  {
    var props := if n.properties.Some? then Some(BindProps(n.properties.value, data)) else None;
    var kids := if n.children.ChildList? then ChildList(BindAll(n, n.children.nodes, data)) else NoChildren;
    n.(properties := props, children := kids)
  }

  function BindAll(parent: ComponentNode, kids: seq<ComponentNode>, data: Assoc<Value>): (r: seq<ComponentNode>)
    requires forall i :: 0 <= i < |kids| ==> kids[i] < parent
    ensures |r| == |kids|
    ensures forall i :: 0 <= i < |r| ==> r[i].kind == kids[i].kind
    decreases parent, 0, |kids|
  {
    if |kids| == 0 then [] else [BindNode(kids[0], data)] + BindAll(parent, kids[1..], data)
  }

  /** No string property anywhere in the `children` tree contains "{{". */
  predicate PlaceholderFree(n: ComponentNode)
    decreases n, 1
  {
    (n.properties.Some? ==> forall i :: 0 <= i < |n.properties.value| ==>
        !(n.properties.value[i].1.Str? && Contains(n.properties.value[i].1.s, "{{")))
    && AllPlaceholderFree(n, Kids(n))
  }

  predicate AllPlaceholderFree(parent: ComponentNode, kids: seq<ComponentNode>)
    requires forall i :: 0 <= i < |kids| ==> kids[i] < parent
    decreases parent, 0, |kids|
  {
    |kids| == 0 || (PlaceholderFree(kids[0]) && AllPlaceholderFree(parent, kids[1..]))
  }

  /** Binding a node without placeholders gives the node back unchanged. */
  lemma {:induction false} BindPlaceholderFree(n: ComponentNode, data: Assoc<Value>)
    requires PlaceholderFree(n)
    ensures BindNode(n, data) == n
    decreases n, 1
  {
    if n.properties.Some? {
      assert BindProps(n.properties.value, data) == n.properties.value;
    }
    if n.children.ChildList? {
      BindAllPlaceholderFree(n, n.children.nodes, data);
    }
  }

  lemma {:induction false} BindAllPlaceholderFree(parent: ComponentNode, kids: seq<ComponentNode>, data: Assoc<Value>)
    requires forall i :: 0 <= i < |kids| ==> kids[i] < parent
    requires AllPlaceholderFree(parent, kids)
    ensures BindAll(parent, kids, data) == kids
    decreases parent, 0, |kids|
  {
    if |kids| > 0 {
      BindPlaceholderFree(kids[0], data);
      BindAllPlaceholderFree(parent, kids[1..], data);
    }
  }

  /** Two trees with the same type tags and the same number of children
      at every node of the `children` tree. */
  predicate SameShape(a: ComponentNode, b: ComponentNode)
    decreases a, 1
  {
    a.kind == b.kind && a.children.ChildList? == b.children.ChildList?
    && |Kids(a)| == |Kids(b)| && AllSameShape(a, Kids(a), Kids(b))
  }

  predicate AllSameShape(parent: ComponentNode, xs: seq<ComponentNode>, ys: seq<ComponentNode>)
    requires forall i :: 0 <= i < |xs| ==> xs[i] < parent
    requires |xs| == |ys|
    decreases parent, 0, |xs|
  {
    |xs| == 0 || (SameShape(xs[0], ys[0]) && AllSameShape(parent, xs[1..], ys[1..]))
  }

  /** Binding preserves the tree's shape at every depth. */
  lemma {:induction false} BindKeepsShape(n: ComponentNode, data: Assoc<Value>)
    ensures SameShape(n, BindNode(n, data))
    decreases n, 1
  {
    BindAllKeepsShape(n, Kids(n), data);
  }

  lemma {:induction false} BindAllKeepsShape(parent: ComponentNode, kids: seq<ComponentNode>, data: Assoc<Value>)
    requires forall i :: 0 <= i < |kids| ==> kids[i] < parent
    ensures AllSameShape(parent, kids, BindAll(parent, kids, data))
    decreases parent, 0, |kids|
  {
    if |kids| > 0 {
      BindKeepsShape(kids[0], data);
      BindAllKeepsShape(parent, kids[1..], data);
      assert BindAll(parent, kids, data)[1..] == BindAll(parent, kids[1..], data);
    }
  }

  /** `mapValues` over action parameters. */
  function BindParams(params: Assoc<string>, data: Assoc<Value>): (r: Assoc<string>)
    ensures |r| == |params|
    ensures forall i :: 0 <= i < |r| ==> r[i].0 == params[i].0 && r[i].1 == BindString(params[i].1, data)
  {
    if |params| == 0 then [] else [(params[0].0, BindString(params[0].1, data))] + BindParams(params[1..], data)
  }

  /** `bindDataToAction`: only the parameters are bound, every one of them. */
  function BindAction(a: ActionConfig, data: Assoc<Value>): (r: ActionConfig)
    ensures r.kind == a.kind && r.destination == a.destination
    ensures r.params.Some? <==> a.params.Some?
    ensures a.params.Some? ==> r.params.value == BindParams(a.params.value, data)
  {
    a.(params := if a.params.Some? then Some(BindParams(a.params.value, data)) else None)
  }

  /* ---------- Worked examples ---------- */

  /** Positions without a match are skipped by the scan. */
  lemma {:induction false} MatchesSkip(s: string, from: nat, to: nat)
    requires from <= to <= |s|
    requires forall i :: from <= i < to ==> MatchAt(s, i).None?
    ensures Matches(s, from) == Matches(s, to)
    decreases |s| - from
  {
    if from < to { MatchesSkip(s, from + 1, to); }
  }

  /** A placeholder on its own is one match spanning all of it. */
  lemma PlaceholderMatch(k: string)
    requires |k| > 0 && forall i :: 0 <= i < |k| ==> k[i] != '}'
    ensures MatchAt("{{" + k + "}}", 0) == Some(|k| + 4)
  {
    var s := "{{" + k + "}}";
    var n := |s|;
    assert forall m :: 2 <= m < n - 2 ==> s[m] == k[m - 2];
    FirstCloseIs(s, 2, n - 2);
  }

  /** Scanning for '}' is unaffected by text in front. */
  lemma {:induction false} FirstCloseShift(p: string, t: string, j: nat)
    requires j <= |t|
    ensures FirstClose(p + t, |p| + j) == |p| + FirstClose(t, j)
    decreases |t| - j
  {
    assert forall m :: |p| <= m < |p + t| ==> (p + t)[m] == t[m - |p|];
    if j < |t| && t[j] != '}' {
      FirstCloseShift(p, t, j + 1);
    }
  }

  /** A match is unaffected by text in front of it. */
  lemma MatchAtShift(p: string, t: string, i: nat)
    ensures MatchAt(p + t, |p| + i) == (if MatchAt(t, i).Some? then Some(|p| + MatchAt(t, i).value) else None)
  {
    var s := p + t;
    assert forall m :: |p| <= m < |s| ==> s[m] == t[m - |p|];
    if i + 2 <= |t| {
      FirstCloseShift(p, t, i + 2);
    }
  }

  /** The only match in text without '{' followed by one placeholder is
      that placeholder. */
  lemma MatchesOfPrefixed(p: string, k: string, pat: string)
    requires forall i :: 0 <= i < |p| ==> p[i] != '{'
    requires |k| > 0 && forall i :: 0 <= i < |k| ==> k[i] != '}'
    requires pat == "{{" + k + "}}"
    ensures Matches(p + pat, 0) == [(|p|, |p| + |pat|)]
  {
    var s := p + pat;
    assert MatchAt(s, |p|) == Some(|s|) by {
      PlaceholderMatch(k);
      MatchAtShift(p, pat, 0);
    }
    forall i | 0 <= i < |p| ensures MatchAt(s, i).None? {
      assert s[i] == p[i];
    }
    OnlyMatch(s, |p|);
  }

  /** Nothing matches before `h` and the match at `h` runs to the end:
      it is the only one. */
  lemma OnlyMatch(s: string, h: nat)
    requires h < |s| && MatchAt(s, h) == Some(|s|)
    requires forall i :: 0 <= i < h ==> MatchAt(s, i).None?
    ensures Matches(s, 0) == [(h, |s|)]
  {
    MatchesSkip(s, 0, h);
    MatchesStep(s, h, |s|);
    MatchesEnd(s);
  }

  lemma MatchesStep(s: string, from: nat, e: nat)
    requires from < |s| && MatchAt(s, from) == Some(e)
    ensures Matches(s, from) == [(from, e)] + Matches(s, e)
  {
  }

  lemma MatchesEnd(s: string)
    ensures Matches(s, |s|) == []
  {
  }

  /** Text without '{' followed by one placeholder: the text is kept and
      the placeholder becomes its resolved value. */
  lemma PrefixedPlaceholder(p: string, k: string, pat: string, data: Assoc<Value>)
    requires forall i :: 0 <= i < |p| ==> p[i] != '{'
    requires |k| > 0 && forall i :: 0 <= i < |k| ==> k[i] != '}'
    requires pat == "{{" + k + "}}"
    ensures BindString(p + pat, data) == p + Stringify(Resolve(data, Trim(k)))
  {
    var s := p + pat;
    MatchesOfPrefixed(p, k, pat);
    BindOneMatch(s, |p|, |s|, data);
    PrefixedKey(p, k, pat);
    ReplaceAfterPrefix(p, pat, pat, Stringify(Resolve(data, Trim(k))));
    ReplaceWhole(pat, Stringify(Resolve(data, Trim(k))));
  }

  /** A template whose scan finds exactly one match replaces that match's
      text everywhere by its value. */
  lemma BindOneMatch(s: string, i: nat, e: nat, data: Assoc<Value>)
    requires IsMatch(s, i, e) && Matches(s, 0) == [(i, e)]
    ensures BindString(s, data) == ReplaceAll(s, s[i..e], Stringify(Resolve(data, KeyOf(s, i, e))))
  {
    assert s[i..i + 2] == "{{";
    ContainsAt(s, "{{", i);
    SubstituteOne(s, i, e, data);
  }

  lemma PrefixedKey(p: string, k: string, pat: string)
    requires |k| > 0 && forall i :: 0 <= i < |k| ==> k[i] != '}'
    requires pat == "{{" + k + "}}"
    ensures IsMatch(p + pat, |p|, |p + pat|)
    ensures (p + pat)[|p|..|p + pat|] == pat
    ensures KeyOf(p + pat, |p|, |p + pat|) == Trim(k)
  {
    WrappedKeyMatches(k, pat);
    MatchShifts(p, pat, 0, |pat|);
    var s := p + pat;
    assert s[|p|..|s|] == pat by {
      assert s[|p| + 0..|p| + |pat|] == pat[0..|pat|];
    }
    KeyBehindPrefix(p, k, pat);
  }

  /** The key read back from a placeholder behind a prefix is the trimmed
      key it was built from. */
  lemma KeyBehindPrefix(p: string, k: string, pat: string)
    requires IsMatch(pat, 0, |pat|) && pat[2..|pat| - 2] == k
    requires IsMatch(p + pat, |p|, |p + pat|)
    ensures KeyOf(p + pat, |p|, |p + pat|) == Trim(k)
  {
    var s := p + pat;
    forall j | 0 <= j < |k| ensures s[|p| + 2..|s| - 2][j] == k[j] {
      assert s[|p| + 2 + j] == pat[2 + j];
    }
    assert s[|p| + 2..|s| - 2] == k;
  }

  /** "{{" + k + "}}" is a match on its own, with `k` between the braces. */
  lemma WrappedKeyMatches(k: string, pat: string)
    requires |k| > 0 && forall i :: 0 <= i < |k| ==> k[i] != '}'
    requires pat == "{{" + k + "}}"
    ensures IsMatch(pat, 0, |pat|) && pat[2..|pat| - 2] == k
  {
    forall j | 2 <= j < |pat| - 2 ensures pat[j] != '}' {
      assert pat[j] == k[j - 2];
    }
    assert pat[2..|pat| - 2] == k;
  }

  /** A match stays a match, over the same text, behind any prefix. */
  lemma MatchShifts(p: string, t: string, i: nat, e: nat)
    requires IsMatch(t, i, e)
    ensures IsMatch(p + t, |p| + i, |p| + e)
    ensures (p + t)[|p| + i..|p| + e] == t[i..e]
    ensures (p + t)[|p| + i + 2..|p| + e - 2] == t[i + 2..e - 2]
  {
    var s := p + t;
    forall j | |p| + i + 2 <= j < |p| + e - 2 ensures s[j] != '}' {
      assert s[j] == t[j - |p|];
    }
    assert s[|p| + i..|p| + e] == t[i..e];
    assert s[|p| + i + 2..|p| + e - 2] == t[i + 2..e - 2];
  }

  lemma SubstituteOne(s: string, i: nat, e: nat, data: Assoc<Value>)
    requires IsMatch(s, i, e)
    ensures Substitute(s, s, [(i, e)], data)
      == ReplaceAll(s, s[i..e], Stringify(Resolve(data, KeyOf(s, i, e))))
  {
  }

  /** A key of two dot-free segments splits into those segments. */
  lemma SplitTwo(a: string, b: string)
    requires forall i :: 0 <= i < |a| ==> a[i] != '.'
    requires forall i :: 0 <= i < |b| ==> b[i] != '.'
    ensures Split(a + ['.'] + b, '.') == [a, b]
  {
    SplitOnce(a, b, '.');
    SplitNoDelimiter(b, '.');
  }

  /** A two-segment key looks its second segment up in the map the first
      one names. */
  lemma ResolveTwo(data: Assoc<Value>, a: string, b: string, inner: Assoc<Value>)
    requires forall i :: 0 <= i < |a| ==> a[i] != '.'
    requires forall i :: 0 <= i < |b| ==> b[i] != '.'
    requires Lookup(data, a) == Some(Map(inner))
    ensures Resolve(data, a + ['.'] + b)
      == (if Lookup(inner, b) == Some(Null) then None else Lookup(inner, b))
  {
    SplitTwo(a, b);
    var path := [a, b];
    assert path[1..] == [b] && [b][1..] == [];
    assert Resolve(data, a + ['.'] + b) == Walk(Map(inner), [b]);
    match Lookup(inner, b)
    case None =>
    case Some(v) => assert Walk(v, []) == (if v == Null then None else Some(v));
  }

  /** "Hello {{item.name}}" bound to {item: {name: "Sam"}} gives "Hello Sam". */
  lemma HelloExample(t: string, data: Assoc<Value>)
    requires t == "Hello {{item.name}}"
    requires data == [("item", Map([("name", Str("Sam"))]))]
    ensures BindString(t, data) == "Hello Sam"
  {
    HelloTemplate(t, data);
    HelloData(data);
    ConcatSam();
  }

  lemma ConcatSam()
    ensures "Hello " + Stringify(Some(Str("Sam"))) == "Hello Sam"
  {
  }

  lemma HelloTemplate(t: string, data: Assoc<Value>)
    requires t == "Hello {{item.name}}"
    ensures BindString(t, data) == "Hello " + Stringify(Resolve(data, "item.name"))
  {
    PrefixedTrimmed(t, "Hello ", "item.name", data);
  }

  /** `PrefixedPlaceholder` for a key with no blanks around it. */
  lemma PrefixedTrimmed(t: string, p: string, k: string, data: Assoc<Value>)
    requires forall i :: 0 <= i < |p| ==> p[i] != '{'
    requires |k| > 0 && forall i :: 0 <= i < |k| ==> k[i] != '}'
    requires !IsWhitespace(k[0]) && !IsWhitespace(k[|k| - 1])
    requires t == p + "{{" + k + "}}"
    ensures BindString(t, data) == p + Stringify(Resolve(data, k))
  {
    var pat := "{{" + k + "}}";
    assert t == p + pat;
    PrefixedPlaceholder(p, k, pat, data);
    TrimNoop(k);
  }

  lemma HelloData(data: Assoc<Value>)
    requires data == [("item", Map([("name", Str("Sam"))]))]
    ensures Resolve(data, "item.name") == Some(Str("Sam"))
  {
    assert "item.name" == "item" + ['.'] + "name";
    ResolveTwo(data, "item", "name", [("name", Str("Sam"))]);
  }

  /** "{{item.missing}}" bound to {item: {}} gives the empty string. */
  lemma MissingExample(t: string, data: Assoc<Value>)
    requires t == "{{item.missing}}"
    requires data == [("item", Map([]))]
    ensures BindString(t, data) == ""
  {
    MissingTemplate(t, data);
    MissingData(data);
  }

  lemma MissingTemplate(t: string, data: Assoc<Value>)
    requires t == "{{item.missing}}"
    ensures BindString(t, data) == Stringify(Resolve(data, "item.missing"))
  {
    TrimmedPlaceholder(t, "item.missing", data);
  }

  lemma MissingData(data: Assoc<Value>)
    requires data == [("item", Map([]))]
    ensures Resolve(data, "item.missing") == None
  {
    assert "item.missing" == "item" + ['.'] + "missing";
    ResolveTwo(data, "item", "missing", []);
  }

  /** "{{a.b.c}}" bound to {a: {b: {c: 42}}} gives "42": three levels deep. */
  lemma NestedExample(t: string, data: Assoc<Value>)
    requires t == "{{a.b.c}}"
    requires data == [("a", Map([("b", Map([("c", Num("42"))]))]))]
    ensures BindString(t, data) == "42"
  {
    NestedTemplate(t, data);
    NestedData(data);
  }

  lemma NestedTemplate(t: string, data: Assoc<Value>)
    requires t == "{{a.b.c}}"
    ensures BindString(t, data) == Stringify(Resolve(data, "a.b.c"))
  {
    TrimmedPlaceholder(t, "a.b.c", data);
  }

  /** `WholePlaceholder` for a key with no blanks around it. */
  lemma TrimmedPlaceholder(t: string, k: string, data: Assoc<Value>)
    requires |k| > 0 && forall i :: 0 <= i < |k| ==> k[i] != '}'
    requires !IsWhitespace(k[0]) && !IsWhitespace(k[|k| - 1])
    requires t == "{{" + k + "}}"
    ensures BindString(t, data) == Stringify(Resolve(data, k))
  {
    WholePlaceholder(k, data);
    TrimNoop(k);
  }

  lemma NestedData(data: Assoc<Value>)
    requires data == [("a", Map([("b", Map([("c", Num("42"))]))]))]
    ensures Resolve(data, "a.b.c") == Some(Num("42"))
  {
    var inner := [("b", Map([("c", Num("42"))]))];
    assert "a.b.c" == "a" + ['.'] + "b.c";
    assert "b.c" == "b" + ['.'] + "c";
    SplitOnce("a", "b.c", '.');
    SplitTwo("b", "c");
    assert Split("a.b.c", '.') == ["a", "b", "c"];
    assert Resolve(data, "a.b.c") == Walk(Map(inner), ["b", "c"]);
    assert ResolveInner: Walk(Map(inner), ["b", "c"]) == Resolve(inner, "b.c") by {
      assert Split("b.c", '.') == ["b", "c"];
    }
    ResolveTwo(inner, "b", "c", [("c", Num("42"))]);
  }

  /* ---------- Templates with several placeholders ---------- */

  /** Text that cannot start a placeholder: it holds no '{'. */
  predicate Plain(s: string) {
    forall i :: 0 <= i < |s| ==> s[i] != '{'
  }

  /** A key as written between the braces: non-empty and free of braces. */
  predicate BraceFree(k: string) {
    |k| > 0 && forall i :: 0 <= i < |k| ==> k[i] != '{' && k[i] != '}'
  }

  function Placeholder(k: string): string {
    "{{" + k + "}}"
  }

  /** The text a written key is replaced by. */
  function ValueOf(data: Assoc<Value>, k: string): string {
    Stringify(Resolve(data, Trim(k)))
  }

  /** A template written as text, placeholder, text, placeholder, ...,
      text: each pair is the text before a placeholder and its key. */
  function Layout(ps: seq<(string, string)>, tail: string): string {
    if |ps| == 0 then tail else ps[0].0 + Placeholder(ps[0].1) + Layout(ps[1..], tail)
  }

  /** The text around the placeholders holds no '{' and every key is
      brace-free. */
  predicate LaidOut(ps: seq<(string, string)>, tail: string) {
    Plain(tail) && forall j :: 0 <= j < |ps| ==> Plain(ps[j].0) && BraceFree(ps[j].1)
  }

  /** The keys of the placeholders. */
  function Keys(ps: seq<(string, string)>): (ks: set<string>)
    ensures forall j :: 0 <= j < |ps| ==> ps[j].1 in ks
  {
    if |ps| == 0 then {} else {ps[0].1} + Keys(ps[1..])
  }

  /** The reference result: read left to right, each placeholder is
      replaced where it stands by its value. */
  function Filled(ps: seq<(string, string)>, tail: string, data: Assoc<Value>): string {
    if |ps| == 0 then tail else ps[0].0 + ValueOf(data, ps[0].1) + Filled(ps[1..], tail, data)
  }

  /** `bindStringTemplate` on a laid-out template whose values hold no '{':
      every placeholder, repeated or not, is replaced where it stands by
      its value, as the left-to-right reading gives. */
  lemma BindEveryPlaceholder(ps: seq<(string, string)>, tail: string, data: Assoc<Value>)
    requires LaidOut(ps, tail)
    requires forall j :: 0 <= j < |ps| ==> Plain(ValueOf(data, ps[j].1))
    ensures BindString(Layout(ps, tail), data) == Filled(ps, tail, data)
  {
    var t := Layout(ps, tail);
    var vs := seq(|ps|, j requires 0 <= j < |ps| => ValueOf(data, ps[j].1));
    assert t[0..] == t;
    PlaceholdersMatch(t, 0, ps, tail);
    var ms := Matches(t, 0);
    FillNothing(ps, tail, vs);
    SubstituteFills(t, ms, ps, ps, tail, vs, data, {});
    FillEverything(ps, tail, vs, data, {} + Keys(ps));
  }

  /** The template with the placeholders whose keys are in `done` replaced
      by their values `vs` and the others still written out. */
  function Fill(ps: seq<(string, string)>, tail: string, vs: seq<string>, done: set<string>): string
    requires |vs| == |ps|
  {
    if |ps| == 0 then tail
    else
      ps[0].0 + (if ps[0].1 in done then vs[0] else Placeholder(ps[0].1))
      + Fill(ps[1..], tail, vs[1..], done)
  }

  lemma {:induction false} FillNothing(ps: seq<(string, string)>, tail: string, vs: seq<string>)
    requires |vs| == |ps|
    ensures Fill(ps, tail, vs, {}) == Layout(ps, tail)
    decreases |ps|
  {
    if |ps| > 0 { FillNothing(ps[1..], tail, vs[1..]); }
  }

  lemma {:induction false} FillEverything(ps: seq<(string, string)>, tail: string, vs: seq<string>, data: Assoc<Value>, done: set<string>)
    requires |vs| == |ps| && forall j :: 0 <= j < |ps| ==> ps[j].1 in done && vs[j] == ValueOf(data, ps[j].1)
    ensures Fill(ps, tail, vs, done) == Filled(ps, tail, data)
    decreases |ps|
  {
    if |ps| > 0 {
      assert ps[0].1 in done;
      FillEverything(ps[1..], tail, vs[1..], data, done);
    }
  }

  /** Text without '{' holds no match. */
  lemma PlainNoMatches(s: string, from: nat)
    requires from <= |s| && forall i :: from <= i < |s| ==> s[i] != '{'
    ensures Matches(s, from) == []
  {
    MatchesSkip(s, from, |s|);
    MatchesEnd(s);
  }

  /** The scan finds exactly the laid-out placeholders, in order. */
  lemma {:induction false} PlaceholdersMatch(s: string, from: nat, ps: seq<(string, string)>, tail: string)
    requires from <= |s| && s[from..] == Layout(ps, tail) && LaidOut(ps, tail)
    ensures var ms := Matches(s, from);
      |ms| == |ps| && forall j :: 0 <= j < |ms| ==> s[ms[j].0..ms[j].1] == Placeholder(ps[j].1)
    decreases |ps|
  {
    if |ps| == 0 {
      forall i | from <= i < |s| ensures s[i] != '{' {
        assert s[i] == tail[i - from];
      }
      PlainNoMatches(s, from);
    } else {
      var lit, k, rest := ps[0].0, ps[0].1, Layout(ps[1..], tail);
      var h := from + |lit|;
      var e := h + |k| + 4;
      LayoutSlices(s, from, lit, k, rest);
      PlaceholderAfterText(s, from, lit, k, h, e);
      assert LaidOut(ps[1..], tail);
      PlaceholdersMatch(s, e, ps[1..], tail);
      ConsPlaceholders(s, Matches(s, from), (h, e), Matches(s, e), ps);
    }
  }

  /** Placeholders found one after another: the first, then the rest. */
  lemma ConsPlaceholders(s: string, ms: seq<(nat, nat)>, m: (nat, nat), rest: seq<(nat, nat)>, ps: seq<(string, string)>)
    requires |ps| > 0 && ms == [m] + rest && |rest| == |ps| - 1
    requires m.0 <= m.1 <= |s| && s[m.0..m.1] == Placeholder(ps[0].1)
    requires forall j :: 0 <= j < |rest| ==> rest[j].0 <= rest[j].1 <= |s|
    requires forall j :: 0 <= j < |rest| ==> s[rest[j].0..rest[j].1] == Placeholder(ps[1..][j].1)
    ensures |ms| == |ps| && forall j :: 0 <= j < |ms| ==> ms[j].0 <= ms[j].1 <= |s|
    ensures forall j :: 0 <= j < |ms| ==> s[ms[j].0..ms[j].1] == Placeholder(ps[j].1)
  {
    forall j | 0 < j < |ms| ensures s[ms[j].0..ms[j].1] == Placeholder(ps[j].1) {
      assert ms[j] == rest[j - 1] && ps[j] == ps[1..][j - 1];
    }
  }

  /** Text without '{' and then a placeholder: the scan's next match is
      that placeholder. */
  lemma PlaceholderAfterText(s: string, from: nat, lit: string, k: string, h: nat, e: nat)
    requires Plain(lit) && BraceFree(k)
    requires h == from + |lit| && e == h + |k| + 4 && e <= |s|
    requires s[from..h] == lit && s[h..e] == Placeholder(k)
    ensures Matches(s, from) == [(h, e)] + Matches(s, e)
  {
    TextAt(s, from, lit);
    PlaceholderAt(s, h, k);
    NextMatch(s, from, h, e);
  }

  /** Where text without '{' sits, no character is '{'. */
  lemma TextAt(s: string, from: nat, lit: string)
    requires Plain(lit) && from + |lit| <= |s| && s[from..from + |lit|] == lit
    ensures forall i :: from <= i < from + |lit| ==> s[i] != '{'
  {
    forall i | from <= i < from + |lit| ensures s[i] != '{' {
      assert s[i] == s[from..from + |lit|][i - from];
    }
  }

  /** Where a brace-free key in braces sits, character by character. */
  lemma PlaceholderAt(s: string, h: nat, k: string)
    requires BraceFree(k) && h + |k| + 4 <= |s| && s[h..h + |k| + 4] == Placeholder(k)
    ensures var e := h + |k| + 4;
      s[h] == '{' && s[h + 1] == '{' && s[e - 2] == '}' && s[e - 1] == '}'
      && forall m :: h + 2 <= m < e - 2 ==> s[m] != '{' && s[m] != '}'
  {
    var p := Placeholder(k);
    assert forall m :: h <= m < h + |k| + 4 ==> s[m] == p[m - h];
    assert forall m :: h + 2 <= m < h + 2 + |k| ==> s[m] == k[m - h - 2];
  }

  /** The scan skips characters other than '{' and then takes the match
      standing at `h`. */
  lemma NextMatch(s: string, from: nat, h: nat, e: nat)
    requires from <= h && h + 5 <= e <= |s|
    requires forall i :: from <= i < h ==> s[i] != '{'
    requires s[h] == '{' && s[h + 1] == '{' && s[e - 2] == '}' && s[e - 1] == '}'
    requires forall m :: h + 2 <= m < e - 2 ==> s[m] != '{' && s[m] != '}'
    ensures Matches(s, from) == [(h, e)] + Matches(s, e)
  {
    forall i | from <= i < h ensures MatchAt(s, i).None? {
      assert s[i] != '{';
    }
    MatchesSkip(s, from, h);
    FirstCloseIs(s, h + 2, e - 2);
    MatchesStep(s, h, e);
  }

  /** Where the parts of `lit + Placeholder(k) + rest` sit in `s`. */
  lemma LayoutSlices(s: string, from: nat, lit: string, k: string, rest: string)
    requires from <= |s| && s[from..] == lit + Placeholder(k) + rest
    ensures from + |lit| + |k| + 4 <= |s|
    ensures s[from..from + |lit|] == lit
    ensures s[from + |lit|..from + |lit| + |k| + 4] == Placeholder(k)
    ensures s[from + |lit| + |k| + 4..] == rest
  {
    var u := s[from..];
    assert u[..|lit|] == lit && u[|lit|..|lit| + |k| + 4] == Placeholder(k) && u[|lit| + |k| + 4..] == rest;
  }

  /** Replaying the scan's matches one after another fills in the keys
      they carry, wherever those keys stand. */
  lemma {:induction false} SubstituteFills(t: string, ms: seq<(nat, nat)>, all: seq<(string, string)>, qs: seq<(string, string)>,
                                          tail: string, vs: seq<string>, data: Assoc<Value>, done: set<string>)
    requires |ms| == |qs| && forall j :: 0 <= j < |ms| ==>
      IsMatch(t, ms[j].0, ms[j].1) && t[ms[j].0..ms[j].1] == Placeholder(qs[j].1) && BraceFree(qs[j].1)
    requires LaidOut(all, tail) && |vs| == |all|
    requires forall j :: 0 <= j < |all| ==> vs[j] == ValueOf(data, all[j].1) && Plain(vs[j])
    ensures Substitute(Fill(all, tail, vs, done), t, ms, data) == Fill(all, tail, vs, done + Keys(qs))
    decreases |ms|
  {
    if |ms| == 0 {
      assert done + Keys(qs) == done;
    } else {
      var (i, e) := ms[0];
      var k := qs[0].1;
      KeyOfPlaceholder(t, i, e, k);
      FillStep(all, tail, vs, done, k, ValueOf(data, k));
      SubstituteFills(t, ms[1..], all, qs[1..], tail, vs, data, done + {k});
      assert done + {k} + Keys(qs[1..]) == done + Keys(qs);
    }
  }

  lemma KeyOfPlaceholder(t: string, i: nat, e: nat, k: string)
    requires IsMatch(t, i, e) && t[i..e] == Placeholder(k)
    ensures KeyOf(t, i, e) == Trim(k)
  {
    InnerOfPlaceholder(t, i, e, k);
  }

  lemma InnerOfPlaceholder(t: string, i: nat, e: nat, k: string)
    requires i <= e <= |t| && t[i..e] == Placeholder(k)
    ensures i + 4 <= e && t[i + 2..e - 2] == k
  {
    var p := t[i..e];
    assert |p| == |k| + 4;
    assert p[2..|p| - 2] == k;
    forall m | 0 <= m < |k| ensures t[i + 2..e - 2][m] == k[m] {
      assert t[i + 2 + m] == p[2 + m] == p[2..|p| - 2][m];
    }
  }

  /** Replacing one key's placeholder text everywhere fills in exactly the
      placeholders with that key. */
  lemma {:induction false} FillStep(all: seq<(string, string)>, tail: string, vs: seq<string>, done: set<string>, k: string, v: string)
    requires LaidOut(all, tail) && |vs| == |all| && forall j :: 0 <= j < |all| ==> Plain(vs[j])
    requires BraceFree(k) && forall j :: 0 <= j < |all| && all[j].1 == k ==> vs[j] == v
    ensures ReplaceAll(Fill(all, tail, vs, done), Placeholder(k), v) == Fill(all, tail, vs, done + {k})
    decreases |all|
  {
    var pat := Placeholder(k);
    if |all| == 0 {
      ReplaceAfterPrefix(tail, "", pat, v);
      assert tail + "" == tail;
    } else {
      var lit, k0 := all[0].0, all[0].1;
      var piece := if k0 in done then vs[0] else Placeholder(k0);
      var piece' := if k0 in done + {k} then vs[0] else Placeholder(k0);
      var rest := Fill(all[1..], tail, vs[1..], done);
      assert LaidOut(all[1..], tail);
      FillStep(all[1..], tail, vs[1..], done, k, v);
      PieceStep(k0, k, piece, piece', rest, v, k0 in done, vs[0]);
      TextStep(lit, piece, piece', rest, pat, v);
    }
  }

  /** One placeholder or value passed by the replacement of `k`. */
  lemma PieceStep(k0: string, k: string, piece: string, piece': string, rest: string, v: string, filled: bool, value: string)
    requires BraceFree(k0) && BraceFree(k) && Plain(value) && (k0 == k ==> value == v)
    requires piece == (if filled then value else Placeholder(k0))
    requires piece' == (if filled || k0 == k then value else Placeholder(k0))
    ensures ReplaceAll(piece + rest, Placeholder(k), v) == piece' + ReplaceAll(rest, Placeholder(k), v)
  {
    if filled {
      ReplaceAfterPrefix(piece, rest, Placeholder(k), v);
    } else if k0 == k {
      ReplaceAtFront(Placeholder(k), rest, v);
    } else {
      SkipOtherPlaceholder(k0, k, rest, v);
    }
  }

  /** Text without '{' in front of a replaced piece is kept. */
  lemma TextStep(lit: string, piece: string, piece': string, rest: string, pat: string, v: string)
    requires Plain(lit) && |pat| > 0 && pat[0] == '{'
    requires ReplaceAll(piece + rest, pat, v) == piece' + ReplaceAll(rest, pat, v)
    ensures ReplaceAll(lit + piece + rest, pat, v) == lit + piece' + ReplaceAll(rest, pat, v)
  {
    assert lit + piece + rest == lit + (piece + rest);
    ReplaceAfterPrefix(lit, piece + rest, pat, v);
  }

  /** Another key's placeholder is passed over whole. */
  lemma SkipOtherPlaceholder(k0: string, k: string, rest: string, v: string)
    requires BraceFree(k0) && BraceFree(k) && k0 != k
    ensures ReplaceAll(Placeholder(k0) + rest, Placeholder(k), v) == Placeholder(k0) + ReplaceAll(rest, Placeholder(k), v)
  {
    OtherPlaceholderDiffers(k0, k, rest);
    PlaceholderShape(k0);
    SkipOpening(Placeholder(k0), rest, Placeholder(k), v);
  }

  /** Text that opens with "{{" and holds no other '{' is kept whole when
      the pattern does not start there. */
  lemma SkipOpening(q: string, rest: string, pat: string, v: string)
    requires |q| > 2 && q[0] == '{' && q[1] == '{' && q[2] != '{'
    requires forall i :: 0 <= i < |q[2..]| ==> q[2..][i] != '{'
    requires |pat| > 1 && pat[0] == '{' && pat[1] == '{'
    requires |q + rest| >= |pat| ==> (q + rest)[..|pat|] != pat
    ensures ReplaceAll(q + rest, pat, v) == q + ReplaceAll(rest, pat, v)
  {
    SkipBraces(q, rest, pat, v);
    ReplaceAfterPrefix(q[2..], rest, pat, v);
    var a, b, c := q[..2], q[2..], ReplaceAll(rest, pat, v);
    assert a + (b + c) == (a + b) + c;
    assert a + b == q;
  }

  lemma PlaceholderShape(k: string)
    requires BraceFree(k)
    ensures var q := Placeholder(k);
      |q| > 2 && q[0] == '{' && q[1] == '{' && q[2] != '{'
      && (forall i :: 0 <= i < |q[2..]| ==> q[2..][i] != '{')
  {
    var q := Placeholder(k);
    assert q[2..] == k + "}}";
  }

  /** The opening braces of a placeholder the pattern does not start are
      kept when the next character is no brace. */
  lemma SkipBraces(q: string, rest: string, pat: string, v: string)
    requires |q| > 2 && q[0] == '{' && q[1] == '{' && q[2] != '{'
    requires |pat| > 1 && pat[0] == '{' && pat[1] == '{'
    requires |q + rest| >= |pat| ==> (q + rest)[..|pat|] != pat
    ensures ReplaceAll(q + rest, pat, v) == q[..2] + ReplaceAll(q[2..] + rest, pat, v)
  {
    SkipFirst(q + rest, pat, v);
    var s1 := (q + rest)[1..];
    assert s1 == q[1..] + rest && s1[1] == q[2];
    SkipFirst(s1, pat, v);
    assert s1[1..] == q[2..] + rest;
    assert q[..2] == [q[0]] + [s1[0]];
  }

  /** Another key's placeholder does not start with this one's. */
  lemma OtherPlaceholderDiffers(k0: string, k: string, rest: string)
    requires BraceFree(k0) && BraceFree(k) && k0 != k
    ensures var s, pat := Placeholder(k0) + rest, Placeholder(k);
      |s| >= |pat| ==> s[..|pat|] != pat
  {
    var q, pat := Placeholder(k0), Placeholder(k);
    var s := q + rest;
    if |s| >= |pat| {
      if |k0| == |k| {
        assert s[..|pat|] == q;
        assert q[2..|q| - 2] == k0 && pat[2..|pat| - 2] == k;
      } else if |k0| > |k| {
        assert s[|pat| - 2] == k0[|k|];
      } else {
        assert pat[|q| - 2] == k[|k0|];
        assert s[|q| - 2] == '}';
      }
    }
  }

  /** A first character where the pattern does not start is kept. */
  lemma SkipFirst(s: string, pat: string, v: string)
    requires |pat| > 0 && |s| > 0 && (|s| >= |pat| ==> s[..|pat|] != pat)
    ensures ReplaceAll(s, pat, v) == [s[0]] + ReplaceAll(s[1..], pat, v)
  {
    if |s| < |pat| {
      assert s == [s[0]] + s[1..];
    }
  }
}

=== FILE: chartcolors.dfy ===
/** Colour strings of the chart components and of the component factory:
    `parseColor`, `parseColorV2`, `parseHexColor`, and the choice of colour
    string for the i-th bar, slice, series or legend entry. */
module ChartColors {
  import opened Wrappers
  import opened Strings

  const Two24: int := 0x100_0000
  const Two32: int := 0x1_0000_0000
  const Two63: int := 0x8000_0000_0000_0000

  /** A Compose colour built from a `Long`: the low 32 bits, as ARGB. */
  datatype Color = Color(argb: int)

  /** The named colours of Compose, as ARGB. */
  const Black := Color(0xFF00_0000)
  const White := Color(0xFFFF_FFFF)
  const Red := Color(0xFFFF_0000)
  const Green := Color(0xFF00_FF00)
  const Blue := Color(0xFF00_00FF)
  const Gray := Color(0xFF88_8888)
  const Yellow := Color(0xFFFF_FF00)
  const Cyan := Color(0xFF00_FFFF)
  const Magenta := Color(0xFFFF_00FF)
  const Transparent := Color(0)

  /** `Color(x)` for a `Long` `x`: keeps the low 32 bits (Dafny's `%` is
      Euclidean, so a negative `x` yields its two's-complement bits). */
  function FromLong(x: int): (c: Color)
    ensures 0 <= c.argb < Two32
    ensures 0 <= x < Two32 ==> c.argb == x
  {
    Color(x % Two32)
  }

  /** `Color(0xFF000000 or x)`: the low 32 bits of `x` with the alpha byte
      forced to FF, i.e. FF over the low 24 bits of `x`. */
  function Opaque(x: int): (c: Color)
    ensures 0xFF00_0000 <= c.argb < Two32
    ensures 0 <= x < Two24 ==> c.argb == 0xFF00_0000 + x
  {
    Color(0xFF00_0000 + (x % Two32) % Two24)
  }

  /* ---------- `String.toLong(16)` ---------- */

  /** Value of an ASCII hexadecimal digit, either case. */
  function HexDigit(c: char): Option<nat> {
    if '0' <= c <= '9' then Some(c as int - '0' as int)
    else if 'a' <= c <= 'f' then Some(c as int - 'a' as int + 10)
    else if 'A' <= c <= 'F' then Some(c as int - 'A' as int + 10)
    else None
  }

  predicate AllHex(s: string) {
    forall i :: 0 <= i < |s| ==> HexDigit(s[i]).Some?
  }

  /** The number the hexadecimal digits `s` spell, most significant first. */
  function DigitsValue(s: string): (v: nat)
    requires AllHex(s)
  {
    if |s| == 0 then 0 else 16 * DigitsValue(s[..|s| - 1]) + HexDigit(s[|s| - 1]).value
  }

  function Pow16(n: nat): (p: nat)
    ensures p > 0
  {
    if n == 0 then 1 else 16 * Pow16(n - 1)
  }

  lemma {:induction false} DigitsBound(s: string)
    requires AllHex(s)
    ensures DigitsValue(s) < Pow16(|s|)
    decreases |s|
  {
    if |s| > 0 {
      DigitsBound(s[..|s| - 1]);
    }
  }

  /** `java.lang.Long.parseLong(s, 16)`: an optional sign, at least one
      hexadecimal digit and nothing else, and a value inside the `Long`
      range; anything else throws `NumberFormatException` (here `None`). */
  function ParseLong16(s: string): (r: Option<int>)
    ensures r.Some? ==> -Two63 <= r.value < Two63
    ensures r.Some? ==> |s| > 0
    ensures AllHex(s) && |s| > 0 && DigitsValue(s) < Two63 ==> r == Some(DigitsValue(s))
  {
    if |s| == 0 then None
    else
      var negative := s[0] == '-';
      var digits := if s[0] == '-' || s[0] == '+' then s[1..] else s;
      if |digits| == 0 || !AllHex(digits) then None
      else
        var magnitude: int := DigitsValue(digits);
        var value: int := if negative then -magnitude else magnitude;
        if -Two63 <= value < Two63 then Some(value) else None
  }

  /* ---------- The named-colour table ---------- */

  /** The `when` over `colorString.lowercase().trim()`; `None` is its
      `else` branch (Black). */
  function NamedColor(name: string): Option<Color> {
    match name
    case "white" => Some(White)
    case "black" => Some(Black)
    case "red" => Some(Red)
    case "green" => Some(Green)
    case "blue" => Some(Blue)
    case "gray" => Some(Gray)
    case "grey" => Some(Gray)
    case "yellow" => Some(Yellow)
    case "cyan" => Some(Cyan)
    case "magenta" => Some(Magenta)
    case "transparent" => Some(Transparent)
    case _ => None
  }

  /** The table read off name by name. */
  lemma NamedColorTable(n: string)
    ensures (n == "white" ==> NamedColor(n) == Some(White))
      && (n == "black" ==> NamedColor(n) == Some(Black))
      && (n == "red" ==> NamedColor(n) == Some(Red))
      && (n == "green" ==> NamedColor(n) == Some(Green))
      && (n == "blue" ==> NamedColor(n) == Some(Blue))
      && (n == "gray" ==> NamedColor(n) == Some(Gray))
      && (n == "grey" ==> NamedColor(n) == Some(Gray))
      && (n == "yellow" ==> NamedColor(n) == Some(Yellow))
      && (n == "cyan" ==> NamedColor(n) == Some(Cyan))
      && (n == "magenta" ==> NamedColor(n) == Some(Magenta))
      && (n == "transparent" ==> NamedColor(n) == Some(Transparent))
  {
  }

  /** The `NumberFormatException` handler shared by both parsers. */
  function ByName(colorString: string): (c: Color)
    ensures c in {White, Black, Red, Green, Blue, Gray, Yellow, Cyan, Magenta, Transparent}
    ensures NamedColor(Trim(Lower(colorString))).None? ==> c == Black
  {
    NamedColor(Trim(Lower(colorString))).GetOr(Black)
  }

  /** Which colour each known name gives, after lower-casing and trimming;
      "gray" and "grey" are the same colour. */
  lemma ByNameTable(colorString: string)
    ensures var n := Trim(Lower(colorString));
      (n == "white" ==> ByName(colorString) == White)
      && (n == "black" ==> ByName(colorString) == Black)
      && (n == "red" ==> ByName(colorString) == Red)
      && (n == "green" ==> ByName(colorString) == Green)
      && (n == "blue" ==> ByName(colorString) == Blue)
      && (n == "gray" ==> ByName(colorString) == Gray)
      && (n == "grey" ==> ByName(colorString) == Gray)
      && (n == "yellow" ==> ByName(colorString) == Yellow)
      && (n == "cyan" ==> ByName(colorString) == Cyan)
      && (n == "magenta" ==> ByName(colorString) == Magenta)
      && (n == "transparent" ==> ByName(colorString) == Transparent)
    ensures NamedColor(Trim(Lower(colorString))).Some? ==> ByName(colorString) == NamedColor(Trim(Lower(colorString))).value
  {
    var n := Trim(Lower(colorString));
    NamedColorTable(n);
  }

  /* ---------- `parseColor` ---------- */

  /** `#RGB` to `RRGGBB`. */
  function Expand(s: string): (r: string)
    requires |s| == 3
    ensures |r| == 6
    ensures forall i :: 0 <= i < 6 ==> r[i] == s[i / 2]
    ensures AllHex(s) ==> AllHex(r)
  {
    [s[0], s[0], s[1], s[1], s[2], s[2]]
  }

  /** The arm of `when (cleanColor.length)` for an already parsed value
      `x`; the inner `toLong` of the three-digit arm can still throw. */
  function LengthArm(clean: string, x: int): Option<Color> {
    if |clean| == 6 then Some(Opaque(x))
    else if |clean| == 8 then Some(FromLong(x))
    else if |clean| == 3 then
      match ParseLong16(Expand(clean))
      case Some(y) => Some(Opaque(y))
      case None => None
    else Some(Black)
  }

  /** `parseColor` (charts and component factory): parse first, then branch
      on the length; a parse failure falls back to the name table. */
  function ParseColor(colorString: string): (c: Color)
    ensures ParseLong16(RemovePrefix(colorString, "#")).None? ==> c == ByName(colorString)
    ensures var clean := RemovePrefix(colorString, "#");
      ParseLong16(clean).Some? && |clean| !in {3, 6, 8} ==> c == Black
  {
    var clean := RemovePrefix(colorString, "#");
    match ParseLong16(clean)
    case None => ByName(colorString)
    case Some(x) => LengthArm(clean, x).GetOr(ByName(colorString))
  }

  /** `parseColorV2`: branch on the length first and parse inside the arm. */
  function ParseColorV2(colorString: string): (c: Color)
    ensures |RemovePrefix(colorString, "#")| !in {3, 6, 8} ==> c == Black
  {
    var clean := RemovePrefix(colorString, "#");
    if |clean| !in {3, 6, 8} then Black
    else
      match ParseLong16(clean)
      case None => ByName(colorString)
      case Some(x) => LengthArm(clean, x).GetOr(ByName(colorString))
  }

  /** `parseHexColor`: six or eight digits only, any failure is Blue. */
  function ParseHexColor(hex: string): (c: Color)
    ensures |RemovePrefix(hex, "#")| !in {6, 8} ==> c == Blue
    ensures ParseLong16(RemovePrefix(hex, "#")).None? ==> c == Blue
  {
    var clean := RemovePrefix(hex, "#");
    match ParseLong16(clean)
    case None => Blue
    case Some(x) =>
      if |clean| == 6 then Opaque(x)
      else if |clean| == 8 then FromLong(x)
      else Blue
  }

  /** The two parsers differ only on strings of a length other than 3, 6
      or 8 after the '#': `parseColorV2` never consults the name table for
      those. */
  lemma V2AgreesOnParsedLengths(s: string)
    requires |RemovePrefix(s, "#")| in {3, 6, 8}
    ensures ParseColorV2(s) == ParseColor(s)
  {
  }

  /** "white" is five characters long: `parseColor` finds it in the table,
      `parseColorV2` answers Black. */
  lemma V2LosesFiveLetterNames(s: string)
    requires s == "white"
    ensures ParseColor(s) == White
    ensures ParseColorV2(s) == Black
  {
    assert !StartsWith(s, "#");
    assert HexDigit(s[0]).None?;
    assert ParseLong16(s).None?;
    TrimNoop(s);
    assert Lower(s) == s;
  }

  /** Where `parseHexColor` accepts a string, `parseColor` reads it the
      same way. */
  lemma HexColorAgrees(s: string)
    requires |RemovePrefix(s, "#")| in {6, 8}
    requires ParseLong16(RemovePrefix(s, "#")).Some?
    ensures ParseHexColor(s) == ParseColor(s)
  {
  }

  /* ---------- Formatting and the round trip ---------- */

  function HexChar(d: nat): (c: char)
    requires d < 16
    ensures HexDigit(c) == Some(d)
  {
    if d < 10 then ('0' as int + d) as char else ('A' as int + d - 10) as char
  }

  /** `v` as exactly `n` upper-case hexadecimal digits (the way the
      documents spell colours). */
  function Hex(v: nat, n: nat): (s: string)
    requires v < Pow16(n)
    ensures |s| == n && AllHex(s)
    ensures DigitsValue(s) == v
  {
    if n == 0 then ""
    else
      var s := Hex(v / 16, n - 1) + [HexChar(v % 16)];
      assert s[..|s| - 1] == Hex(v / 16, n - 1);
      s
  }

  /** Every `#RRGGBB` the formatter writes parses to that colour with full
      alpha, under all three parsers. */
  lemma RgbRoundTrip(rgb: nat)
    requires rgb < Two24
    ensures var s := "#" + Hex(rgb, 6);
      ParseColor(s) == Color(0xFF00_0000 + rgb) && ParseColorV2(s) == ParseColor(s)
      && ParseHexColor(s) == ParseColor(s)
  {
    PowValues();
    var h := Hex(rgb, 6);
    var s := "#" + h;
    FormattedParses(h);
    PrefixRemoved(h);
    assert LengthArm(h, rgb) == Some(Color(0xFF00_0000 + rgb));
    V2AgreesOnParsedLengths(s);
    HexColorAgrees(s);
  }

  /** Every `#AARRGGBB` the formatter writes parses back to that ARGB
      value, under all three parsers. */
  lemma ArgbRoundTrip(argb: nat)
    requires argb < Two32
    ensures var s := "#" + Hex(argb, 8);
      ParseColor(s) == Color(argb) && ParseColorV2(s) == ParseColor(s)
      && ParseHexColor(s) == ParseColor(s)
  {
    PowValues();
    var h := Hex(argb, 8);
    var s := "#" + h;
    FormattedParses(h);
    PrefixRemoved(h);
    FullArm(h, argb);
    V2AgreesOnParsedLengths(s);
    HexColorAgrees(s);
  }

  /** The eight-digit arm keeps the value as the ARGB word. */
  lemma FullArm(h: string, x: int)
    requires |h| == 8 && 0 <= x < Two32
    ensures LengthArm(h, x) == Some(Color(x))
  {
  }

  /** At most eight unsigned digits always parse. */
  lemma FormattedParses(h: string)
    requires 0 < |h| <= 8 && AllHex(h)
    ensures ParseLong16(h) == Some(DigitsValue(h))
  {
    DigitsBound(h);
    PowMonotone(|h|, 8);
    PowValues();
  }

  lemma PowValues()
    ensures Pow16(6) == Two24 && Pow16(8) == Two32
  {
    assert Pow16(2) == 256;
    assert Pow16(4) == 65536;
  }

  lemma {:induction false} PowMonotone(m: nat, n: nat)
    requires m <= n
    ensures Pow16(m) <= Pow16(n)
    decreases n
  {
    if m < n {
      PowMonotone(m, n - 1);
    }
  }

  lemma PrefixRemoved(h: string)
    ensures RemovePrefix("#" + h, "#") == h
  {
    assert StartsWith("#" + h, "#");
  }

  /** `#RGB` is read as `#RRGGBB`. */
  lemma ShortFormExpands(s: string)
    requires |s| == 3 && AllHex(s)
    ensures ParseColor(s) == ParseColor(Expand(s))
    ensures ParseColor(s) == Opaque(DigitsValue(Expand(s)))
  {
    var e := Expand(s);
    DigitsBound(s);
    DigitsBound(e);
    PowValues();
    assert !StartsWith(s, "#") by { assert HexDigit(s[0]).Some?; }
    assert !StartsWith(e, "#") by { assert HexDigit(e[0]).Some?; }
    assert ParseLong16(s) == Some(DigitsValue(s));
    assert ParseLong16(e) == Some(DigitsValue(e));
  }

  /** A signed short form parses, but its expansion carries the sign twice,
      so the inner parse throws and the name table answers Black. */
  lemma SignedShortFormIsBlack(s: string)
    requires |s| == 3 && s[0] == '-' && AllHex(s[1..])
    ensures ParseColor(s) == Black
  {
    assert RemovePrefix(s, "#") == s by {
      assert s[..1] != "#";
    }
    SignedShortParses(s);
    DoubleSignThrows(s);
    SignNamesNothing(s);
  }

  lemma SignedShortParses(s: string)
    requires |s| == 3 && s[0] == '-' && AllHex(s[1..])
    ensures ParseLong16(s).Some?
  {
    DigitsBound(s[1..]);
    PowValues();
  }

  /** The expansion of "-ab" is "--aabb", which has no digits after its sign. */
  lemma DoubleSignThrows(s: string)
    requires |s| == 3 && s[0] == '-'
    ensures ParseLong16(Expand(s)).None?
  {
    var e := Expand(s);
    assert e[1..][0] == '-';
    assert HexDigit('-').None?;
  }

  /** No colour name starts with a sign. */
  lemma SignNamesNothing(s: string)
    requires |s| == 3 && s[0] == '-' && AllHex(s[1..])
    ensures ByName(s) == Black
  {
    var t := Lower(s);
    assert t[0] == '-' && t[2] == LowerChar(s[2]);
    assert HexDigit(s[1..][1]).Some?;
    TrimNoop(t);
    UnnamedUnlessLetter(t);
  }

  /** Every name in the table starts with a lower-case letter. */
  lemma UnnamedUnlessLetter(t: string)
    requires |t| > 0 && !('a' <= t[0] <= 'z')
    ensures NamedColor(t).None?
  {
  }

  /* ---------- Palette selection ---------- */

  /** The eight colours a chart falls back to. */
  const DefaultColors: seq<string> :=
    ["#3B82F6", "#EF4444", "#10B981", "#F59E0B", "#8B5CF6", "#EC4899", "#06B6D4", "#84CC16"]

  /** The colour string of the `index`-th bar, slice or line: its own
      colour, else `config.colors[index]`, else the palette cycled. */
  function ItemColorString(own: Option<string>, configColors: Option<seq<string>>, index: nat): (s: string)
    ensures own.Some? ==> s == own.value
    ensures own.None? && configColors.Some? && index < |configColors.value| ==> s == configColors.value[index]
    ensures own.None? && (configColors.None? || index >= |configColors.value|) ==> s == DefaultColors[index % 8]
  {
    match own
    case Some(c) => c
    case None =>
      if configColors.Some? && index < |configColors.value| then configColors.value[index]
      else DefaultColors[index % |DefaultColors|]
  }

  /** The colour string of the `index`-th legend entry: `config.colors` is
      not consulted. */
  function LegendColorString(own: Option<string>, index: nat): (s: string)
    ensures own.Some? ==> s == own.value
    ensures own.None? ==> s == DefaultColors[index % 8]
  {
    own.GetOr(DefaultColors[index % |DefaultColors|])
  }

  /** The drawn colour and the legend swatch agree unless the chart's
      config supplies a colour for that index. */
  lemma LegendMatchesUnlessConfigured(own: Option<string>, configColors: Option<seq<string>>, index: nat)
    ensures ItemColorString(own, configColors, index) == LegendColorString(own, index)
      <==> own.Some? || configColors.None? || index >= |configColors.value|
           || configColors.value[index] == DefaultColors[index % 8]
  {
  }

  /** The fallback palette repeats every eight items. */
  lemma PaletteCycles(index: nat)
    ensures ItemColorString(None, None, index + 8) == ItemColorString(None, None, index)
  {
    assert (index + 8) % 8 == index % 8;
  }
}

=== FILE: factory.dfy ===
/** `DefaultComponentFactory` apart from validation and data binding: the
    complexity analysis, the type dispatch of `createComponent`, the
    preparation cache of `prepareComponent`, `createModifier` and the mock
    records of `generateMockData`. */
module ComponentFactory {
  import opened Wrappers
  import opened Strings
  import opened ComposableTree
  import opened Validator

  /* ---------- Views ---------- */

  /** The composable functions `createComponent` dispatches to. */
  datatype Creator =
    | CreateColumn | CreateRow | CreateText | CreateButton | CreateImage
    | CreateSpacer | CreateLazyColumn | CreateLazyRow | CreateCard
    | CreateTopAppBar | ShowLoadingState

  /** What a composable lambda produced by the factory draws. */
  datatype View =
    | Created(creator: Creator, node: ComponentNode)
    | UnknownType(kind: string)
    | TextView(text: string)
    | AsyncLazyColumn(node: ComponentNode, template: CompiledItemTemplate)
    | AsyncLazyRow(node: ComponentNode, template: CompiledItemTemplate)

  /** An item template together with the preparation of its layout. */
  datatype CompiledItemTemplate = CompiledItemTemplate(original: ItemTemplate, prepared: Preparation)

  /** `ComponentPreparationResult`. */
  datatype Preparation =
    | Prepared(view: View, metadata: RenderMetadata)
    | PrepError(message: string, fallback: Option<View>)

  /** The text an unknown tag renders (in the error colour). */
  function UnknownMessage(kind: string): string {
    "Unknown component type: " + kind
  }

  /* ---------- `createComponent` ---------- */

  /** The eleven tags `createComponent` knows, in the order of its `when`. */
  const DispatchedTags: seq<string> := [
    "column", "row", "text", "button", "image", "spacer", "lazy_column",
    "lazy_row", "card", "top_app_bar", "progress_indicator"]

  function CreatorTag(c: Creator): (s: string)
    ensures s in DispatchedTags
  {
    match c
    case CreateColumn => "column"
    case CreateRow => "row"
    case CreateText => "text"
    case CreateButton => "button"
    case CreateImage => "image"
    case CreateSpacer => "spacer"
    case CreateLazyColumn => "lazy_column"
    case CreateLazyRow => "lazy_row"
    case CreateCard => "card"
    case CreateTopAppBar => "top_app_bar"
    case ShowLoadingState => "progress_indicator"
  }

  /** `createComponent`: a known tag selects its creator for the node; any
      other tag draws the unknown-type message. It never fails. */
  function CreateComponent(n: ComponentNode): (v: View)
    ensures v.Created? <==> n.kind in DispatchedTags
    ensures v.Created? ==> v.node == n && CreatorTag(v.creator) == n.kind
    ensures !v.Created? ==> v == UnknownType(n.kind)
  {
    if n.kind in DispatchedTags then Created(CreatorFor(n.kind), n) else UnknownType(n.kind)
  }

  /** The branch of the `when` that a dispatched tag selects. */
  function CreatorFor(kind: string): (c: Creator)
    requires kind in DispatchedTags
    ensures CreatorTag(c) == kind
  {
    match kind
    case "column" => CreateColumn
    case "row" => CreateRow
    case "text" => CreateText
    case "button" => CreateButton
    case "image" => CreateImage
    case "spacer" => CreateSpacer
    case "lazy_column" => CreateLazyColumn
    case "lazy_row" => CreateLazyRow
    case "card" => CreateCard
    case "top_app_bar" => CreateTopAppBar
    case _ => ShowLoadingState
  }

  /** Every dispatched tag is a known component type, and the known types
      the dispatch leaves out are exactly the scrollable and enhanced
      columns, the grid and the five charts. */
  lemma DispatchWithinKnownTypes(s: string)
    ensures s in DispatchedTags ==> FromString(s) != Unknown
    ensures (s in KnownTags && s !in DispatchedTags) <==>
      s in ["scrollable_column", "enhanced_lazy_column", "lazy_grid", "bar_chart",
            "line_chart", "pie_chart", "bubble_chart", "radar_chart"]
  {
    if s in DispatchedTags {
      KnownTagRecognised(s);
    }
  }

  /** Two creators never share a tag, so the dispatch is unambiguous. */
  lemma CreatorTagInjective(a: Creator, b: Creator)
    ensures CreatorTag(a) == CreatorTag(b) ==> a == b
  {
  }

  /* ---------- `analyzeComponentComplexity` ---------- */

  datatype Complexity = Low | Medium | High

  /** `"${node.type}_${node.hashCode()}"`. The data-class hash is structural;
      the key is modelled as the pair itself, so distinct nodes never share
      a key (hash collisions are not modelled). */
  datatype PrepKey = PrepKey(kind: string, node: ComponentNode)

  function PrepKeyOf(n: ComponentNode): (k: PrepKey)
    ensures k.kind == n.kind
  {
    PrepKey(n.kind, n)
  }

  /** Two nodes share a preparation cache entry exactly when they are equal
      (the structural `hashCode` is taken to be collision-free). */
  lemma PrepKeyInjective(a: ComponentNode, b: ComponentNode)
    ensures PrepKeyOf(a) == PrepKeyOf(b) <==> a == b
  {
  }

  /** `ComponentRenderMetadata`. */
  datatype RenderMetadata = RenderMetadata(
    requiresAsyncData: bool,
    complexity: Complexity,
    dependencies: seq<string>,
    cacheKey: PrepKey)

  /** The order in which dependencies are listed. */
  function DependencyRank(d: string): nat {
    if d == "network" then 0 else if d == "image_loader" then 1 else 2
  }

  /** Whether an image's `url` property, printed, starts with "http". */
  predicate RemoteImageUrl(n: ComponentNode) {
    var url := Prop(n.properties, "url");
    url.Some? && StartsWith(Show(url.value), "http")
  }

  function AnalyzeComplexity(n: ComponentNode): (m: RenderMetadata)
    ensures m.requiresAsyncData <==>
      (IsLazyList(n.kind) && n.dataSource.Some? && n.dataSource.value.kind == "api")
      || (n.kind == "image" && RemoteImageUrl(n))
    ensures m.complexity == High <==> IsLazyList(n.kind)
    ensures m.complexity == Medium <==>
      !IsLazyList(n.kind) && (|Kids(n)| > 10 || (n.kind == "image" && RemoteImageUrl(n)))
    ensures "network" in m.dependencies <==> m.requiresAsyncData
    ensures "image_loader" in m.dependencies <==> n.kind == "image"
    ensures "action_handler" in m.dependencies <==> n.actions.Some? && |n.actions.value| > 0
    ensures forall d :: d in m.dependencies ==> d in ["network", "image_loader", "action_handler"]
    ensures forall i, j :: 0 <= i < j < |m.dependencies| ==>
      DependencyRank(m.dependencies[i]) < DependencyRank(m.dependencies[j])
    ensures m.cacheKey == PrepKeyOf(n)
  {
    var async :=
      if IsLazyList(n.kind) then n.dataSource.Some? && n.dataSource.value.kind == "api"
      else if n.kind == "image" then RemoteImageUrl(n)
      else false;
    var complexity :=
      if IsLazyList(n.kind) then High
      else if |Kids(n)| > 10 then Medium
      else if n.kind == "image" && async then Medium
      else Low;
    var deps := Dependencies(async, n.kind == "image", n.actions.Some? && |n.actions.value| > 0);
    RenderMetadata(async, complexity, deps, PrepKeyOf(n))
  }

  /** The dependency list: "network", "image_loader", "action_handler",
      each when its flag is set, in that order. */
  function Dependencies(network: bool, imageLoader: bool, actionHandler: bool): (d: seq<string>)
    ensures "network" in d <==> network
    ensures "image_loader" in d <==> imageLoader
    ensures "action_handler" in d <==> actionHandler
    ensures forall x :: x in d ==> x in ["network", "image_loader", "action_handler"]
    ensures forall i, j :: 0 <= i < j < |d| ==> DependencyRank(d[i]) < DependencyRank(d[j])
  {
    var a := if network then ["network"] else [];
    var b := if imageLoader then ["image_loader"] else [];
    var c := if actionHandler then ["action_handler"] else [];
    assert forall x :: x in a + b + c <==> x in a || x in b || x in c;
    a + b + c
  }

  /* ---------- `prepareComponent` and its cache ---------- */

  type PrepCache = map<PrepKey, Preparation>

  const NullTypeMessage := "Component type is null"

  /** The error a node that fails validation prepares to. */
  function ValidationFailure(n: ComponentNode, errors: seq<string>): Preparation {
    PrepError("Validation failed: " + Join(errors, ", "), Some(TextView("Invalid component: " + n.kind)))
  }

  /** Every entry of the cache is a successful preparation. */
  predicate OnlySuccess(cache: PrepCache) {
    forall k :: k in cache ==> cache[k].Prepared?
  }

  /** `later` keeps every entry of `earlier` unchanged. */
  predicate Extends(later: PrepCache, earlier: PrepCache) {
    forall k :: k in earlier ==> k in later && later[k] == earlier[k]
  }

  /** `prepareComponent` as a function of the cache: blank types fail first,
      then a cached result is returned as is, then the node is validated;
      only a successful preparation is written to the cache. */
  function Prepare(cache: PrepCache, n: ComponentNode): (out: (PrepCache, Preparation))
    ensures Extends(out.0, cache)
    ensures forall k :: k in out.0 && k !in cache ==> out.0[k].Prepared? && (k.node == n || k.node < n)
    ensures IsBlank(n.kind) ==> out == (cache, PrepError(NullTypeMessage, None))
    ensures !IsBlank(n.kind) && PrepKeyOf(n) in cache ==> out == (cache, cache[PrepKeyOf(n)])
    ensures !IsBlank(n.kind) && PrepKeyOf(n) !in cache && Validate(n).Invalid? ==>
      out == (cache, ValidationFailure(n, Validate(n).errors))
    ensures !IsBlank(n.kind) && PrepKeyOf(n) !in cache && !Validate(n).Invalid? ==>
      out.1.Prepared? && out.1.metadata == AnalyzeComplexity(n)
      && PrepKeyOf(n) in out.0 && out.0[PrepKeyOf(n)] == out.1
      && out.1.view == PrepareView(cache, n, AnalyzeComplexity(n)).1
    decreases n, 1
  {
    var key := PrepKeyOf(n);
    if IsBlank(n.kind) then (cache, PrepError(NullTypeMessage, None))
    else if key in cache then (cache, cache[key])
    else
      match Validate(n)
      case Invalid(errors) => (cache, ValidationFailure(n, errors))
      case _ =>
        var meta := AnalyzeComplexity(n);
        var (next, view) := PrepareView(cache, n, meta);
        var result := Prepared(view, meta);
        (next[key := result], result)
  }

  /** `prepareComponentByType`: only a lazy list (the HIGH tier) does extra
      work, preparing its item template's layout through the same cache;
      every other node is `createComponent`. */
  function PrepareView(cache: PrepCache, n: ComponentNode, meta: RenderMetadata): (out: (PrepCache, View))
    ensures Extends(out.0, cache)
    ensures forall k :: k in out.0 && k !in cache ==> out.0[k].Prepared? && k.node < n
    ensures meta.complexity != High ==> out == (cache, CreateComponent(n))
    ensures meta.complexity == High && !IsLazyList(n.kind) ==> out == (cache, CreateComponent(n))
    ensures meta.complexity == High && IsLazyList(n.kind) && (n.dataSource.None? || n.itemTemplate.None?) ==>
      out == (cache, TextView("Invalid lazy component configuration"))
    ensures meta.complexity == High && IsLazyList(n.kind) && n.dataSource.Some? && n.itemTemplate.Some? ==>
      var p := Prepare(cache, n.itemTemplate.value.layout);
      var compiled := CompiledItemTemplate(n.itemTemplate.value, p.1);
      out == (p.0, if n.kind == "lazy_column" then AsyncLazyColumn(n, compiled) else AsyncLazyRow(n, compiled))
    decreases n, 0
  {
    if meta.complexity == High && IsLazyList(n.kind) then
      if n.dataSource.None? || n.itemTemplate.None? then
        (cache, TextView("Invalid lazy component configuration"))
      else
        var template := n.itemTemplate.value;
        var (next, prepared) := Prepare(cache, template.layout);
        var compiled := CompiledItemTemplate(template, prepared);
        (next, if n.kind == "lazy_column" then AsyncLazyColumn(n, compiled) else AsyncLazyRow(n, compiled))
    else (cache, CreateComponent(n))
  }

  /** A cache holding only successes keeps holding only successes. */
  lemma PrepareKeepsOnlySuccess(cache: PrepCache, n: ComponentNode)
    requires OnlySuccess(cache)
    ensures OnlySuccess(Prepare(cache, n).0)
  {
  }

  /** A second preparation of a node that succeeded returns the stored
      result without validating again and without touching the cache. */
  lemma PrepareTwice(cache: PrepCache, n: ComponentNode)
    requires Prepare(cache, n).1.Prepared?
    ensures Prepare(Prepare(cache, n).0, n) == (Prepare(cache, n).0, Prepare(cache, n).1)
  {
  }

  /** An error is never stored: preparing a node that fails leaves a cache
      of successes unchanged, so the next call validates again. */
  lemma ErrorsNotCached(cache: PrepCache, n: ComponentNode)
    requires OnlySuccess(cache) && PrepKeyOf(n) !in cache
    requires Prepare(cache, n).1.PrepError?
    ensures Prepare(cache, n).0 == cache
    ensures PrepKeyOf(n) !in Prepare(cache, n).0
  {
  }

  /** A lazy list with a source and a template prepares its template's
      layout through the same cache first: the list's view holds that
      preparation, and the cache it leaves keeps every entry the template's
      preparation made. */
  lemma LazyListPreparesTemplate(cache: PrepCache, n: ComponentNode)
    requires IsLazyList(n.kind) && PrepKeyOf(n) !in cache && !Validate(n).Invalid?
    requires n.dataSource.Some? && n.itemTemplate.Some?
    ensures var t := n.itemTemplate.value;
      var p := Prepare(cache, t.layout);
      var compiled := CompiledItemTemplate(t, p.1);
      Prepare(cache, n).1.Prepared?
      && Prepare(cache, n).1.view == (if n.kind == "lazy_column" then AsyncLazyColumn(n, compiled) else AsyncLazyRow(n, compiled))
      && Extends(Prepare(cache, n).0, p.0)
  {
    var t := n.itemTemplate.value;
    var p := Prepare(cache, t.layout);
    var compiled := CompiledItemTemplate(t, p.1);
    var view := if n.kind == "lazy_column" then AsyncLazyColumn(n, compiled) else AsyncLazyRow(n, compiled);
    LazyListUnfolds(cache, n, p, view);
  }

  /** One step of `prepareComponent` on a lazy list with a source and a
      template: the list's result is stored over the cache the template's
      preparation left, under a key that cache does not hold. */
  lemma LazyListUnfolds(cache: PrepCache, n: ComponentNode, p: (PrepCache, Preparation), view: View)
    requires IsLazyList(n.kind) && PrepKeyOf(n) !in cache && !Validate(n).Invalid?
    requires n.dataSource.Some? && n.itemTemplate.Some?
    requires p == Prepare(cache, n.itemTemplate.value.layout)
    requires view == (var compiled := CompiledItemTemplate(n.itemTemplate.value, p.1);
      if n.kind == "lazy_column" then AsyncLazyColumn(n, compiled) else AsyncLazyRow(n, compiled))
    ensures PrepKeyOf(n) !in p.0
    ensures Prepare(cache, n) == (p.0[PrepKeyOf(n) := Prepared(view, AnalyzeComplexity(n))], Prepared(view, AnalyzeComplexity(n)))
  {
    LazyKindNotBlank(n.kind);
    assert AnalyzeComplexity(n).complexity == High;
    assert n.itemTemplate.value.layout < n;
  }

  /** The "Invalid lazy component configuration" view is never shown through
      `prepareComponent`: a lazy list missing its source or its template
      already fails validation with the "Validation failed: " message. */
  lemma LazyConfigurationCheckedFirst(cache: PrepCache, n: ComponentNode)
    requires IsLazyList(n.kind) && PrepKeyOf(n) !in cache
    requires n.dataSource.None? || n.itemTemplate.None?
    ensures Prepare(cache, n) == (cache, ValidationFailure(n, Validate(n).errors))
    ensures Validate(n).Invalid?
  {
    LazyKindNotBlank(n.kind);
    assert LazySourceError in OwnErrors(n) || LazyTemplateError in OwnErrors(n);
  }

  /** A node with an invalid child fails preparation with the validation
      message, even if the node's own rules are satisfied. */
  lemma InvalidChildFailsPreparation(cache: PrepCache, n: ComponentNode, i: nat)
    requires !IsBlank(n.kind) && PrepKeyOf(n) !in cache
    requires n.children.ChildList? && i < |n.children.nodes|
    requires Validate(n.children.nodes[i]).Invalid?
    ensures Prepare(cache, n).1.PrepError?
    ensures StartsWith(Prepare(cache, n).1.message, "Validation failed: ")
    ensures Prepare(cache, n).0 == cache
  {
    InvalidChildInvalidatesParent(n, i);
    var m := Prepare(cache, n).1.message;
    assert m == "Validation failed: " + Join(Validate(n).errors, ", ");
    assert m[..|"Validation failed: "|] == "Validation failed: ";
  }

  /* ---------- `createModifier` ---------- */

  /** Whether the factory's `createModifier` applies `op` for `config`:
      a present value, or a flag that is `true`. */
  predicate ConfigCalls(config: Option<ModifierConfig>, op: ModifierOp) {
    config.Some? &&
    match op
    case Padding(p) => config.value.padding == Some(p)
    case FillMaxSize => config.value.fillMaxSize == Some(true)
    case FillMaxWidth => config.value.fillMaxWidth == Some(true)
    case Width(w) => config.value.width == Some(w)
    case Height(h) => config.value.height == Some(h)
  }

  /** `createModifier`: padding, fillMaxSize, fillMaxWidth, width, height,
      each when set; a missing config gives the bare `Modifier`. The weight,
      the per-side paddings and the gradient are not applied. */
  function CreateModifier(config: Option<ModifierConfig>): (ops: seq<ModifierOp>)
    ensures InApplicationOrder(ops)
    ensures forall op :: op in ops <==> ConfigCalls(config, op)
  {
    match config
    case None => []
    case Some(c) =>
      (if c.padding.Some? then [Padding(c.padding.value)] else [])
      + (if c.fillMaxSize == Some(true) then [FillMaxSize] else [])
      + (if c.fillMaxWidth == Some(true) then [FillMaxWidth] else [])
      + (if c.width.Some? then [Width(c.width.value)] else [])
      + (if c.height.Some? then [Height(c.height.value)] else [])
  }

  /* ---------- `generateMockData` ---------- */

  /** The page size `loadApiData` asks for: the pagination block's, else 20. */
  function RequestedPageSize(ds: DataSource): (r: int)
    ensures ds.pagination.None? ==> r == DefaultPageSize
    ensures ds.pagination.Some? ==> r == ds.pagination.value.pageSize
  {
    if ds.pagination.Some? then ds.pagination.value.pageSize else DefaultPageSize
  }

  /** The deterministic part of one mock record (its random `price` and
      `category` are not modelled). */
  function MockRecord(index: nat): (r: Assoc<Value>)
    ensures Lookup(r, "id") == Some(Str(NatToString(index)))
    ensures Lookup(r, "title") == Some(Str("Item " + NatToString(index)))
    ensures Lookup(r, "description") == Some(Str("This is item number " + NatToString(index) + " with some description text"))
    ensures Lookup(r, "imageUrl") == Some(Str("https://picsum.photos/200/200?random=" + NatToString(index)))
  {
    var s := NatToString(index);
    var r := [("id", Str(s)),
              ("title", Str("Item " + s)),
              ("description", Str("This is item number " + s + " with some description text")),
              ("imageUrl", Str("https://picsum.photos/200/200?random=" + s))];
    LookupDistinct(r, 0);
    LookupDistinct(r, 1);
    LookupDistinct(r, 2);
    LookupDistinct(r, 3);
    r
  }

  /** `generateMockData(page, pageSize)`: the records numbered
      `page * pageSize` up to, not including, `(page + 1) * pageSize`. */
  function MockPage(page: nat, pageSize: int): (r: seq<Assoc<Value>>)
    ensures |r| == if pageSize > 0 then pageSize else 0
    ensures forall i :: 0 <= i < |r| ==> r[i] == MockRecord(page * pageSize + i)
  {
    if pageSize <= 0 then [] else MockRange(page * pageSize, pageSize)
  }

  function MockRange(start: nat, count: nat): (r: seq<Assoc<Value>>)
    ensures |r| == count
    ensures forall i :: 0 <= i < count ==> r[i] == MockRecord(start + i)
  {
    seq(count, i requires 0 <= i < count => MockRecord(start + i))
  }

  /** Consecutive mock pages continue each other: page `p + 1` starts with
      the record after the last one of page `p`. */
  lemma MockPagesContiguous(page: nat, pageSize: int)
    requires pageSize > 0
    ensures MockPage(page, pageSize) + MockPage(page + 1, pageSize)
      == MockRange(page * pageSize, 2 * pageSize)
  {
    var n := page * pageSize;
    PageIsRange(page, pageSize, n);
    PageIsRange(page + 1, pageSize, n + pageSize);
    RangesJoin(n, pageSize, pageSize);
  }

  lemma PageIsRange(page: nat, pageSize: int, start: nat)
    requires pageSize > 0 && start == page * pageSize
    ensures MockPage(page, pageSize) == MockRange(start, pageSize)
  {
  }

  /** Two adjacent ranges of mock records make one range. */
  lemma RangesJoin(start: nat, k: nat, l: nat)
    ensures MockRange(start, k) + MockRange(start + k, l) == MockRange(start, k + l)
    ensures MockRange(start, k) + MockRange(start + k, l) == MockRange(start, 2 * k) <== k == l
  {
    var a, b, c := MockRange(start, k), MockRange(start + k, l), MockRange(start, k + l);
    forall i | 0 <= i < k + l ensures (a + b)[i] == c[i] {
      if i >= k {
        assert (a + b)[i] == b[i - k];
      }
    }
  }
}

=== FILE: go_builders.dfy ===
// The Go server-side builders of ssr-simple (`ssr_simple.go`): node,
// table and cell constructors, the chained `With*` setters on modifiers
// and text styles, the preset styles, and the key set `encoding/json`
// emits under the `omitempty` tags.
//
// Go pointers are modelled as `Option` values. A `With*` method mutates
// its receiver and returns the same pointer, so a chain of calls on one
// receiver is the left-to-right composition of the single-field updates;
// `Chain` models exactly that. Nil and empty slices are both `[]`: the
// builders never tell them apart, and `omitempty` omits both.

module GoBuilders {
  import opened Wrappers
  import SimpleCompose

  type Modifier = SimpleCompose.SimpleModifier
  type Style = SimpleCompose.TextStyleModel

  /** `TableColumnModel`. */
  datatype ColumnModel = ColumnModel(
    header: string,
    weight: Option<real>,
    width: Option<int>,
    horizontalAlignment: Option<string>,
    textStyle: Option<Style>,
    headerStyle: Option<Style>)

  /** `TableCellModel`. */
  datatype CellModel = CellModel(
    text: string,
    textStyle: Option<Style>,
    backgroundColor: Option<string>,
    action: Option<string>,
    modifier: Option<Modifier>,
    showBorder: Option<bool>)

  /** `NodeModel` of the Go package. */
  datatype GoNode = GoNode(
    kind: string,
    title: Option<string>,
    description: Option<string>,
    labelText: Option<string>,
    backgroundColor: Option<string>,
    elevation: Option<real>,
    imageUrl: Option<string>,
    imageHeight: Option<real>,
    imageWidth: Option<real>,
    contentDescription: Option<string>,
    action: Option<string>,
    modifier: Option<Modifier>,
    textStyle: Option<Style>,
    topBar: Option<GoNode>,
    floatingActionButton: Option<GoNode>,
    content: Option<GoNode>,
    children: seq<GoNode>,
    buttonVariant: Option<string>,
    columns: seq<ColumnModel>,
    tableData: seq<seq<CellModel>>,
    showBorders: Option<bool>,
    headerBackgroundColor: Option<string>,
    rowAction: Option<string>,
    roundedCorners: Option<real>,
    useLazyColumn: Option<bool>)

  /** `&NodeModel{Type: kind}`: every other field is nil. */
  function Blank(kind: string): (n: GoNode)
    ensures n.kind == kind
  {
    GoNode(kind, None, None, None, None, None, None, None, None, None, None, None, None,
           None, None, None, [], None, [], [], None, None, None, None, None)
  }

  // ---------------------------------------------------------------------
  // Serialisation: which keys `json.Marshal` writes

  /** The JSON keys of `NodeModel`, in declaration order. */
  datatype NodeKey =
    | TypeKey | TitleKey | DescriptionKey | LabelKey | BackgroundColorKey
    | ElevationKey | ImageUrlKey | ImageHeightKey | ImageWidthKey | ContentDescriptionKey
    | ActionKey | ModifierKey | TextStyleKey | TopBarKey | FloatingActionButtonKey
    | ContentKey | ChildrenKey | ButtonVariantKey | ColumnsKey | TableDataKey
    | ShowBordersKey | HeaderBackgroundColorKey | RowActionKey | RoundedCornersKey | UseLazyColumnKey

  /** The name a key is written under. */
  function KeyName(k: NodeKey): string {
    match k
    case TypeKey => "type"
    case TitleKey => "title"
    case DescriptionKey => "description"
    case LabelKey => "label"
    case BackgroundColorKey => "backgroundColor"
    case ElevationKey => "elevation"
    case ImageUrlKey => "imageUrl"
    case ImageHeightKey => "imageHeight"
    case ImageWidthKey => "imageWidth"
    case ContentDescriptionKey => "contentDescription"
    case ActionKey => "action"
    case ModifierKey => "modifier"
    case TextStyleKey => "textStyle"
    case TopBarKey => "topBar"
    case FloatingActionButtonKey => "floatingActionButton"
    case ContentKey => "content"
    case ChildrenKey => "children"
    case ButtonVariantKey => "buttonVariant"
    case ColumnsKey => "columns"
    case TableDataKey => "tableData"
    case ShowBordersKey => "showBorders"
    case HeaderBackgroundColorKey => "headerBackgroundColor"
    case RowActionKey => "rowAction"
    case RoundedCornersKey => "roundedCorners"
    case UseLazyColumnKey => "useLazyColumn"
  }

  /** Whether a key survives `omitempty`: `type` has no such tag, a
      pointer is omitted when nil, a slice when it has no elements. */
  predicate Emitted(n: GoNode, k: NodeKey) {
    match k
    case TypeKey => true
    case TitleKey => n.title.Some?
    case DescriptionKey => n.description.Some?
    case LabelKey => n.labelText.Some?
    case BackgroundColorKey => n.backgroundColor.Some?
    case ElevationKey => n.elevation.Some?
    case ImageUrlKey => n.imageUrl.Some?
    case ImageHeightKey => n.imageHeight.Some?
    case ImageWidthKey => n.imageWidth.Some?
    case ContentDescriptionKey => n.contentDescription.Some?
    case ActionKey => n.action.Some?
    case ModifierKey => n.modifier.Some?
    case TextStyleKey => n.textStyle.Some?
    case TopBarKey => n.topBar.Some?
    case FloatingActionButtonKey => n.floatingActionButton.Some?
    case ContentKey => n.content.Some?
    case ChildrenKey => |n.children| > 0
    case ButtonVariantKey => n.buttonVariant.Some?
    case ColumnsKey => |n.columns| > 0
    case TableDataKey => |n.tableData| > 0
    case ShowBordersKey => n.showBorders.Some?
    case HeaderBackgroundColorKey => n.headerBackgroundColor.Some?
    case RowActionKey => n.rowAction.Some?
    case RoundedCornersKey => n.roundedCorners.Some?
    case UseLazyColumnKey => n.useLazyColumn.Some?
  }

  /** The keys in struct order, which is the order they are written in. */
  const KeyOrder: seq<NodeKey> := [
    TypeKey, TitleKey, DescriptionKey, LabelKey, BackgroundColorKey,
    ElevationKey, ImageUrlKey, ImageHeightKey, ImageWidthKey, ContentDescriptionKey,
    ActionKey, ModifierKey, TextStyleKey, TopBarKey, FloatingActionButtonKey,
    ContentKey, ChildrenKey, ButtonVariantKey, ColumnsKey, TableDataKey,
    ShowBordersKey, HeaderBackgroundColorKey, RowActionKey, RoundedCornersKey, UseLazyColumnKey]

  lemma EveryKeyListed(k: NodeKey)
    ensures k in KeyOrder
  {
  }

  /** The keys of `order` that `n` emits, in the order given. */
  function KeysFrom(n: GoNode, order: seq<NodeKey>): (keys: seq<NodeKey>)
    ensures forall k :: k in keys <==> k in order && Emitted(n, k)
    ensures |keys| <= |order|
  {
    if |order| == 0 then []
    else if Emitted(n, order[0]) then [order[0]] + KeysFrom(n, order[1..])
    else KeysFrom(n, order[1..])
  }

  /** The top-level keys of `json.Marshal(n)`: exactly the emitted ones,
      in struct order, `type` first. */
  function NodeKeys(n: GoNode): (keys: seq<NodeKey>)
    ensures |keys| > 0 && keys[0] == TypeKey
    ensures forall k :: k in keys <==> Emitted(n, k)
  {
    forall k ensures k in KeyOrder {
      EveryKeyListed(k);
    }
    KeysFrom(n, KeyOrder)
  }

  /** A pointer field that is set is written even when it holds the zero
      value: `omitempty` tests the pointer, not what it points to. */
  lemma ZeroValuesAreEmitted(n: GoNode)
    requires n.elevation == Some(0.0) && n.showBorders == Some(false) && n.title == Some("")
    ensures ElevationKey in NodeKeys(n) && ShowBordersKey in NodeKeys(n) && TitleKey in NodeKeys(n)
  {
    assert Emitted(n, ElevationKey) && Emitted(n, ShowBordersKey) && Emitted(n, TitleKey);
  }

  // ---------------------------------------------------------------------
  // Node constructors

  function Scaffold(title: string, content: Option<GoNode>): (n: GoNode)
    ensures n.kind == "Scaffold" && n.content == content
    ensures n.topBar == Some(TopAppBar(title))
  {
    Blank("Scaffold").(topBar := Some(TopAppBar(title)), content := content)
  }

  function TopAppBar(title: string): (n: GoNode)
    ensures n.kind == "TopAppBar" && n.title == Some(title)
  {
    Blank("TopAppBar").(title := Some(title))
  }

  /** `Column`, `Row`, `Box` and `LazyColumn` differ only in their tag. */
  function Container(kind: string, children: seq<GoNode>, modifier: Option<Modifier>): (n: GoNode)
    requires kind in {"Column", "Row", "Box", "LazyColumn"}
    ensures n.kind == kind && n.children == children && n.modifier == modifier
  {
    Blank(kind).(children := children, modifier := modifier)
  }

  /** The keys a scaffold writes: its tag, its top bar, and its content
      when there is one. */
  lemma ScaffoldKeys(title: string, content: Option<GoNode>)
    ensures forall k :: k in NodeKeys(Scaffold(title, content)) <==> k == TypeKey || k == TopBarKey || (k == ContentKey && content.Some?)
  {
    var n := Scaffold(title, content);
    forall k ensures k in NodeKeys(n) <==> k == TypeKey || k == TopBarKey || (k == ContentKey && content.Some?) {
      assert Emitted(n, k) <==> k == TypeKey || k == TopBarKey || (k == ContentKey && content.Some?);
    }
  }

  /** The omitempty test: a text without style or modifier writes only
      its tag and its text. */
  lemma PlainTextKeys(text: string)
    ensures forall k :: k in NodeKeys(Text(text, None, None)) <==> k == TypeKey || k == TitleKey
  {
    var n := Text(text, None, None);
    forall k ensures k in NodeKeys(n) <==> k == TypeKey || k == TitleKey {
      assert Emitted(n, k) <==> k == TypeKey || k == TitleKey;
    }
  }

  /** A layout container writes `children` only when it has some. */
  lemma ContainerKeys(kind: string, children: seq<GoNode>, modifier: Option<Modifier>)
    requires kind in {"Column", "Row", "Box", "LazyColumn"}
    ensures forall k :: k in NodeKeys(Container(kind, children, modifier)) <==>
      k == TypeKey || (k == ModifierKey && modifier.Some?) || (k == ChildrenKey && |children| > 0)
  {
    var n := Container(kind, children, modifier);
    forall k ensures k in NodeKeys(n) <==> k == TypeKey || (k == ModifierKey && modifier.Some?) || (k == ChildrenKey && |children| > 0) {
      assert Emitted(n, k) <==> k == TypeKey || (k == ModifierKey && modifier.Some?) || (k == ChildrenKey && |children| > 0);
    }
  }

  function Card(title: string, description: string, elevation: real, modifier: Option<Modifier>): (n: GoNode)
    ensures n.kind == "Card" && n.title == Some(title) && n.description == Some(description)
    ensures n.elevation == Some(elevation) && n.modifier == modifier && n.children == []
  {
    Blank("Card").(title := Some(title), description := Some(description),
                   elevation := Some(elevation), modifier := modifier)
  }

  function CardWithChildren(children: seq<GoNode>, elevation: real, modifier: Option<Modifier>): (n: GoNode)
    ensures n.kind == "Card" && n.children == children && n.title.None? && n.description.None?
    ensures n.elevation == Some(elevation) && n.modifier == modifier
  {
    Blank("Card").(children := children, elevation := Some(elevation), modifier := modifier)
  }

  /** `Text` keeps its text in `Title`. */
  function Text(text: string, textStyle: Option<Style>, modifier: Option<Modifier>): (n: GoNode)
    ensures n.kind == "Text" && n.title == Some(text) && n.textStyle == textStyle && n.modifier == modifier
    ensures n.labelText.None? && n.description.None?
  {
    Blank("Text").(title := Some(text), textStyle := textStyle, modifier := modifier)
  }

  /** `ButtonWithVariant`; `variant` `None` is plain `Button`. */
  function ButtonOf(caption: string, action: string, variant: Option<string>, modifier: Option<Modifier>): (n: GoNode)
    ensures n.kind == "Button" && n.labelText == Some(caption) && n.action == Some(action)
    ensures n.buttonVariant == variant && n.modifier == modifier
  {
    Blank("Button").(labelText := Some(caption), action := Some(action),
                     modifier := modifier, buttonVariant := variant)
  }

  /** `Button`: a filled button; only type, label, action and modifier are
      set, so no `buttonVariant` key is written. */
  function Button(caption: string, action: string, modifier: Option<Modifier>): (n: GoNode)
    ensures n.kind == "Button" && n.labelText == Some(caption) && n.action == Some(action)
    ensures n.modifier == modifier && n.buttonVariant.None?
    ensures n.(labelText := None, action := None, modifier := None) == Blank("Button")
  {
    Blank("Button").(labelText := Some(caption), action := Some(action), modifier := modifier)
  }

  /** `OutlinedButton`: the plain button plus the "outlined" variant. */
  function OutlinedButton(caption: string, action: string, modifier: Option<Modifier>): (n: GoNode)
    ensures n.buttonVariant == Some("outlined")
    ensures n.(buttonVariant := None) == Button(caption, action, modifier)
  {
    Blank("Button").(labelText := Some(caption), action := Some(action), modifier := modifier,
                     buttonVariant := Some("outlined"))
  }

  /** `TextButton`: the plain button plus the "text" variant. */
  function TextButton(caption: string, action: string, modifier: Option<Modifier>): (n: GoNode)
    ensures n.buttonVariant == Some("text")
    ensures n.(buttonVariant := None) == Button(caption, action, modifier)
  {
    Blank("Button").(labelText := Some(caption), action := Some(action), modifier := modifier,
                     buttonVariant := Some("text"))
  }

  /** The three fixed-variant constructors are `ButtonWithVariant` with a
      fixed variant, except that `Button` writes no variant at all, while
      `ButtonWithVariant` with "" still writes an empty one. */
  lemma ButtonsAreVariants(caption: string, action: string, modifier: Option<Modifier>)
    ensures Button(caption, action, modifier) == ButtonOf(caption, action, None, modifier)
    ensures OutlinedButton(caption, action, modifier) == ButtonOf(caption, action, Some("outlined"), modifier)
    ensures TextButton(caption, action, modifier) == ButtonOf(caption, action, Some("text"), modifier)
    ensures ButtonOf(caption, action, Some(""), modifier) != Button(caption, action, modifier)
  {
  }

  function Spacer(modifier: Option<Modifier>): (n: GoNode)
    ensures n.kind == "Spacer" && n.modifier == modifier
  {
    Blank("Spacer").(modifier := modifier)
  }

  /** `Image`: a dimension is written only when it is positive; the
      content description is always written, even when empty. */
  function Image(url: string, width: real, height: real, description: string, modifier: Option<Modifier>): (n: GoNode)
    ensures n.kind == "Image" && n.imageUrl == Some(url) && n.contentDescription == Some(description)
    ensures n.imageWidth.Some? <==> width > 0.0
    ensures n.imageHeight.Some? <==> height > 0.0
    ensures n.imageWidth.Some? ==> n.imageWidth.value == width
    ensures n.imageHeight.Some? ==> n.imageHeight.value == height
  {
    var node := Blank("Image").(imageUrl := Some(url), contentDescription := Some(description), modifier := modifier);
    var node := if width > 0.0 then node.(imageWidth := Some(width)) else node;
    if height > 0.0 then node.(imageHeight := Some(height)) else node
  }

  function Table(columns: seq<ColumnModel>, rows: seq<seq<CellModel>>, showBorders: bool,
                 headerBackgroundColor: string, modifier: Option<Modifier>): (n: GoNode)
    ensures n.kind == "Table" && n.columns == columns && n.tableData == rows
    ensures n.showBorders == Some(showBorders) && n.headerBackgroundColor == Some(headerBackgroundColor)
    ensures n.rowAction.None? && n.roundedCorners.None? && n.useLazyColumn.None?
  {
    Blank("Table").(columns := columns, tableData := rows, showBorders := Some(showBorders),
                    headerBackgroundColor := Some(headerBackgroundColor), modifier := modifier)
  }

  /** `TableWithRowAction` sets the row action even when it is empty. */
  function TableWithRowAction(columns: seq<ColumnModel>, rows: seq<seq<CellModel>>, showBorders: bool,
                              headerBackgroundColor: string, rowAction: string, modifier: Option<Modifier>): (n: GoNode)
    ensures n.rowAction == Some(rowAction)
    ensures n.(rowAction := None) == Table(columns, rows, showBorders, headerBackgroundColor, modifier)
  {
    Table(columns, rows, showBorders, headerBackgroundColor, modifier).(rowAction := Some(rowAction))
  }

  /** `TableAdvanced` sets the row action only when it is non-empty. */
  function TableAdvanced(columns: seq<ColumnModel>, rows: seq<seq<CellModel>>, showBorders: bool,
                         headerBackgroundColor: string, rowAction: string, roundedCorners: real,
                         useLazyColumn: bool, modifier: Option<Modifier>): (n: GoNode)
    ensures n.rowAction.Some? <==> rowAction != ""
    ensures n.rowAction.Some? ==> n.rowAction.value == rowAction
    ensures n.roundedCorners == Some(roundedCorners) && n.useLazyColumn == Some(useLazyColumn)
  {
    var table := Blank("Table").(columns := columns, tableData := rows, showBorders := Some(showBorders),
                                 headerBackgroundColor := Some(headerBackgroundColor), modifier := modifier,
                                 roundedCorners := Some(roundedCorners), useLazyColumn := Some(useLazyColumn));
    if rowAction != "" then table.(rowAction := Some(rowAction)) else table
  }

  /** `TableAdvanced` is `TableWithRowAction` (or `Table`, for an empty
      row action) plus the two layout options. */
  lemma TableAdvancedExtendsTable(columns: seq<ColumnModel>, rows: seq<seq<CellModel>>, showBorders: bool,
                                  background: string, rowAction: string, corners: real, lazy: bool,
                                  modifier: Option<Modifier>)
    ensures rowAction != "" ==>
      TableAdvanced(columns, rows, showBorders, background, rowAction, corners, lazy, modifier)
      == TableWithRowAction(columns, rows, showBorders, background, rowAction, modifier)
           .(roundedCorners := Some(corners), useLazyColumn := Some(lazy))
    ensures rowAction == "" ==>
      TableAdvanced(columns, rows, showBorders, background, rowAction, corners, lazy, modifier)
      == Table(columns, rows, showBorders, background, modifier)
           .(roundedCorners := Some(corners), useLazyColumn := Some(lazy))
  {
  }

  /** With an empty row action the two constructors disagree on the wire:
      one writes `"rowAction": ""`, the other leaves the key out. */
  lemma EmptyRowActionOnlyWrittenByTableWithRowAction(columns: seq<ColumnModel>, rows: seq<seq<CellModel>>,
                                                      showBorders: bool, background: string,
                                                      corners: real, lazy: bool, modifier: Option<Modifier>)
    ensures RowActionKey in NodeKeys(TableWithRowAction(columns, rows, showBorders, background, "", modifier))
    ensures RowActionKey !in NodeKeys(TableAdvanced(columns, rows, showBorders, background, "", corners, lazy, modifier))
  {
    assert Emitted(TableWithRowAction(columns, rows, showBorders, background, "", modifier), RowActionKey);
    assert !Emitted(TableAdvanced(columns, rows, showBorders, background, "", corners, lazy, modifier), RowActionKey);
  }

  /** A table always writes `showBorders` and `headerBackgroundColor`,
      but its `columns` and `tableData` only when they are non-empty. */
  lemma TableKeys(columns: seq<ColumnModel>, rows: seq<seq<CellModel>>, showBorders: bool,
                  background: string, modifier: Option<Modifier>)
    ensures var keys := NodeKeys(Table(columns, rows, showBorders, background, modifier));
      ShowBordersKey in keys && HeaderBackgroundColorKey in keys
      && (ColumnsKey in keys <==> |columns| > 0) && (TableDataKey in keys <==> |rows| > 0)
  {
    var n := Table(columns, rows, showBorders, background, modifier);
    assert Emitted(n, ShowBordersKey) && Emitted(n, HeaderBackgroundColorKey);
    assert Emitted(n, ColumnsKey) <==> |columns| > 0;
    assert Emitted(n, TableDataKey) <==> |rows| > 0;
  }

  // ---------------------------------------------------------------------
  // Table columns and cells

  function NewTableColumn(header: string, weight: real, alignment: string): (c: ColumnModel)
    ensures c.header == header && c.weight == Some(weight) && c.horizontalAlignment == Some(alignment)
    ensures c.width.None? && c.textStyle.None? && c.headerStyle.None?
  {
    ColumnModel(header, Some(weight), None, Some(alignment), None, None)
  }

  function NewTableColumnWithStyle(header: string, weight: real, alignment: string,
                                   headerStyle: Option<Style>, textStyle: Option<Style>): (c: ColumnModel)
    ensures c == NewTableColumn(header, weight, alignment).(headerStyle := headerStyle, textStyle := textStyle)
  {
    ColumnModel(header, Some(weight), None, Some(alignment), textStyle, headerStyle)
  }

  function NewTableCell(text: string): (c: CellModel)
    ensures c.text == text
    ensures c.textStyle.None? && c.backgroundColor.None? && c.action.None? && c.modifier.None? && c.showBorder.None?
  {
    CellModel(text, None, None, None, None, None)
  }

  /** An empty string means "no value" for the optional text arguments. */
  function NonEmpty(s: string): (r: Option<string>)
    ensures r.Some? <==> s != ""
    ensures r.Some? ==> r.value == s
  {
    if s != "" then Some(s) else None
  }

  function NewTableCellWithStyle(text: string, background: string, textStyle: Option<Style>): (c: CellModel)
    ensures c.text == text && c.textStyle == textStyle
    ensures c.backgroundColor.Some? <==> background != ""
    ensures c.action.None? && c.showBorder.None? && c.modifier.None?
  {
    NewTableCell(text).(textStyle := textStyle, backgroundColor := NonEmpty(background))
  }

  /** Sets the action unconditionally, even when it is empty. */
  function NewTableCellWithAction(text: string, background: string, action: string, textStyle: Option<Style>): (c: CellModel)
    ensures c.action == Some(action)
    ensures c.(action := None) == NewTableCellWithStyle(text, background, textStyle)
  {
    NewTableCellWithStyle(text, background, textStyle).(action := Some(action))
  }

  function NewTableCellWithBorder(text: string, background: string, action: string,
                                  textStyle: Option<Style>, showBorder: bool): (c: CellModel)
    ensures c.showBorder == Some(showBorder)
    ensures c.backgroundColor.Some? <==> background != ""
    ensures c.action.Some? <==> action != ""
  {
    CellModel(text, textStyle, NonEmpty(background), NonEmpty(action), None, Some(showBorder))
  }

  /** For a non-empty action, the bordered cell is the action cell plus its
      border flag; for an empty one they differ only in the action. */
  lemma BorderCellExtendsActionCell(text: string, background: string, action: string,
                                    style: Option<Style>, showBorder: bool)
    ensures action != "" ==>
      NewTableCellWithBorder(text, background, action, style, showBorder)
      == NewTableCellWithAction(text, background, action, style).(showBorder := Some(showBorder))
    ensures action == "" ==>
      NewTableCellWithBorder(text, background, action, style, showBorder)
      == NewTableCellWithStyle(text, background, style).(showBorder := Some(showBorder))
  {
  }

  // ---------------------------------------------------------------------
  // Modifier setters

  /** The fields of `ModifierModel`, in declaration order. */
  datatype ModField =
    | HeightField | WidthField | WeightField | PaddingField | PaddingTopField
    | PaddingBottomField | PaddingStartField | PaddingEndField | FillMaxSizeField
    | FillMaxWidthField | BackgroundColorField | HorizontalAlignmentField
    | VerticalAlignmentField | ContentAlignmentField | VerticalScrollField

  /** A field's value, whatever its Go type. */
  datatype FieldValue = IntValue(i: int) | RealValue(r: real) | BoolValue(b: bool) | StringValue(s: string)

  function IntField(v: Option<int>): Option<FieldValue> {
    if v.Some? then Some(IntValue(v.value)) else None
  }

  function RealField(v: Option<real>): Option<FieldValue> {
    if v.Some? then Some(RealValue(v.value)) else None
  }

  function BoolField(v: Option<bool>): Option<FieldValue> {
    if v.Some? then Some(BoolValue(v.value)) else None
  }

  function StringField(v: Option<string>): Option<FieldValue> {
    if v.Some? then Some(StringValue(v.value)) else None
  }

  /** Reads one field; `None` is a nil pointer. */
  function Get(m: Modifier, f: ModField): (v: Option<FieldValue>) {
    match f
    case HeightField => IntField(m.height)
    case WidthField => IntField(m.width)
    case WeightField => RealField(m.weight)
    case PaddingField => IntField(m.padding)
    case PaddingTopField => IntField(m.paddingTop)
    case PaddingBottomField => IntField(m.paddingBottom)
    case PaddingStartField => IntField(m.paddingStart)
    case PaddingEndField => IntField(m.paddingEnd)
    case FillMaxSizeField => BoolField(m.fillMaxSize)
    case FillMaxWidthField => BoolField(m.fillMaxWidth)
    case BackgroundColorField => StringField(m.backgroundColor)
    case HorizontalAlignmentField => StringField(m.horizontalAlignment)
    case VerticalAlignmentField => StringField(m.verticalAlignment)
    case ContentAlignmentField => StringField(m.contentAlignment)
    case VerticalScrollField => BoolField(m.verticalScroll)
  }

  /** Two modifiers that read the same in every field are equal. */
  lemma {:induction false} Extensional(a: Modifier, b: Modifier)
    requires forall f :: Get(a, f) == Get(b, f)
    ensures a == b
  {
    assert Get(a, HeightField) == Get(b, HeightField);
    IntFieldInjective(a.height, b.height);
    assert Get(a, WidthField) == Get(b, WidthField);
    IntFieldInjective(a.width, b.width);
    assert Get(a, WeightField) == Get(b, WeightField);
    RealFieldInjective(a.weight, b.weight);
    assert Get(a, PaddingField) == Get(b, PaddingField);
    IntFieldInjective(a.padding, b.padding);
    assert Get(a, PaddingTopField) == Get(b, PaddingTopField);
    IntFieldInjective(a.paddingTop, b.paddingTop);
    assert Get(a, PaddingBottomField) == Get(b, PaddingBottomField);
    IntFieldInjective(a.paddingBottom, b.paddingBottom);
    assert Get(a, PaddingStartField) == Get(b, PaddingStartField);
    IntFieldInjective(a.paddingStart, b.paddingStart);
    assert Get(a, PaddingEndField) == Get(b, PaddingEndField);
    IntFieldInjective(a.paddingEnd, b.paddingEnd);
    assert Get(a, FillMaxSizeField) == Get(b, FillMaxSizeField);
    BoolFieldInjective(a.fillMaxSize, b.fillMaxSize);
    assert Get(a, FillMaxWidthField) == Get(b, FillMaxWidthField);
    BoolFieldInjective(a.fillMaxWidth, b.fillMaxWidth);
    assert Get(a, BackgroundColorField) == Get(b, BackgroundColorField);
    StringFieldInjective(a.backgroundColor, b.backgroundColor);
    assert Get(a, HorizontalAlignmentField) == Get(b, HorizontalAlignmentField);
    StringFieldInjective(a.horizontalAlignment, b.horizontalAlignment);
    assert Get(a, VerticalAlignmentField) == Get(b, VerticalAlignmentField);
    StringFieldInjective(a.verticalAlignment, b.verticalAlignment);
    assert Get(a, ContentAlignmentField) == Get(b, ContentAlignmentField);
    StringFieldInjective(a.contentAlignment, b.contentAlignment);
    assert Get(a, VerticalScrollField) == Get(b, VerticalScrollField);
    BoolFieldInjective(a.verticalScroll, b.verticalScroll);
  }

  lemma IntFieldInjective(x: Option<int>, y: Option<int>)
    requires IntField(x) == IntField(y)
    ensures x == y
  {
  }

  lemma RealFieldInjective(x: Option<real>, y: Option<real>)
    requires RealField(x) == RealField(y)
    ensures x == y
  {
  }

  lemma BoolFieldInjective(x: Option<bool>, y: Option<bool>)
    requires BoolField(x) == BoolField(y)
    ensures x == y
  {
  }

  lemma StringFieldInjective(x: Option<string>, y: Option<string>)
    requires StringField(x) == StringField(y)
    ensures x == y
  {
  }

  /** The fifteen `With*` methods of `*ModifierModel`. */
  datatype ModSetter =
    | WithPadding(padding: int) | WithPaddingTop(top: int) | WithPaddingBottom(bottom: int)
    | WithPaddingStart(start: int) | WithPaddingEnd(end: int) | WithFillMaxSize | WithFillMaxWidth
    | WithBackgroundColor(color: string) | WithHorizontalAlignment(horizontal: string)
    | WithVerticalAlignment(vertical: string) | WithContentAlignment(content: string)
    | WithHeight(height: int) | WithWidth(width: int) | WithVerticalScroll | WithWeight(weight: real)

  /** The field a setter writes. */
  function Target(s: ModSetter): ModField {
    match s
    case WithPadding(_) => PaddingField
    case WithPaddingTop(_) => PaddingTopField
    case WithPaddingBottom(_) => PaddingBottomField
    case WithPaddingStart(_) => PaddingStartField
    case WithPaddingEnd(_) => PaddingEndField
    case WithFillMaxSize => FillMaxSizeField
    case WithFillMaxWidth => FillMaxWidthField
    case WithBackgroundColor(_) => BackgroundColorField
    case WithHorizontalAlignment(_) => HorizontalAlignmentField
    case WithVerticalAlignment(_) => VerticalAlignmentField
    case WithContentAlignment(_) => ContentAlignmentField
    case WithHeight(_) => HeightField
    case WithWidth(_) => WidthField
    case WithVerticalScroll => VerticalScrollField
    case WithWeight(_) => WeightField
  }

  /** The value a setter writes; the flag setters always write `true`. */
  function Written(s: ModSetter): FieldValue {
    match s
    case WithPadding(v) => IntValue(v)
    case WithPaddingTop(v) => IntValue(v)
    case WithPaddingBottom(v) => IntValue(v)
    case WithPaddingStart(v) => IntValue(v)
    case WithPaddingEnd(v) => IntValue(v)
    case WithFillMaxSize => BoolValue(true)
    case WithFillMaxWidth => BoolValue(true)
    case WithBackgroundColor(v) => StringValue(v)
    case WithHorizontalAlignment(v) => StringValue(v)
    case WithVerticalAlignment(v) => StringValue(v)
    case WithContentAlignment(v) => StringValue(v)
    case WithHeight(v) => IntValue(v)
    case WithWidth(v) => IntValue(v)
    case WithVerticalScroll => BoolValue(true)
    case WithWeight(v) => RealValue(v)
  }

  /** `Modifier()`: every field nil. */
  const EmptyModifier: Modifier := SimpleCompose.SimpleModifier(
    None, None, None, None, None, None, None, None, None, None, None, None, None, None, None)

  lemma EmptyModifierIsAllNil(f: ModField)
    ensures Get(EmptyModifier, f).None?
  {
  }

  /** One `With*` call: it writes its own field and no other. */
  function Apply(m: Modifier, s: ModSetter): (r: Modifier)
    ensures Get(r, Target(s)) == Some(Written(s))
    ensures forall f :: f != Target(s) ==> Get(r, f) == Get(m, f)
  {
    match s
    case WithPadding(v) => m.(padding := Some(v))
    case WithPaddingTop(v) => m.(paddingTop := Some(v))
    case WithPaddingBottom(v) => m.(paddingBottom := Some(v))
    case WithPaddingStart(v) => m.(paddingStart := Some(v))
    case WithPaddingEnd(v) => m.(paddingEnd := Some(v))
    case WithFillMaxSize => m.(fillMaxSize := Some(true))
    case WithFillMaxWidth => m.(fillMaxWidth := Some(true))
    case WithBackgroundColor(v) => m.(backgroundColor := Some(v))
    case WithHorizontalAlignment(v) => m.(horizontalAlignment := Some(v))
    case WithVerticalAlignment(v) => m.(verticalAlignment := Some(v))
    case WithContentAlignment(v) => m.(contentAlignment := Some(v))
    case WithHeight(v) => m.(height := Some(v))
    case WithWidth(v) => m.(width := Some(v))
    case WithVerticalScroll => m.(verticalScroll := Some(true))
    case WithWeight(v) => m.(weight := Some(v))
  }

  /** `m.s0().s1()…`: the calls are applied left to right to one receiver. */
  function Chain(m: Modifier, calls: seq<ModSetter>): Modifier
    decreases |calls|
  {
    if |calls| == 0 then m else Chain(Apply(m, calls[0]), calls[1..])
  }

  /** The value the last call writing `f` wrote, if any call did. */
  function LastWrite(calls: seq<ModSetter>, f: ModField): Option<FieldValue> {
    if |calls| == 0 then None
    else if LastWrite(calls[1..], f).Some? then LastWrite(calls[1..], f)
    else if Target(calls[0]) == f then Some(Written(calls[0]))
    else None
  }

  /** Chained calls accumulate: each field holds what the last call that
      wrote it wrote, and fields no call wrote keep their value. */
  lemma {:induction false} ChainAccumulates(m: Modifier, calls: seq<ModSetter>, f: ModField)
    ensures LastWrite(calls, f).Some? ==> Get(Chain(m, calls), f) == LastWrite(calls, f)
    ensures LastWrite(calls, f).None? ==> Get(Chain(m, calls), f) == Get(m, f)
    decreases |calls|
  {
    if |calls| > 0 {
      ChainAccumulates(Apply(m, calls[0]), calls[1..], f);
    }
  }

  /** Setters on different fields commute, so the order of a chain only
      matters between calls on the same field. */
  lemma SettersCommute(m: Modifier, a: ModSetter, b: ModSetter)
    requires Target(a) != Target(b)
    ensures Apply(Apply(m, a), b) == Apply(Apply(m, b), a)
  {
    var x := Apply(Apply(m, a), b);
    var y := Apply(Apply(m, b), a);
    forall f ensures Get(x, f) == Get(y, f) {
      if f == Target(a) {
        assert Get(x, f) == Get(Apply(m, a), f);
      } else if f == Target(b) {
        assert Get(y, f) == Get(Apply(m, b), f);
      }
    }
    Extensional(x, y);
  }

  /** A repeated setter keeps only the later value. */
  lemma LaterCallWins(m: Modifier, a: ModSetter, b: ModSetter)
    requires Target(a) == Target(b)
    ensures Apply(Apply(m, a), b) == Apply(m, b)
  {
    var x := Apply(Apply(m, a), b);
    var y := Apply(m, b);
    forall f ensures Get(x, f) == Get(y, f) {
      if f != Target(b) {
        assert Get(x, f) == Get(Apply(m, a), f);
      }
    }
    Extensional(x, y);
  }

  /** The chain of the modifier-chaining test reads back its four values. */
  lemma ModifierChainingExample()
    ensures var m := Chain(EmptyModifier, [WithPadding(16), WithFillMaxWidth,
                                           WithBackgroundColor("#E3F2FD"), WithHorizontalAlignment("center")]);
      m.padding == Some(16) && m.fillMaxWidth == Some(true)
      && m.backgroundColor == Some("#E3F2FD") && m.horizontalAlignment == Some("center")
      && m.height.None? && m.paddingTop.None?
  {
    var calls := [WithPadding(16), WithFillMaxWidth, WithBackgroundColor("#E3F2FD"), WithHorizontalAlignment("center")];
    assert calls[1..][1..][1..][1..] == [];
  }

  // ---------------------------------------------------------------------
  // Text style setters and presets

  datatype StyleSetter = WithFontSize(size: real) | WithFontWeight(fontWeight: string)
                       | WithTextAlign(align: string) | WithColor(color: string)

  /** `TextStyle()`. */
  const EmptyStyle: Style := SimpleCompose.TextStyleModel(None, None, None, None)

  /** One `With*` call on a text style: it writes its own field only. */
  function ApplyStyle(t: Style, s: StyleSetter): (r: Style)
    ensures s.WithFontSize? ==> r.fontSize == Some(s.size) && r.(fontSize := t.fontSize) == t
    ensures s.WithFontWeight? ==> r.fontWeight == Some(s.fontWeight) && r.(fontWeight := t.fontWeight) == t
    ensures s.WithTextAlign? ==> r.textAlign == Some(s.align) && r.(textAlign := t.textAlign) == t
    ensures s.WithColor? ==> r.color == Some(s.color) && r.(color := t.color) == t
  {
    match s
    case WithFontSize(v) => t.(fontSize := Some(v))
    case WithFontWeight(v) => t.(fontWeight := Some(v))
    case WithTextAlign(v) => t.(textAlign := Some(v))
    case WithColor(v) => t.(color := Some(v))
  }

  function ChainStyle(t: Style, calls: seq<StyleSetter>): Style
    decreases |calls|
  {
    if |calls| == 0 then t else ChainStyle(ApplyStyle(t, calls[0]), calls[1..])
  }

  const HeadingStyle: Style := SimpleCompose.TextStyleModel(Some(24.0), Some("bold"), None, Some("#212121"))
  const TitleStyle: Style := SimpleCompose.TextStyleModel(Some(18.0), Some("bold"), None, Some("#212121"))
  const BodyStyle: Style := SimpleCompose.TextStyleModel(Some(14.0), None, None, Some("#757575"))
  const WhiteTextStyle: Style := SimpleCompose.TextStyleModel(None, Some("bold"), None, Some("#FFFFFF"))

  /** Each preset is the chain of setters that spells it out. */
  lemma PresetsAreChains()
    ensures HeadingStyle == ChainStyle(EmptyStyle, [WithFontSize(24.0), WithFontWeight("bold"), WithColor("#212121")])
    ensures TitleStyle == ChainStyle(EmptyStyle, [WithFontSize(18.0), WithFontWeight("bold"), WithColor("#212121")])
    ensures BodyStyle == ChainStyle(EmptyStyle, [WithFontSize(14.0), WithColor("#757575")])
    ensures WhiteTextStyle == ChainStyle(EmptyStyle, [WithColor("#FFFFFF"), WithFontWeight("bold")])
  {
    var three := [WithFontSize(24.0), WithFontWeight("bold"), WithColor("#212121")];
    assert three[1..][1..][1..] == [];
    var heading := [WithFontSize(18.0), WithFontWeight("bold"), WithColor("#212121")];
    assert heading[1..][1..][1..] == [];
    var two := [WithFontSize(14.0), WithColor("#757575")];
    assert two[1..][1..] == [];
    var white := [WithColor("#FFFFFF"), WithFontWeight("bold")];
    assert white[1..][1..] == [];
  }

  /** How the Compose client draws the presets: the bold ones bold at
      their own size, the body style at normal weight, none re-aligned. */
  lemma PresetsOnCompose(bodyMediumSize: real)
    ensures SimpleCompose.BuildTextStyle(Some(HeadingStyle), bodyMediumSize)
            == SimpleCompose.SimpleTextStyle(24.0, SimpleCompose.Bold, SimpleCompose.AlignStart, SimpleCompose.Named("#212121"))
    ensures SimpleCompose.BuildTextStyle(Some(BodyStyle), bodyMediumSize)
            == SimpleCompose.SimpleTextStyle(14.0, SimpleCompose.NormalWeight, SimpleCompose.AlignStart, SimpleCompose.Named("#757575"))
    ensures SimpleCompose.BuildTextStyle(Some(WhiteTextStyle), bodyMediumSize).fontSize == bodyMediumSize
  {
  }

  // ---------------------------------------------------------------------
  // What the Compose client reads back

  /** The Compose client's `NodeModel` decoded from `json.Marshal(n)`: the
      shared fields carry over, an omitted `children` key reads as null,
      and the table fields have no counterpart there. */
  function ToCompose(n: GoNode): (s: SimpleCompose.SimpleNode)
    ensures s.kind == n.kind && s.title == n.title && s.labelText == n.labelText && s.action == n.action
    ensures s.children.Absent? <==> |n.children| == 0
    decreases n, 1
  {
    SimpleCompose.SimpleNode(
      n.kind, n.title, n.description, n.labelText, n.backgroundColor, n.elevation, n.imageUrl,
      n.imageHeight, n.imageWidth, n.contentDescription, n.action, n.modifier, n.textStyle,
      if n.topBar.Some? then Some(ToCompose(n.topBar.value)) else None,
      if n.floatingActionButton.Some? then Some(ToCompose(n.floatingActionButton.value)) else None,
      if n.content.Some? then Some(ToCompose(n.content.value)) else None,
      if |n.children| == 0 then SimpleCompose.Absent else SimpleCompose.Listed(ToComposeAll(n, n.children)))
  }

  function ToComposeAll(parent: GoNode, kids: seq<GoNode>): (out: seq<SimpleCompose.SimpleNode>)
    requires forall i :: 0 <= i < |kids| ==> kids[i] < parent
    ensures |out| == |kids|
    ensures forall i :: 0 <= i < |kids| ==> out[i] == ToCompose(kids[i])
    decreases parent, 0, |kids|
  {
    if |kids| == 0 then [] else [ToCompose(kids[0])] + ToComposeAll(parent, kids[1..])
  }

  /** A Go `Text` shows its text on the Compose client. */
  lemma TextShowsItsText(text: string, style: Option<Style>, modifier: Option<Modifier>, bodyMediumSize: real)
    ensures SimpleCompose.Render(ToCompose(Text(text, style, modifier)), bodyMediumSize)
            == SimpleCompose.UiText(text, SimpleCompose.BuildModifier(modifier),
                                    SimpleCompose.BuildTextStyle(style, bodyMediumSize))
  {
    SimpleCompose.RenderText(ToCompose(Text(text, style, modifier)), bodyMediumSize);
  }

  /** A Go button whose action is `navigate:` + d navigates to d when
      clicked on the Compose client, whatever its variant. */
  lemma ButtonNavigates(caption: string, destination: string, variant: Option<string>,
                        modifier: Option<Modifier>, bodyMediumSize: real)
    ensures var u := SimpleCompose.Render(ToCompose(ButtonOf(caption, SimpleCompose.NavigatePrefix + destination, variant, modifier)), bodyMediumSize);
      u.UiButton? && u.caption == caption && u.onClick.Some?
      && SimpleCompose.HandleAction(u.onClick.value) == SimpleCompose.Navigate(destination)
  {
    var action := SimpleCompose.NavigatePrefix + destination;
    assert action[..|SimpleCompose.NavigatePrefix|] == SimpleCompose.NavigatePrefix;
  }

  /** `CardWithChildren` with no children reaches the client without a
      `children` key, so the card falls back to its (absent) title and
      description instead of drawing an empty custom body. */
  lemma EmptyChildCardShowsDefaultBody(elevation: real, modifier: Option<Modifier>, bodyMediumSize: real)
    ensures var u := SimpleCompose.Render(ToCompose(CardWithChildren([], elevation, modifier)), bodyMediumSize);
      u.UiCard? && u.body == SimpleCompose.DefaultBody(None, None) && u.elevation == elevation
  {
    SimpleCompose.RenderCard(ToCompose(CardWithChildren([], elevation, modifier)), bodyMediumSize);
  }

  /** A non-empty `CardWithChildren` draws exactly its children. */
  lemma ChildCardDrawsChildren(children: seq<GoNode>, elevation: real, modifier: Option<Modifier>, bodyMediumSize: real)
    requires |children| > 0
    ensures var u := SimpleCompose.Render(ToCompose(CardWithChildren(children, elevation, modifier)), bodyMediumSize);
      u.UiCard? && u.body.CustomBody? && |u.body.children| == |children|
  {
    SimpleCompose.RenderCard(ToCompose(CardWithChildren(children, elevation, modifier)), bodyMediumSize);
  }
}

=== FILE: java_builders.dfy ===
// The Java server-side builders (`NodeBuilder.java`, `SSR.java`).
//
// Java objects are references, and the builder's behaviour depends on it:
// `build()` hands out the builder's own model rather than a copy, and the
// `topBar(NodeBuilder)`-style overloads store another builder's model. The
// node models therefore live in a heap of references, and a builder is the
// reference of the model it owns. Modifier, text style, column and cell
// models are kept as values. Lists remember whether they came from
// `Arrays.asList`, whose fixed-size lists reject `add`.

module JavaBuilders {
  import opened Wrappers
  import SimpleCompose
  import GoBuilders

  type Modifier = SimpleCompose.SimpleModifier
  type Style = SimpleCompose.TextStyleModel
  type ColumnModel = GoBuilders.ColumnModel
  type CellModel = GoBuilders.CellModel

  /** A node model's reference. */
  type Ref = nat

  /** A `java.util.List`: an `ArrayList`, or the fixed-size list of
      `Arrays.asList`. */
  datatype JList<T> = JList(items: seq<T>, fixedSize: bool)

  /** `NodeModel` of the Java package. Its node-valued fields hold
      references. */
  datatype JavaNode = JavaNode(
    kind: string,
    title: Option<string>,
    description: Option<string>,
    labelText: Option<string>,
    backgroundColor: Option<string>,
    elevation: Option<real>,
    imageUrl: Option<string>,
    imageHeight: Option<real>,
    imageWidth: Option<real>,
    contentDescription: Option<string>,
    action: Option<string>,
    modifier: Option<Modifier>,
    textStyle: Option<Style>,
    topBar: Option<Ref>,
    floatingActionButton: Option<Ref>,
    content: Option<Ref>,
    children: Option<JList<Ref>>,
    buttonVariant: Option<string>,
    columns: Option<JList<ColumnModel>>,
    tableData: Option<JList<seq<CellModel>>>,
    showBorders: Option<bool>,
    headerBackgroundColor: Option<string>,
    rowAction: Option<string>,
    roundedCorners: Option<real>,
    useLazyColumn: Option<bool>)

  /** The node models allocated so far; `next` is the next fresh reference. */
  datatype Heap = Heap(nodes: map<Ref, JavaNode>, next: Ref)

  predicate Valid(h: Heap) {
    forall r :: r in h.nodes ==> r < h.next
  }

  /** A model with only `type` set, as the builder's constructor leaves it. */
  function Fresh(kind: string): (n: JavaNode)
    ensures n.kind == kind
  {
    JavaNode(kind, None, None, None, None, None, None, None, None, None, None, None, None,
             None, None, None, None, None, None, None, None, None, None, None, None)
  }

  /** `new NodeBuilder(type)`: allocates a new model, sets its type and
      nothing else, and leaves every existing model alone. */
  function NewBuilder(h: Heap, kind: string): (res: (Heap, Ref))
    requires Valid(h)
    ensures Valid(res.0)
    ensures res.1 !in h.nodes && res.0.nodes == h.nodes[res.1 := Fresh(kind)]
  {
    (Heap(h.nodes[h.next := Fresh(kind)], h.next + 1), h.next)
  }

  /** The builder calls. Overloads that take another builder pass that
      builder's model reference, since they call its `build()`; overloads
      that take a modifier or text-style builder pass the built value. */
  datatype Call =
    | Title(title: string) | Description(description: string) | Label(text: string)
    | BackgroundColor(color: string) | Elevation(elevation: real) | ImageUrl(url: string)
    | ImageHeight(height: real) | ImageWidth(width: real) | ContentDescription(contentDescription: string)
    | Action(action: string) | SetModifier(modifier: Modifier) | SetTextStyle(style: Style)
    | TopBar(topBar: Ref) | FloatingActionButton(fab: Ref) | Content(content: Ref)
    | ChildrenList(children: JList<Ref>) | ChildrenVarargs(childArgs: seq<Ref>) | AddChild(child: Ref)
    | ButtonVariant(variant: string)
    | ColumnsList(columns: JList<ColumnModel>) | ColumnsVarargs(columnArgs: seq<ColumnModel>)
    | AddColumn(column: ColumnModel)
    | TableData(rows: JList<seq<CellModel>>) | AddRow(row: seq<CellModel>)
    | ShowBorders(show: bool) | HeaderBackgroundColor(headerColor: string) | RowAction(rowAction: string)
    | RoundedCorners(radius: real) | UseLazyColumn(lazy: bool)

  /** `addChild`/`addColumn`/`addRow`: creates a growable list when there
      is none, then appends; `add` on a fixed-size list throws, which is
      `None`. */
  function Append<T>(list: Option<JList<T>>, x: T): (r: Option<JList<T>>)
    ensures r.None? <==> list.Some? && list.value.fixedSize
    ensures r.Some? && list.None? ==> r.value == JList([x], false)
    ensures r.Some? && list.Some? ==> r.value == JList(list.value.items + [x], list.value.fixedSize)
  {
    if list.None? then Some(JList([x], false))
    else if list.value.fixedSize then None
    else Some(list.value.(items := list.value.items + [x]))
  }

  /** One builder call on the builder's own model; `None` when it throws. */
  function Step(n: JavaNode, c: Call): (r: Option<JavaNode>)
    ensures r.None? <==>
      (c.AddChild? && n.children.Some? && n.children.value.fixedSize)
      || (c.AddColumn? && n.columns.Some? && n.columns.value.fixedSize)
      || (c.AddRow? && n.tableData.Some? && n.tableData.value.fixedSize)
    ensures r.Some? ==> r.value.kind == n.kind
  {
    match c
    case Title(v) => Some(n.(title := Some(v)))
    case Description(v) => Some(n.(description := Some(v)))
    case Label(v) => Some(n.(labelText := Some(v)))
    case BackgroundColor(v) => Some(n.(backgroundColor := Some(v)))
    case Elevation(v) => Some(n.(elevation := Some(v)))
    case ImageUrl(v) => Some(n.(imageUrl := Some(v)))
    case ImageHeight(v) => Some(n.(imageHeight := Some(v)))
    case ImageWidth(v) => Some(n.(imageWidth := Some(v)))
    case ContentDescription(v) => Some(n.(contentDescription := Some(v)))
    case Action(v) => Some(n.(action := Some(v)))
    case SetModifier(v) => Some(n.(modifier := Some(v)))
    case SetTextStyle(v) => Some(n.(textStyle := Some(v)))
    case TopBar(v) => Some(n.(topBar := Some(v)))
    case FloatingActionButton(v) => Some(n.(floatingActionButton := Some(v)))
    case Content(v) => Some(n.(content := Some(v)))
    case ChildrenList(v) => Some(n.(children := Some(v)))
    case ChildrenVarargs(v) => Some(n.(children := Some(JList(v, true))))
    case AddChild(v) =>
      var list := Append(n.children, v);
      if list.None? then None else Some(n.(children := list))
    case ButtonVariant(v) => Some(n.(buttonVariant := Some(v)))
    case ColumnsList(v) => Some(n.(columns := Some(v)))
    case ColumnsVarargs(v) => Some(n.(columns := Some(JList(v, true))))
    case AddColumn(v) =>
      var list := Append(n.columns, v);
      if list.None? then None else Some(n.(columns := list))
    case TableData(v) => Some(n.(tableData := Some(v)))
    case AddRow(v) =>
      var list := Append(n.tableData, v);
      if list.None? then None else Some(n.(tableData := list))
    case ShowBorders(v) => Some(n.(showBorders := Some(v)))
    case HeaderBackgroundColor(v) => Some(n.(headerBackgroundColor := Some(v)))
    case RowAction(v) => Some(n.(rowAction := Some(v)))
    case RoundedCorners(v) => Some(n.(roundedCorners := Some(v)))
    case UseLazyColumn(v) => Some(n.(useLazyColumn := Some(v)))
  }

  /** The `NodeModel` field a call writes, named by its JSON key. */
  function FieldOf(c: Call): GoBuilders.NodeKey {
    match c
    case Title(_) => GoBuilders.TitleKey
    case Description(_) => GoBuilders.DescriptionKey
    case Label(_) => GoBuilders.LabelKey
    case BackgroundColor(_) => GoBuilders.BackgroundColorKey
    case Elevation(_) => GoBuilders.ElevationKey
    case ImageUrl(_) => GoBuilders.ImageUrlKey
    case ImageHeight(_) => GoBuilders.ImageHeightKey
    case ImageWidth(_) => GoBuilders.ImageWidthKey
    case ContentDescription(_) => GoBuilders.ContentDescriptionKey
    case Action(_) => GoBuilders.ActionKey
    case SetModifier(_) => GoBuilders.ModifierKey
    case SetTextStyle(_) => GoBuilders.TextStyleKey
    case TopBar(_) => GoBuilders.TopBarKey
    case FloatingActionButton(_) => GoBuilders.FloatingActionButtonKey
    case Content(_) => GoBuilders.ContentKey
    case ChildrenList(_) => GoBuilders.ChildrenKey
    case ChildrenVarargs(_) => GoBuilders.ChildrenKey
    case AddChild(_) => GoBuilders.ChildrenKey
    case ButtonVariant(_) => GoBuilders.ButtonVariantKey
    case ColumnsList(_) => GoBuilders.ColumnsKey
    case ColumnsVarargs(_) => GoBuilders.ColumnsKey
    case AddColumn(_) => GoBuilders.ColumnsKey
    case TableData(_) => GoBuilders.TableDataKey
    case AddRow(_) => GoBuilders.TableDataKey
    case ShowBorders(_) => GoBuilders.ShowBordersKey
    case HeaderBackgroundColor(_) => GoBuilders.HeaderBackgroundColorKey
    case RowAction(_) => GoBuilders.RowActionKey
    case RoundedCorners(_) => GoBuilders.RoundedCornersKey
    case UseLazyColumn(_) => GoBuilders.UseLazyColumnKey
  }

  /** `n` with the field named `k` reset to null; `type` is never reset. */
  function Clear(n: JavaNode, k: GoBuilders.NodeKey): JavaNode {
    match k
    case TypeKey => n
    case TitleKey => n.(title := None)
    case DescriptionKey => n.(description := None)
    case LabelKey => n.(labelText := None)
    case BackgroundColorKey => n.(backgroundColor := None)
    case ElevationKey => n.(elevation := None)
    case ImageUrlKey => n.(imageUrl := None)
    case ImageHeightKey => n.(imageHeight := None)
    case ImageWidthKey => n.(imageWidth := None)
    case ContentDescriptionKey => n.(contentDescription := None)
    case ActionKey => n.(action := None)
    case ModifierKey => n.(modifier := None)
    case TextStyleKey => n.(textStyle := None)
    case TopBarKey => n.(topBar := None)
    case FloatingActionButtonKey => n.(floatingActionButton := None)
    case ContentKey => n.(content := None)
    case ChildrenKey => n.(children := None)
    case ButtonVariantKey => n.(buttonVariant := None)
    case ColumnsKey => n.(columns := None)
    case TableDataKey => n.(tableData := None)
    case ShowBordersKey => n.(showBorders := None)
    case HeaderBackgroundColorKey => n.(headerBackgroundColor := None)
    case RowActionKey => n.(rowAction := None)
    case RoundedCornersKey => n.(roundedCorners := None)
    case UseLazyColumnKey => n.(useLazyColumn := None)
  }

  /** A call that returns writes its own field and nothing else. */
  lemma CallTouchesOneField(n: JavaNode, c: Call)
    requires Step(n, c).Some?
    ensures Clear(Step(n, c).value, FieldOf(c)) == Clear(n, FieldOf(c))
  {
    if c.Title? || c.Description? || c.Label? || c.BackgroundColor? || c.ImageUrl? {
      TextCallTouchesOneField(n, c);
    } else if c.ContentDescription? || c.Action? || c.ButtonVariant? || c.HeaderBackgroundColor? || c.RowAction? {
      MoreTextCallTouchesOneField(n, c);
    } else if c.Elevation? || c.ImageHeight? || c.ImageWidth? || c.RoundedCorners? || c.ShowBorders? || c.UseLazyColumn? {
      NumberCallTouchesOneField(n, c);
    } else if c.SetModifier? || c.SetTextStyle? || c.TopBar? || c.FloatingActionButton? || c.Content? {
      ValueCallTouchesOneField(n, c);
    } else if c.ChildrenList? || c.ChildrenVarargs? || c.AddChild? {
      ChildCallTouchesOneField(n, c);
    } else if c.ColumnsList? || c.ColumnsVarargs? || c.AddColumn? {
      ColumnCallTouchesOneField(n, c);
    } else {
      RowCallTouchesOneField(n, c);
    }
  }

  lemma TextCallTouchesOneField(n: JavaNode, c: Call)
    requires c.Title? || c.Description? || c.Label? || c.BackgroundColor? || c.ImageUrl?
    requires Step(n, c).Some?
    ensures Clear(Step(n, c).value, FieldOf(c)) == Clear(n, FieldOf(c))
  {
  }

  lemma MoreTextCallTouchesOneField(n: JavaNode, c: Call)
    requires c.ContentDescription? || c.Action? || c.ButtonVariant? || c.HeaderBackgroundColor? || c.RowAction?
    requires Step(n, c).Some?
    ensures Clear(Step(n, c).value, FieldOf(c)) == Clear(n, FieldOf(c))
  {
  }

  lemma NumberCallTouchesOneField(n: JavaNode, c: Call)
    requires c.Elevation? || c.ImageHeight? || c.ImageWidth? || c.RoundedCorners? || c.ShowBorders? || c.UseLazyColumn?
    requires Step(n, c).Some?
    ensures Clear(Step(n, c).value, FieldOf(c)) == Clear(n, FieldOf(c))
  {
  }

  lemma ValueCallTouchesOneField(n: JavaNode, c: Call)
    requires c.SetModifier? || c.SetTextStyle? || c.TopBar? || c.FloatingActionButton? || c.Content?
    requires Step(n, c).Some?
    ensures Clear(Step(n, c).value, FieldOf(c)) == Clear(n, FieldOf(c))
  {
  }

  lemma ChildCallTouchesOneField(n: JavaNode, c: Call)
    requires c.ChildrenList? || c.ChildrenVarargs? || c.AddChild?
    requires Step(n, c).Some?
    ensures Clear(Step(n, c).value, FieldOf(c)) == Clear(n, FieldOf(c))
  {
  }

  lemma ColumnCallTouchesOneField(n: JavaNode, c: Call)
    requires c.ColumnsList? || c.ColumnsVarargs? || c.AddColumn?
    requires Step(n, c).Some?
    ensures Clear(Step(n, c).value, FieldOf(c)) == Clear(n, FieldOf(c))
  {
  }

  lemma RowCallTouchesOneField(n: JavaNode, c: Call)
    requires c.TableData? || c.AddRow?
    requires Step(n, c).Some?
    ensures Clear(Step(n, c).value, FieldOf(c)) == Clear(n, FieldOf(c))
  {
  }

  /** A builder call: it updates the builder's model in place, or throws
      `UnsupportedOperationException` and changes nothing. */
  datatype Outcome = Done(heap: Heap) | Unsupported

  function Invoke(h: Heap, b: Ref, c: Call): (o: Outcome)
    requires b in h.nodes
    ensures o.Unsupported? <==> Step(h.nodes[b], c).None?
    ensures o.Done? ==> o.heap.next == h.next && o.heap.nodes.Keys == h.nodes.Keys
    ensures o.Done? ==> forall r :: r in h.nodes && r != b ==> o.heap.nodes[r] == h.nodes[r]
  {
    var n := Step(h.nodes[b], c);
    if n.None? then Unsupported else Done(h.(nodes := h.nodes[b := n.value]))
  }

  /** A chain of calls on one model, stopping at the first that throws. */
  function Steps(n: JavaNode, calls: seq<Call>): (r: Option<JavaNode>)
    ensures r.Some? ==> r.value.kind == n.kind
    decreases |calls|
  {
    if |calls| == 0 then Some(n)
    else match Step(n, calls[0])
      case None => None
      case Some(n1) => Steps(n1, calls[1..])
  }

  /** A chain of calls on one builder: it throws exactly when one of the
      calls does; otherwise only its own model changes, nothing is
      allocated, and that model ends as the calls leave it. */
  function Run(h: Heap, b: Ref, calls: seq<Call>): (o: Outcome)
    requires b in h.nodes
    ensures o.Unsupported? <==> Steps(h.nodes[b], calls).None?
    ensures o.Done? ==> o.heap.next == h.next && o.heap.nodes.Keys == h.nodes.Keys
    ensures o.Done? ==> forall r :: r in h.nodes && r != b ==> o.heap.nodes[r] == h.nodes[r]
    ensures o.Done? ==> o.heap.nodes[b] == Steps(h.nodes[b], calls).value
  {
    match Steps(h.nodes[b], calls)
    case None => Unsupported
    case Some(n) => Done(h.(nodes := h.nodes[b := n]))
  }

  /** Running a chain is invoking its calls one at a time on the heap,
      stopping at the first that throws. */
  lemma {:induction false} RunIsInvokes(h: Heap, b: Ref, calls: seq<Call>)
    requires b in h.nodes
    ensures Run(h, b, calls) == RunByInvoke(h, b, calls)
    decreases |calls|
  {
    if |calls| > 0 {
      var o := Invoke(h, b, calls[0]);
      if o.Done? {
        RunIsInvokes(o.heap, b, calls[1..]);
        var rest := Steps(o.heap.nodes[b], calls[1..]);
        if rest.Some? {
          assert o.heap.nodes[b := rest.value] == h.nodes[b := rest.value];
        }
      }
    }
  }

  /** The reference semantics of a chain: one `Invoke` per call. */
  function RunByInvoke(h: Heap, b: Ref, calls: seq<Call>): (o: Outcome)
    requires b in h.nodes
    decreases |calls|
  {
    if |calls| == 0 then Done(h)
    else match Invoke(h, b, calls[0])
      case Unsupported => Unsupported
      case Done(h1) => RunByInvoke(h1, b, calls[1..])
  }

  /** `build()`: the builder's own model, not a copy. */
  function Build(b: Ref): (r: Ref)
    ensures r == b
  {
    b
  }

  // ---------------------------------------------------------------------
  // List building

  /** What `children` holds after the given `addChild` calls on a model
      without children: null before the first, then a growable list. */
  function Grown(kids: seq<Ref>): (l: Option<JList<Ref>>)
    ensures l.Some? <==> |kids| > 0
    ensures l.Some? ==> l.value.items == kids && !l.value.fixedSize
  {
    if |kids| == 0 then None else Some(JList(kids, false))
  }

  /** `addChild` called k times on a model without children yields a
      growable list of exactly those children, in call order, and
      changes nothing else. */
  lemma {:induction false} AddChildrenInOrder(n: JavaNode, kids: seq<Ref>, done: seq<Ref>)
    requires n.children == Grown(done)
    ensures Steps(n, AddChildCalls(kids)) == Some(n.(children := Grown(done + kids)))
    decreases |kids|
  {
    if |kids| > 0 {
      var n1 := n.(children := Grown(done + [kids[0]]));
      AddChildrenInOrder(n1, kids[1..], done + [kids[0]]);
      OneMoreChildCall(n, kids, done);
    } else {
      NoChildCalls(n, kids, done);
    }
  }

  lemma OneMoreChildCall(n: JavaNode, kids: seq<Ref>, done: seq<Ref>)
    requires |kids| > 0 && n.children == Grown(done)
    requires var n1 := n.(children := Grown(done + [kids[0]]));
      Steps(n1, AddChildCalls(kids[1..])) == Some(n1.(children := Grown(done + [kids[0]] + kids[1..])))
    ensures Steps(n, AddChildCalls(kids)) == Some(n.(children := Grown(done + kids)))
  {
    var n1 := n.(children := Grown(done + [kids[0]]));
    AddOneChild(n, kids, done);
    HeadMovesOver(done, kids);
    ChildrenSetTwice(n, Grown(done + [kids[0]]), Grown(done + kids));
  }

  lemma HeadMovesOver<T>(done: seq<T>, rest: seq<T>)
    requires |rest| > 0
    ensures done + [rest[0]] + rest[1..] == done + rest
  {
    assert rest == [rest[0]] + rest[1..];
  }

  lemma ChildrenSetTwice(n: JavaNode, a: Option<JList<Ref>>, b: Option<JList<Ref>>)
    ensures n.(children := a).(children := b) == n.(children := b)
  {
  }

  lemma NoChildCalls(n: JavaNode, kids: seq<Ref>, done: seq<Ref>)
    requires |kids| == 0 && n.children == Grown(done)
    ensures Steps(n, AddChildCalls(kids)) == Some(n.(children := Grown(done + kids)))
  {
    assert done + kids == done;
    assert n.(children := Grown(done)) == n;
  }

  /** The first of the `addChild` calls appends to a null or growable list. */
  lemma AddOneChild(n: JavaNode, kids: seq<Ref>, done: seq<Ref>)
    requires |kids| > 0
    requires n.children == Grown(done)
    ensures Steps(n, AddChildCalls(kids))
            == Steps(n.(children := Grown(done + [kids[0]])), AddChildCalls(kids[1..]))
  {
    var calls := AddChildCalls(kids);
    assert calls[0] == AddChild(kids[0]);
    assert calls[1..] == AddChildCalls(kids[1..]);
    AppendChildStep(n, done, kids[0]);
  }

  /** One `addChild` on a null or growable list appends to it. */
  lemma AppendChildStep(n: JavaNode, done: seq<Ref>, k: Ref)
    requires n.children == Grown(done)
    ensures Step(n, AddChild(k)) == Some(n.(children := Grown(done + [k])))
  {
    assert done == [] ==> done + [k] == [k];
  }

  /** `addChild(k)` for each `k`, in order. */
  function AddChildCalls(kids: seq<Ref>): (calls: seq<Call>)
    ensures |calls| == |kids|
    ensures forall i :: 0 <= i < |kids| ==> calls[i] == AddChild(kids[i])
  {
    if |kids| == 0 then [] else [AddChild(kids[0])] + AddChildCalls(kids[1..])
  }

  /** The varargs `children(...)` stores a fixed-size list, so a later
      `addChild` throws. */
  lemma AddChildAfterVarargsThrows(n: JavaNode, kids: seq<Ref>, extra: Ref)
    ensures var after := Step(n, ChildrenVarargs(kids));
      after.Some? && Step(after.value, AddChild(extra)).None?
  {
  }

  /** The `List` overload given a growable list keeps it growable, and a
      later `addChild` appends to it. */
  lemma AddChildAfterListAppends(n: JavaNode, kids: seq<Ref>, extra: Ref)
    ensures var after := Step(n, ChildrenList(JList(kids, false)));
      after.Some? && Step(after.value, AddChild(extra)) == Some(after.value.(children := Some(JList(kids + [extra], false))))
  {
  }

  /** The same holds for the varargs `columns(...)` and `addColumn`. */
  lemma AddColumnAfterVarargsThrows(n: JavaNode, columns: seq<ColumnModel>, column: ColumnModel)
    ensures var after := Step(n, ColumnsVarargs(columns));
      after.Some? && Step(after.value, AddColumn(column)).None?
  {
  }

  /** `children`, `columns` and `tableData` replace the whole list,
      whatever was added before. */
  lemma ChildrenReplaced(n: JavaNode, kids: JList<Ref>)
    ensures Step(n, ChildrenList(kids)) == Some(n.(children := Some(kids)))
  {
  }

  lemma ColumnsReplaced(n: JavaNode, columns: JList<ColumnModel>)
    ensures Step(n, ColumnsList(columns)) == Some(n.(columns := Some(columns)))
  {
  }

  lemma TableDataReplaced(n: JavaNode, rows: JList<seq<CellModel>>)
    ensures Step(n, TableData(rows)) == Some(n.(tableData := Some(rows)))
  {
  }

  /** `addRow(cells...)` appends the cells as one row, after the rows
      already there. */
  lemma AddRowAppends(n: JavaNode, rows: seq<seq<CellModel>>, cells: seq<CellModel>)
    requires n.tableData == Some(JList(rows, false))
    ensures Step(n, AddRow(cells)) == Some(n.(tableData := Some(JList(rows + [cells], false))))
  {
  }

  // ---------------------------------------------------------------------
  // Aliasing through build()

  /** A model obtained from `build()` is the builder's live model: a later
      call on the builder shows through it. */
  lemma BuiltModelSeesLaterCalls(h: Heap, b: Ref, c: Call)
    requires b in h.nodes && Step(h.nodes[b], c).Some?
    ensures var built := Build(b);
      var o := Invoke(h, b, c);
      o.Done? && o.heap.nodes[built] == Step(h.nodes[built], c).value
  {
  }

  /** Building twice gives the same model, so a title set between the two
      builds changes the first result as well. */
  lemma BuildTwiceSameModel(h: Heap, b: Ref, title: string)
    requires b in h.nodes && h.nodes[b].title != Some(title)
    ensures var first := Build(b);
      var o := Invoke(h, b, Title(title));
      o.Done? && Build(b) == first && o.heap.nodes[first].title == Some(title)
      && o.heap.nodes[first] != h.nodes[first]
  {
  }

  /** `topBar(builder)` stores the other builder's model, so a later call
      on that builder changes the parent's top bar too. */
  lemma SubBuilderShared(h: Heap, parent: Ref, child: Ref, title: string)
    requires parent in h.nodes && child in h.nodes && parent != child
    ensures var o1 := Invoke(h, parent, TopBar(Build(child)));
      o1.Done? &&
      var o2 := Invoke(o1.heap, child, Title(title));
      o2.Done? && o2.heap.nodes[parent].topBar == Some(child)
      && o2.heap.nodes[o2.heap.nodes[parent].topBar.value].title == Some(title)
  {
  }

  // ---------------------------------------------------------------------
  // SSR factory methods

  /** The tags of the node factories, `spacer` included. */
  datatype Factory =
    | ScaffoldF | TopAppBarF(barTitle: string) | ColumnF | RowF | BoxF | TextF(text: string)
    | ButtonF(caption: string) | CardF | ImageF(url: string) | TableF | SpacerF(height: int) | DividerF

  function Tag(f: Factory): string {
    match f
    case ScaffoldF => "Scaffold"
    case TopAppBarF(_) => "TopAppBar"
    case ColumnF => "Column"
    case RowF => "Row"
    case BoxF => "Box"
    case TextF(_) => "Text"
    case ButtonF(_) => "Button"
    case CardF => "Card"
    case ImageF(_) => "Image"
    case TableF => "Table"
    case SpacerF(_) => "Spacer"
    case DividerF => "Divider"
  }

  /** The calls each factory makes on its new builder. */
  function Presets(f: Factory): seq<Call> {
    match f
    case TopAppBarF(t) => [Title(t)]
    case TextF(t) => [Title(t)]
    case ButtonF(l) => [Label(l)]
    case ImageF(u) => [ImageUrl(u)]
    case SpacerF(height) => [SetModifier(GoBuilders.Apply(GoBuilders.EmptyModifier, GoBuilders.WithHeight(height)))]
    case _ => []
  }

  /** `SSR.scaffold()`, `SSR.text(t)`, ...: a new builder with its tag and
      the factory's preset field. */
  function Make(h: Heap, f: Factory): (res: (Heap, Ref))
    requires Valid(h)
    ensures Valid(res.0) && res.1 !in h.nodes && res.1 in res.0.nodes
    ensures forall r :: r in h.nodes ==> r in res.0.nodes && res.0.nodes[r] == h.nodes[r]
  {
    var (h1, b) := NewBuilder(h, Tag(f));
    var n := Fresh(Tag(f));
    var preset := if |Presets(f)| == 0 then n else Step(n, Presets(f)[0]).value;
    (h1.(nodes := h1.nodes[b := preset]), b)
  }

  /** What each factory's model holds: its tag, and for the factories
      with an argument, that argument in its field; nothing else. */
  lemma FactoryModels(h: Heap, f: Factory)
    requires Valid(h)
    ensures var (h1, b) := Make(h, f);
      var n := h1.nodes[b];
      n.kind == Tag(f)
      && n.title == (if f.TopAppBarF? then Some(f.barTitle) else if f.TextF? then Some(f.text) else None)
      && n.labelText == (if f.ButtonF? then Some(f.caption) else None)
      && n.imageUrl == (if f.ImageF? then Some(f.url) else None)
      && (f.SpacerF? ==> n.modifier.Some? && n.modifier.value.height == Some(f.height)
                         && n.modifier.value.(height := None) == GoBuilders.EmptyModifier)
      && (!f.SpacerF? ==> n.modifier.None?)
      && n.children.None? && n.action.None? && n.topBar.None? && n.content.None?
  {
  }

  /** Calling the factory is the same as building with its preset calls. */
  lemma FactoryIsPresetRun(h: Heap, f: Factory)
    requires Valid(h)
    ensures var (h1, b) := NewBuilder(h, Tag(f));
      var o := Run(h1, b, Presets(f));
      o.Done? && o.heap.nodes == Make(h, f).0.nodes
  {
    var (h1, b) := NewBuilder(h, Tag(f));
    if |Presets(f)| > 0 {
      assert Presets(f)[1..] == [];
      assert Steps(Fresh(Tag(f)), Presets(f)) == Step(Fresh(Tag(f)), Presets(f)[0]);
    }
  }

  /** `SSR.column(header)`: a table column with only its header set. */
  function ColumnOf(header: string): (c: ColumnModel)
    ensures c.header == header && c.weight.None? && c.width.None? && c.horizontalAlignment.None?
    ensures c.textStyle.None? && c.headerStyle.None?
  {
    GoBuilders.ColumnModel(header, None, None, None, None, None)
  }

  /** `SSR.cell(text)`: a table cell with only its text set. */
  function CellOf(text: string): (c: CellModel)
    ensures c == GoBuilders.NewTableCell(text)
  {
    GoBuilders.CellModel(text, None, None, None, None, None)
  }

  // ---------------------------------------------------------------------
  // Agreement with the Go builders

  /** A Java model as the Go package's node, for leaves only: every scalar
      field is carried over, the column and row lists are carried over by
      their contents (an unset list reads as empty), and the node
      references (top bar, floating action button, content and children)
      are dropped, since a `Ref` names a Java heap cell and not a Go node. */
  function AsGo(n: JavaNode): (g: GoBuilders.GoNode)
    ensures g.kind == n.kind && g.title == n.title && g.description == n.description
    ensures g.labelText == n.labelText && g.backgroundColor == n.backgroundColor && g.elevation == n.elevation
    ensures g.imageUrl == n.imageUrl && g.imageHeight == n.imageHeight && g.imageWidth == n.imageWidth
    ensures g.contentDescription == n.contentDescription && g.action == n.action
    ensures g.modifier == n.modifier && g.textStyle == n.textStyle && g.buttonVariant == n.buttonVariant
    ensures g.showBorders == n.showBorders && g.headerBackgroundColor == n.headerBackgroundColor
    ensures g.rowAction == n.rowAction && g.roundedCorners == n.roundedCorners && g.useLazyColumn == n.useLazyColumn
    ensures n.columns.Some? ==> g.columns == n.columns.value.items
    ensures n.tableData.Some? ==> g.tableData == n.tableData.value.items
    ensures n.columns.None? ==> g.columns == []
    ensures n.tableData.None? ==> g.tableData == []
    ensures g.topBar.None? && g.floatingActionButton.None? && g.content.None? && g.children == []
  {
    GoBuilders.GoNode(
      n.kind, n.title, n.description, n.labelText, n.backgroundColor, n.elevation, n.imageUrl,
      n.imageHeight, n.imageWidth, n.contentDescription, n.action, n.modifier, n.textStyle,
      None, None, None, [], n.buttonVariant,
      if n.columns.Some? then n.columns.value.items else [],
      if n.tableData.Some? then n.tableData.value.items else [],
      n.showBorders, n.headerBackgroundColor, n.rowAction, n.roundedCorners, n.useLazyColumn)
  }

  /** The Java factories build the same leaf nodes as their Go
      counterparts: text, top bar, spacer, and a button once its action is
      set. */
  lemma TextMatchesGo(h: Heap, t: string)
    requires Valid(h)
    ensures var (h1, b) := Make(h, TextF(t)); AsGo(h1.nodes[b]) == GoBuilders.Text(t, None, None)
  {
  }

  lemma TopAppBarMatchesGo(h: Heap, t: string)
    requires Valid(h)
    ensures var (h1, b) := Make(h, TopAppBarF(t)); AsGo(h1.nodes[b]) == GoBuilders.TopAppBar(t)
  {
  }

  lemma SpacerMatchesGo(h: Heap, height: int)
    requires Valid(h)
    ensures var (h1, b) := Make(h, SpacerF(height));
      AsGo(h1.nodes[b]) == GoBuilders.Spacer(Some(GoBuilders.Chain(GoBuilders.EmptyModifier, [GoBuilders.WithHeight(height)])))
  {
    assert [GoBuilders.WithHeight(height)][1..] == [];
  }

  lemma ButtonMatchesGo(h: Heap, caption: string, action: string)
    requires Valid(h)
    ensures var (h1, b) := Make(h, ButtonF(caption));
      var o := Invoke(h1, b, Action(action));
      o.Done? && AsGo(o.heap.nodes[b]) == GoBuilders.Button(caption, action, None)
  {
  }

  /** Where they differ: Go's `Image` always writes a content description,
      `SSR.image(url)` leaves it null. */
  lemma ImageDescriptionDiffers(h: Heap, url: string)
    requires Valid(h)
    ensures AsGo(Make(h, ImageF(url)).0.nodes[Make(h, ImageF(url)).1]).contentDescription.None?
    ensures GoBuilders.Image(url, 0.0, 0.0, "", None).contentDescription == Some("")
  {
  }
}

=== FILE: lists.dfy ===
/** The list components of `DefaultComponentFactory`: the static lists, the
    item rendering of a compiled template, and the paginated "api" list as
    an explicit state machine advanced by load results. */
module LazyLists {
  import opened Wrappers
  import opened Strings
  import opened ComposableTree
  import opened DataBinder
  import opened ComponentFactory

  /* ---------- Items ---------- */

  /** One entry of a lazy list: either the bound template, drawn with
      `createComponent` and made clickable when it has a click action, or a
      stand-in view. */
  datatype Slot =
    | Item(bound: ComponentNode, onClick: Option<ActionConfig>)
    | Shown(view: View)

  /** What a lazy-list composable draws. */
  datatype ListView =
    | Slots(slots: seq<Slot>, footerSpinner: bool)
    | Placeholder(view: View)
    | Spinner
    | Shimmer(count: int)
    | RetryPanel
    | Nothing

  /** `mapOf("item" to record)`: the record as the static lists see it. */
  function Wrap(record: Assoc<Value>): (data: Assoc<Value>)
    ensures Lookup(data, "item") == Some(Map(record))
  {
    [("item", Map(record))]
  }

  /** The template's "onClick" action, bound to the same data as the layout. */
  function ItemClick(template: ItemTemplate, data: Assoc<Value>): (r: Option<ActionConfig>)
    ensures r.Some? <==> template.actions.Some? && Lookup(template.actions.value, "onClick").Some?
    ensures r.Some? ==> r.value == BindAction(Lookup(template.actions.value, "onClick").value, data)
  {
    if template.actions.None? then None
    else
      match Lookup(template.actions.value, "onClick")
      case None => None
      case Some(a) => Some(BindAction(a, data))
  }

  /** One record in `StaticLazyColumn` and the static branch of
      `CreateLazyColumn`: the record is wrapped under "item". */
  function StaticItem(template: ItemTemplate, record: Assoc<Value>): (s: Slot)
    ensures s.Item? && s.bound == BindNode(template.layout, Wrap(record))
    ensures s.onClick.Some? <==> template.actions.Some? && Lookup(template.actions.value, "onClick").Some?
  {
    Item(BindNode(template.layout, Wrap(record)), ItemClick(template, Wrap(record)))
  }

  /** `RenderCompiledItem`: the record is bound as it is, and only when the
      template's layout prepared successfully; otherwise the preparation's
      fallback, or "Error rendering item". */
  function CompiledItem(compiled: CompiledItemTemplate, record: Assoc<Value>): (s: Slot)
    ensures compiled.prepared.Prepared? ==>
      s == Item(BindNode(compiled.original.layout, record), ItemClick(compiled.original, record))
    ensures compiled.prepared.PrepError? ==>
      s == Shown(compiled.prepared.fallback.GetOr(TextView("Error rendering item")))
  {
    match compiled.prepared
    case Prepared(_, _) =>
      Item(BindNode(compiled.original.layout, record), ItemClick(compiled.original, record))
    case PrepError(_, fallback) => Shown(fallback.GetOr(TextView("Error rendering item")))
  }

  function StaticItems(template: ItemTemplate, records: seq<Assoc<Value>>): (r: seq<Slot>)
    ensures |r| == |records|
    ensures forall i :: 0 <= i < |r| ==> r[i] == StaticItem(template, records[i])
  {
    if |records| == 0 then [] else [StaticItem(template, records[0])] + StaticItems(template, records[1..])
  }

  function CompiledItems(compiled: CompiledItemTemplate, records: seq<Assoc<Value>>): (r: seq<Slot>)
    ensures |r| == |records|
    ensures forall i :: 0 <= i < |r| ==> r[i] == CompiledItem(compiled, records[i])
  {
    if |records| == 0 then [] else [CompiledItem(compiled, records[0])] + CompiledItems(compiled, records[1..])
  }

  /** Under the wrapping of the static lists, "item.k" names the record's
      field `k`. */
  lemma WrappedKeyReachesRecord(record: Assoc<Value>, k: string)
    requires forall i :: 0 <= i < |k| ==> k[i] != '.'
    ensures Resolve(Wrap(record), "item" + ['.'] + k)
      == (if Lookup(record, k) == Some(Null) then None else Lookup(record, k))
  {
    assert forall i :: 0 <= i < |"item"| ==> "item"[i] != '.';
    ResolveTwo(Wrap(record), "item", k, record);
  }

  /** `RenderCompiledItem` binds the raw record, so the same "item.k"
      placeholder finds nothing in a record without an "item" field. */
  lemma RawRecordMissesItemKey(record: Assoc<Value>, k: string)
    requires forall i :: 0 <= i < |k| ==> k[i] != '.'
    requires Lookup(record, "item").None?
    ensures Resolve(record, "item" + ['.'] + k) == None
  {
    assert forall i :: 0 <= i < |"item"| ==> "item"[i] != '.';
    SplitTwo("item", k);
  }

  /* ---------- Static lists ---------- */

  /** `StaticLazyColumn`: no records shows the empty template (or "No items
      to display"); otherwise one wrapped item per record, in order. */
  function StaticColumn(node: ComponentNode, ds: DataSource, compiled: CompiledItemTemplate): (v: ListView)
    ensures ds.items.None? || |ds.items.value| == 0 ==>
      v == Placeholder(if node.emptyTemplate.Some? then CreateComponent(node.emptyTemplate.value)
                       else TextView("No items to display"))
    ensures ds.items.Some? && |ds.items.value| > 0 ==>
      v.Slots? && !v.footerSpinner && |v.slots| == |ds.items.value|
      && forall i :: 0 <= i < |v.slots| ==> v.slots[i] == StaticItem(compiled.original, ds.items.value[i])
  {
    var records := ds.items.GetOr([]);
    if |records| == 0 then
      Placeholder(if node.emptyTemplate.Some? then CreateComponent(node.emptyTemplate.value)
                  else TextView("No items to display"))
    else Slots(StaticItems(compiled.original, records), false)
  }

  /** `StaticLazyRow`: every record through `RenderCompiledItem`, with no
      empty-state check. */
  function StaticRow(ds: DataSource, compiled: CompiledItemTemplate): (v: ListView)
    ensures v.Slots? && !v.footerSpinner && |v.slots| == |ds.items.GetOr([])|
    ensures forall i :: 0 <= i < |v.slots| ==> v.slots[i] == CompiledItem(compiled, ds.items.GetOr([])[i])
  {
    Slots(CompiledItems(compiled, ds.items.GetOr([])), false)
  }

  /** The lazy-column branch of `createComponent`: static records only, the
      empty case without the empty template, and a message otherwise. */
  function SimpleLazyColumn(node: ComponentNode): (v: ListView)
    ensures node.dataSource.None? || node.itemTemplate.None? ==>
      v == Placeholder(TextView("LazyColumn requires dataSource and itemTemplate"))
    ensures node.dataSource.Some? && node.itemTemplate.Some? ==>
      var kind, records := node.dataSource.value.kind, node.dataSource.value.items.GetOr([]);
      (kind == "api" ==> v == Placeholder(TextView("API LazyColumn not implemented in simple version")))
      && (kind == "static" ==> v == SimpleStaticColumn(node.itemTemplate.value, records))
      && (kind !in {"static", "api"} ==> v == Placeholder(TextView("Unsupported data source type: " + kind)))
  {
    if node.dataSource.None? || node.itemTemplate.None? then
      Placeholder(TextView("LazyColumn requires dataSource and itemTemplate"))
    else
      var ds := node.dataSource.value;
      if ds.kind == "static" then
        SimpleStaticColumn(node.itemTemplate.value, ds.items.GetOr([]))
      else if ds.kind == "api" then Placeholder(TextView("API LazyColumn not implemented in simple version"))
      else Placeholder(TextView("Unsupported data source type: " + ds.kind))
  }

  /** The static branch of the simple lazy column: no empty template. */
  function SimpleStaticColumn(template: ItemTemplate, records: seq<Assoc<Value>>): (v: ListView)
    ensures |records| == 0 ==> v == Placeholder(TextView("No items to display"))
    ensures |records| > 0 ==>
      v.Slots? && !v.footerSpinner && |v.slots| == |records|
      && forall i :: 0 <= i < |v.slots| ==> v.slots[i] == StaticItem(template, records[i])
  {
    if |records| == 0 then Placeholder(TextView("No items to display"))
    else Slots(StaticItems(template, records), false)
  }

  /** The lazy-row branch of `createComponent`: each static record bound
      as it is (no wrapping, no click action). */
  function SimpleLazyRow(node: ComponentNode): (v: ListView)
    ensures node.dataSource.None? || node.itemTemplate.None? ==> v == Nothing
    ensures node.dataSource.Some? && node.itemTemplate.Some? && node.dataSource.value.kind == "static" ==>
      v.Slots? && |v.slots| == |node.dataSource.value.items.GetOr([])|
      && !v.footerSpinner
      && forall i :: 0 <= i < |v.slots| ==>
        v.slots[i] == Item(BindNode(node.itemTemplate.value.layout, node.dataSource.value.items.GetOr([])[i]), None)
    ensures node.dataSource.Some? && node.itemTemplate.Some? && node.dataSource.value.kind != "static" ==>
      v == Placeholder(TextView("Unsupported data source type for LazyRow: " + node.dataSource.value.kind))
  {
    if node.dataSource.None? || node.itemTemplate.None? then Nothing
    else
      var ds := node.dataSource.value;
      if ds.kind == "static" then Slots(RawItems(node.itemTemplate.value.layout, ds.items.GetOr([])), false)
      else Placeholder(TextView("Unsupported data source type for LazyRow: " + ds.kind))
  }

  function RawItems(layout: ComponentNode, records: seq<Assoc<Value>>): (r: seq<Slot>)
    ensures |r| == |records|
    ensures forall i :: 0 <= i < |r| ==> r[i] == Item(BindNode(layout, records[i]), None)
  {
    if |records| == 0 then [] else [Item(BindNode(layout, records[0]), None)] + RawItems(layout, records[1..])
  }

  /* ---------- The paginated "api" column ---------- */

  /** What the data source delivers for one request. */
  datatype ApiResult = ApiSuccess(data: seq<Assoc<Value>>) | ApiError(message: string)

  /** The remembered state of `ApiLazyColumn`. */
  datatype ApiListState = ApiListState(
    items: seq<Assoc<Value>>,
    isLoading: bool,
    hasError: bool,
    canLoadMore: bool,
    currentPage: int)

  /** The state before the first load completes. */
  const InitialListState := ApiListState([], true, false, true, 0)

  /** The callback of the first load (page 0). */
  function OnInitialResult(s: ApiListState, r: ApiResult): (t: ApiListState)
    ensures !t.isLoading
    ensures r.ApiSuccess? ==> t.items == r.data && !t.hasError
    ensures r.ApiError? ==> t.items == s.items && t.hasError
    ensures t.canLoadMore == s.canLoadMore && t.currentPage == s.currentPage
  {
    match r
    case ApiSuccess(data) => s.(items := data, isLoading := false, hasError := false)
    case ApiError(_) => s.(isLoading := false, hasError := true)
  }

  /** The error state's retry button: it only flips the two flags; the load
      effect is keyed on the url and does not run again. */
  function OnRetry(s: ApiListState): (t: ApiListState)
    ensures t.isLoading && !t.hasError
    ensures t.items == s.items && t.canLoadMore == s.canLoadMore && t.currentPage == s.currentPage
  {
    s.(isLoading := true, hasError := false)
  }

  /** Whether composing the item at `index` launches a page load: near the
      end, more pages possible and not loading. No in-flight request is
      recorded, so nothing else holds a second request back. */
  predicate RequestsPage(s: ApiListState, index: int) {
    0 <= index < |s.items| && index >= |s.items| - 3 && s.canLoadMore && !s.isLoading
  }

  /** The page such a load asks for. */
  function RequestedPage(s: ApiListState): int {
    s.currentPage + 1
  }

  /** The callback of a page load: a non-empty page is appended and counted,
      an empty page ends the list, an error is ignored. */
  function OnPageResult(s: ApiListState, r: ApiResult): (t: ApiListState)
    ensures r.ApiSuccess? && |r.data| > 0 ==>
      t.items == s.items + r.data && t.currentPage == s.currentPage + 1 && t.canLoadMore == s.canLoadMore
    ensures r.ApiSuccess? && |r.data| == 0 ==> t.items == s.items && !t.canLoadMore && t.currentPage == s.currentPage
    ensures r.ApiError? ==> t == s
    ensures t.isLoading == s.isLoading && t.hasError == s.hasError
  {
    match r
    case ApiSuccess(data) =>
      if |data| > 0 then s.(items := s.items + data, currentPage := s.currentPage + 1)
      else s.(canLoadMore := false)
    case ApiError(_) => s
  }

  /** `ShowLoadingState`: a "shimmer" loading template gives that many
      placeholder cards (5 by default); any other template or none gives a
      spinner. */
  function LoadingView(node: ComponentNode): (v: ListView)
    ensures v.Shimmer? <==> node.loadingTemplate.Some? && node.loadingTemplate.value.kind == "shimmer"
    ensures v.Shimmer? ==> v.count == node.loadingTemplate.value.count.GetOr(5)
    ensures !v.Shimmer? ==> v == Spinner
  {
    if node.loadingTemplate.Some? && node.loadingTemplate.value.kind == "shimmer" then
      Shimmer(node.loadingTemplate.value.count.GetOr(5))
    else Spinner
  }

  /** What `ApiLazyColumn` draws for a state: loading, error and empty
      states apply only while there are no items; the footer spinner shows
      while loading with items present. */
  function ApiColumnView(node: ComponentNode, compiled: CompiledItemTemplate, s: ApiListState): (v: ListView)
    ensures |s.items| > 0 ==>
      v.Slots? && v.footerSpinner == s.isLoading && |v.slots| == |s.items|
      && forall i :: 0 <= i < |v.slots| ==> v.slots[i] == CompiledItem(compiled, s.items[i])
    ensures |s.items| == 0 && s.isLoading ==> v == LoadingView(node)
    ensures |s.items| == 0 && !s.isLoading && s.hasError ==>
      v == (if node.errorTemplate.Some? then Placeholder(CreateComponent(node.errorTemplate.value)) else RetryPanel)
    ensures |s.items| == 0 && !s.isLoading && !s.hasError ==>
      v == Placeholder(if node.emptyTemplate.Some? then CreateComponent(node.emptyTemplate.value)
                       else TextView("No items found"))
  {
    if s.isLoading && |s.items| == 0 then LoadingView(node)
    else if s.hasError && |s.items| == 0 then
      if node.errorTemplate.Some? then Placeholder(CreateComponent(node.errorTemplate.value)) else RetryPanel
    else if |s.items| == 0 then
      Placeholder(if node.emptyTemplate.Some? then CreateComponent(node.emptyTemplate.value)
                  else TextView("No items found"))
    else Slots(CompiledItems(compiled, s.items), s.isLoading)
  }

  /** A failed first load followed by a retry shows the loading state for
      good: no item is composed, so no page load can start either. */
  lemma RetryStaysLoading(node: ComponentNode, compiled: CompiledItemTemplate, msg: string)
    ensures var s := OnRetry(OnInitialResult(InitialListState, ApiError(msg)));
      ApiColumnView(node, compiled, s) == LoadingView(node)
      && forall index :: !RequestsPage(s, index)
  {
  }

  /** With at least three items, more pages possible and not loading, the
      last three items each launch a load of the same next page. */
  lemma ThreeRequestsForOnePage(s: ApiListState)
    requires |s.items| >= 3 && s.canLoadMore && !s.isLoading
    ensures RequestsPage(s, |s.items| - 3) && RequestsPage(s, |s.items| - 2) && RequestsPage(s, |s.items| - 1)
    ensures forall index :: RequestsPage(s, index) <==> |s.items| - 3 <= index < |s.items|
  {
  }

  /** Two answers to the same request are both appended and both counted. */
  lemma DuplicatePageAppendedTwice(s: ApiListState, page: seq<Assoc<Value>>)
    requires |page| > 0
    ensures var t := OnPageResult(OnPageResult(s, ApiSuccess(page)), ApiSuccess(page));
      t.items == s.items + page + page && t.currentPage == s.currentPage + 2
  {
  }

  /** Page results only ever extend the list, and once the end has been
      seen no later page result makes more loads possible. */
  lemma PageResultsExtend(s: ApiListState, r: ApiResult)
    ensures |OnPageResult(s, r).items| >= |s.items|
    ensures OnPageResult(s, r).items[..|s.items|] == s.items
    ensures !s.canLoadMore ==> !OnPageResult(s, r).canLoadMore
  {
  }

  /** The mock loader never returns an empty page for a positive page size,
      so with it the list never stops asking for more. */
  lemma MockLoaderNeverEnds(s: ApiListState, page: nat, pageSize: int)
    requires pageSize > 0
    ensures OnPageResult(s, ApiSuccess(MockPage(page, pageSize))).canLoadMore == s.canLoadMore
  {
  }

  /* ---------- The "api" row ---------- */

  /** `ApiLazyRow` keeps only the records and a loading flag. */
  datatype ApiRowState = ApiRowState(items: seq<Assoc<Value>>, isLoading: bool)

  /** The row's load callback: an error just stops loading, leaving the
      row empty. */
  function OnRowResult(s: ApiRowState, r: ApiResult): (t: ApiRowState)
    ensures !t.isLoading
    ensures r.ApiSuccess? ==> t.items == r.data
    ensures r.ApiError? ==> t.items == s.items
  {
    match r
    case ApiSuccess(data) => ApiRowState(data, false)
    case ApiError(_) => s.(isLoading := false)
  }

  function ApiRowView(compiled: CompiledItemTemplate, s: ApiRowState): (v: ListView)
    ensures s.isLoading ==> v == Spinner
    ensures !s.isLoading ==>
      v.Slots? && !v.footerSpinner && |v.slots| == |s.items|
      && forall i :: 0 <= i < |v.slots| ==> v.slots[i] == CompiledItem(compiled, s.items[i])
  {
    if s.isLoading then Spinner else Slots(CompiledItems(compiled, s.items), false)
  }

  /* ---------- Dispatch on the data source ---------- */

  /** `AsyncLazyColumn`: "static" and "api" sources, a message for any
      other kind, nothing without a source. */
  function AsyncColumn(node: ComponentNode, compiled: CompiledItemTemplate, s: ApiListState): (v: ListView)
    ensures node.dataSource.None? ==> v == Nothing
    ensures node.dataSource.Some? && node.dataSource.value.kind == "static" ==>
      v == StaticColumn(node, node.dataSource.value, compiled)
    ensures node.dataSource.Some? && node.dataSource.value.kind == "api" ==> v == ApiColumnView(node, compiled, s)
    ensures node.dataSource.Some? && node.dataSource.value.kind !in {"static", "api"} ==>
      v == Placeholder(TextView("Unsupported data source: " + node.dataSource.value.kind))
  {
    match node.dataSource
    case None => Nothing
    case Some(ds) =>
      if ds.kind == "static" then StaticColumn(node, ds, compiled)
      else if ds.kind == "api" then ApiColumnView(node, compiled, s)
      else Placeholder(TextView("Unsupported data source: " + ds.kind))
  }

  /** `AsyncLazyRow`, the same dispatch for rows. */
  function AsyncRow(node: ComponentNode, compiled: CompiledItemTemplate, s: ApiRowState): (v: ListView)
    ensures node.dataSource.None? ==> v == Nothing
    ensures node.dataSource.Some? && node.dataSource.value.kind == "static" ==>
      v == StaticRow(node.dataSource.value, compiled)
    ensures node.dataSource.Some? && node.dataSource.value.kind == "api" ==> v == ApiRowView(compiled, s)
    ensures node.dataSource.Some? && node.dataSource.value.kind !in {"static", "api"} ==>
      v == Placeholder(TextView("Unsupported data source: " + node.dataSource.value.kind))
  {
    match node.dataSource
    case None => Nothing
    case Some(ds) =>
      if ds.kind == "static" then StaticRow(ds, compiled)
      else if ds.kind == "api" then ApiRowView(compiled, s)
      else Placeholder(TextView("Unsupported data source: " + ds.kind))
  }
}

=== FILE: react.dfy ===
/** The ssr-simple React renderer: `modifierToSx`, `textStyleToCss`,
    `textStyleToSx` (StyleUtils.ts), the table renderer's alignment, width,
    border, style and click rules (RenderTable.tsx), and the `RenderNode`
    dispatch. JavaScript truthiness is written out: an absent value, `false`
    and the empty string are falsy; numbers are reals and 0 is falsy. */
module SimpleReact {
  import opened Wrappers
  import opened Strings
  import SimpleCompose

  /* ---------- Models ---------- */

  /** The TypeScript `ModifierModel`; `None` is `undefined`. */
  datatype ReactModifier = ReactModifier(
    height: Option<real>,
    width: Option<real>,
    weight: Option<real>,
    padding: Option<real>,
    paddingTop: Option<real>,
    paddingBottom: Option<real>,
    paddingStart: Option<real>,
    paddingEnd: Option<real>,
    fillMaxSize: Option<bool>,
    fillMaxWidth: Option<bool>,
    backgroundColor: Option<string>,
    horizontalAlignment: Option<string>,
    verticalAlignment: Option<string>,
    contentAlignment: Option<string>,
    verticalScroll: Option<bool>)

  datatype ReactTextStyle = ReactTextStyle(
    fontSize: Option<real>,
    fontWeight: Option<string>,
    textAlign: Option<string>,
    color: Option<string>)

  predicate Truthy(b: Option<bool>) { b == Some(true) }
  predicate FilledString(s: Option<string>) { s.Some? && s.value != "" }

  /* ---------- `modifierToSx` ---------- */

  /** A CSS length: a number or the string '100%'. */
  datatype Length = Num(n: real) | Full

  /** The keys `modifierToSx` can set; `None` is an absent (or undefined)
      key. */
  datatype Sx = Sx(
    height: Option<Length>,
    width: Option<Length>,
    flex: Option<real>,
    p: Option<real>,
    pt: Option<real>,
    pb: Option<real>,
    pl: Option<real>,
    pr: Option<real>,
    backgroundColor: Option<string>,
    alignItems: Option<Prop<string>>,
    justifyContent: Option<Prop<string>>,
    overflowY: Option<string>)

  const EmptySx := Sx(None, None, None, None, None, None, None, None, None, None, None, None)

  /** A value read from a JavaScript object literal by key: one of the
      literal's own entries, or a member every object inherits from
      `Object.prototype` (a method, or the prototype itself for
      `__proto__`), named by its key. */
  datatype Prop<T> = Own(v: T) | Inherited(name: string)

  /** The keys every object literal answers through `Object.prototype`. */
  const InheritedKeys: set<string> := {
    "constructor", "hasOwnProperty", "isPrototypeOf", "propertyIsEnumerable",
    "toLocaleString", "toString", "valueOf", "__proto__",
    "__defineGetter__", "__defineSetter__", "__lookupGetter__", "__lookupSetter__"}

  /** A key the literal does not hold itself: an inherited member or
      `undefined`. */
  function FromPrototype<T>(key: string): (r: Option<Prop<T>>)
    ensures r == Some(Inherited(key)) <==> key in InheritedKeys
    ensures r.None? <==> key !in InheritedKeys
  {
    if key in InheritedKeys then Some(Inherited(key)) else None
  }

  /** `{ start: 'flex-start', center: 'center', end: 'flex-end' }[key]` */
  function HorizontalMap(key: string): (r: Option<Prop<string>>)
    ensures r == Some(Own("flex-start")) <==> key == "start"
    ensures r == Some(Own("center")) <==> key == "center"
    ensures r == Some(Own("flex-end")) <==> key == "end"
    ensures r == Some(Inherited(key)) <==> key in InheritedKeys
    ensures r.None? <==> key !in {"start", "center", "end"} && key !in InheritedKeys
  {
    if key == "start" then Some(Own("flex-start")) else if key == "center" then Some(Own("center"))
    else if key == "end" then Some(Own("flex-end")) else FromPrototype(key)
  }

  /** `{ top: 'flex-start', center: 'center', bottom: 'flex-end' }[key]` */
  function VerticalMap(key: string): (r: Option<Prop<string>>)
    ensures r == Some(Own("flex-start")) <==> key == "top"
    ensures r == Some(Own("center")) <==> key == "center"
    ensures r == Some(Own("flex-end")) <==> key == "bottom"
    ensures r == Some(Inherited(key)) <==> key in InheritedKeys
    ensures r.None? <==> key !in {"top", "center", "bottom"} && key !in InheritedKeys
  {
    if key == "top" then Some(Own("flex-start")) else if key == "center" then Some(Own("center"))
    else if key == "bottom" then Some(Own("flex-end")) else FromPrototype(key)
  }

  const ContentKeys: set<string> := {
    "topStart", "topCenter", "topEnd", "centerStart", "center", "centerEnd",
    "bottomStart", "bottomCenter", "bottomEnd"}

  /** An own entry of the `contentAlignment` table: (alignItems,
      justifyContent). */
  function ContentEntry(key: string): (e: (string, string))
    requires key in ContentKeys
    ensures key == "topStart" ==> e == ("flex-start", "flex-start")
    ensures key == "topCenter" ==> e == ("center", "flex-start")
    ensures key == "topEnd" ==> e == ("flex-end", "flex-start")
    ensures key == "centerStart" ==> e == ("flex-start", "center")
    ensures key == "center" ==> e == ("center", "center")
    ensures key == "centerEnd" ==> e == ("flex-end", "center")
    ensures key == "bottomStart" ==> e == ("flex-start", "flex-end")
    ensures key == "bottomCenter" ==> e == ("center", "flex-end")
    ensures key == "bottomEnd" ==> e == ("flex-end", "flex-end")
  {
    if key == "topStart" then ("flex-start", "flex-start")
    else if key == "topCenter" then ("center", "flex-start")
    else if key == "topEnd" then ("flex-end", "flex-start")
    else if key == "centerStart" then ("flex-start", "center")
    else if key == "center" then ("center", "center")
    else if key == "centerEnd" then ("flex-end", "center")
    else if key == "bottomStart" then ("flex-start", "flex-end")
    else if key == "bottomCenter" then ("center", "flex-end")
    else ("flex-end", "flex-end")
  }

  /** The `contentAlignment` table `alignmentMap[key]`: an own entry, an
      inherited member, or nothing. */
  function ContentMap(key: string): (r: Option<Prop<(string, string)>>)
    ensures (r.Some? && r.value.Own?) <==> key in ContentKeys
    ensures r.Some? && r.value.Own? ==> r.value.v == ContentEntry(key)
    ensures r == Some(Inherited(key)) <==> key !in ContentKeys && key in InheritedKeys
    ensures r.None? <==> key !in ContentKeys && key !in InheritedKeys
  {
    if key in ContentKeys then Some(Own(ContentEntry(key))) else FromPrototype(key)
  }

  /** A lower-cased key holds no capital letter, so of the table's own
      keys only "center" can match it, and of the inherited ones only
      "constructor" and "__proto__". */
  lemma LoweredContentKey(s: string)
    ensures var key := Lower(s);
      (ContentMap(key) == Some(Own(("center", "center"))) <==> key == "center")
      && (ContentMap(key) == Some(Inherited(key)) <==> key == "constructor" || key == "__proto__")
      && (ContentMap(key).None? <==> key !in {"center", "constructor", "__proto__"})
  {
    var key := Lower(s);
    forall i | 0 <= i < |key| ensures !('A' <= key[i] <= 'Z') {
      assert key[i] == LowerChar(s[i]);
    }
    CapitalKeysMiss(key);
  }

  lemma CapitalKeysMiss(key: string)
    requires forall i :: 0 <= i < |key| ==> !('A' <= key[i] <= 'Z')
    ensures key !in ContentKeys - {"center"}
    ensures key !in InheritedKeys - {"constructor", "__proto__"}
  {
    CapitalContentKeysMiss(key);
    CapitalInheritedKeysMiss(key);
  }

  lemma CapitalContentKeysMiss(key: string)
    requires forall i :: 0 <= i < |key| ==> !('A' <= key[i] <= 'Z')
    ensures key !in ContentKeys - {"center"}
  {
    DiffersAtCapital(key, "topStart", 3);
    DiffersAtCapital(key, "topCenter", 3);
    DiffersAtCapital(key, "topEnd", 3);
    DiffersAtCapital(key, "centerStart", 6);
    DiffersAtCapital(key, "centerEnd", 6);
    DiffersAtCapital(key, "bottomStart", 6);
    DiffersAtCapital(key, "bottomCenter", 6);
    DiffersAtCapital(key, "bottomEnd", 6);
  }

  lemma CapitalInheritedKeysMiss(key: string)
    requires forall i :: 0 <= i < |key| ==> !('A' <= key[i] <= 'Z')
    ensures key !in InheritedKeys - {"constructor", "__proto__"}
  {
    DiffersAtCapital(key, "hasOwnProperty", 3);
    DiffersAtCapital(key, "isPrototypeOf", 2);
    DiffersAtCapital(key, "propertyIsEnumerable", 8);
    DiffersAtCapital(key, "toLocaleString", 2);
    DiffersAtCapital(key, "toString", 2);
    DiffersAtCapital(key, "valueOf", 5);
    DiffersAtCapital(key, "__defineGetter__", 8);
    DiffersAtCapital(key, "__defineSetter__", 8);
    DiffersAtCapital(key, "__lookupGetter__", 8);
    DiffersAtCapital(key, "__lookupSetter__", 8);
  }

  /** A string without capitals differs from one with a capital. */
  lemma DiffersAtCapital(key: string, other: string, p: nat)
    requires forall i :: 0 <= i < |key| ==> !('A' <= key[i] <= 'Z')
    requires p < |other| && 'A' <= other[p] <= 'Z'
    ensures key != other
  {
  }

  function Scaled(v: Option<real>): (r: Option<real>)
    ensures v.None? <==> r.None?
    ensures v.Some? ==> r.value * 8.0 == v.value
  {
    if v.Some? then Some(v.value / 8.0) else None
  }

  /** `alignment.alignItems` (`first`) or `alignment.justifyContent` of a
      content alignment entry the lookup found: an inherited member has
      neither, so the key is set to `undefined`. */
  function AxisOf(entry: Prop<(string, string)>, first: bool): (r: Option<Prop<string>>)
    ensures r.Some? <==> entry.Own?
    ensures r.Some? ==> r.value == Own(if first then entry.v.0 else entry.v.1)
  {
    match entry
    case Own((items, justify)) => Some(Own(if first then items else justify))
    case Inherited(_) => None
  }

  /** `modifierToSx`. */
  function ModifierToSx(modifier: Option<ReactModifier>): (sx: Sx)
    ensures modifier.None? ==> sx == EmptySx
    ensures modifier.Some? ==> var m := modifier.value;
      sx.p == Scaled(m.padding) && sx.pt == Scaled(m.paddingTop) && sx.pb == Scaled(m.paddingBottom)
      && sx.pl == Scaled(m.paddingStart) && sx.pr == Scaled(m.paddingEnd)
      && sx.flex == m.weight
      && (sx.overflowY.Some? <==> Truthy(m.verticalScroll))
      && (sx.backgroundColor.Some? <==> FilledString(m.backgroundColor))
      && (sx.backgroundColor.Some? ==> sx.backgroundColor == m.backgroundColor)
  {
    match modifier
    case None => EmptySx
    case Some(m) =>
      var height := if Truthy(m.fillMaxSize) then Some(Full) else if m.height.Some? then Some(Num(m.height.value)) else None;
      var width :=
        if Truthy(m.fillMaxSize) || Truthy(m.fillMaxWidth) then Some(Full)
        else if m.width.Some? then Some(Num(m.width.value)) else None;
      var content := if FilledString(m.contentAlignment) then ContentMap(Lower(m.contentAlignment.value)) else None;
      Sx(height, width, m.weight,
         Scaled(m.padding), Scaled(m.paddingTop), Scaled(m.paddingBottom), Scaled(m.paddingStart), Scaled(m.paddingEnd),
         if FilledString(m.backgroundColor) then m.backgroundColor else None,
         if content.Some? then AxisOf(content.value, true) else HorizontalOf(m),
         if content.Some? then AxisOf(content.value, false) else VerticalOf(m),
         if Truthy(m.verticalScroll) then Some("auto") else None)
  }

  /** fillMaxSize wins over an explicit width and height; fillMaxWidth
      wins over an explicit width; otherwise the explicit sizes pass
      through. */
  lemma FillOverridesSize(m: ReactModifier)
    ensures Truthy(m.fillMaxSize) ==>
      ModifierToSx(Some(m)).width == Some(Full) && ModifierToSx(Some(m)).height == Some(Full)
    ensures Truthy(m.fillMaxWidth) ==> ModifierToSx(Some(m)).width == Some(Full)
    ensures !Truthy(m.fillMaxSize) && !Truthy(m.fillMaxWidth) && m.width.Some? ==>
      ModifierToSx(Some(m)).width == Some(Num(m.width.value))
    ensures !Truthy(m.fillMaxSize) && m.height.Some? ==> ModifierToSx(Some(m)).height == Some(Num(m.height.value))
    ensures !Truthy(m.fillMaxSize) && !Truthy(m.fillMaxWidth) && m.width.None? ==> ModifierToSx(Some(m)).width.None?
    ensures !Truthy(m.fillMaxSize) && m.height.None? ==> ModifierToSx(Some(m)).height.None?
  {
  }

  /** The flex alignments. A content alignment whose lower-cased form is
      "center" centres both axes; one that lower-cases to "constructor" or
      "__proto__" finds an inherited member and clears both axes; any other
      leaves the row and column alignments, where start/center/end set
      `alignItems`, top/center/bottom set `justifyContent`, an inherited
      key sets the member it names, and any other value sets nothing. */
  lemma AlignmentMapping(m: ReactModifier)
    ensures var sx := ModifierToSx(Some(m));
      var key := if FilledString(m.contentAlignment) then Lower(m.contentAlignment.value) else "";
      (key == "center" ==> sx.alignItems == Some(Own("center")) && sx.justifyContent == Some(Own("center")))
      && (key == "constructor" || key == "__proto__" ==> sx.alignItems.None? && sx.justifyContent.None?)
      && (key !in {"center", "constructor", "__proto__"} ==>
            sx.alignItems == HorizontalOf(m) && sx.justifyContent == VerticalOf(m))
  {
    if FilledString(m.contentAlignment) {
      LoweredContentKey(m.contentAlignment.value);
    }
  }

  /** What the row alignment alone sets `alignItems` to. */
  function HorizontalOf(m: ReactModifier): (r: Option<Prop<string>>)
    ensures r == Some(Own("flex-start")) <==> m.horizontalAlignment == Some("start")
    ensures r == Some(Own("center")) <==> m.horizontalAlignment == Some("center")
    ensures r == Some(Own("flex-end")) <==> m.horizontalAlignment == Some("end")
    ensures (r.Some? && r.value.Inherited?) <==> m.horizontalAlignment.Some? && m.horizontalAlignment.value in InheritedKeys
    ensures r.Some? && r.value.Inherited? ==> r.value.name == m.horizontalAlignment.value
    ensures r.None? <==> m.horizontalAlignment.None? || m.horizontalAlignment.value !in {"start", "center", "end"} + InheritedKeys
  {
    if FilledString(m.horizontalAlignment) then HorizontalMap(m.horizontalAlignment.value) else None
  }

  /** What the column alignment alone sets `justifyContent` to. */
  function VerticalOf(m: ReactModifier): (r: Option<Prop<string>>)
    ensures r == Some(Own("flex-start")) <==> m.verticalAlignment == Some("top")
    ensures r == Some(Own("center")) <==> m.verticalAlignment == Some("center")
    ensures r == Some(Own("flex-end")) <==> m.verticalAlignment == Some("bottom")
    ensures (r.Some? && r.value.Inherited?) <==> m.verticalAlignment.Some? && m.verticalAlignment.value in InheritedKeys
    ensures r.Some? && r.value.Inherited? ==> r.value.name == m.verticalAlignment.value
    ensures r.None? <==> m.verticalAlignment.None? || m.verticalAlignment.value !in {"top", "center", "bottom"} + InheritedKeys
  {
    if FilledString(m.verticalAlignment) then VerticalMap(m.verticalAlignment.value) else None
  }

  /** A content alignment overrides the row and column alignments exactly
      when its lower-cased form is "center", "constructor" or "__proto__";
      every other value, "topStart" and "bottomEnd" among them, leaves
      them in place. */
  lemma ContentAlignmentOnlyCenter(m: ReactModifier)
    requires FilledString(m.contentAlignment)
    ensures Lower(m.contentAlignment.value) == "center" ==>
      ModifierToSx(Some(m)).alignItems == Some(Own("center")) && ModifierToSx(Some(m)).justifyContent == Some(Own("center"))
    ensures Lower(m.contentAlignment.value) in {"constructor", "__proto__"} ==>
      ModifierToSx(Some(m)).alignItems.None? && ModifierToSx(Some(m)).justifyContent.None?
    ensures Lower(m.contentAlignment.value) !in {"center", "constructor", "__proto__"} ==>
      ModifierToSx(Some(m)).alignItems == ModifierToSx(Some(m.(contentAlignment := None))).alignItems
      && ModifierToSx(Some(m)).justifyContent == ModifierToSx(Some(m.(contentAlignment := None))).justifyContent
  {
    AlignmentMapping(m);
    AlignmentMapping(m.(contentAlignment := None));
  }

  /** The same document aligns differently on the two platforms: Compose
      places "bottomEnd" at the bottom end, the React renderer ignores it
      and keeps the column's alignment. */
  lemma BottomEndDiffersAcrossPlatforms(name: string, k: SimpleCompose.SimpleModifier, r: ReactModifier)
    requires name == "bottomEnd"
    requires k.contentAlignment == Some(name) && r.contentAlignment == Some(name)
    requires r.horizontalAlignment.None? && r.verticalAlignment.None?
    ensures SimpleCompose.BoxContentAlignment(Some(k)) == SimpleCompose.BoxAlignment(SimpleCompose.Bottom, SimpleCompose.End)
    ensures ModifierToSx(Some(r)).alignItems.None? && ModifierToSx(Some(r)).justifyContent.None?
  {
    SimpleCompose.CamelCaseBoxNameResolves(k, name);
    BottomEndIgnored(r);
  }

  lemma BottomEndIgnored(r: ReactModifier)
    requires r.contentAlignment == Some("bottomEnd")
    requires r.horizontalAlignment.None? && r.verticalAlignment.None?
    ensures ModifierToSx(Some(r)).alignItems.None? && ModifierToSx(Some(r)).justifyContent.None?
  {
    assert Lower("bottomEnd")[0] == 'b';
    AlignmentMapping(r);
  }

  /* ---------- `textStyleToCss` and `textStyleToSx` ---------- */

  /** `{ light: 300, normal: 400, medium: 500, bold: 700 }[name]` */
  function WeightNumber(name: string): (w: Option<Prop<int>>)
    ensures w == Some(Own(300)) <==> name == "light"
    ensures w == Some(Own(400)) <==> name == "normal"
    ensures w == Some(Own(500)) <==> name == "medium"
    ensures w == Some(Own(700)) <==> name == "bold"
    ensures w == Some(Inherited(name)) <==> name in InheritedKeys
    ensures w.None? <==> name !in {"light", "normal", "medium", "bold"} && name !in InheritedKeys
  {
    if name == "light" then Some(Own(300)) else if name == "normal" then Some(Own(400))
    else if name == "medium" then Some(Own(500)) else if name == "bold" then Some(Own(700)) else FromPrototype(name)
  }

  /** The CSS text-align table: logical start/end become left/right. */
  function CssAlign(name: string): (a: Option<Prop<string>>)
    ensures a == Some(Own("left")) <==> name == "start" || name == "left"
    ensures a == Some(Own("right")) <==> name == "end" || name == "right"
    ensures a == Some(Own("center")) <==> name == "center"
    ensures a == Some(Inherited(name)) <==> name in InheritedKeys
    ensures a.None? <==> name !in {"start", "end", "center", "left", "right"} && name !in InheritedKeys
  {
    if name == "start" || name == "left" then Some(Own("left"))
    else if name == "end" || name == "right" then Some(Own("right"))
    else if name == "center" then Some(Own("center")) else FromPrototype(name)
  }

  datatype FontSize = Px(n: real) | Units(n: real)

  datatype TextCss = TextCss(fontSize: Option<FontSize>, fontWeight: Option<Prop<int>>, textAlign: Option<Prop<string>>, color: Option<string>)

  const EmptyCss := TextCss(None, None, None, None)

  /** `textStyleToCss`: sizes in "<n>px", start/end mapped to left/right. */
  function TextStyleToCss(style: Option<ReactTextStyle>): (css: TextCss)
    ensures style.None? ==> css == EmptyCss
    ensures style.Some? ==>
      (css.fontSize.Some? <==> style.value.fontSize.Some?)
      && (css.fontSize.Some? ==> css.fontSize.value == Px(style.value.fontSize.value))
      && (css.fontWeight.Some? <==> FilledString(style.value.fontWeight) && WeightNumber(style.value.fontWeight.value).Some?)
      && (css.fontWeight.Some? ==> css.fontWeight == WeightNumber(style.value.fontWeight.value))
      && (css.textAlign.Some? <==> FilledString(style.value.textAlign) && CssAlign(style.value.textAlign.value).Some?)
      && (css.textAlign.Some? ==> css.textAlign == CssAlign(style.value.textAlign.value))
      && (css.color.Some? <==> FilledString(style.value.color))
      && (css.color.Some? ==> css.color == style.value.color)
  {
    match style
    case None => EmptyCss
    case Some(t) =>
      TextCss(if t.fontSize.Some? then Some(Px(t.fontSize.value)) else None,
              if FilledString(t.fontWeight) then WeightNumber(t.fontWeight.value) else None,
              if FilledString(t.textAlign) then CssAlign(t.textAlign.value) else None,
              if FilledString(t.color) then t.color else None)
  }

  /** `textStyleToSx`: sizes as theme numbers, the alignment passed as is. */
  function TextStyleToSx(style: Option<ReactTextStyle>): (sx: TextCss)
    ensures style.None? ==> sx == EmptyCss
    ensures style.Some? ==>
      (sx.fontSize.Some? <==> style.value.fontSize.Some?)
      && (sx.fontSize.Some? ==> sx.fontSize.value == Units(style.value.fontSize.value))
      && (sx.fontWeight.Some? <==> FilledString(style.value.fontWeight) && WeightNumber(style.value.fontWeight.value).Some?)
      && (sx.fontWeight.Some? ==> sx.fontWeight == WeightNumber(style.value.fontWeight.value))
      && (sx.textAlign.Some? <==> FilledString(style.value.textAlign))
      && (sx.textAlign.Some? ==> sx.textAlign.value == Own(style.value.textAlign.value))
      && (sx.color.Some? <==> FilledString(style.value.color))
      && (sx.color.Some? ==> sx.color == style.value.color)
  {
    match style
    case None => EmptyCss
    case Some(t) =>
      TextCss(if t.fontSize.Some? then Some(Units(t.fontSize.value)) else None,
              if FilledString(t.fontWeight) then WeightNumber(t.fontWeight.value) else None,
              if FilledString(t.textAlign) then Some(Own(t.textAlign.value)) else None,
              if FilledString(t.color) then t.color else None)
  }

  /** The two converters agree on weight and colour; they differ in the
      unit of the size and in how "start"/"end" are spelled. */
  lemma CssAndSxAgreeOnWeightAndColor(style: Option<ReactTextStyle>)
    ensures TextStyleToCss(style).fontWeight == TextStyleToSx(style).fontWeight
    ensures TextStyleToCss(style).color == TextStyleToSx(style).color
    ensures style.Some? && style.value.textAlign == Some("start") ==>
      TextStyleToCss(style).textAlign == Some(Own("left")) && TextStyleToSx(style).textAlign == Some(Own("start"))
  {
  }

  /* ---------- RenderTable ---------- */

  datatype TableColumn = TableColumn(
    header: string,
    weight: Option<real>,
    width: Option<real>,
    horizontalAlignment: Option<string>,
    textStyle: Option<ReactTextStyle>,
    headerStyle: Option<ReactTextStyle>)

  datatype TableCell = TableCell(
    text: string,
    textStyle: Option<ReactTextStyle>,
    backgroundColor: Option<string>,
    action: Option<string>,
    modifier: Option<ReactModifier>,
    showBorder: Option<bool>)

  datatype CellAlign = Left | Center | Right | Inherit

  /** `getAlignment`. */
  function GetAlignment(align: Option<string>): (a: CellAlign)
    ensures a == Left <==> align == Some("start") || align == Some("left")
    ensures a == Right <==> align == Some("end") || align == Some("right")
    ensures a == Center <==> align == Some("center")
  {
    if align == Some("start") || align == Some("left") then Left
    else if align == Some("end") || align == Some("right") then Right
    else if align == Some("center") then Center
    else Inherit
  }

  /** `col.weight || 1`: a missing or zero weight counts as 1. */
  function WeightOrOne(c: TableColumn): real {
    if c.weight.Some? && c.weight.value != 0.0 then c.weight.value else 1.0
  }

  function TotalWeight(columns: seq<TableColumn>): real {
    if |columns| == 0 then 0.0 else WeightOrOne(columns[0]) + TotalWeight(columns[1..])
  }

  /** A header or cell width: pixels, a share of the table in percent, or
      'auto'. A share over a zero total is JavaScript's Infinity or NaN. */
  datatype ColumnWidth = Pixels(px: real) | Percent(pct: real) | NotFinite | Auto

  /** `getColumnWidth`: the width wins, else the weight's share, else auto. */
  function GetColumnWidth(columns: seq<TableColumn>, column: TableColumn): (w: ColumnWidth)
    ensures column.width.Some? ==> w == Pixels(column.width.value)
    ensures column.width.None? && column.weight.None? ==> w == Auto
    ensures column.width.None? && column.weight.Some? && TotalWeight(columns) != 0.0 ==>
      w == Percent(column.weight.value / TotalWeight(columns) * 100.0)
  {
    if column.width.Some? then Pixels(column.width.value)
    else if column.weight.Some? then
      var total := TotalWeight(columns);
      if total == 0.0 then NotFinite else Percent(column.weight.value / total * 100.0)
    else Auto
  }

  predicate Weighted(columns: seq<TableColumn>) {
    forall i :: 0 <= i < |columns| ==> columns[i].width.None? && columns[i].weight.Some? && columns[i].weight.value > 0.0
  }

  function SumPercent(columns: seq<TableColumn>, all: seq<TableColumn>): real
    requires Weighted(columns) && TotalWeight(all) > 0.0
  {
    if |columns| == 0 then 0.0 else GetColumnWidth(all, columns[0]).pct + SumPercent(columns[1..], all)
  }

  /** When every column has a positive weight and no width, the shares add
      up to the whole table. This holds over the reals; JavaScript's
      doubles may round the sum to slightly less or more than 100. */
  lemma WeightedSharesFillTable(columns: seq<TableColumn>)
    requires |columns| > 0 && Weighted(columns)
    ensures TotalWeight(columns) > 0.0
    ensures SumPercent(columns, columns) == 100.0
  {
    PositiveTotal(columns);
    SharesSum(columns, columns);
    var t := TotalWeight(columns);
    assert t / t == 1.0;
  }

  lemma {:induction false} PositiveTotal(columns: seq<TableColumn>)
    requires |columns| > 0 && Weighted(columns)
    ensures TotalWeight(columns) > 0.0
    decreases |columns|
  {
    if |columns| > 1 {
      PositiveTotal(columns[1..]);
    }
  }

  lemma {:induction false} SharesSum(columns: seq<TableColumn>, all: seq<TableColumn>)
    requires Weighted(columns) && TotalWeight(all) > 0.0
    ensures SumPercent(columns, all) == TotalWeight(columns) / TotalWeight(all) * 100.0
    decreases |columns|
  {
    if |columns| > 0 {
      SharesSum(columns[1..], all);
      var t := TotalWeight(all);
      var w := columns[0].weight.value;
      assert WeightOrOne(columns[0]) == w;
      calc {
        SumPercent(columns, all);
        w / t * 100.0 + TotalWeight(columns[1..]) / t * 100.0;
        { DivAdd(w, TotalWeight(columns[1..]), t); }
        (w + TotalWeight(columns[1..])) / t * 100.0;
      }
    }
  }

  lemma DivAdd(a: real, b: real, t: real)
    requires t != 0.0
    ensures a / t * 100.0 + b / t * 100.0 == (a + b) / t * 100.0
  {
  }

  /** A header cell's right border: borders on and not the last column. */
  function HeaderBorder(showBorders: Option<bool>, colIndex: nat, columnCount: nat): bool {
    Truthy(showBorders) && colIndex + 1 < columnCount
  }

  /** A body cell's right border: borders on, the cell not opting out, and
      not the last cell of its row. */
  function CellBorder(showBorders: Option<bool>, cell: TableCell, colIndex: nat, rowLength: nat): bool {
    Truthy(showBorders) && cell.showBorder != Some(false) && colIndex + 1 < rowLength
  }

  /** The style of a body cell: its own, else its column's (a cell beyond
      the last column has none to fall back on). */
  function CellTextStyle(columns: seq<TableColumn>, cell: TableCell, colIndex: nat): (s: Option<ReactTextStyle>)
    ensures cell.textStyle.Some? ==> s == cell.textStyle
    ensures cell.textStyle.None? && colIndex < |columns| ==> s == columns[colIndex].textStyle
    ensures cell.textStyle.None? && colIndex >= |columns| ==> s.None?
  {
    if cell.textStyle.Some? then cell.textStyle
    else if colIndex < |columns| then columns[colIndex].textStyle
    else None
  }

  /** What a click hands to `onAction`. */
  datatype Fired = CellAction(action: string, cell: TableCell) | RowAction(action: string, row: seq<TableCell>)

  /** A click on a cell: a cell with an action fires it and stops the
      event; otherwise the event reaches the row, which fires `rowAction`
      if it has one. */
  function ClickCell(rowAction: Option<string>, row: seq<TableCell>, colIndex: nat): (fired: seq<Fired>)
    requires colIndex < |row|
    ensures |fired| <= 1
    ensures FilledString(row[colIndex].action) ==> fired == [CellAction(row[colIndex].action.value, row[colIndex])]
    ensures !FilledString(row[colIndex].action) && FilledString(rowAction) ==> fired == [RowAction(rowAction.value, row)]
    ensures !FilledString(row[colIndex].action) && !FilledString(rowAction) ==> fired == []
  {
    var cell := row[colIndex];
    if FilledString(cell.action) then [CellAction(cell.action.value, cell)]
    else if FilledString(rowAction) then [RowAction(rowAction.value, row)]
    else []
  }

  /** A cell action and the row action never both fire. */
  lemma CellActionShadowsRow(rowAction: Option<string>, row: seq<TableCell>, colIndex: nat)
    requires colIndex < |row| && FilledString(rowAction)
    ensures forall f :: f in ClickCell(rowAction, row, colIndex) ==> (f.RowAction? <==> !FilledString(row[colIndex].action))
  {
  }

  /** One drawn body cell. */
  datatype DrawnCell = DrawnCell(text: string, align: CellAlign, rightBorder: bool, style: TextCss)
  datatype DrawnHeader = DrawnHeader(header: string, align: CellAlign, width: ColumnWidth, rightBorder: bool, style: TextCss)

  datatype TableNode = TableNode(
    columns: Option<seq<TableColumn>>,
    tableData: Option<seq<seq<TableCell>>>,
    showBorders: Option<bool>,
    rowAction: Option<string>)

  datatype DrawnTable = DrawnTable(headers: seq<DrawnHeader>, rows: seq<seq<DrawnCell>>)

  function DrawHeaders(columns: seq<TableColumn>, showBorders: Option<bool>, from: nat): (hs: seq<DrawnHeader>)
    requires from <= |columns|
    ensures |hs| == |columns| - from
    ensures forall i :: 0 <= i < |hs| ==>
      (hs[i].header == columns[from + i].header && hs[i].rightBorder == HeaderBorder(showBorders, from + i, |columns|))
    ensures forall i :: 0 <= i < |hs| ==>
      (hs[i].align == GetAlignment(columns[from + i].horizontalAlignment)
       && hs[i].width == GetColumnWidth(columns, columns[from + i])
       && hs[i].style == TextStyleToCss(columns[from + i].headerStyle))
    decreases |columns| - from
  {
    if from == |columns| then []
    else
      var c := columns[from];
      var rest := DrawHeaders(columns, showBorders, from + 1);
      var hs := [DrawnHeader(c.header, GetAlignment(c.horizontalAlignment), GetColumnWidth(columns, c),
                             HeaderBorder(showBorders, from, |columns|), TextStyleToCss(c.headerStyle))] + rest;
      assert forall i :: 0 < i < |hs| ==> hs[i] == rest[i - 1];
      hs
  }

  function DrawRow(columns: seq<TableColumn>, showBorders: Option<bool>, row: seq<TableCell>, from: nat): (cs: seq<DrawnCell>)
    requires from <= |row|
    ensures |cs| == |row| - from
    ensures forall i :: 0 <= i < |cs| ==>
      (cs[i].text == row[from + i].text
       && cs[i].rightBorder == CellBorder(showBorders, row[from + i], from + i, |row|)
       && cs[i].style == TextStyleToCss(CellTextStyle(columns, row[from + i], from + i)))
    ensures forall i :: 0 <= i < |cs| ==>
      cs[i].align == (if from + i < |columns| then GetAlignment(columns[from + i].horizontalAlignment) else Inherit)
    decreases |row| - from
  {
    if from == |row| then []
    else
      var cell := row[from];
      var align := if from < |columns| then GetAlignment(columns[from].horizontalAlignment) else Inherit;
      var rest := DrawRow(columns, showBorders, row, from + 1);
      var cs := [DrawnCell(cell.text, align, CellBorder(showBorders, cell, from, |row|),
                           TextStyleToCss(CellTextStyle(columns, cell, from)))] + rest;
      assert forall i :: 0 < i < |cs| ==> cs[i] == rest[i - 1];
      cs
  }

  function DrawRows(columns: seq<TableColumn>, showBorders: Option<bool>, rows: seq<seq<TableCell>>): (out: seq<seq<DrawnCell>>)
    ensures |out| == |rows|
    ensures forall i :: 0 <= i < |rows| ==> out[i] == DrawRow(columns, showBorders, rows[i], 0)
  {
    if |rows| == 0 then [] else [DrawRow(columns, showBorders, rows[0], 0)] + DrawRows(columns, showBorders, rows[1..])
  }

  /** `RenderTable`: missing columns or data are empty; one header per
      column and one drawn row per data row, in order. */
  function DrawTable(t: TableNode): (d: DrawnTable)
    ensures |d.headers| == |t.columns.GetOr([])| && |d.rows| == |t.tableData.GetOr([])|
    ensures forall i :: 0 <= i < |d.rows| ==> |d.rows[i]| == |t.tableData.value[i]|
  {
    var columns := t.columns.GetOr([]);
    DrawnTable(DrawHeaders(columns, t.showBorders, 0), DrawRows(columns, t.showBorders, t.tableData.GetOr([])))
  }

  /** Only the last header and the last cell of each row lack a right
      border when borders are on and no cell opts out. */
  lemma LastCellsHaveNoBorder(t: TableNode, r: nat)
    requires Truthy(t.showBorders) && t.tableData.Some? && r < |t.tableData.value|
    requires forall c :: c in t.tableData.value[r] ==> c.showBorder.None?
    ensures var d := DrawTable(t);
      forall j :: 0 <= j < |d.rows[r]| ==> (d.rows[r][j].rightBorder <==> j + 1 < |d.rows[r]|)
    ensures var d := DrawTable(t);
      forall j :: 0 <= j < |d.headers| ==> (d.headers[j].rightBorder <==> j + 1 < |d.headers|)
  {
    var row := t.tableData.value[r];
    forall j | 0 <= j < |row| ensures row[j].showBorder.None? {
      assert row[j] in row;
    }
  }

  /** Each body cell under a column is drawn with that column's header
      alignment; a cell beyond the last column inherits its alignment. */
  lemma CellsAlignWithHeaders(t: TableNode, r: nat, j: nat)
    requires t.tableData.Some? && r < |t.tableData.value| && j < |t.tableData.value[r]|
    ensures var d := DrawTable(t);
      j < |d.headers| ==> d.rows[r][j].align == d.headers[j].align
    ensures var d := DrawTable(t);
      j >= |d.headers| ==> d.rows[r][j].align == Inherit
  {
    var d := DrawTable(t);
    assert d.rows[r] == DrawRow(t.columns.GetOr([]), t.showBorders, t.tableData.value[r], 0);
  }

  /* ---------- `RenderNode` ---------- */

  const ReactTags: seq<string> :=
    ["Scaffold", "TopAppBar", "Column", "Row", "Box", "Card", "Text", "Button", "Image", "Table", "Spacer"]

  /** The React `switch (node.type)`; the renderer kinds are shared with
      the Compose dispatcher. */
  function Dispatch(kind: string): (r: Option<SimpleCompose.Renderer>)
    ensures r.Some? <==> kind in ReactTags
  {
    match kind
    case "Scaffold" => Some(SimpleCompose.ScaffoldR)
    case "TopAppBar" => Some(SimpleCompose.TopAppBarR)
    case "Column" => Some(SimpleCompose.ColumnR)
    case "Row" => Some(SimpleCompose.RowR)
    case "Box" => Some(SimpleCompose.BoxR)
    case "Card" => Some(SimpleCompose.CardR)
    case "Text" => Some(SimpleCompose.TextR)
    case "Button" => Some(SimpleCompose.ButtonR)
    case "Image" => Some(SimpleCompose.ImageR)
    case "Table" => Some(SimpleCompose.TableR)
    case "Spacer" => Some(SimpleCompose.SpacerR)
    case _ => None
  }

  /** The React dispatcher knows a subset of the Compose dispatcher's tags,
      routed alike, and passes `onAction` to the same renderers; LazyColumn,
      VideoItem and HorizontalPager are unknown to it. */
  lemma ReactDispatchIsComposeSubset(kind: string)
    ensures Dispatch(kind).Some? ==> SimpleCompose.Dispatch(kind) == Dispatch(kind)
    ensures kind in ["LazyColumn", "VideoItem", "HorizontalPager"] ==>
      Dispatch(kind).None? && SimpleCompose.Dispatch(kind).Some?
  {
  }
}

=== FILE: renderer.dfy ===
/** `ServerSideRendererImpl`: document parsing check, tree analysis,
    precompilation through a component factory, and the render state
    machine with its tree cache keyed by the document's hash. */
module Renderer {
  import opened Wrappers
  import opened Strings
  import opened ComposableTree
  import opened Validator
  import opened ComponentFactory

  /* ---------- `precompileModifier` ---------- */

  /** Copies the modifier fields and reads an absent flag, or an absent
      config, as `false`. */
  function PrecompileModifier(config: Option<ModifierConfig>): (m: CompiledModifier)
    ensures config.None? ==> m == CompiledModifier(None, false, false, None, None, None)
    ensures config.Some? ==>
      m.padding == config.value.padding && m.width == config.value.width
      && m.height == config.value.height && m.weight == config.value.weight
      && (m.fillMaxSize <==> config.value.fillMaxSize == Some(true))
      && (m.fillMaxWidth <==> config.value.fillMaxWidth == Some(true))
  {
    match config
    case None => CompiledModifier(None, false, false, None, None, None)
    case Some(c) => CompiledModifier(c.padding, c.fillMaxSize.GetOr(false), c.fillMaxWidth.GetOr(false),
                                     c.width, c.height, c.weight)
  }

  /** The precompiled modifier asks for exactly the chain the factory's own
      `createModifier` builds from the raw config; `toModifier` as written
      returns only when that chain is empty, and throws otherwise. */
  lemma PrecompiledModifierAgrees(config: Option<ModifierConfig>)
    ensures IntendedModifier(PrecompileModifier(config)) == CreateModifier(config)
    ensures ToModifier(PrecompileModifier(config)).Some? <==> CreateModifier(config) == []
  {
    var m := PrecompileModifier(config);
    forall op: ModifierOp ensures Calls(m, op) <==> ConfigCalls(config, op) {
      CallsAgree(config, op);
    }
    ChainUnique(IntendedModifier(m), CreateModifier(config));
    if CreateModifier(config) != [] {
      assert CreateModifier(config)[0] in CreateModifier(config);
    }
  }

  lemma CallsAgree(config: Option<ModifierConfig>, op: ModifierOp)
    ensures Calls(PrecompileModifier(config), op) <==> ConfigCalls(config, op)
  {
    if config.Some? {
      var c := config.value;
      assert PrecompileModifier(config)
        == CompiledModifier(c.padding, c.fillMaxSize.GetOr(false), c.fillMaxWidth.GetOr(false), c.width, c.height, c.weight);
    }
  }

  /* ---------- `analyzeComponentTree` ---------- */

  /** The node types whose "api" data source makes a tree asynchronous. */
  predicate OwnAsync(n: ComponentNode) {
    n.kind in ["lazy_column", "lazy_row", "lazy_grid"]
    && n.dataSource.Some? && n.dataSource.value.kind == "api"
  }

  /** Reference definitions over the `children` tree. */
  function Count(n: ComponentNode): nat
    decreases n, 1
  {
    1 + CountAll(n, Kids(n))
  }

  function CountAll(parent: ComponentNode, kids: seq<ComponentNode>): nat
    requires forall i :: 0 <= i < |kids| ==> kids[i] < parent
    decreases parent, 0, |kids|
  {
    if |kids| == 0 then 0 else Count(kids[0]) + CountAll(parent, kids[1..])
  }

  /** Edges on the longest downward path; a leaf has height 0. */
  function TreeHeight(n: ComponentNode): nat
    decreases n, 1
  {
    DepthBelow(n, Kids(n))
  }

  /** The largest `1 + Height(k)` over `kids`, or 0 if there are none. */
  function DepthBelow(parent: ComponentNode, kids: seq<ComponentNode>): nat
    requires forall i :: 0 <= i < |kids| ==> kids[i] < parent
    decreases parent, 0, |kids|
  {
    if |kids| == 0 then 0 else Max(1 + TreeHeight(kids[0]), DepthBelow(parent, kids[1..]))
  }

  function HasAsync(n: ComponentNode): bool
    decreases n, 1
  {
    OwnAsync(n) || AnyAsync(n, Kids(n))
  }

  function AnyAsync(parent: ComponentNode, kids: seq<ComponentNode>): bool
    requires forall i :: 0 <= i < |kids| ==> kids[i] < parent
    decreases parent, 0, |kids|
  {
    |kids| > 0 && (HasAsync(kids[0]) || AnyAsync(parent, kids[1..]))
  }

  function Max(a: int, b: int): int {
    if a >= b then a else b
  }

  /** The three variables `analyzeNode` updates. */
  datatype Tally = Tally(count: nat, maxDepth: nat, async: bool)

  /** `analyzeNode(node, depth)`: count the node, raise the maximum depth,
      note an async list, then visit the children one level deeper. */
  function Visit(n: ComponentNode, depth: nat, t: Tally): (r: Tally)
    ensures r.count > t.count && r.maxDepth >= t.maxDepth && r.maxDepth >= depth
    ensures t.async || OwnAsync(n) ==> r.async
    decreases n, 1
  {
    VisitAll(n, Kids(n), depth + 1, Tally(t.count + 1, Max(t.maxDepth, depth), t.async || OwnAsync(n)))
  }

  function VisitAll(parent: ComponentNode, kids: seq<ComponentNode>, depth: nat, t: Tally): (r: Tally)
    requires forall i :: 0 <= i < |kids| ==> kids[i] < parent
    ensures r.count >= t.count + |kids| && r.maxDepth >= t.maxDepth
    ensures |kids| > 0 ==> r.maxDepth >= depth
    ensures t.async ==> r.async
    decreases parent, 0, |kids|
  {
    if |kids| == 0 then t else VisitAll(parent, kids[1..], depth, Visit(kids[0], depth, t))
  }

  /** `analyzeComponentTree`: the walk from the root at depth 0, with the
      render-time estimate of 2 per component. */
  function AnalyzeTree(root: ComponentNode): (m: ComponentMetadata)
    ensures m.componentCount >= 1 && m.maxDepth >= 0
    ensures m.estimatedRenderTime == 2 * m.componentCount
    ensures OwnAsync(root) ==> m.hasAsyncComponents
  {
    var t := Visit(root, 0, Tally(0, 0, false));
    ComponentMetadata(t.count, t.maxDepth, t.async, 2 * t.count)
  }

  /** The walk computes the reference definitions: the node count, the
      height (root at depth 0), and whether some list below has an "api"
      source. */
  lemma AnalyzeTreeIsReference(root: ComponentNode)
    ensures AnalyzeTree(root) == ComponentMetadata(Count(root), TreeHeight(root), HasAsync(root), 2 * Count(root))
  {
    VisitIsReference(root, 0, Tally(0, 0, false));
  }

  lemma {:induction false} VisitIsReference(n: ComponentNode, depth: nat, t: Tally)
    ensures Visit(n, depth, t) ==
      Tally(t.count + Count(n), Max(t.maxDepth, depth + TreeHeight(n)), t.async || HasAsync(n))
    decreases n, 1
  {
    var t1 := Tally(t.count + 1, Max(t.maxDepth, depth), t.async || OwnAsync(n));
    VisitAllIsReference(n, Kids(n), depth, t1);
  }

  lemma {:induction false} VisitAllIsReference(parent: ComponentNode, kids: seq<ComponentNode>, depth: nat, t: Tally)
    requires forall i :: 0 <= i < |kids| ==> kids[i] < parent
    requires t.maxDepth >= depth
    ensures VisitAll(parent, kids, depth + 1, t) ==
      Tally(t.count + CountAll(parent, kids), Max(t.maxDepth, depth + DepthBelow(parent, kids)),
            t.async || AnyAsync(parent, kids))
    decreases parent, 0, |kids|
  {
    if |kids| > 0 {
      var t1 := Visit(kids[0], depth + 1, t);
      VisitIsReference(kids[0], depth + 1, t);
      VisitAllIsReference(parent, kids[1..], depth, t1);
    }
  }

  /** A lone node: one component, depth 0. */
  lemma LeafAnalysis(n: ComponentNode)
    requires n.children.NoChildren?
    ensures AnalyzeTree(n).componentCount == 1 && AnalyzeTree(n).maxDepth == 0
    ensures AnalyzeTree(n).hasAsyncComponents <==> OwnAsync(n)
  {
    AnalyzeTreeIsReference(n);
  }

  /* ---------- `precompileComponentsWithFactory` ---------- */

  /** What `prepareComponent` gave: a component, an error with an optional
      fallback, or an exception. */
  datatype FactoryResult<V> = FactorySuccess(component: V) | FactoryError(fallback: Option<V>) | Threw

  /** A component factory as the renderer sees it: `prepareComponent` over
      the factory's own state `S`, `createComponent`, and a way to show a
      text (the "Error: <type>" fallback). */
  datatype Factory<!S, V> = Factory(
    prepare: (S, ComponentNode) -> (S, FactoryResult<V>),
    create: ComponentNode -> V,
    text: string -> V)

  /** The fields every precompiled node copies from its source node. */
  predicate CopiesNode<V>(p: PrecompiledComponent<V>, n: ComponentNode) {
    p.kind == FromString(n.kind) && p.properties == n.properties.GetOr([])
    && p.modifier == PrecompileModifier(n.modifier) && p.dataSource == n.dataSource
    && p.itemTemplate == n.itemTemplate && p.actions == n.actions
  }

  /** `precompileComponentsWithFactory`: a failed preparation keeps the node
      without children and shows the fallback (or `createComponent`); an
      exception shows "Error: <type>"; a success precompiles every child in
      order. Nothing propagates an exception. */
  function Precompile<S, V>(f: Factory<S, V>, s: S, n: ComponentNode): (out: (S, PrecompiledComponent<V>))
    ensures CopiesNode(out.1, n)
    ensures f.prepare(s, n).1.Threw? ==> out.1.children == [] && out.1.view == f.text("Error: " + n.kind)
    ensures f.prepare(s, n).1.FactoryError? ==>
      out.1.children == [] && out.1.view == f.prepare(s, n).1.fallback.GetOr(f.create(n))
    ensures f.prepare(s, n).1.FactorySuccess? ==>
      out.1.view == f.prepare(s, n).1.component && |out.1.children| == |Kids(n)|
      && forall i :: 0 <= i < |Kids(n)| ==> CopiesNode(out.1.children[i], Kids(n)[i])
    decreases n, 1
  {
    var (s1, result) := f.prepare(s, n);
    var kind := FromString(n.kind);
    var props := n.properties.GetOr([]);
    var modifier := PrecompileModifier(n.modifier);
    match result
    case Threw =>
      (s1, PrecompiledComponent(kind, props, modifier, [], n.dataSource, n.itemTemplate, n.actions,
                                f.text("Error: " + n.kind)))
    case FactoryError(fallback) =>
      (s1, PrecompiledComponent(kind, props, modifier, [], n.dataSource, n.itemTemplate, n.actions,
                                fallback.GetOr(f.create(n))))
    case FactorySuccess(component) =>
      var (s2, children) := PrecompileAll(f, s1, n, Kids(n));
      (s2, PrecompiledComponent(kind, props, modifier, children, n.dataSource, n.itemTemplate, n.actions,
                                component))
  }

  function PrecompileAll<S, V>(f: Factory<S, V>, s: S, parent: ComponentNode, kids: seq<ComponentNode>)
    : (out: (S, seq<PrecompiledComponent<V>>))
    requires forall i :: 0 <= i < |kids| ==> kids[i] < parent
    ensures |out.1| == |kids|
    ensures forall i :: 0 <= i < |kids| ==> CopiesNode(out.1[i], kids[i])
    decreases parent, 0, |kids|
  {
    if |kids| == 0 then (s, [])
    else
      var (s1, head) := Precompile(f, s, kids[0]);
      var (s2, tail) := PrecompileAll(f, s1, parent, kids[1..]);
      (s2, [head] + tail)
  }

  /** Number of nodes in a precompiled tree. */
  function Size<V>(p: PrecompiledComponent<V>): nat
    decreases p, 1
  {
    1 + SizeAll(p, p.children)
  }

  function SizeAll<V>(parent: PrecompiledComponent<V>, cs: seq<PrecompiledComponent<V>>): nat
    requires forall i :: 0 <= i < |cs| ==> cs[i] < parent
    decreases parent, 0, |cs|
  {
    if |cs| == 0 then 0 else Size(cs[0]) + SizeAll(parent, cs[1..])
  }

  /** Failed preparations only prune: the precompiled tree never has more
      nodes than the source tree. */
  lemma {:induction false} PrecompileNeverGrows<S, V>(f: Factory<S, V>, s: S, n: ComponentNode)
    ensures Size(Precompile(f, s, n).1) <= Count(n)
    decreases n, 1
  {
    var p := Precompile(f, s, n).1;
    var (s1, result) := f.prepare(s, n);
    if result.FactorySuccess? {
      assert p.children == PrecompileAll(f, s1, n, Kids(n)).1;
      PrecompileAllNeverGrows(f, s1, n, Kids(n), p);
    } else {
      assert p.children == [];
    }
  }

  lemma {:induction false} PrecompileAllNeverGrows<S, V>(f: Factory<S, V>, s: S, parent: ComponentNode,
                                                         kids: seq<ComponentNode>, q: PrecompiledComponent<V>)
    requires forall i :: 0 <= i < |kids| ==> kids[i] < parent
    requires forall i :: 0 <= i < |kids| ==> PrecompileAll(f, s, parent, kids).1[i] < q
    ensures SizeAll(q, PrecompileAll(f, s, parent, kids).1) <= CountAll(parent, kids)
    decreases parent, 0, |kids|
  {
    if |kids| > 0 {
      var (s1, head) := Precompile(f, s, kids[0]);
      var tail := PrecompileAll(f, s1, parent, kids[1..]).1;
      var out := PrecompileAll(f, s, parent, kids).1;
      assert out == [head] + tail;
      assert out[1..] == tail;
      PrecompileNeverGrows(f, s, kids[0]);
      assert forall i :: 0 <= i < |tail| ==> tail[i] == out[i + 1];
      PrecompileAllNeverGrows(f, s1, parent, kids[1..], q);
    }
  }

  /* ---------- The default factory ---------- */

  /** `DefaultComponentFactory` behind the renderer's interface. Blank
      types and validation failures come back as errors, not exceptions;
      the exceptions its `catch` branch would turn into errors come from
      code this model leaves out. */
  function DefaultFactory(): (f: Factory<PrepCache, View>)
    ensures forall c, n :: f.prepare(c, n).0 == Prepare(c, n).0
    ensures forall c, n :: f.prepare(c, n).1.FactorySuccess? <==> Prepare(c, n).1.Prepared?
    ensures forall c, n :: !f.prepare(c, n).1.Threw?
    ensures forall t :: f.text(t) == TextView(t)
  {
    Factory(
      (c: PrepCache, n: ComponentNode) =>
        var out := Prepare(c, n);
        (out.0, if out.1.Prepared? then FactorySuccess(out.1.view) else FactoryError(out.1.fallback)),
      (n: ComponentNode) => CreateComponent(n),
      (t: string) => TextView(t))
  }

  /** With the default factory, a node with an invalid child keeps none of
      its children and shows "Invalid component: <type>". */
  lemma InvalidSubtreeCollapses(cache: PrepCache, n: ComponentNode, i: nat)
    requires !IsBlank(n.kind) && PrepKeyOf(n) !in cache
    requires n.children.ChildList? && i < |n.children.nodes|
    requires Validate(n.children.nodes[i]).Invalid?
    ensures Precompile(DefaultFactory(), cache, n).1.children == []
    ensures Precompile(DefaultFactory(), cache, n).1.view == TextView("Invalid component: " + n.kind)
  {
    InvalidChildFailsPreparation(cache, n, i);
  }

  /** With the default factory a blank type has no fallback, so the node
      shows `createComponent`'s unknown-type text. */
  lemma BlankTypeShowsUnknown(cache: PrepCache, n: ComponentNode)
    requires IsBlank(n.kind)
    ensures Precompile(DefaultFactory(), cache, n).1.view == UnknownType(n.kind)
    ensures Precompile(DefaultFactory(), cache, n).1.children == []
  {
    BlankNotDispatched(n.kind);
  }

  /** No dispatched tag is blank: each starts with a letter. */
  lemma BlankNotDispatched(k: string)
    requires IsBlank(k)
    ensures k !in DispatchedTags
  {
    if |k| > 0 { assert IsWhitespace(k[0]); }
  }

  /* ---------- Parsing ---------- */

  /** The part of a decoded `ComponentScreen` the renderer checks; Gson can
      leave `screen` or `layout` null although Kotlin declares them
      non-null. */
  datatype ScreenLayout = ScreenLayout(id: Option<string>, title: Option<string>, layout: Option<ComponentNode>)
  datatype ParsedScreen = ParsedScreen(version: Option<string>, screen: Option<ScreenLayout>)

  /** The outcome of `gson.fromJson`, which is not modelled: a decoded
      document or the message of the exception it threw. */
  datatype Decoded = Decoded(doc: ParsedScreen) | DecodeFailed(message: string)

  datatype Outcome<T> = Ok(value: T) | Failed(message: string)

  const MissingLayoutMessage := "Missing required field: screen.layout"

  /** `parseComponentJson`: a decoding failure propagates; a document
      without `screen.layout` is rejected. */
  function ParseComponentJson(decoded: Decoded): (r: Outcome<ComponentNode>)
    ensures decoded.DecodeFailed? ==> r == Failed(decoded.message)
    ensures decoded.Decoded? ==>
      (r.Ok? <==> decoded.doc.screen.Some? && decoded.doc.screen.value.layout.Some?)
    ensures r.Ok? ==> r.value == decoded.doc.screen.value.layout.value
    ensures decoded.Decoded? && r.Failed? ==> r.message == MissingLayoutMessage
  {
    match decoded
    case DecodeFailed(m) => Failed(m)
    case Decoded(doc) =>
      if doc.screen.None? || doc.screen.value.layout.None? then Failed(MissingLayoutMessage)
      else Ok(doc.screen.value.layout.value)
  }

  /* ---------- `json.hashCode()` ---------- */

  const Two32: int := 0x1_0000_0000
  const Two31: int := 0x8000_0000

  /** The UTF-16 code units of one character: the character itself in the
      Basic Multilingual Plane, otherwise a high and a low surrogate that
      together give back its code point. */
  function CharUnits(c: char): (u: seq<int>)
    ensures (c as int) < 0x1_0000 ==> u == [c as int]
    ensures (c as int) >= 0x1_0000 ==>
      |u| == 2 && 0xD800 <= u[0] < 0xDC00 && 0xDC00 <= u[1] < 0xE000
      && 0x1_0000 + (u[0] - 0xD800) * 0x400 + (u[1] - 0xDC00) == c as int
  {
    var n := c as int;
    if n < 0x1_0000 then [n]
    else [0xD800 + (n - 0x1_0000) / 0x400, 0xDC00 + (n - 0x1_0000) % 0x400]
  }

  /** A Java string's UTF-16 code units. */
  function Utf16(s: string): (u: seq<int>)
    ensures |u| >= |s|
    ensures forall i :: 0 <= i < |u| ==> 0 <= u[i] < 0x1_0000
    ensures (forall i :: 0 <= i < |s| ==> (s[i] as int) < 0x1_0000) ==> |u| == |s|
  {
    if |s| == 0 then [] else CharUnits(s[0]) + Utf16(s[1..])
  }

  /** Java's `String.hashCode`: `h = 31 * h + unit` over the UTF-16 code
      units, in 32-bit two's complement. */
  function JavaHash(s: string): (h: int)
    ensures -Two31 <= h < Two31
  {
    var u := HashFrom(0, Utf16(s));
    if u >= Two31 then u - Two32 else u
  }

  /** The unsigned 32-bit running hash after consuming `units` from `h`. */
  function HashFrom(h: nat, units: seq<int>): (r: nat)
    requires h < Two32
    ensures r < Two32
    decreases |units|
  {
    if |units| == 0 then h else HashFrom((31 * h + units[0]) % Two32, units[1..])
  }

  /** A character outside the Basic Multilingual Plane hashes as its two
      surrogates: U+1F600 is the units 0xD83D 0xDE00, so its hash is
      31 * 55357 + 56832. */
  lemma SurrogatePairHash()
    ensures Utf16("\U{1F600}") == [0xD83D, 0xDE00]
    ensures JavaHash("\U{1F600}") == 1772899
  {
    var s := "\U{1F600}";
    assert s[1..] == "";
    assert Utf16(s) == CharUnits(s[0]) == [0xD83D, 0xDE00];
    var u := Utf16(s);
    assert u[1..] == [0xDE00] && u[1..][1..] == [];
  }

  /** Distinct documents can share a cache key: "Aa" and "BB" hash alike. */
  lemma HashCollision()
    ensures JavaHash("Aa") == JavaHash("BB") == 2112
  {
    TwoCharHash("Aa");
    TwoCharHash("BB");
  }

  /** Two ASCII characters hash to 31 * first + second. */
  lemma TwoCharHash(s: string)
    requires |s| == 2 && (s[0] as int) < 128 && (s[1] as int) < 128
    ensures JavaHash(s) == 31 * (s[0] as int) + (s[1] as int)
  {
    BmpUnits(s);
    var u := Utf16(s);
    var a, b := s[0] as int, s[1] as int;
    assert u == [a, b];
    assert HashFrom(0, u) == HashFrom(a, [b]) by { assert u[1..] == [b]; }
    assert HashFrom(a, [b]) == HashFrom(31 * a + b, []) by { assert [b][1..] == []; }
  }

  /** In the Basic Multilingual Plane the code units are the characters. */
  lemma {:induction false} BmpUnits(s: string)
    requires forall i :: 0 <= i < |s| ==> (s[i] as int) < 0x1_0000
    ensures Utf16(s) == seq(|s|, i requires 0 <= i < |s| => s[i] as int)
    decreases |s|
  {
    if |s| > 0 {
      BmpUnits(s[1..]);
    }
  }

  /* ---------- `RenderScreen` ---------- */

  /** The renderer's lasting state: the tree cache (keyed by the hash; the
      string form of the key is a bijection and is not modelled), the
      factory's own state, the render state of the screen being shown, and
      the document the build effect last ran for. */
  datatype Host<S, V> = Host(
    cache: map<int, ComposableTree<V>>,
    factory: S,
    state: RenderState<ComposableTree<V>>,
    shownJson: Option<string>)

  function NewHost<S, V>(factoryState: S): (h: Host<S, V>)
    ensures h.cache == map[] && h.state.Loading? && h.shownJson.None?
  {
    Host(map[], factoryState, Loading, None)
  }

  /** `buildComponentTree`: parse, analyse, precompile. */
  function BuildTree<S, V>(f: Factory<S, V>, s: S, decoded: Decoded): (out: (S, Outcome<ComposableTree<V>>))
    ensures ParseComponentJson(decoded).Failed? ==>
      out == (s, Failed(ParseComponentJson(decoded).message))
    ensures ParseComponentJson(decoded).Ok? ==>
      out.1.Ok? && out.1.value.metadata == AnalyzeTree(ParseComponentJson(decoded).value)
  {
    match ParseComponentJson(decoded)
    case Failed(m) => (s, Failed(m))
    case Ok(layout) =>
      var metadata := AnalyzeTree(layout);
      var (s1, root) := Precompile(f, s, layout);
      (s1, Ok(ComposableTree(root, metadata)))
  }

  const FailurePrefix := "Failed to Render ComponentRenderState: "

  /** The `LaunchedEffect(json)` body: reset to Loading, answer from the
      cache on a hit, otherwise build, cache a success and show it, or show
      the failure without caching anything. `decode` stands for Gson. */
  function RunEffect<S, V>(f: Factory<S, V>, h: Host<S, V>, json: string, decode: string -> Decoded)
    : (r: Host<S, V>)
    ensures r.shownJson == Some(json)
    ensures JavaHash(json) in h.cache ==>
      r == h.(state := Success(h.cache[JavaHash(json)]), shownJson := Some(json))
    ensures JavaHash(json) !in h.cache && BuildTree(f, h.factory, decode(json)).1.Ok? ==>
      r.cache == h.cache[JavaHash(json) := BuildTree(f, h.factory, decode(json)).1.value]
      && r.state == Success(BuildTree(f, h.factory, decode(json)).1.value)
    ensures JavaHash(json) !in h.cache && BuildTree(f, h.factory, decode(json)).1.Failed? ==>
      r.cache == h.cache
      && r.state == Error(FailurePrefix + BuildTree(f, h.factory, decode(json)).1.message,
                          Some(BuildTree(f, h.factory, decode(json)).1.message))
  {
    var key := JavaHash(json);
    var loading := h.(state := Loading, shownJson := Some(json));
    if key in loading.cache then loading.(state := Success(loading.cache[key]))
    else
      var (s1, built) := BuildTree(f, h.factory, decode(json));
      match built
      case Ok(tree) => loading.(cache := loading.cache[key := tree], factory := s1, state := Success(tree))
      case Failed(m) => loading.(factory := s1, state := Error(FailurePrefix + m, Some(m)))
  }

  /** A composition with document `json`: the effect runs only when the
      document differs from the one it last ran for. */
  function Compose<S, V>(f: Factory<S, V>, h: Host<S, V>, json: string, decode: string -> Decoded): (r: Host<S, V>)
    ensures h.shownJson == Some(json) ==> r == h
    ensures h.shownJson != Some(json) ==> r == RunEffect(f, h, json, decode)
  {
    if h.shownJson == Some(json) then h else RunEffect(f, h, json, decode)
  }

  /** The error screen's retry callback: back to Loading, nothing else. */
  function Retry<S, V>(h: Host<S, V>): (r: Host<S, V>)
    ensures r.state.Loading?
    ensures r.cache == h.cache && r.factory == h.factory && r.shownJson == h.shownJson
  {
    h.(state := Loading)
  }

  function ClearCache<S, V>(h: Host<S, V>): (r: Host<S, V>)
    ensures r.cache == map[] && r.state == h.state && r.shownJson == h.shownJson
  {
    h.(cache := map[])
  }

  function CacheSize<S, V>(h: Host<S, V>): (n: nat)
    ensures n == 0 <==> h.cache == map[]
  {
    |h.cache|
  }

  /** A retry after a failure does not rebuild: recomposing with the same
      document leaves the screen in Loading, with the cache untouched. */
  lemma RetryDoesNotRebuild<S, V>(f: Factory<S, V>, h: Host<S, V>, json: string, decode: string -> Decoded)
    requires h.shownJson == Some(json) && h.state.Error?
    ensures Compose(f, Retry(h), json, decode).state.Loading?
    ensures Compose(f, Retry(h), json, decode).cache == h.cache
  {
  }

  /** A document whose hash is cached is shown without decoding it, so a
      different document with the same hash shows the cached tree. */
  lemma CacheHitIgnoresDocument<S, V>(f: Factory<S, V>, h: Host<S, V>, a: string, b: string,
                                      decode: string -> Decoded)
    requires JavaHash(a) == JavaHash(b) && JavaHash(a) in h.cache
    ensures RunEffect(f, h, b, decode).state == Success(h.cache[JavaHash(a)])
  {
  }

  /** A document without a layout ends in the error state with the prefixed
      message, and the cache is unchanged. */
  lemma MissingLayoutFails<S, V>(f: Factory<S, V>, h: Host<S, V>, json: string, decode: string -> Decoded)
    requires JavaHash(json) !in h.cache
    requires decode(json).Decoded? && (decode(json).doc.screen.None? || decode(json).doc.screen.value.layout.None?)
    ensures RunEffect(f, h, json, decode).state
      == Error(FailurePrefix + MissingLayoutMessage, Some(MissingLayoutMessage))
    ensures RunEffect(f, h, json, decode).cache == h.cache
  {
  }

  /** A successful build adds exactly one cache entry. */
  lemma BuildGrowsCacheByOne<S, V>(f: Factory<S, V>, h: Host<S, V>, json: string, decode: string -> Decoded)
    requires JavaHash(json) !in h.cache
    requires ParseComponentJson(decode(json)).Ok?
    ensures CacheSize(RunEffect(f, h, json, decode)) == CacheSize(h) + 1
  {
    var tree := BuildTree(f, h.factory, decode(json)).1.value;
    assert RunEffect(f, h, json, decode).cache == h.cache[JavaHash(json) := tree];
  }
}

=== FILE: simple_ui.dfy ===
/** The ssr-simple Compose renderer: `buildModifier`, `buildTextStyle`, the
    renderers of `RenderScaffold.kt`, the `RenderNode` dispatch and the
    action handler of `SSRSimpleLibrary.ShowScreen`. Compose itself is
    replaced by a description of what is drawn (`Ui`). */
module SimpleCompose {
  import opened Wrappers
  import opened Strings

  /* ---------- Models ---------- */

  /** `ModifierModel` (ssr-simple). */
  datatype SimpleModifier = SimpleModifier(
    height: Option<int>,
    width: Option<int>,
    weight: Option<real>,
    padding: Option<int>,
    paddingTop: Option<int>,
    paddingBottom: Option<int>,
    paddingStart: Option<int>,
    paddingEnd: Option<int>,
    fillMaxSize: Option<bool>,
    fillMaxWidth: Option<bool>,
    backgroundColor: Option<string>,
    horizontalAlignment: Option<string>,
    verticalAlignment: Option<string>,
    contentAlignment: Option<string>,
    verticalScroll: Option<bool>)

  /** `TextStyleModel`. */
  datatype TextStyleModel = TextStyleModel(
    fontSize: Option<real>,
    fontWeight: Option<string>,
    textAlign: Option<string>,
    color: Option<string>)

  /** `NodeModel.children`, which may be null or an empty list. */
  datatype SimpleChildren = Absent | Listed(nodes: seq<SimpleNode>)

  /** `NodeModel` (ssr-simple). */
  datatype SimpleNode = SimpleNode(
    kind: string,
    title: Option<string>,
    description: Option<string>,
    labelText: Option<string>,
    backgroundColor: Option<string>,
    elevation: Option<real>,
    imageUrl: Option<string>,
    imageHeight: Option<real>,
    imageWidth: Option<real>,
    contentDescription: Option<string>,
    action: Option<string>,
    modifier: Option<SimpleModifier>,
    textStyle: Option<TextStyleModel>,
    topBar: Option<SimpleNode>,
    floatingActionButton: Option<SimpleNode>,
    content: Option<SimpleNode>,
    children: SimpleChildren)

  function ChildNodes(n: SimpleNode): (r: seq<SimpleNode>)
    ensures n.children.Listed? ==> r == n.children.nodes
    ensures n.children.Absent? ==> r == []
    ensures forall i :: 0 <= i < |r| ==> r[i] < n
  {
    match n.children
    case Absent => []
    case Listed(cs) => cs
  }

  /* ---------- `buildModifier` ---------- */

  /** One call of a Compose modifier chain; sizes in dp. */
  datatype UiOp =
    | FillMaxSize
    | FillMaxWidth
    | Background(color: string)
    | Padding(start: int, top: int, end: int, bottom: int)
    | Size(w: real, h: real)
    | Width(dp: real)
    | Height(dp: real)

  /** Position in `buildModifier`'s fixed order; the size calls that
      `RenderImage` appends come after it. */
  function UiRank(op: UiOp): nat {
    match op
    case FillMaxSize => 0
    case FillMaxWidth => 1
    case Background(_) => 2
    case Padding(_, _, _, _) => 3
    case _ => 4
  }

  predicate Ordered(ops: seq<UiOp>) {
    forall i, j :: 0 <= i < j < |ops| ==> UiRank(ops[i]) < UiRank(ops[j])
  }

  predicate HasAnyPadding(m: SimpleModifier) {
    m.padding.Some? || m.paddingTop.Some? || m.paddingBottom.Some? || m.paddingStart.Some? || m.paddingEnd.Some?
  }

  /** One side: its own value, else the uniform padding, else 0. */
  function Side(own: Option<int>, uniform: Option<int>): int {
    own.OrElse(uniform).GetOr(0)
  }

  /** The padding call `buildModifier` makes when any padding is set. */
  function PaddingOf(m: SimpleModifier): UiOp {
    Padding(Side(m.paddingStart, m.padding), Side(m.paddingTop, m.padding),
            Side(m.paddingEnd, m.padding), Side(m.paddingBottom, m.padding))
  }

  /** `buildModifier`: fillMaxSize, fillMaxWidth, background and padding,
      each when asked for, in that order; size, weight, alignment and
      scrolling are not applied. */
  function BuildModifier(model: Option<SimpleModifier>): (ops: seq<UiOp>)
    ensures model.None? ==> ops == []
    ensures Ordered(ops)
    ensures FillMaxSize in ops <==> model.Some? && model.value.fillMaxSize == Some(true)
    ensures FillMaxWidth in ops <==> model.Some? && model.value.fillMaxWidth == Some(true)
    ensures forall c :: Background(c) in ops <==> model.Some? && model.value.backgroundColor == Some(c)
    ensures forall op :: op in ops && op.Padding? <==> model.Some? && HasAnyPadding(model.value) && op == PaddingOf(model.value)
    ensures forall op :: op in ops ==> UiRank(op) < 4
  {
    match model
    case None => []
    case Some(m) =>
      var a := CallIf(m.fillMaxSize == Some(true), FillMaxSize);
      var b := CallIf(m.fillMaxWidth == Some(true), FillMaxWidth);
      var c := CallIf(m.backgroundColor.Some?, Background(m.backgroundColor.GetOr("")));
      var d := CallIf(HasAnyPadding(m), PaddingOf(m));
      InRankOrder(a, b, c, d);
      a + b + c + d
  }

  /** `[op]` when the condition holds, else nothing. */
  function CallIf(cond: bool, op: UiOp): (r: seq<UiOp>)
    ensures |r| <= 1
    ensures forall x :: x in r <==> cond && x == op
  {
    if cond then [op] else []
  }

  /** Four optional calls of ranks 0 to 3, concatenated, are in order and
      hold exactly the calls made. */
  lemma InRankOrder(a: seq<UiOp>, b: seq<UiOp>, c: seq<UiOp>, d: seq<UiOp>)
    requires |a| <= 1 && |b| <= 1 && |c| <= 1 && |d| <= 1
    requires forall x :: x in a ==> UiRank(x) == 0
    requires forall x :: x in b ==> UiRank(x) == 1
    requires forall x :: x in c ==> UiRank(x) == 2
    requires forall x :: x in d ==> UiRank(x) == 3
    ensures Ordered(a + b + c + d)
    ensures forall x :: x in a + b + c + d <==> x in a || x in b || x in c || x in d
  {
    var s := a + b + c + d;
    forall i | 0 <= i < |s| ensures UiRank(s[i]) == Segment(|a|, |b|, |c|, i) {
      if i < |a| { assert s[i] == a[i] && a[i] in a; }
      else if i < |a| + |b| { assert s[i] == b[i - |a|] && b[i - |a|] in b; }
      else if i < |a| + |b| + |c| { assert s[i] == c[i - |a| - |b|] && c[i - |a| - |b|] in c; }
      else { assert s[i] == d[i - |a| - |b| - |c|] && d[i - |a| - |b| - |c|] in d; }
    }
  }

  /** Which of four consecutive segments, of the given first three
      lengths, position `i` falls in. */
  function Segment(la: nat, lb: nat, lc: nat, i: nat): nat {
    if i < la then 0 else if i < la + lb then 1 else if i < la + lb + lc then 2 else 3
  }

  /** The fields `buildModifier` reads. */
  predicate SameBuiltFields(a: SimpleModifier, b: SimpleModifier) {
    a.padding == b.padding && a.paddingTop == b.paddingTop && a.paddingBottom == b.paddingBottom
    && a.paddingStart == b.paddingStart && a.paddingEnd == b.paddingEnd
    && a.fillMaxSize == b.fillMaxSize && a.fillMaxWidth == b.fillMaxWidth
    && a.backgroundColor == b.backgroundColor
  }

  /** height, width, weight, the alignments and verticalScroll never
      change the modifier `buildModifier` builds. */
  lemma BuildModifierIgnoresLayoutFields(a: SimpleModifier, b: SimpleModifier)
    requires SameBuiltFields(a, b)
    ensures BuildModifier(Some(a)) == BuildModifier(Some(b))
  {
  }

  /** A side-specific value overrides the uniform padding on that side
      only. */
  lemma SidePaddingOverrides(m: SimpleModifier, top: int)
    requires m.padding.Some?
    ensures PaddingOf(m.(paddingTop := Some(top)))
      == Padding(Side(m.paddingStart, m.padding), top, Side(m.paddingEnd, m.padding), Side(m.paddingBottom, m.padding))
  {
  }

  /* ---------- `buildTextStyle` ---------- */

  datatype FontWeight = Light | NormalWeight | Medium | Bold
  datatype TextAlign = AlignStart | AlignCenter | AlignEnd

  /** A colour given by the document, or the theme's. */
  datatype ColorChoice = Named(color: string) | ThemeColor

  datatype SimpleTextStyle = SimpleTextStyle(fontSize: real, weight: FontWeight, align: TextAlign, color: ColorChoice)

  function WeightOf(name: Option<string>): (w: FontWeight)
    ensures w == Bold <==> name.Some? && Lower(name.value) == "bold"
    ensures w == Medium <==> name.Some? && Lower(name.value) == "medium"
    ensures w == Light <==> name.Some? && Lower(name.value) == "light"
  {
    if name.None? then NormalWeight
    else
      var l := Lower(name.value);
      if l == "bold" then Bold else if l == "medium" then Medium else if l == "light" then Light
      else NormalWeight
  }

  function AlignOf(name: Option<string>): (a: TextAlign)
    ensures a == AlignCenter <==> name.Some? && Lower(name.value) == "center"
    ensures a == AlignEnd <==> name.Some? && Lower(name.value) == "end"
  {
    if name.None? then AlignStart
    else
      var l := Lower(name.value);
      if l == "center" then AlignCenter else if l == "end" then AlignEnd else AlignStart
  }

  /** `buildTextStyle`: the model's size and colour when present, else the
      theme's body size and background-contrast colour. */
  function BuildTextStyle(model: Option<TextStyleModel>, bodyMediumSize: real): (s: SimpleTextStyle)
    ensures model.None? ==> s == SimpleTextStyle(bodyMediumSize, NormalWeight, AlignStart, ThemeColor)
    ensures model.Some? ==>
      s.fontSize == model.value.fontSize.GetOr(bodyMediumSize)
      && (s.color == ThemeColor <==> model.value.color.None?)
      && (model.value.color.Some? ==> s.color == Named(model.value.color.value))
      && s.weight == WeightOf(model.value.fontWeight) && s.align == AlignOf(model.value.textAlign)
  {
    match model
    case None => SimpleTextStyle(bodyMediumSize, NormalWeight, AlignStart, ThemeColor)
    case Some(m) =>
      SimpleTextStyle(m.fontSize.GetOr(bodyMediumSize), WeightOf(m.fontWeight), AlignOf(m.textAlign),
                      if m.color.Some? then Named(m.color.value) else ThemeColor)
  }

  /** Font weight and alignment names are read case-insensitively. */
  lemma TextStyleCaseInsensitive(m: TextStyleModel, bodyMediumSize: real)
    ensures var lowered := m.(fontWeight := if m.fontWeight.Some? then Some(Lower(m.fontWeight.value)) else None,
                              textAlign := if m.textAlign.Some? then Some(Lower(m.textAlign.value)) else None);
      BuildTextStyle(Some(lowered), bodyMediumSize) == BuildTextStyle(Some(m), bodyMediumSize)
  {
    if m.fontWeight.Some? { LowerIdempotent(m.fontWeight.value); }
    if m.textAlign.Some? { LowerIdempotent(m.textAlign.value); }
  }

  /* ---------- Alignments ---------- */

  datatype Horizontal = Start | CenterHorizontally | End
  datatype Vertical = Top | CenterVertically | Bottom
  datatype BoxAlignment = BoxAlignment(vertical: Vertical, horizontal: Horizontal)

  /** `RenderColumn`'s horizontal alignment: start, center or end in any
      case, else Start. */
  function ColumnAlignment(m: Option<SimpleModifier>): (a: Horizontal)
    ensures a == CenterHorizontally <==>
      m.Some? && m.value.horizontalAlignment.Some? && Lower(m.value.horizontalAlignment.value) == "center"
    ensures a == End <==>
      m.Some? && m.value.horizontalAlignment.Some? && Lower(m.value.horizontalAlignment.value) == "end"
  {
    if m.None? || m.value.horizontalAlignment.None? then Start
    else
      var l := Lower(m.value.horizontalAlignment.value);
      if l == "center" then CenterHorizontally else if l == "end" then End else Start
  }

  /** `RenderRow`'s vertical alignment: top, center or bottom in any case,
      else Top. */
  function RowAlignment(m: Option<SimpleModifier>): (a: Vertical)
    ensures a == CenterVertically <==>
      m.Some? && m.value.verticalAlignment.Some? && Lower(m.value.verticalAlignment.value) == "center"
    ensures a == Bottom <==>
      m.Some? && m.value.verticalAlignment.Some? && Lower(m.value.verticalAlignment.value) == "bottom"
  {
    if m.None? || m.value.verticalAlignment.None? then Top
    else
      var l := Lower(m.value.verticalAlignment.value);
      if l == "center" then CenterVertically else if l == "bottom" then Bottom else Top
  }

  /** The nine lower-cased names `RenderBox` accepts. */
  function BoxName(name: string): Option<BoxAlignment> {
    match name
    case "topstart" => Some(BoxAlignment(Top, Start))
    case "topcenter" => Some(BoxAlignment(Top, CenterHorizontally))
    case "topend" => Some(BoxAlignment(Top, End))
    case "centerstart" => Some(BoxAlignment(CenterVertically, Start))
    case "center" => Some(BoxAlignment(CenterVertically, CenterHorizontally))
    case "centerend" => Some(BoxAlignment(CenterVertically, End))
    case "bottomstart" => Some(BoxAlignment(Bottom, Start))
    case "bottomcenter" => Some(BoxAlignment(Bottom, CenterHorizontally))
    case "bottomend" => Some(BoxAlignment(Bottom, End))
    case _ => None
  }

  /** The names `RenderBox` accepts, all lower case. */
  const BoxNames: set<string> :=
    {"topstart", "topcenter", "topend", "centerstart", "center", "centerend",
     "bottomstart", "bottomcenter", "bottomend"}

  /** How an alignment is spelled: the vertical word then the horizontal
      one, except that the middle of the box is just "center". */
  function Spell(a: BoxAlignment): string {
    if a == BoxAlignment(CenterVertically, CenterHorizontally) then "center"
    else
      (match a.vertical case Top => "top" case CenterVertically => "center" case Bottom => "bottom")
      + (match a.horizontal case Start => "start" case CenterHorizontally => "center" case End => "end")
  }

  /** `RenderBox`'s content alignment: one of the nine names in any case
      gives the alignment spelled that way; no name, or any other name,
      gives TopStart. */
  function BoxContentAlignment(m: Option<SimpleModifier>): (a: BoxAlignment)
    ensures m.None? || m.value.contentAlignment.None? ==> a == BoxAlignment(Top, Start)
    ensures m.Some? && m.value.contentAlignment.Some? ==>
      var l := Lower(m.value.contentAlignment.value);
      (l in BoxNames ==> Spell(a) == l) && (l !in BoxNames ==> a == BoxAlignment(Top, Start))
  {
    if m.None? || m.value.contentAlignment.None? then BoxAlignment(Top, Start)
    else
      var l := Lower(m.value.contentAlignment.value);
      BoxNameSpells(l);
      BoxName(l).GetOr(BoxAlignment(Top, Start))
  }

  /** Each alignment has its own accepted name, which resolves back to it. */
  lemma SpellRoundTrip(a: BoxAlignment)
    ensures Spell(a) in BoxNames && BoxName(Spell(a)) == Some(a)
  {
    match a.vertical
    case Top => TopRowSpelled(a);
    case CenterVertically => CenterRowSpelled(a);
    case Bottom => BottomRowSpelled(a);
  }

  lemma TopRowSpelled(a: BoxAlignment)
    requires a.vertical == Top
    ensures Spell(a) in BoxNames && BoxName(Spell(a)) == Some(a)
  {
    match a.horizontal
    case Start => assert Spell(a) == "topstart";
    case CenterHorizontally => assert Spell(a) == "topcenter";
    case End => assert Spell(a) == "topend";
  }

  lemma CenterRowSpelled(a: BoxAlignment)
    requires a.vertical == CenterVertically
    ensures Spell(a) in BoxNames && BoxName(Spell(a)) == Some(a)
  {
    match a.horizontal
    case Start => assert Spell(a) == "centerstart";
    case CenterHorizontally => assert Spell(a) == "center";
    case End => assert Spell(a) == "centerend";
  }

  lemma BottomRowSpelled(a: BoxAlignment)
    requires a.vertical == Bottom
    ensures Spell(a) in BoxNames && BoxName(Spell(a)) == Some(a)
  {
    match a.horizontal
    case Start => assert Spell(a) == "bottomstart";
    case CenterHorizontally => assert Spell(a) == "bottomcenter";
    case End => assert Spell(a) == "bottomend";
  }

  /** Different alignments are spelled differently. */
  lemma SpellInjective(a: BoxAlignment, b: BoxAlignment)
    ensures Spell(a) == Spell(b) <==> a == b
  {
    SpellRoundTrip(a);
    SpellRoundTrip(b);
  }

  /** `BoxName` accepts exactly the nine names, and each resolves to the
      alignment spelled that way. */
  lemma BoxNameSpells(l: string)
    ensures l in BoxNames <==> BoxName(l).Some?
    ensures BoxName(l).Some? ==> Spell(BoxName(l).value) == l
  {
    if BoxName(l).Some? {
      SpellRoundTrip(BoxName(l).value);
    }
  }

  /** The camel-case spelling the documents use resolves: "bottomEnd" is
      BottomEnd. */
  lemma CamelCaseBoxNameResolves(m: SimpleModifier, name: string)
    requires name == "bottomEnd" && m.contentAlignment == Some(name)
    ensures BoxContentAlignment(Some(m)) == BoxAlignment(Bottom, End)
  {
    assert Lower(name) == "bottomend";
    SpellRoundTrip(BoxAlignment(Bottom, End));
    SpellInjective(BoxContentAlignment(Some(m)), BoxAlignment(Bottom, End));
  }

  /** Every accepted name is all lower case, so a name resolves exactly
      when its lower-cased form does. */
  lemma BoxNameCaseInsensitive(m: SimpleModifier, name: string)
    requires m.contentAlignment == Some(name)
    ensures BoxContentAlignment(Some(m)) == BoxContentAlignment(Some(m.(contentAlignment := Some(Lower(name)))))
  {
    LowerIdempotent(name);
  }

  lemma LowerIdempotent(s: string)
    ensures Lower(Lower(s)) == Lower(s)
  {
  }

  /* ---------- Rendering ---------- */

  /** Which renderer `RenderNode` calls. */
  datatype Renderer =
    | ScaffoldR | TopAppBarR | ColumnR | RowR | BoxR | LazyColumnR | CardR | TextR
    | ButtonR | ImageR | TableR | SpacerR | VideoItemR | HorizontalPagerR

  const SimpleTags: seq<string> :=
    ["Scaffold", "TopAppBar", "Column", "Row", "Box", "LazyColumn", "Card", "Text",
     "Button", "Image", "Table", "Spacer", "VideoItem", "HorizontalPager"]

  /** The tag each renderer is registered under. */
  function TagOf(r: Renderer): string {
    match r
    case ScaffoldR => "Scaffold"
    case TopAppBarR => "TopAppBar"
    case ColumnR => "Column"
    case RowR => "Row"
    case BoxR => "Box"
    case LazyColumnR => "LazyColumn"
    case CardR => "Card"
    case TextR => "Text"
    case ButtonR => "Button"
    case ImageR => "Image"
    case TableR => "Table"
    case SpacerR => "Spacer"
    case VideoItemR => "VideoItem"
    case HorizontalPagerR => "HorizontalPager"
  }

  /** `RenderNode`'s `when (node.type)`: exact, case-sensitive tags; a
      known tag selects the renderer registered under it. */
  function Dispatch(kind: string): (r: Option<Renderer>)
    ensures r.Some? <==> kind in SimpleTags
    ensures r.Some? ==> TagOf(r.value) == kind
  {
    match kind
    case "Scaffold" => Some(ScaffoldR)
    case "TopAppBar" => Some(TopAppBarR)
    case "Column" => Some(ColumnR)
    case "Row" => Some(RowR)
    case "Box" => Some(BoxR)
    case "LazyColumn" => Some(LazyColumnR)
    case "Card" => Some(CardR)
    case "Text" => Some(TextR)
    case "Button" => Some(ButtonR)
    case "Image" => Some(ImageR)
    case "Table" => Some(TableR)
    case "Spacer" => Some(SpacerR)
    case "VideoItem" => Some(VideoItemR)
    case "HorizontalPager" => Some(HorizontalPagerR)
    case _ => None
  }

  /** Every renderer is reached through its own tag. */
  lemma DispatchTagOf(r: Renderer)
    ensures TagOf(r) in SimpleTags && Dispatch(TagOf(r)) == Some(r)
  {
  }

  /** The renderers `RenderNode` passes `onAction` to. */
  predicate ReceivesOnAction(r: Renderer) {
    !(r.TopAppBarR? || r.TextR? || r.ImageR? || r.SpacerR?)
  }

  /** The library's lower-case tags are all unknown here. */
  lemma LowercaseTagsUnknown(kind: string)
    requires kind in ["column", "row", "text", "button", "image", "card", "spacer", "lazy_column"]
    ensures Dispatch(kind).None?
  {
  }

  /** The body of a card: its children, or the default title and
      description. */
  datatype CardBody = CustomBody(children: seq<Ui>) | DefaultBody(title: Option<string>, description: Option<string>)

  /** What a node renders as. Colours are kept as the document's strings
      (`None` is the theme's); `Delegated` stands for the renderers whose
      files are not part of this model. */
  datatype Ui =
    | UiScaffold(ops: seq<UiOp>, topBar: Option<Ui>, fab: Option<Ui>, content: Option<Ui>)
    | UiTopBar(title: string)
    | UiColumn(ops: seq<UiOp>, horizontal: Horizontal, children: seq<Ui>)
    | UiRow(ops: seq<UiOp>, vertical: Vertical, children: seq<Ui>)
    | UiBox(ops: seq<UiOp>, alignment: BoxAlignment, children: seq<Ui>)
    | UiLazyColumn(ops: seq<UiOp>, children: seq<Ui>)
    | UiCard(ops: seq<UiOp>, background: Option<string>, elevation: real, body: CardBody)
    | UiText(text: string, ops: seq<UiOp>, style: SimpleTextStyle)
    | UiButton(caption: string, ops: seq<UiOp>, background: Option<string>, onClick: Option<string>)
    | UiImage(url: Option<string>, description: string, ops: seq<UiOp>)
    | Delegated(renderer: Renderer, withOnAction: bool)
    | UnknownText(text: string)

  /** `RenderImage`'s sizing: both dimensions, else one, else nothing. */
  function ImageSizing(n: SimpleNode): (ops: seq<UiOp>)
    ensures n.imageWidth.Some? && n.imageHeight.Some? ==> ops == [Size(n.imageWidth.value, n.imageHeight.value)]
    ensures n.imageWidth.Some? && n.imageHeight.None? ==> ops == [Width(n.imageWidth.value)]
    ensures n.imageWidth.None? && n.imageHeight.Some? ==> ops == [Height(n.imageHeight.value)]
    ensures n.imageWidth.None? && n.imageHeight.None? ==> ops == []
  {
    if n.imageWidth.Some? && n.imageHeight.Some? then [Size(n.imageWidth.value, n.imageHeight.value)]
    else if n.imageWidth.Some? then [Width(n.imageWidth.value)]
    else if n.imageHeight.Some? then [Height(n.imageHeight.value)]
    else []
  }

  /** `RenderText`'s content: title, else description, else label, else "". */
  function TextContent(n: SimpleNode): (t: string)
    ensures n.title.Some? ==> t == n.title.value
    ensures n.title.None? && n.description.Some? ==> t == n.description.value
    ensures n.title.None? && n.description.None? && n.labelText.Some? ==> t == n.labelText.value
    ensures n.title.None? && n.description.None? && n.labelText.None? ==> t == ""
  {
    n.title.OrElse(n.description).OrElse(n.labelText).GetOr("")
  }

  const DefaultElevation: real := 4.0

  /** `RenderNode` and the renderers of `RenderScaffold.kt`. */
  function Render(n: SimpleNode, bodyMediumSize: real): (u: Ui)
    ensures Dispatch(n.kind).None? ==> u == UnknownText("Unknown type: " + n.kind)
    decreases n, 1
  {
    var ops := BuildModifier(n.modifier);
    match Dispatch(n.kind)
    case None => UnknownText("Unknown type: " + n.kind)
    case Some(r) =>
      match r
      case ScaffoldR =>
        UiScaffold(ops,
                   if n.topBar.Some? then Some(Render(n.topBar.value, bodyMediumSize)) else None,
                   if n.floatingActionButton.Some? then Some(Render(n.floatingActionButton.value, bodyMediumSize)) else None,
                   if n.content.Some? then Some(Render(n.content.value, bodyMediumSize)) else None)
      case TopAppBarR => UiTopBar(n.title.GetOr(""))
      case ColumnR => UiColumn(ops, ColumnAlignment(n.modifier), RenderAll(n, ChildNodes(n), bodyMediumSize))
      case RowR => UiRow(ops, RowAlignment(n.modifier), RenderAll(n, ChildNodes(n), bodyMediumSize))
      case BoxR => UiBox(ops, BoxContentAlignment(n.modifier), RenderAll(n, ChildNodes(n), bodyMediumSize))
      case LazyColumnR => UiLazyColumn(ops, RenderAll(n, ChildNodes(n), bodyMediumSize))
      case CardR =>
        UiCard(ops, n.backgroundColor, n.elevation.GetOr(DefaultElevation),
               if n.children.Listed? then CustomBody(RenderAll(n, ChildNodes(n), bodyMediumSize))
               else DefaultBody(n.title, n.description))
      case TextR => UiText(TextContent(n), ops, BuildTextStyle(n.textStyle, bodyMediumSize))
      case ButtonR => UiButton(n.labelText.GetOr("Button"), ops, n.backgroundColor, n.action)
      case ImageR =>
        UiImage(n.imageUrl, n.contentDescription.OrElse(n.title).GetOr("Image"), ops + ImageSizing(n))
      case _ => Delegated(r, ReceivesOnAction(r))
  }

  function RenderAll(parent: SimpleNode, kids: seq<SimpleNode>, bodyMediumSize: real): (us: seq<Ui>)
    requires forall i :: 0 <= i < |kids| ==> kids[i] < parent
    ensures |us| == |kids|
    decreases parent, 0, |kids|
  {
    if |kids| == 0 then [] else [Render(kids[0], bodyMediumSize)] + RenderAll(parent, kids[1..], bodyMediumSize)
  }

  /** The actions a click can send to the handler given to `RenderNode`,
      in drawing order. */
  function Actions(u: Ui): seq<string>
    decreases u, 1
  {
    match u
    case UiScaffold(_, top, fab, content) =>
      (if top.Some? then Actions(top.value) else [])
      + (if fab.Some? then Actions(fab.value) else [])
      + (if content.Some? then Actions(content.value) else [])
    case UiColumn(_, _, cs) => ActionsAll(u, cs)
    case UiRow(_, _, cs) => ActionsAll(u, cs)
    case UiBox(_, _, cs) => ActionsAll(u, cs)
    case UiLazyColumn(_, cs) => ActionsAll(u, cs)
    case UiCard(_, _, _, body) => if body.CustomBody? then ActionsAll(u, body.children) else []
    case UiButton(_, _, _, click) => if click.Some? then [click.value] else []
    case _ => []
  }

  function ActionsAll(parent: Ui, us: seq<Ui>): seq<string>
    requires forall i :: 0 <= i < |us| ==> us[i] < parent
    decreases parent, 0, |us|
  {
    if |us| == 0 then [] else Actions(us[0]) + ActionsAll(parent, us[1..])
  }

  /** Every `action` field in the node tree, wherever it sits. */
  function DeclaredActions(n: SimpleNode): set<string>
    decreases n, 1
  {
    (if n.action.Some? then {n.action.value} else {})
    + (if n.topBar.Some? then DeclaredActions(n.topBar.value) else {})
    + (if n.floatingActionButton.Some? then DeclaredActions(n.floatingActionButton.value) else {})
    + (if n.content.Some? then DeclaredActions(n.content.value) else {})
    + DeclaredAll(n, ChildNodes(n))
  }

  function DeclaredAll(parent: SimpleNode, kids: seq<SimpleNode>): set<string>
    requires forall i :: 0 <= i < |kids| ==> kids[i] < parent
    decreases parent, 0, |kids|
  {
    if |kids| == 0 then {} else DeclaredActions(kids[0]) + DeclaredAll(parent, kids[1..])
  }

  /** Clicks only ever send an action some node of the document declares:
      the renderer invents none. */
  lemma {:induction false} ActionsAreDeclared(n: SimpleNode, bodyMediumSize: real)
    ensures forall a :: a in Actions(Render(n, bodyMediumSize)) ==> a in DeclaredActions(n)
    decreases n, 2
  {
    var r := Dispatch(n.kind);
    if r == Some(ScaffoldR) {
      ScaffoldActionsDeclared(n, bodyMediumSize);
    } else if r.Some? && r.value in {ColumnR, RowR, BoxR, LazyColumnR, CardR} {
      ContainerActionsDeclared(n, bodyMediumSize);
    } else {
      LeafActionsDeclared(n, bodyMediumSize);
    }
  }

  lemma {:induction false} ScaffoldActionsDeclared(n: SimpleNode, bodyMediumSize: real)
    requires Dispatch(n.kind) == Some(ScaffoldR)
    ensures forall a :: a in Actions(Render(n, bodyMediumSize)) ==> a in DeclaredActions(n)
    decreases n, 1
  {
    if n.topBar.Some? { ActionsAreDeclared(n.topBar.value, bodyMediumSize); }
    if n.floatingActionButton.Some? { ActionsAreDeclared(n.floatingActionButton.value, bodyMediumSize); }
    if n.content.Some? { ActionsAreDeclared(n.content.value, bodyMediumSize); }
  }

  lemma {:induction false} ContainerActionsDeclared(n: SimpleNode, bodyMediumSize: real)
    requires Dispatch(n.kind).Some? && Dispatch(n.kind).value in {ColumnR, RowR, BoxR, LazyColumnR, CardR}
    ensures forall a :: a in Actions(Render(n, bodyMediumSize)) ==> a in DeclaredActions(n)
    decreases n, 1
  {
    if Dispatch(n.kind) == Some(CardR) && n.children.Absent? {
      RenderCard(n, bodyMediumSize);
      assert Actions(Render(n, bodyMediumSize)) == [];
    } else {
      ChildActions(n, bodyMediumSize);
      RenderedChildActions(n, ChildNodes(n), bodyMediumSize, Render(n, bodyMediumSize));
    }
  }

  /** A container draws its children inside itself and offers exactly
      their actions. */
  lemma ChildActions(n: SimpleNode, bodyMediumSize: real)
    requires Dispatch(n.kind).Some? && Dispatch(n.kind).value in {ColumnR, RowR, BoxR, LazyColumnR, CardR}
    requires Dispatch(n.kind) == Some(CardR) ==> n.children.Listed?
    ensures var u := Render(n, bodyMediumSize);
      var us := RenderAll(n, ChildNodes(n), bodyMediumSize);
      Actions(u) == ActionsAll(u, us) && forall i :: 0 <= i < |us| ==> us[i] < u
  {
    var r := Dispatch(n.kind).value;
    assert n.kind == TagOf(r);
    var us := RenderAll(n, ChildNodes(n), bodyMediumSize);
    match r
    case ColumnR => RenderColumn(n, bodyMediumSize); ContainerActions(Render(n, bodyMediumSize), us);
    case RowR => RenderRow(n, bodyMediumSize); ContainerActions(Render(n, bodyMediumSize), us);
    case BoxR => RenderBox(n, bodyMediumSize); ContainerActions(Render(n, bodyMediumSize), us);
    case LazyColumnR => RenderLazyColumn(n, bodyMediumSize); ContainerActions(Render(n, bodyMediumSize), us);
    case CardR => RenderCard(n, bodyMediumSize); ContainerActions(Render(n, bodyMediumSize), us);
  }

  /** A view holding a list of children offers exactly their actions. */
  lemma ContainerActions(u: Ui, us: seq<Ui>)
    requires ((u.UiColumn? || u.UiRow? || u.UiBox? || u.UiLazyColumn?) && u.children == us)
             || (u.UiCard? && u.body == CustomBody(us))
    ensures Actions(u) == ActionsAll(u, us) && forall i :: 0 <= i < |us| ==> us[i] < u
  {
  }

  lemma LeafActionsDeclared(n: SimpleNode, bodyMediumSize: real)
    requires Dispatch(n.kind).None? || Dispatch(n.kind).value !in {ScaffoldR, ColumnR, RowR, BoxR, LazyColumnR, CardR}
    ensures forall a :: a in Actions(Render(n, bodyMediumSize)) ==> a in DeclaredActions(n)
  {
  }

  lemma {:induction false} RenderedChildActions(parent: SimpleNode, kids: seq<SimpleNode>, bodyMediumSize: real, u: Ui)
    requires forall i :: 0 <= i < |kids| ==> kids[i] < parent
    requires forall i :: 0 <= i < |kids| ==> RenderAll(parent, kids, bodyMediumSize)[i] < u
    ensures forall a :: a in ActionsAll(u, RenderAll(parent, kids, bodyMediumSize)) ==> a in DeclaredAll(parent, kids)
    decreases parent, 0, |kids|
  {
    if |kids| > 0 {
      var us := RenderAll(parent, kids, bodyMediumSize);
      assert us[1..] == RenderAll(parent, kids[1..], bodyMediumSize);
      ActionsAreDeclared(kids[0], bodyMediumSize);
      RenderedChildActions(parent, kids[1..], bodyMediumSize, u);
    }
  }

  /** How a node tagged "Card" is drawn. */
  lemma RenderCard(n: SimpleNode, bodyMediumSize: real)
    requires n.kind == "Card"
    ensures Render(n, bodyMediumSize)
            == UiCard(BuildModifier(n.modifier), n.backgroundColor, n.elevation.GetOr(DefaultElevation),
                      if n.children.Listed? then CustomBody(RenderAll(n, ChildNodes(n), bodyMediumSize))
                      else DefaultBody(n.title, n.description))
  {
    assert Dispatch(n.kind) == Some(CardR);
  }

  /** How a node tagged "Column" is drawn. */
  lemma RenderColumn(n: SimpleNode, bodyMediumSize: real)
    requires n.kind == "Column"
    ensures Render(n, bodyMediumSize)
            == UiColumn(BuildModifier(n.modifier), ColumnAlignment(n.modifier), RenderAll(n, ChildNodes(n), bodyMediumSize))
  {
    assert Dispatch(n.kind) == Some(ColumnR);
  }

  /** How a node tagged "Text" is drawn. */
  lemma RenderText(n: SimpleNode, bodyMediumSize: real)
    requires n.kind == "Text"
    ensures Render(n, bodyMediumSize) == UiText(TextContent(n), BuildModifier(n.modifier), BuildTextStyle(n.textStyle, bodyMediumSize))
  {
    assert Dispatch(n.kind) == Some(TextR);
  }

  /** How a node tagged "Row" is drawn. */
  lemma RenderRow(n: SimpleNode, bodyMediumSize: real)
    requires n.kind == "Row"
    ensures Render(n, bodyMediumSize)
            == UiRow(BuildModifier(n.modifier), RowAlignment(n.modifier), RenderAll(n, ChildNodes(n), bodyMediumSize))
  {
    assert Dispatch(n.kind) == Some(RowR);
  }

  /** How a node tagged "Box" is drawn. */
  lemma RenderBox(n: SimpleNode, bodyMediumSize: real)
    requires n.kind == "Box"
    ensures Render(n, bodyMediumSize)
            == UiBox(BuildModifier(n.modifier), BoxContentAlignment(n.modifier), RenderAll(n, ChildNodes(n), bodyMediumSize))
  {
    assert Dispatch(n.kind) == Some(BoxR);
  }

  /** How a node tagged "LazyColumn" is drawn: its children in order. */
  lemma RenderLazyColumn(n: SimpleNode, bodyMediumSize: real)
    requires n.kind == "LazyColumn"
    ensures Render(n, bodyMediumSize) == UiLazyColumn(BuildModifier(n.modifier), RenderAll(n, ChildNodes(n), bodyMediumSize))
  {
    assert Dispatch(n.kind) == Some(LazyColumnR);
  }

  /** How a node tagged "Scaffold" is drawn: each present slot rendered,
      each absent slot left empty. */
  lemma RenderScaffold(n: SimpleNode, bodyMediumSize: real)
    requires n.kind == "Scaffold"
    ensures var u := Render(n, bodyMediumSize);
      u.UiScaffold? && u.ops == BuildModifier(n.modifier)
      && (u.topBar.Some? <==> n.topBar.Some?)
      && (n.topBar.Some? ==> u.topBar.value == Render(n.topBar.value, bodyMediumSize))
      && (u.fab.Some? <==> n.floatingActionButton.Some?)
      && (n.floatingActionButton.Some? ==> u.fab.value == Render(n.floatingActionButton.value, bodyMediumSize))
      && (u.content.Some? <==> n.content.Some?)
      && (n.content.Some? ==> u.content.value == Render(n.content.value, bodyMediumSize))
  {
    assert Dispatch(n.kind) == Some(ScaffoldR);
  }

  /** How a node tagged "TopAppBar" is drawn: its title, else an empty
      title. */
  lemma RenderTopAppBar(n: SimpleNode, bodyMediumSize: real)
    requires n.kind == "TopAppBar"
    ensures var u := Render(n, bodyMediumSize);
      u.UiTopBar? && (n.title.Some? ==> u.title == n.title.value) && (n.title.None? ==> u.title == "")
  {
    assert Dispatch(n.kind) == Some(TopAppBarR);
  }

  /** How a node tagged "Image" is drawn: the URL as given; the content
      description, else the title, else "Image"; the modifier followed by
      the image's own sizing. */
  lemma RenderImage(n: SimpleNode, bodyMediumSize: real)
    requires n.kind == "Image"
    ensures var u := Render(n, bodyMediumSize);
      u.UiImage? && u.url == n.imageUrl && u.ops == BuildModifier(n.modifier) + ImageSizing(n)
      && (n.contentDescription.Some? ==> u.description == n.contentDescription.value)
      && (n.contentDescription.None? && n.title.Some? ==> u.description == n.title.value)
      && (n.contentDescription.None? && n.title.None? ==> u.description == "Image")
  {
    assert Dispatch(n.kind) == Some(ImageR);
  }

  /** How a node tagged "Button" is drawn. */
  lemma RenderButton(n: SimpleNode, bodyMediumSize: real)
    requires n.kind == "Button"
    ensures Render(n, bodyMediumSize)
            == UiButton(n.labelText.GetOr("Button"), BuildModifier(n.modifier), n.backgroundColor, n.action)
  {
    assert Dispatch(n.kind) == Some(ButtonR);
  }

  /** A button inside a column hands its action to the screen's handler. */
  lemma ButtonInColumnReachesHandler(column: SimpleNode, button: SimpleNode, bodyMediumSize: real)
    requires column.kind == "Column" && column.children == Listed([button])
    requires button.kind == "Button" && button.action.Some?
    ensures Actions(Render(column, bodyMediumSize)) == [button.action.value]
  {
    RenderColumn(column, bodyMediumSize);
    RenderButton(button, bodyMediumSize);
    var u := Render(column, bodyMediumSize);
    var b := Render(button, bodyMediumSize);
    assert RenderAll(column, [button], bodyMediumSize) == [b];
    assert u == UiColumn(BuildModifier(column.modifier), ColumnAlignment(column.modifier), [b]);
    assert Actions(b) == [button.action.value];
    assert ActionsAll(u, [b]) == Actions(b) + ActionsAll(u, []);
  }

  /** A card whose `children` is an empty list draws nothing, not its
      title. */
  lemma EmptyChildrenHideCardTitle(card: SimpleNode, bodyMediumSize: real)
    requires card.kind == "Card" && card.children == Listed([])
    ensures Render(card, bodyMediumSize).body == CustomBody([])
  {
    RenderCard(card, bodyMediumSize);
  }

  /* ---------- `SSRSimpleLibrary.ShowScreen` ---------- */

  datatype Outcome = Navigate(destination: string) | Unhandled(action: string)

  const NavigatePrefix := "navigate:"

  /** The handler `ShowScreen` gives `RenderNode`. */
  function HandleAction(action: string): (o: Outcome)
    ensures o.Navigate? <==> StartsWith(action, NavigatePrefix)
    ensures o.Navigate? ==> NavigatePrefix + o.destination == action
    ensures o.Unhandled? ==> o.action == action
  {
    if StartsWith(action, NavigatePrefix) then Navigate(RemovePrefix(action, NavigatePrefix))
    else Unhandled(action)
  }

  /** Navigating to `d` is spelled "navigate:" + `d`, for every `d`,
      including "" and one that itself starts with the prefix. */
  lemma NavigateRoundTrip(d: string)
    ensures HandleAction(NavigatePrefix + d) == Navigate(d)
  {
    assert (NavigatePrefix + d)[..|NavigatePrefix|] == NavigatePrefix;
  }

  /** The prefix test is case-sensitive. */
  lemma CapitalisedPrefixUnhandled(action: string)
    requires action == "Navigate:home"
    ensures HandleAction(action) == Unhandled(action)
  {
    assert action[0] != NavigatePrefix[0];
  }
}

=== FILE: strings.dfy ===
/** The few string operations of the Kotlin, Java and TypeScript standard
    libraries that the modelled code relies on. Only ASCII case folding is
    modelled. */
module Strings {

  /** `s.startsWith(p)` */
  predicate StartsWith(s: string, p: string) {
    |p| <= |s| && s[..|p|] == p
  }

  /** Kotlin `s.removePrefix(p)`: removes `p` once when `s` starts with it. */
  function RemovePrefix(s: string, p: string): (r: string)
    ensures StartsWith(s, p) ==> p + r == s
    ensures !StartsWith(s, p) ==> r == s
  {
    if StartsWith(s, p) then
      assert s == s[..|p|] + s[|p|..];
      s[|p|..]
    else s
  }

  /** `s.contains(sub)` */
  predicate Contains(s: string, sub: string)
    decreases |s|
  {
    StartsWith(s, sub) || (|s| > 0 && Contains(s[1..], sub))
  }

  lemma {:induction false} ContainsAt(s: string, sub: string, i: nat)
    requires i + |sub| <= |s| && s[i..i + |sub|] == sub
    ensures Contains(s, sub)
    decreases i
  {
    if i == 0 {
      assert s[..|sub|] == sub;
    } else {
      assert s[1..][i - 1..i - 1 + |sub|] == s[i..i + |sub|];
      ContainsAt(s[1..], sub, i - 1);
    }
  }

  /** ASCII lower-casing of one character. */
  function LowerChar(c: char): (r: char)
    ensures 'A' <= c <= 'Z' ==> 'a' <= r <= 'z'
    ensures !('A' <= c <= 'Z') ==> r == c
  {
    if 'A' <= c <= 'Z' then (c as int + 32) as char else c
  }

  /** `s.lowercase()` / `s.toLowerCase()` over ASCII letters. */
  function Lower(s: string): (r: string)
    ensures |r| == |s|
    ensures forall i :: 0 <= i < |s| ==> r[i] == LowerChar(s[i])
  {
    if |s| == 0 then "" else [LowerChar(s[0])] + Lower(s[1..])
  }

  /** Kotlin's `Char.isWhitespace()`, which `trim()` and `isBlank()` use:
      Java's `Character.isWhitespace` (tab to carriage return, the four
      separators U+001C to U+001F, and the Unicode space separators other
      than the no-break ones) together with `Character.isSpaceChar` (every
      space, line and paragraph separator). */
  predicate IsWhitespace(c: char)
    ensures (c as int) in {0xA0, 0x2007, 0x202F} ==> IsWhitespace(c)
    ensures (c as int) in {0x85, 0x200B, 0xFEFF} ==> !IsWhitespace(c)
  {
    var n := c as int;
    (9 <= n <= 13) || (28 <= n <= 32) || n == 0xA0 || n == 0x1680
    || (0x2000 <= n <= 0x200A) || n == 0x2028 || n == 0x2029 || n == 0x202F
    || n == 0x205F || n == 0x3000
  }

  /** `s.isBlank()`: empty or whitespace only. */
  predicate IsBlank(s: string) {
    forall i :: 0 <= i < |s| ==> IsWhitespace(s[i])
  }

  /** Where `trim()` starts the result: the first index at or after `i`
      that is not whitespace, or `|s|`. */
  function ContentStart(s: string, i: nat): (k: nat)
    requires i <= |s|
    ensures i <= k <= |s| && IsBlank(s[i..k])
    ensures k < |s| ==> !IsWhitespace(s[k])
    decreases |s| - i
  {
    if i < |s| && IsWhitespace(s[i]) then ContentStart(s, i + 1) else i
  }

  /** Where `trim()` ends the result: the last index at or below `j`, and
      not below `i`, whose preceding character is not whitespace. */
  function ContentEnd(s: string, i: nat, j: nat): (k: nat)
    requires i <= j <= |s|
    ensures i <= k <= j && IsBlank(s[k..j])
    ensures k > i ==> !IsWhitespace(s[k - 1])
    decreases j
  {
    if j > i && IsWhitespace(s[j - 1]) then
      var k := ContentEnd(s, i, j - 1);
      assert s[k..j] == s[k..j - 1] + [s[j - 1]];
      k
    else j
  }

  /** `s.trim()`: the slice of s left after removing its leading and
      trailing whitespace; what is removed is all whitespace, and what is
      left is empty or starts and ends with a non-whitespace character. */
  function Trim(s: string): (r: string)
    ensures |r| <= |s|
    ensures var i := ContentStart(s, 0);
      i + |r| <= |s| && r == s[i..i + |r|] && IsBlank(s[..i]) && IsBlank(s[i + |r|..])
    ensures |r| > 0 ==> !IsWhitespace(r[0]) && !IsWhitespace(r[|r| - 1])
  {
    var i := ContentStart(s, 0);
    var j := ContentEnd(s, i, |s|);
    assert s[..i] == s[0..i];
    assert s[i + (j - i)..] == s[j..|s|];
    s[i..j]
  }

  /** A blank string trims to the empty string. */
  lemma BlankTrimsToEmpty(s: string)
    requires IsBlank(s)
    ensures Trim(s) == ""
  {
  }

  /** A trimmed string without whitespace at its ends is left alone. */
  lemma TrimNoop(s: string)
    requires |s| > 0 ==> !IsWhitespace(s[0]) && !IsWhitespace(s[|s| - 1])
    ensures Trim(s) == s
  {
  }

  /** Kotlin `s.split(d)` with a one-character delimiter: keeps empty parts. */
  function Split(s: string, d: char): (r: seq<string>)
    ensures |r| >= 1
    ensures forall i, j :: 0 <= i < |r| && 0 <= j < |r[i]| ==> r[i][j] != d
    decreases |s|
  {
    if |s| == 0 then [""]
    else if s[0] == d then [""] + Split(s[1..], d)
    else
      var rest := Split(s[1..], d);
      [[s[0]] + rest[0]] + rest[1..]
  }

  /** `parts.joinToString(sep)` */
  function Join(parts: seq<string>, sep: string): string {
    if |parts| == 0 then ""
    else if |parts| == 1 then parts[0]
    else parts[0] + sep + Join(parts[1..], sep)
  }

  /** Splitting and joining again on the same delimiter gives the input back. */
  lemma {:induction false} SplitJoin(s: string, d: char)
    ensures Join(Split(s, d), [d]) == s
    decreases |s|
  {
    if |s| > 0 {
      SplitJoin(s[1..], d);
      if s[0] == d {
        SplitJoinAtDelimiter(s, d);
      } else {
        SplitJoinInPart(s, d);
      }
    }
  }

  /** The step of `SplitJoin` when `s` starts with the delimiter. */
  lemma SplitJoinAtDelimiter(s: string, d: char)
    requires |s| > 0 && s[0] == d && Join(Split(s[1..], d), [d]) == s[1..]
    ensures Join(Split(s, d), [d]) == s
  {
    var parts := [""] + Split(s[1..], d);
    assert Split(s, d) == parts;
    assert parts[1..] == Split(s[1..], d);
    assert Join(parts, [d]) == "" + [d] + s[1..];
    assert s == [d] + s[1..];
  }

  /** The step of `SplitJoin` when `s` starts with another character. */
  lemma SplitJoinInPart(s: string, d: char)
    requires |s| > 0 && s[0] != d && Join(Split(s[1..], d), [d]) == s[1..]
    ensures Join(Split(s, d), [d]) == s
  {
    var rest := Split(s[1..], d);
    assert Split(s, d) == [[s[0]] + rest[0]] + rest[1..];
    JoinHeadGrows(s[0], rest, [d]);
    assert s == [s[0]] + s[1..];
  }

  /** Prefixing the first part with `c` prefixes the joined string with it. */
  lemma JoinHeadGrows(c: char, rest: seq<string>, sep: string)
    requires |rest| >= 1
    ensures Join([[c] + rest[0]] + rest[1..], sep) == [c] + Join(rest, sep)
  {
    var parts := [[c] + rest[0]] + rest[1..];
    if |rest| > 1 {
      assert parts[1..] == rest[1..];
      assert [c] + rest[0] + sep + Join(rest[1..], sep) == [c] + (rest[0] + sep + Join(rest[1..], sep));
    }
  }

  /** A string without the delimiter is split into itself alone. */
  lemma {:induction false} SplitNoDelimiter(s: string, d: char)
    requires forall i :: 0 <= i < |s| ==> s[i] != d
    ensures Split(s, d) == [s]
    decreases |s|
  {
    if |s| > 0 {
      SplitNoDelimiter(s[1..], d);
      assert s == [s[0]] + s[1..];
    }
  }

  /** A string with exactly one delimiter splits into the two sides. */
  lemma {:induction false} SplitOnce(a: string, b: string, d: char)
    requires forall i :: 0 <= i < |a| ==> a[i] != d
    ensures Split(a + [d] + b, d) == [a] + Split(b, d)
    decreases |a|
  {
    var s := a + [d] + b;
    if |a| == 0 {
      assert s == [d] + b && s[1..] == b;
    } else {
      SplitOnce(a[1..], b, d);
      assert s[1..] == a[1..] + [d] + b;
      assert s[0] == a[0] && [a[0]] + a[1..] == a;
    }
  }

  /** Kotlin `s.replace(pat, rep)`: every non-overlapping occurrence of `pat`,
      found from left to right, is replaced by `rep`. */
  function ReplaceAll(s: string, pat: string, rep: string): (r: string)
    requires |pat| > 0
    ensures |rep| == |pat| ==> |r| == |s|
    ensures |rep| <= |pat| ==> |r| <= |s|
    decreases |s|
  {
    if |s| < |pat| then s
    else if s[..|pat|] == pat then rep + ReplaceAll(s[|pat|..], pat, rep)
    else [s[0]] + ReplaceAll(s[1..], pat, rep)
  }

  /** Replacing a string that does not occur changes nothing. */
  lemma {:induction false} ReplaceAbsent(s: string, pat: string, rep: string)
    requires |pat| > 0 && !Contains(s, pat)
    ensures ReplaceAll(s, pat, rep) == s
    decreases |s|
  {
    if |s| >= |pat| {
      assert s[..|pat|] != pat;
      ReplaceAbsent(s[1..], pat, rep);
      assert s == [s[0]] + s[1..];
    }
  }

  /** A prefix without the pattern's first character is kept as it is. */
  lemma {:induction false} ReplaceAfterPrefix(p: string, s: string, pat: string, rep: string)
    requires |pat| > 0 && forall i :: 0 <= i < |p| ==> p[i] != pat[0]
    ensures ReplaceAll(p + s, pat, rep) == p + ReplaceAll(s, pat, rep)
    decreases |p|
  {
    if |p| > 0 {
      var t := p + s;
      ReplaceAfterPrefix(p[1..], s, pat, rep);
      assert t[1..] == p[1..] + s;
      if |t| >= |pat| { assert t[..|pat|][0] == p[0]; }
      assert [p[0]] + p[1..] == p;
      assert ReplaceAll(t, pat, rep) == [p[0]] + ReplaceAll(t[1..], pat, rep);
      assert p + ReplaceAll(s, pat, rep) == [p[0]] + (p[1..] + ReplaceAll(s, pat, rep));
    } else {
      assert p + s == s;
    }
  }

  /** An occurrence at the front is replaced, then replacing continues. */
  lemma ReplaceAtFront(pat: string, s: string, rep: string)
    requires |pat| > 0
    ensures ReplaceAll(pat + s, pat, rep) == rep + ReplaceAll(s, pat, rep)
  {
    assert (pat + s)[..|pat|] == pat && (pat + s)[|pat|..] == s;
  }

  /** Replacing a whole string by `rep` yields `rep`. */
  lemma ReplaceWhole(s: string, rep: string)
    requires |s| > 0
    ensures ReplaceAll(s, s, rep) == rep
  {
    assert s[..|s|] == s;
    assert ReplaceAll(s[|s|..], s, rep) == "";
  }

  /** The number a string of decimal digits denotes. */
  function DecimalValue(s: string): nat
    requires forall i :: 0 <= i < |s| ==> '0' <= s[i] <= '9'
  {
    if |s| == 0 then 0
    else DecimalValue(s[..|s| - 1]) * 10 + (s[|s| - 1] as int - '0' as int)
  }

  /** Decimal digits of a natural number, as Kotlin's `"$n"` prints it:
      digits only, no leading zero, and denoting n. */
  function NatToString(n: nat): (r: string)
    ensures |r| >= 1
    ensures forall i :: 0 <= i < |r| ==> '0' <= r[i] <= '9'
    ensures |r| > 1 ==> r[0] != '0'
    ensures DecimalValue(r) == n
  {
    if n < 10 then [(n + 48) as char]
    else
      var r := NatToString(n / 10) + [(n % 10 + 48) as char];
      assert r[..|r| - 1] == NatToString(n / 10);
      r
  }

  /** Different numbers print differently. */
  lemma NatToStringInjective(a: nat, b: nat)
    ensures NatToString(a) == NatToString(b) <==> a == b
  {
  }
}

=== FILE: tree.dfy ===
/** The JSON node model of the rendering library: property values, modifier,
    action, data-source and template records, the component-type tags, the
    compiled modifier and the three-state render result. */
module ComposableTree {
  import opened Wrappers
  import opened Strings

  /** A JSON-decoded property value (Kotlin `Any?`). A number carries the text
      its `toString()` prints, since Gson's number representation is not
      modelled. */
  datatype Value =
    | Null
    | Str(s: string)
    | Num(repr: string)
    | Bool(b: bool)
    | List(elems: seq<Value>)
    | Map(entries: seq<(string, Value)>)

  /** An insertion-ordered map as decoded from JSON; keys are unique in
      practice and lookup takes the first entry with the key. */
  type Assoc<V> = seq<(string, V)>

  /** `map[key]` on a Kotlin map. */
  function Lookup<V>(m: Assoc<V>, key: string): (r: Option<V>)
    ensures r.None? <==> forall i :: 0 <= i < |m| ==> m[i].0 != key
    ensures r.Some? ==> (key, r.value) in m
  {
    if |m| == 0 then None
    else if m[0].0 == key then Some(m[0].1)
    else Lookup(m[1..], key)
  }

  /** A key held at one position only is found with that position's value. */
  lemma LookupDistinct<V>(m: Assoc<V>, i: nat)
    requires i < |m| && forall j :: 0 <= j < |m| && j != i ==> m[j].0 != m[i].0
    ensures Lookup(m, m[i].0) == Some(m[i].1)
  {
  }

  /** `properties?.get(key)` with JSON `null` read as absent, the way the
      Kotlin code's `== null` checks read it. */
  function Prop(props: Option<Assoc<Value>>, key: string): (r: Option<Value>)
    ensures r.Some? ==> r.value != Null && props.Some? && (key, r.value) in props.value
    ensures r.None? ==> props.None? || Lookup(props.value, key) in {None, Some(Null)}
  {
    match props
    case None => None
    case Some(m) =>
      match Lookup(m, key)
      case Some(v) => if v == Null then None else Some(v)
      case None => None
  }

  /** `props[key] as? String` */
  function StrProp(props: Option<Assoc<Value>>, key: string): (r: Option<string>)
    ensures r.Some? <==> Prop(props, key).Some? && Prop(props, key).value.Str?
    ensures r.Some? ==> Prop(props, key) == Some(Str(r.value))
  {
    match Prop(props, key)
    case Some(Str(s)) => Some(s)
    case _ => None
  }

  /** Kotlin's `toString()` of a decoded value: lists print as `[a, b]`,
      maps as `{k=v, ...}`, `null` as "null". */
  function Show(v: Value): string
    decreases v, 1
  {
    match v
    case Null => "null"
    case Str(s) => s
    case Num(repr) => repr
    case Bool(b) => if b then "true" else "false"
    case List(es) => "[" + ShowList(v, es) + "]"
    case Map(kvs) => "{" + ShowEntries(v, kvs) + "}"
  }

  function ShowList(parent: Value, es: seq<Value>): string
    requires forall i :: 0 <= i < |es| ==> es[i] < parent
    decreases parent, 0, |es|
  {
    if |es| == 0 then ""
    else if |es| == 1 then Show(es[0])
    else Show(es[0]) + ", " + ShowList(parent, es[1..])
  }

  function ShowEntries(parent: Value, kvs: seq<(string, Value)>): string
    requires forall i :: 0 <= i < |kvs| ==> kvs[i].1 < parent
    decreases parent, 0, |kvs|
  {
    if |kvs| == 0 then ""
    else
      var head := kvs[0].0 + "=" + Show(kvs[0].1);
      if |kvs| == 1 then head else head + ", " + ShowEntries(parent, kvs[1..])
  }

  datatype GradientConfig = GradientConfig(
    kind: string,
    colors: seq<string>,
    angle: Option<real>,
    startX: Option<real>,
    startY: Option<real>,
    endX: Option<real>,
    endY: Option<real>,
    center: Option<(real, real)>,
    radius: Option<real>)

  /** Layout hints of one node; every field is optional in the JSON. */
  datatype ModifierConfig = ModifierConfig(
    padding: Option<int>,
    paddingStart: Option<int>,
    paddingTop: Option<int>,
    paddingEnd: Option<int>,
    paddingBottom: Option<int>,
    paddingHorizontal: Option<int>,
    paddingVertical: Option<int>,
    fillMaxSize: Option<bool>,
    fillMaxWidth: Option<bool>,
    width: Option<int>,
    height: Option<int>,
    weight: Option<real>,
    gradient: Option<GradientConfig>)

  datatype ActionConfig = ActionConfig(
    kind: string,
    destination: Option<string>,
    params: Option<Assoc<string>>)

  /** The page size used when a pagination block gives none. */
  const DefaultPageSize: int := 20

  datatype PaginationConfig = PaginationConfig(
    kind: string,
    pageSize: int,
    offsetParam: Option<string>,
    limitParam: Option<string>,
    cursorParam: Option<string>,
    pageParam: Option<string>)

  /** A pagination block whose JSON gives only its kind. */
  function NewPagination(kind: string): (p: PaginationConfig)
    ensures p.kind == kind && p.pageSize == DefaultPageSize
    ensures p.offsetParam.None? && p.limitParam.None? && p.cursorParam.None? && p.pageParam.None?
  {
    PaginationConfig(kind, DefaultPageSize, None, None, None, None)
  }

  /** Where a list's records come from: "static" records, an "api" endpoint,
      or any other (unsupported) kind. */
  datatype DataSource = DataSource(
    kind: string,
    url: Option<string>,
    httpMethod: Option<string>,
    headers: Option<Assoc<string>>,
    items: Option<seq<Assoc<Value>>>,
    pagination: Option<PaginationConfig>)

  datatype LoadingState = LoadingState(kind: string, count: Option<int>)

  /** The node tree of a screen. Subtrees hang off `children`,
      `emptyTemplate`, `errorTemplate` and `itemTemplate.layout`. */
  datatype ComponentNode = ComponentNode(
    kind: string,
    id: Option<string>,
    properties: Option<Assoc<Value>>,
    modifier: Option<ModifierConfig>,
    children: Children,
    actions: Option<Assoc<ActionConfig>>,
    arrangement: Option<string>,
    columns: Option<int>,
    dataSource: Option<DataSource>,
    itemTemplate: Option<ItemTemplate>,
    loadingTemplate: Option<LoadingState>,
    emptyTemplate: Option<ComponentNode>,
    errorTemplate: Option<ComponentNode>)

  /** A node's `children` list, which the JSON may leave out (`null`). */
  datatype Children = NoChildren | ChildList(nodes: seq<ComponentNode>)

  datatype ItemTemplate = ItemTemplate(
    kind: string,
    layout: ComponentNode,
    actions: Option<Assoc<ActionConfig>>)

  /** A node whose JSON gives only its type: every other field takes its
      `null` default. */
  function NewNode(kind: string): (n: ComponentNode)
    ensures n.kind == kind
    ensures Subtrees(n) == []
    ensures n.id.None? && n.properties.None? && n.modifier.None? && n.actions.None?
    ensures n.arrangement.None? && n.columns.None? && n.dataSource.None?
    ensures n.loadingTemplate.None?
  {
    ComponentNode(kind, None, None, None, NoChildren, None, None, None, None, None, None, None, None)
  }

  /** The children of `n` as a (possibly empty) list; each is smaller than
      `n`, so recursion over them terminates. */
  function Kids(n: ComponentNode): (r: seq<ComponentNode>)
    ensures n.children.ChildList? ==> r == n.children.nodes
    ensures n.children.NoChildren? ==> r == []
    ensures forall i :: 0 <= i < |r| ==> r[i] < n
  {
    match n.children
    case NoChildren => []
    case ChildList(cs) => cs
  }

  /** Every node directly below `n`: its children in order, then the empty
      template, the error template and the item template's layout. */
  function Subtrees(n: ComponentNode): (r: seq<ComponentNode>)
    ensures |r| >= |Kids(n)| && r[..|Kids(n)|] == Kids(n)
    ensures n.emptyTemplate.Some? ==> n.emptyTemplate.value in r
    ensures n.errorTemplate.Some? ==> n.errorTemplate.value in r
    ensures n.itemTemplate.Some? ==> n.itemTemplate.value.layout in r
    ensures |r| == |Kids(n)| + (if n.emptyTemplate.Some? then 1 else 0)
      + (if n.errorTemplate.Some? then 1 else 0) + (if n.itemTemplate.Some? then 1 else 0)
  {
    Kids(n)
    + (if n.emptyTemplate.Some? then [n.emptyTemplate.value] else [])
    + (if n.errorTemplate.Some? then [n.errorTemplate.value] else [])
    + (if n.itemTemplate.Some? then [n.itemTemplate.value.layout] else [])
  }

  /** The component types the library knows by name. */
  datatype ComponentType =
    | Column | ScrollableColumn | Row | Text | Button | Image | LazyColumn
    | EnhancedLazyColumn | LazyRow | LazyGrid | Card | Spacer | TopAppBar
    | ProgressIndicator | BarChart | LineChart | PieChart | BubbleChart
    | RadarChart | Unknown

  /** The nineteen JSON tags that name a known component type. */
  const KnownTags: seq<string> := [
    "column", "scrollable_column", "enhanced_lazy_column", "row", "text",
    "button", "image", "lazy_column", "lazy_row", "lazy_grid", "card",
    "spacer", "top_app_bar", "progress_indicator", "bar_chart", "line_chart",
    "pie_chart", "bubble_chart", "radar_chart"]

  /** The JSON tag of a known component type. */
  function TagOf(t: ComponentType): (s: string)
    requires t != Unknown
    ensures s in KnownTags
  {
    match t
    case Column => "column"
    case ScrollableColumn => "scrollable_column"
    case EnhancedLazyColumn => "enhanced_lazy_column"
    case Row => "row"
    case Text => "text"
    case Button => "button"
    case Image => "image"
    case LazyColumn => "lazy_column"
    case LazyRow => "lazy_row"
    case LazyGrid => "lazy_grid"
    case Card => "card"
    case Spacer => "spacer"
    case TopAppBar => "top_app_bar"
    case ProgressIndicator => "progress_indicator"
    case BarChart => "bar_chart"
    case LineChart => "line_chart"
    case PieChart => "pie_chart"
    case BubbleChart => "bubble_chart"
    case RadarChart => "radar_chart"
  }

  /** `ComponentType.fromString`: an exact, case-sensitive match on the tag;
      anything else is `Unknown`. */
  function FromString(s: string): (t: ComponentType)
    ensures t != Unknown ==> TagOf(t) == s
  {
    match s
    case "column" => Column
    case "scrollable_column" => ScrollableColumn
    case "enhanced_lazy_column" => EnhancedLazyColumn
    case "row" => Row
    case "text" => Text
    case "button" => Button
    case "image" => Image
    case "lazy_column" => LazyColumn
    case "lazy_row" => LazyRow
    case "lazy_grid" => LazyGrid
    case "card" => Card
    case "spacer" => Spacer
    case "top_app_bar" => TopAppBar
    case "progress_indicator" => ProgressIndicator
    case "bar_chart" => BarChart
    case "line_chart" => LineChart
    case "pie_chart" => PieChart
    case "bubble_chart" => BubbleChart
    case "radar_chart" => RadarChart
    case _ => Unknown
  }

  /** Every known tag is recognised; with `FromString`'s own contract, a
      tag names a known type exactly when it is one of the nineteen. */
  lemma KnownTagRecognised(s: string)
    requires s in KnownTags
    ensures FromString(s) != Unknown && TagOf(FromString(s)) == s
  {
    var i :| 0 <= i < |KnownTags| && KnownTags[i] == s;
    if i < 5 {
    } else if i < 10 {
    } else if i < 15 {
    } else {
    }
  }

  /** Every known type is recovered from its own tag, so the two tables agree. */
  lemma TagRoundTrip(t: ComponentType)
    requires t != Unknown
    ensures FromString(TagOf(t)) == t
  {
    if t.Column? || t.ScrollableColumn? || t.EnhancedLazyColumn? || t.Row? || t.Text? {
      LayoutTagsRoundTrip(t);
    } else if t.Button? || t.Image? || t.LazyColumn? || t.LazyRow? || t.LazyGrid? {
      ContentTagsRoundTrip(t);
    } else if t.Card? || t.Spacer? || t.TopAppBar? || t.ProgressIndicator? || t.BarChart? {
      ChromeTagsRoundTrip(t);
    } else {
      ChartTagsRoundTrip(t);
    }
  }

  lemma LayoutTagsRoundTrip(t: ComponentType)
    requires t.Column? || t.ScrollableColumn? || t.EnhancedLazyColumn? || t.Row? || t.Text?
    ensures FromString(TagOf(t)) == t
  {
  }

  lemma ContentTagsRoundTrip(t: ComponentType)
    requires t.Button? || t.Image? || t.LazyColumn? || t.LazyRow? || t.LazyGrid?
    ensures FromString(TagOf(t)) == t
  {
  }

  lemma ChromeTagsRoundTrip(t: ComponentType)
    requires t.Card? || t.Spacer? || t.TopAppBar? || t.ProgressIndicator? || t.BarChart?
    ensures FromString(TagOf(t)) == t
  {
  }

  lemma ChartTagsRoundTrip(t: ComponentType)
    requires t.LineChart? || t.PieChart? || t.BubbleChart? || t.RadarChart?
    ensures FromString(TagOf(t)) == t
  {
  }

  /** Matching is case-sensitive: a capitalised tag is not recognised. */
  lemma CapitalisedTagUnknown()
    ensures FromString("Column") == Unknown && FromString("TEXT") == Unknown
  {
  }

  /** The modifier a node is compiled to before rendering: absent flags are
      already resolved to `false`. */
  datatype CompiledModifier = CompiledModifier(
    padding: Option<int>,
    fillMaxSize: bool,
    fillMaxWidth: bool,
    width: Option<int>,
    height: Option<int>,
    weight: Option<real>)

  /** One step of a Compose modifier chain built by the library. */
  datatype ModifierOp = Padding(dp: int) | FillMaxSize | FillMaxWidth | Width(dp: int) | Height(dp: int)

  /** Position of an operation in the library's fixed application order. */
  function OpRank(op: ModifierOp): nat {
    match op
    case Padding(_) => 0
    case FillMaxSize => 1
    case FillMaxWidth => 2
    case Width(_) => 3
    case Height(_) => 4
  }

  /** The operations of a chain appear in strictly increasing rank: the
      fixed order, each kind at most once. */
  predicate InApplicationOrder(ops: seq<ModifierOp>) {
    forall i, j :: 0 <= i < j < |ops| ==> OpRank(ops[i]) < OpRank(ops[j])
  }

  /** Whether `m` calls for the operation `op`. */
  predicate Calls(m: CompiledModifier, op: ModifierOp) {
    match op
    case Padding(p) => m.padding == Some(p)
    case FillMaxSize => m.fillMaxSize
    case FillMaxWidth => m.fillMaxWidth
    case Width(w) => m.width == Some(w)
    case Height(h) => m.height == Some(h)
  }

  /** The operation of rank `k` that `m` calls for, if any. */
  function StepOf(m: CompiledModifier, k: nat): (r: seq<ModifierOp>)
    requires k < 5
    ensures |r| <= 1
    ensures forall op :: op in r <==> OpRank(op) == k && Calls(m, op)
  {
    if k == 0 then (if m.padding.Some? then [Padding(m.padding.value)] else [])
    else if k == 1 then (if m.fillMaxSize then [FillMaxSize] else [])
    else if k == 2 then (if m.fillMaxWidth then [FillMaxWidth] else [])
    else if k == 3 then (if m.width.Some? then [Width(m.width.value)] else [])
    else (if m.height.Some? then [Height(m.height.value)] else [])
  }

  /** The operations of rank `k` and above, in application order. */
  function ChainFrom(m: CompiledModifier, k: nat): (ops: seq<ModifierOp>)
    requires k <= 5
    ensures InApplicationOrder(ops)
    ensures forall op :: op in ops <==> k <= OpRank(op) && Calls(m, op)
    decreases 5 - k
  {
    if k == 5 then []
    else
      var head := StepOf(m, k);
      var tail := ChainFrom(m, k + 1);
      assert forall i :: 0 <= i < |tail| ==> OpRank(tail[i]) > k by {
        forall i | 0 <= i < |tail| ensures OpRank(tail[i]) > k {
          assert tail[i] in tail;
        }
      }
      head + tail
  }

  /** The chain `CompiledModifier.toModifier` evidently means to build: each
      set field contributes its operation, in the order padding,
      fillMaxSize, fillMaxWidth, width, height; the weight is never
      applied. */
  function IntendedModifier(m: CompiledModifier): (ops: seq<ModifierOp>)
    ensures InApplicationOrder(ops)
    ensures forall op :: op in ops <==> Calls(m, op)
  {
    ChainFrom(m, 0)
  }

  /** One `modifier = modifier.call() as Modifier.Companion` step of
      `toModifier`, on a variable that still holds the companion `Modifier`
      (`Some([])`) or has already thrown (`None`). On the companion, `then`
      returns the new element itself, which is not the companion, so the
      cast throws `ClassCastException` as soon as a call is made. */
  function CastStep(v: Option<seq<ModifierOp>>, call: seq<ModifierOp>): (r: Option<seq<ModifierOp>>)
    ensures r.Some? <==> v.Some? && call == []
    ensures r.Some? ==> r == v
  {
    if v.None? || call == [] then v else None
  }

  /** `CompiledModifier.toModifier` as written: the five steps on a
      variable of type `Modifier.Companion`. It returns (the bare modifier)
      only when no field asks for a call, and throws otherwise. */
  function ToModifier(m: CompiledModifier): (r: Option<seq<ModifierOp>>)
    ensures r.Some? <==> forall op :: !Calls(m, op)
    ensures r.Some? ==> r.value == [] && r.value == IntendedModifier(m)
  {
    NoCallsNoSteps(m);
    CastStep(CastStep(CastStep(CastStep(CastStep(Some([]), StepOf(m, 0)), StepOf(m, 1)), StepOf(m, 2)), StepOf(m, 3)), StepOf(m, 4))
  }

  /** A compiled modifier asks for no call exactly when each of the five
      steps is empty, and then its intended chain is empty. */
  lemma NoCallsNoSteps(m: CompiledModifier)
    ensures (forall op :: !Calls(m, op)) <==> forall k :: 0 <= k < 5 ==> StepOf(m, k) == []
    ensures (forall op :: !Calls(m, op)) ==> IntendedModifier(m) == []
  {
    if forall k :: 0 <= k < 5 ==> StepOf(m, k) == [] {
      forall op ensures !Calls(m, op) {
        assert OpRank(op) < 5 && (op in StepOf(m, OpRank(op)) <==> Calls(m, op));
      }
    }
    if exists k :: 0 <= k < 5 && StepOf(m, k) != [] {
      var k :| 0 <= k < 5 && StepOf(m, k) != [];
      assert StepOf(m, k)[0] in StepOf(m, k);
    }
    if IntendedModifier(m) != [] {
      assert IntendedModifier(m)[0] in IntendedModifier(m);
    }
  }

  /** A padding of 8 alone: the intended chain is one padding call, but the
      cast after it throws. */
  lemma PaddingCastThrows()
    ensures var m := CompiledModifier(Some(8), false, false, None, None, None);
      ToModifier(m).None? && IntendedModifier(m) == [Padding(8)]
  {
    var m := CompiledModifier(Some(8), false, false, None, None, None);
    assert Padding(8) in IntendedModifier(m);
  }

  /** A chain in application order is determined by the set of its
      operations. */
  lemma {:induction false} ChainUnique(a: seq<ModifierOp>, b: seq<ModifierOp>)
    requires InApplicationOrder(a) && InApplicationOrder(b)
    requires forall op :: op in a <==> op in b
    ensures a == b
    decreases |a|
  {
    if |a| == 0 {
      if |b| > 0 {
        HeadIsMember(b);
        assert false;
      }
    } else {
      assert a[0] in b && b[0] in a;
      assert b != [] && OpRank(a[0]) == OpRank(b[0]) by {
        RankedFirst(a, b[0]);
        RankedFirst(b, a[0]);
      }
      assert a[0] == b[0] by {
        var i :| 0 <= i < |a| && a[i] == b[0];
        if i > 0 { assert OpRank(a[0]) < OpRank(a[i]); }
      }
      forall op ensures op in a[1..] <==> op in b[1..] {
        OrderedTail(a, op);
        OrderedTail(b, op);
      }
      ChainUnique(a[1..], b[1..]);
    }
  }

  lemma HeadIsMember(a: seq<ModifierOp>)
    requires |a| > 0
    ensures a[0] in a
  {
  }

  /** The first operation of a chain has the lowest rank in it. */
  lemma RankedFirst(a: seq<ModifierOp>, op: ModifierOp)
    requires InApplicationOrder(a) && op in a
    ensures OpRank(a[0]) <= OpRank(op)
  {
    var i :| 0 <= i < |a| && a[i] == op;
    if i > 0 { assert OpRank(a[0]) < OpRank(a[i]); }
  }

  /** The tail of a chain holds everything but its head. */
  lemma OrderedTail(a: seq<ModifierOp>, op: ModifierOp)
    requires InApplicationOrder(a) && |a| > 0
    ensures op in a[1..] <==> op in a && op != a[0]
  {
    if op in a[1..] {
      var i :| 0 <= i < |a[1..]| && a[1..][i] == op;
      assert OpRank(a[0]) < OpRank(a[i + 1]);
    }
    if op in a && op != a[0] {
      var i :| 0 <= i < |a| && a[i] == op;
      assert a[1..][i - 1] == op;
    }
  }

  /** Two compiled modifiers that differ only in weight build the same chain. */
  lemma WeightIgnored(m: CompiledModifier, w: Option<real>)
    ensures IntendedModifier(m.(weight := w)) == IntendedModifier(m)
  {
    forall op: ModifierOp ensures op in IntendedModifier(m.(weight := w)) <==> op in IntendedModifier(m) {
      assert Calls(m.(weight := w), op) <==> Calls(m, op);
    }
    ChainUnique(IntendedModifier(m.(weight := w)), IntendedModifier(m));
  }

  /** Summary of a screen's node tree computed before rendering. */
  datatype ComponentMetadata = ComponentMetadata(
    componentCount: int,
    maxDepth: int,
    hasAsyncComponents: bool,
    estimatedRenderTime: int)

  /** A node after preparation; `view` stands for the composable the factory
      produced for it. */
  datatype PrecompiledComponent<V> = PrecompiledComponent(
    kind: ComponentType,
    properties: Assoc<Value>,
    modifier: CompiledModifier,
    children: seq<PrecompiledComponent<V>>,
    dataSource: Option<DataSource>,
    itemTemplate: Option<ItemTemplate>,
    actions: Option<Assoc<ActionConfig>>,
    view: V)

  /** A built screen: its root component and the tree's metadata. */
  datatype ComposableTree<V> = ComposableTree(root: PrecompiledComponent<V>, metadata: ComponentMetadata)

  /** The renderer's state: exactly these three variants. The optional
      `cause` stands for the captured throwable, by its message. */
  datatype RenderState<T> = Loading | Success(tree: T) | Error(message: string, cause: Option<string>)

  /** What `DefaultActionHandler.handleAction` does with an action. */
  datatype ActionEffect =
    | Navigate(destination: Option<string>, params: Option<Assoc<string>>)
    | ApiCall
    | NoEffect

  function HandleAction(a: ActionConfig): (e: ActionEffect)
    ensures e.Navigate? <==> a.kind == "navigation"
    ensures e.Navigate? ==> e.destination == a.destination && e.params == a.params
    ensures e.ApiCall? <==> a.kind == "api_call"
    ensures e.NoEffect? <==> a.kind !in {"navigation", "api_call"}
  {
    match a.kind
    case "navigation" => Navigate(a.destination, a.params)
    case "api_call" => ApiCall
    case _ => NoEffect
  }
}

=== FILE: validator.dfy ===
/** `DefaultComponentFactory.validateComponent`: per-type rules on one node,
    then aggregation over its children. */
module Validator {
  import opened Wrappers
  import opened Strings
  import opened ComposableTree

  datatype ValidationResult = Valid | Invalid(errors: seq<string>) | Warning(warnings: seq<string>)

  const BlankTypeError := "Component type cannot be blank"
  const TextWarning := "Text component missing 'text' property"
  const ButtonError := "Button component requires 'text' property"
  const ImageError := "Image component requires 'url' property"
  const LazySourceError := "Lazy components require dataSource"
  const LazyTemplateError := "Lazy components require itemTemplate"
  const TopBarWarning := "TopAppBar missing 'title' property"

  predicate IsLazyList(kind: string) {
    kind == "lazy_column" || kind == "lazy_row"
  }

  /** A lazy list's type is never blank. */
  lemma LazyKindNotBlank(kind: string)
    requires IsLazyList(kind)
    ensures !IsBlank(kind)
  {
    assert kind[0] == 'l';
  }

  /** The errors a node's own rules report, before its children's. */
  function OwnErrors(n: ComponentNode): (r: seq<string>)
    ensures BlankTypeError in r <==> IsBlank(n.kind)
    ensures ButtonError in r <==> n.kind == "button" && Prop(n.properties, "text").None?
    ensures ImageError in r <==> n.kind == "image" && Prop(n.properties, "url").None?
    ensures LazySourceError in r <==> IsLazyList(n.kind) && n.dataSource.None?
    ensures LazyTemplateError in r <==> IsLazyList(n.kind) && n.itemTemplate.None?
    ensures forall e :: e in r ==>
      e in [BlankTypeError, ButtonError, ImageError, LazySourceError, LazyTemplateError]
  {
    (if IsBlank(n.kind) then [BlankTypeError] else [])
    + (if n.kind == "button" then
         (if Prop(n.properties, "text").None? then [ButtonError] else [])
       else if n.kind == "image" then
         (if Prop(n.properties, "url").None? then [ImageError] else [])
       else if IsLazyList(n.kind) then
         (if n.dataSource.None? then [LazySourceError] else [])
         + (if n.itemTemplate.None? then [LazyTemplateError] else [])
       else [])
  }

  /** The warnings a node's own rules report: only text and top_app_bar
      nodes ever warn, and a missing property there is never an error. */
  function OwnWarnings(n: ComponentNode): (r: seq<string>)
    ensures TextWarning in r <==> n.kind == "text" && Prop(n.properties, "text").None?
    ensures TopBarWarning in r <==> n.kind == "top_app_bar" && Prop(n.properties, "title").None?
    ensures forall w :: w in r ==> w in [TextWarning, TopBarWarning]
    ensures |r| <= 1
  {
    if n.kind == "text" && Prop(n.properties, "text").None? then [TextWarning]
    else if n.kind == "top_app_bar" && Prop(n.properties, "title").None? then [TopBarWarning]
    else []
  }

  /** Errors win over warnings; no findings at all is `Valid`. */
  function Verdict(errors: seq<string>, warnings: seq<string>): (r: ValidationResult)
    ensures r.Invalid? <==> errors != []
    ensures r.Invalid? ==> r.errors == errors
    ensures r.Warning? <==> errors == [] && warnings != []
    ensures r.Warning? ==> r.warnings == warnings
  {
    if errors != [] then Invalid(errors)
    else if warnings != [] then Warning(warnings)
    else Valid
  }

  /** `validateComponent`, shaped like the code: the node's own findings,
      then each child's verdict folded in order. */
  function Validate(n: ComponentNode): (r: ValidationResult)
    ensures r.Invalid? ==> r.errors != []
    ensures r.Warning? ==> r.warnings != []
    decreases n, 1
  {
    var kids := Kids(n);
    var acc := Collect(n, kids, OwnErrors(n), OwnWarnings(n));
    Verdict(acc.0, acc.1)
  }

  /** What a child's verdict adds to its parent's errors: all of them if
      it is invalid, nothing otherwise. */
  function ErrorsOf(v: ValidationResult): seq<string> {
    if v.Invalid? then v.errors else []
  }

  /** What a child's verdict adds to its parent's warnings: its warnings
      only if it is a warning; an invalid child's warnings are lost. */
  function WarningsOf(v: ValidationResult): seq<string> {
    if v.Warning? then v.warnings else []
  }

  /** Folds the children's verdicts in order into the parent's findings. */
  function Collect(parent: ComponentNode, kids: seq<ComponentNode>, errors: seq<string>, warnings: seq<string>)
    : (acc: (seq<string>, seq<string>))
    requires forall i :: 0 <= i < |kids| ==> kids[i] < parent
    ensures |errors| <= |acc.0| && |warnings| <= |acc.1|
    decreases parent, 0, |kids|
  {
    if |kids| == 0 then (errors, warnings)
    else
      var v := Validate(kids[0]);
      Collect(parent, kids[1..], errors + ErrorsOf(v), warnings + WarningsOf(v))
  }

  lemma CollectStep(parent: ComponentNode, kids: seq<ComponentNode>, errors: seq<string>, warnings: seq<string>)
    requires forall i :: 0 <= i < |kids| ==> kids[i] < parent
    requires |kids| > 0
    ensures Collect(parent, kids, errors, warnings)
      == Collect(parent, kids[1..], errors + ErrorsOf(Validate(kids[0])), warnings + WarningsOf(Validate(kids[0])))
  {
  }

  /** Reference: every error of the subtree, in preorder. */
  function AllErrors(n: ComponentNode): seq<string>
    decreases n, 1
  {
    var kids := Kids(n);
    OwnErrors(n) + ErrorsBelow(n, kids)
  }

  function ErrorsBelow(parent: ComponentNode, kids: seq<ComponentNode>): seq<string>
    requires forall i :: 0 <= i < |kids| ==> kids[i] < parent
    decreases parent, 0, |kids|
  {
    if |kids| == 0 then [] else AllErrors(kids[0]) + ErrorsBelow(parent, kids[1..])
  }

  /** Reference: every warning of the subtree, in preorder. */
  function AllWarnings(n: ComponentNode): seq<string>
    decreases n, 1
  {
    var kids := Kids(n);
    OwnWarnings(n) + WarningsBelow(n, kids)
  }

  function WarningsBelow(parent: ComponentNode, kids: seq<ComponentNode>): seq<string>
    requires forall i :: 0 <= i < |kids| ==> kids[i] < parent
    decreases parent, 0, |kids|
  {
    if |kids| == 0 then [] else AllWarnings(kids[0]) + WarningsBelow(parent, kids[1..])
  }

  /** Validation equals the reference verdict: Invalid with every error of
      the subtree in preorder if there is any; otherwise Warning with every
      warning in preorder if there is any; otherwise Valid. */
  lemma {:induction false} ValidateIsReference(n: ComponentNode)
    ensures Validate(n) == Verdict(AllErrors(n), AllWarnings(n))
    decreases n, 1
  {
    var kids := Kids(n);
    CollectIsReference(n, kids, OwnErrors(n), OwnWarnings(n));
  }

  lemma {:induction false} CollectIsReference(parent: ComponentNode, kids: seq<ComponentNode>,
                                             errors: seq<string>, warnings: seq<string>)
    requires forall i :: 0 <= i < |kids| ==> kids[i] < parent
    ensures Collect(parent, kids, errors, warnings).0 == errors + ErrorsBelow(parent, kids)
    ensures ErrorsBelow(parent, kids) == [] ==>
      Collect(parent, kids, errors, warnings).1 == warnings + WarningsBelow(parent, kids)
    decreases parent, 0, |kids|
  {
    if |kids| > 0 {
      var c, rest := kids[0], kids[1..];
      var v := Validate(c);
      var e2, w2 := errors + ErrorsOf(v), warnings + WarningsOf(v);
      CollectStep(parent, kids, errors, warnings);
      assert ErrorsBelow(parent, kids) == AllErrors(c) + ErrorsBelow(parent, rest);
      assert WarningsBelow(parent, kids) == AllWarnings(c) + WarningsBelow(parent, rest);
      ChildContribution(c);
      CollectIsReference(parent, rest, e2, w2);
      AppendAssoc(errors, AllErrors(c), ErrorsBelow(parent, rest));
      if ErrorsBelow(parent, kids) == [] {
        AppendAssoc(warnings, AllWarnings(c), WarningsBelow(parent, rest));
      }
    }
  }

  lemma AppendAssoc(a: seq<string>, b: seq<string>, c: seq<string>)
    ensures a + b + c == a + (b + c)
  {
  }

  /** A child passes all of its subtree's errors up, and, when it has none,
      all of its subtree's warnings. */
  lemma ChildContribution(c: ComponentNode)
    ensures ErrorsOf(Validate(c)) == AllErrors(c)
    ensures AllErrors(c) == [] ==> WarningsOf(Validate(c)) == AllWarnings(c)
    decreases c, 2
  {
    ValidateIsReference(c);
  }

  /** Any invalid descendant makes every ancestor invalid, with the
      descendant's errors among the ancestor's. */
  lemma InvalidChildInvalidatesParent(n: ComponentNode, i: nat)
    requires n.children.ChildList? && i < |n.children.nodes|
    requires Validate(n.children.nodes[i]).Invalid?
    ensures Validate(n).Invalid?
    ensures forall e :: e in Validate(n.children.nodes[i]).errors ==> e in Validate(n).errors
  {
    var kids := n.children.nodes;
    var c := kids[i];
    ValidateIsReference(n);
    ValidateIsReference(c);
    assert AllErrors(c) == Validate(c).errors != [];
    ErrorsBelowContains(n, kids, i);
    assert AllErrors(n) == OwnErrors(n) + ErrorsBelow(n, kids);
    assert AllErrors(n) != [] by {
      assert AllErrors(c)[0] in ErrorsBelow(n, kids);
    }
  }

  lemma {:induction false} ErrorsBelowContains(parent: ComponentNode, kids: seq<ComponentNode>, i: nat)
    requires forall j :: 0 <= j < |kids| ==> kids[j] < parent
    requires i < |kids|
    ensures forall e :: e in AllErrors(kids[i]) ==> e in ErrorsBelow(parent, kids)
    decreases i
  {
    var first, rest := AllErrors(kids[0]), ErrorsBelow(parent, kids[1..]);
    assert ErrorsBelow(parent, kids) == first + rest;
    if i > 0 {
      ErrorsBelowContains(parent, kids[1..], i - 1);
      assert kids[1..][i - 1] == kids[i];
      assert forall e :: e in rest ==> e in first + rest;
    } else {
      assert forall e :: e in first ==> e in first + rest;
    }
  }

  /** A childless button without `text` is invalid with exactly that error. */
  lemma ButtonWithoutText(n: ComponentNode)
    requires n.kind == "button" && Prop(n.properties, "text").None? && n.children.NoChildren?
    ensures Validate(n) == Invalid([ButtonError])
  {
    assert !IsWhitespace(n.kind[0]);
    assert OwnErrors(n) == [ButtonError];
    assert OwnWarnings(n) == [];
  }

  /** A childless lazy list missing both its data source and its item
      template reports the two errors separately, source first. */
  lemma LazyListWithoutSourceOrTemplate(n: ComponentNode)
    requires n.kind == "lazy_column" && n.dataSource.None? && n.itemTemplate.None? && n.children.NoChildren?
    ensures Validate(n) == Invalid([LazySourceError, LazyTemplateError])
  {
    assert !IsWhitespace(n.kind[0]);
    assert OwnErrors(n) == [LazySourceError, LazyTemplateError];
  }

  /** A text node without `text` only warns. */
  lemma TextWithoutTextOnlyWarns(n: ComponentNode)
    requires n.kind == "text" && Prop(n.properties, "text").None? && n.children.NoChildren?
    ensures Validate(n) == Warning([TextWarning])
  {
    assert !IsWhitespace(n.kind[0]);
    assert OwnErrors(n) == [];
  }

  /** A childless image without `url` is invalid with exactly that error. */
  lemma ImageWithoutUrl(n: ComponentNode)
    requires n.kind == "image" && Prop(n.properties, "url").None? && n.children.NoChildren?
    ensures Validate(n) == Invalid([ImageError])
  {
    assert !IsWhitespace(n.kind[0]);
    assert OwnErrors(n) == [ImageError];
    assert OwnWarnings(n) == [];
  }

  /** A column node has no rule of its own. */
  lemma NoRuleForColumn(n: ComponentNode)
    requires n.kind == "column"
    ensures OwnErrors(n) == [] && OwnWarnings(n) == []
  {
    assert !IsWhitespace(n.kind[0]);
  }

  /** A warning in one child is dropped once a sibling is invalid: a column
      holding a text without `text` and an image without `url` is invalid
      with the image's error alone. */
  lemma SiblingErrorHidesWarning(col: ComponentNode, t: ComponentNode, i: ComponentNode)
    requires t.kind == "text" && Prop(t.properties, "text").None? && t.children.NoChildren?
    requires i.kind == "image" && Prop(i.properties, "url").None? && i.children.NoChildren?
    requires col.kind == "column" && col.children == ChildList([t, i])
    ensures Validate(col) == Invalid([ImageError])
  {
    NoRuleForColumn(col);
    CollectTextThenImage(col, t, i);
    ValidateUnfold(col);
  }

  lemma CollectTextThenImage(col: ComponentNode, t: ComponentNode, i: ComponentNode)
    requires t.kind == "text" && Prop(t.properties, "text").None? && t.children.NoChildren?
    requires i.kind == "image" && Prop(i.properties, "url").None? && i.children.NoChildren?
    requires col.children == ChildList([t, i])
    ensures Collect(col, Kids(col), [], []) == ([ImageError], [TextWarning])
  {
    TextWithoutTextOnlyWarns(t);
    ImageWithoutUrl(i);
    CollectTwo(col, Kids(col), [], []);
    assert [] + ErrorsOf(Validate(t)) + ErrorsOf(Validate(i)) == [ImageError];
    assert [] + WarningsOf(Validate(t)) + WarningsOf(Validate(i)) == [TextWarning];
  }

  /** Collecting over two children adds the first's findings, then the
      second's. */
  lemma CollectTwo(parent: ComponentNode, kids: seq<ComponentNode>, errors: seq<string>, warnings: seq<string>)
    requires |kids| == 2 && kids[0] < parent && kids[1] < parent
    ensures Collect(parent, kids, errors, warnings)
      == (errors + ErrorsOf(Validate(kids[0])) + ErrorsOf(Validate(kids[1])),
          warnings + WarningsOf(Validate(kids[0])) + WarningsOf(Validate(kids[1])))
  {
    CollectStep(parent, kids, errors, warnings);
    CollectStep(parent, kids[1..], errors + ErrorsOf(Validate(kids[0])), warnings + WarningsOf(Validate(kids[0])));
    assert kids[1..][0] == kids[1] && kids[1..][1..] == [];
  }

  lemma ValidateUnfold(n: ComponentNode)
    ensures Validate(n) == Verdict(Collect(n, Kids(n), OwnErrors(n), OwnWarnings(n)).0,
                                   Collect(n, Kids(n), OwnErrors(n), OwnWarnings(n)).1)
  {
  }
}

=== FILE: wrappers.dfy ===
/** The nullable values of the modelled Kotlin, Java, Go and TypeScript code. */
module Wrappers {

  /** `None` is Kotlin/Java `null`, Go `nil` or TypeScript `undefined`. */
  datatype Option<+T> = None | Some(value: T) {

    /** Kotlin's elvis operator `x ?: default`. */
    function GetOr(default: T): T {
      match this
      case Some(v) => v
      case None => default
    }

    /** Kotlin's `x ?: y` where the fallback is itself nullable. */
    function OrElse(other: Option<T>): Option<T> {
      match this
      case Some(_) => this
      case None => other
    }
  }
}
